=== FILE: README.md ===
# Eye-tracker core logic in Dafny

This project models the sequential, self-contained logic of the coxlab eye
tracker and of the Prosilica GigE camera SDK samples it bundles, and proves
properties of that model. The model is organised in one module per component:

- **Serial I/O registers** (`RegisterPacking`, SampleViewer serial window and
  the `siotest` console sample): SIO mode bit fields, MSB-first packing of
  bytes into 32-bit registers and back, the receive-length clamp.
- **Java binding helpers** (`PvJni`, `BgrConvert`, `CStrings`): `strcnt`, the
  enumeration list, the bounded frame pool, and the integer pixel formats of
  `FrameToBGRBuffer`.
- **Integer alignment** (`Alignment`): `int_div_up/down`,
  `int_align_up/down`, the coalescing-aligned kernel radius and the column
  launch size of the four convolution modules.
- **Camera setup files** (`CamSetup`): `strtrim`, the `label = value` writer
  and reader, the uint32 and float32 clamps, the `fgets` line reader, and
  the save-then-load round trip of a whole setup file.
- **GenICam XML download** (`XmlUrl`, `XmlBrute`): the `Local:name;addr;len`
  URL, size rounding, 512-byte chunking, quadlet reads.
- **Frame-buffer rotation** (`FramesQueue`, `ReadyFrames`, `StreamCapture`):
  the JStream two-ended frame stack, the high-water-mark ready deque of
  `Prosilica.h`, and the cyclic frame index of JThread3.
- **Text parsing** (`ConfigUtil`, `PyStr`, `PyList`, `Requirements`,
  `Povray`): configuration boolean coercion and `ParamExpose`, pip
  requirements, POV-Ray `flatten` and the indent/lock writer.
- **Simulated hardware** (`Stage`, `SimulatedLed`, `MightexLed`).
- **Feature-finder control logic** (`MinMax`, `ClMinMax`, `Frugal`,
  `Pipeline`, `Starburst`, `CameraEvents`): first min/max location, the
  OpenCL pair reduction, the reseed counter, round-robin dispatch with its
  grace period, the starburst ray scan, exclusion and fit fallbacks, and the
  camera-event batching of the SampleViewer event window.

Every source integer that can wrap is modelled with an explicit width where
it matters (32-bit registers, 32-bit `Width * Height * 3`, the 64-bit event
stamp); Python integers are unbounded `int`s, Python 2 `/` on integers is
floor division. Calls into the camera SDK, the serial port, threads and
clocks become parameters: what the call returned is an input of the model.
Shared helpers live in `Wrappers` (`Option`, `Result`) and `Arith`.

Where the code's own comments and names promise one thing and the code
does another, the model follows the code: the Mightex destructor turns off
channels 0 to 3 (the channels are numbered from 1), the default configuration is never read
(it is passed where a file name is expected), and the starburst scan tests
the loop index, not the sample, for NaN. These and the other departures are
listed under "## Findings".

All the `.dfy` files are verified together, in one command:

    dafny verify --resource-limit 2000000 --verification-time-limit 0 --warn-contradictory-assumptions *.dfy

The proofs also go through without the resource limit and the contradiction
warning (plain `dafny verify *.dfy`).

## Model

| member | source | states |
|---|---|---|
| RegisterPacking.Mask | eyetracker/camera/prosilica/ProsilicaGigESDK_mac/examples/SampleViewer/src/SerialWindow.cpp:143-148 | a field of 32 bits or more uses the all-ones mask |
| RegisterPacking.GetBits | eyetracker/camera/prosilica/ProsilicaGigESDK_mac/examples/SampleViewer/src/SerialWindow.cpp:167-177 | the extracted field has no bit set outside the field width |
| RegisterPacking.DecodeMode | eyetracker/camera/prosilica/ProsilicaGigESDK_mac/examples/SampleViewer/src/SerialWindow.cpp:743-746 | the four mode fields are bits 0-7, 8-9, 10-11 and 12-13 of the register, each within its width |
| RegisterPacking.SetBitsFrame | eyetracker/camera/prosilica/ProsilicaGigESDK_mac/examples/SampleViewer/src/SerialWindow.cpp:141-152 | setting a field leaves every bit outside the field's mask as it was, for any position and length |
| RegisterPacking.GetSetBits | eyetracker/camera/prosilica/ProsilicaGigESDK_mac/examples/SampleViewer/src/SerialWindow.cpp:141-177 | reading back a field that fits the register gives the data written, cut to the field width |
| RegisterPacking.GetSetWhole | eyetracker/camera/prosilica/ProsilicaGigESDK_mac/examples/SampleViewer/src/SerialWindow.cpp:141-177 | a field of 32 bits or more can only be the whole register, and reads back the data written, cut to 32 bits |
| RegisterPacking.GetSetNarrow | eyetracker/camera/prosilica/ProsilicaGigESDK_mac/examples/SampleViewer/src/SerialWindow.cpp:141-177 | a field narrower than 32 bits that fits the register reads back the data written, cut to the field width |
| RegisterPacking.SetThenGet | eyetracker/camera/prosilica/ProsilicaGigESDK_mac/examples/SampleViewer/src/SerialWindow.cpp:141-177 | reading back a mode field after setting it gives the data written, cut to the field width |
| RegisterPacking.SetKeepsOtherFields | eyetracker/camera/prosilica/ProsilicaGigESDK_mac/examples/SampleViewer/src/SerialWindow.cpp:150-151 | setting one mode field leaves each other field unchanged |
| RegisterPacking.SetBaudKeepsOthers | eyetracker/camera/prosilica/ProsilicaGigESDK_mac/examples/SampleViewer/src/SerialWindow.cpp:150-151 | writing the baud rate field (bits 0-7) leaves each other mode field unchanged |
| RegisterPacking.SetParityKeepsOthers | eyetracker/camera/prosilica/ProsilicaGigESDK_mac/examples/SampleViewer/src/SerialWindow.cpp:150-151 | writing the parity field (bits 8-9) leaves each other mode field unchanged |
| RegisterPacking.SetCharLenKeepsOthers | eyetracker/camera/prosilica/ProsilicaGigESDK_mac/examples/SampleViewer/src/SerialWindow.cpp:150-151 | writing the character length field (bits 10-11) leaves each other mode field unchanged |
| RegisterPacking.SetStopBitsKeepsOthers | eyetracker/camera/prosilica/ProsilicaGigESDK_mac/examples/SampleViewer/src/SerialWindow.cpp:150-151 | writing the stop bits field (bits 12-13) leaves each other mode field unchanged |
| RegisterPacking.SetModeField | eyetracker/camera/prosilica/ProsilicaGigESDK_mac/examples/SampleViewer/src/SerialWindow.cpp:668-683 | a combo-box change rewrites exactly its own field of the mode register |
| RegisterPacking.SetModeFieldFrame | eyetracker/camera/prosilica/ProsilicaGigESDK_mac/examples/SampleViewer/src/SerialWindow.cpp:668-683 | a combo-box change leaves every register bit outside its field as it was |
| RegisterPacking.FieldMaskLow | eyetracker/camera/prosilica/ProsilicaGigESDK_mac/examples/SampleViewer/src/SerialWindow.cpp:743-746 | the four mode fields lie in bits 0 to 13, so bits 14 to 31 are outside every field a combo box edits |
| RegisterPacking.DefaultModeDecodes | eyetracker/camera/prosilica/ProsilicaGigESDK_mac/examples/siotest/siotest.cpp:298-299 | 0x00000C05 decodes to baud index 5, no parity, character length 3, stop bits 0 |
| RegisterPacking.NumRegs | eyetracker/camera/prosilica/ProsilicaGigESDK_mac/examples/siotest/siotest.cpp:403 | the register count is the least number of quadlets covering the length |
| RegisterPacking.PackWord | eyetracker/camera/prosilica/ProsilicaGigESDK_mac/examples/SampleViewer/src/SerialWindow.cpp:200-203 | the first byte lands in the most significant position, each byte recoverable |
| RegisterPacking.RegAddresses | eyetracker/camera/prosilica/ProsilicaGigESDK_mac/examples/SampleViewer/src/SerialWindow.cpp:233-235 | one address per register, four bytes apart from the base |
| RegisterPacking.PackAsWritten | eyetracker/camera/prosilica/ProsilicaGigESDK_mac/examples/SampleViewer/src/SerialWindow.cpp:181-204 | the write loop packs four caller bytes per register, including bytes past the length |
| RegisterPacking.PackReadsPastLength | eyetracker/camera/prosilica/ProsilicaGigESDK_mac/examples/SampleViewer/src/SerialWindow.cpp:196-204 | two buffers equal on their one meaningful byte pack to different registers |
| RegisterPacking.Pack | eyetracker/camera/prosilica/ProsilicaGigESDK_mac/examples/siotest/siotest.cpp:470-478 | the corrected packing, which the source does not use: MSB-first packing of exactly the given bytes, the last register zero-padded instead of filled from memory past the data |
| RegisterPacking.PackAgreesOnWholeQuadlets | eyetracker/camera/prosilica/ProsilicaGigESDK_mac/examples/siotest/siotest.cpp:455-478 | for a length that is a multiple of four the source's packing equals the padded one |
| RegisterPacking.WriteMem | eyetracker/camera/prosilica/ProsilicaGigESDK_mac/examples/siotest/siotest.cpp:447-490 | one write per register at base + 4 i, register i holding caller bytes 4i to 4i+3 MSB first, read whether or not they lie within `length` |
| RegisterPacking.UnpackLoop | eyetracker/camera/prosilica/ProsilicaGigESDK_mac/examples/siotest/siotest.cpp:421-433 | the shift-register loop yields exactly `length` bytes, byte i being byte i mod 4 (MSB first) of register i / 4 |
| RegisterPacking.Unpack | eyetracker/camera/prosilica/ProsilicaGigESDK_mac/examples/SampleViewer/src/SerialWindow.cpp:243-250 | the bytes read are the registers' bytes in MSB-first order, `length` of them |
| RegisterPacking.UnpackPack | eyetracker/camera/prosilica/ProsilicaGigESDK_mac/examples/SampleViewer/src/SerialWindow.cpp:196-250 | reading back the written registers gives the data, for every length |
| RegisterPacking.UnpackPackAsWritten | eyetracker/camera/prosilica/ProsilicaGigESDK_mac/examples/SampleViewer/src/SerialWindow.cpp:196-250 | the source's own packing also round-trips on its first `length` bytes |
| RegisterPacking.PackUnpack | eyetracker/camera/prosilica/ProsilicaGigESDK_mac/examples/SampleViewer/src/SerialWindow.cpp:196-250 | packing the bytes read from whole registers gives the registers back |
| RegisterPacking.ClampReceive | eyetracker/camera/prosilica/ProsilicaGigESDK_mac/examples/SampleViewer/src/SerialWindow.cpp:300-302 | the receive length is the reported length cut to the buffer length |
| RegisterPacking.ReadSerial | eyetracker/camera/prosilica/ProsilicaGigESDK_mac/examples/siotest/siotest.cpp:322-358 | a serial read returns the clamped number of bytes unpacked from the RX registers, or fails when a register access fails |
| RegisterPacking.TransmitWrites | eyetracker/camera/prosilica/ProsilicaGigESDK_mac/examples/siotest/siotest.cpp:361-392 | the caller's bytes go to the TX buffer registers, then the length to TX_LENGTH, which starts the transfer |
| RegisterPacking.TransmitCarriesData | eyetracker/camera/prosilica/ProsilicaGigESDK_mac/examples/siotest/siotest.cpp:361-392 | unpacking the TX buffer writes gives back the `length` bytes sent, whatever the caller's memory holds beyond them |
| PvJni.StrCnt | eyetracker/camera/prosilica/ProsilicaGigESDK_mac/examples/Java/PvJNI/PvJNI/PvJNI.cpp:1055-1069 | the count equals the occurrences of the character before the first NUL, or in the whole text when it holds none |
| PvJni.EnumList | eyetracker/camera/prosilica/ProsilicaGigESDK_mac/examples/Java/PvJNI/PvJNI/PvJNI.cpp:1960-1991 | the list has one slot per comma plus one, filled in order with the tokens and "" after them |
| PvJni.EnumListFull | eyetracker/camera/prosilica/ProsilicaGigESDK_mac/examples/Java/PvJNI/PvJNI/PvJNI.cpp:1960-1991 | for non-empty entries the list of a comma-joined string is the entries themselves |
| PvJni.PopAFrame | eyetracker/camera/prosilica/ProsilicaGigESDK_mac/examples/Java/PvJNI/PvJNI/PvJNI.cpp:263-280 | a pop takes the head of a non-empty pool and allocates otherwise |
| PvJni.PushAFrame | eyetracker/camera/prosilica/ProsilicaGigESDK_mac/examples/Java/PvJNI/PvJNI/PvJNI.cpp:282-299 | a push appends exactly when fewer than 100 frames are pooled, and keeps the pool bounded |
| PvJni.PoolStaysBounded | eyetracker/camera/prosilica/ProsilicaGigESDK_mac/examples/Java/PvJNI/PvJNI/PvJNI.cpp:263-299 | no sequence of pops and pushes grows the pool past 100 |
| PvJni.PoolIsFifo | eyetracker/camera/prosilica/ProsilicaGigESDK_mac/examples/Java/PvJNI/PvJNI/PvJNI.cpp:282-299 | pushes into a pool with room append in order |
| PvJni.PushThenPop | eyetracker/camera/prosilica/ProsilicaGigESDK_mac/examples/Java/PvJNI/PvJNI/PvJNI.cpp:263-299 | a frame pushed into an empty pool is the next one popped |
| BgrConvert.Bytes | eyetracker/camera/prosilica/ProsilicaGigESDK_mac/examples/Java/PvJNI/PvJNI/PvJNI.cpp:3032-3033 | the target holds three bytes per pixel, blue first |
| BgrConvert.TriplesOfBytes | eyetracker/camera/prosilica/ProsilicaGigESDK_mac/examples/Java/PvJNI/PvJNI/PvJNI.cpp:3032-3033 | reading the target back as triples gives the pixels written |
| BgrConvert.ConvertToBgr | eyetracker/camera/prosilica/ProsilicaGigESDK_mac/examples/Java/PvJNI/PvJNI/PvJNI.cpp:3009-3331 | a missing buffer gives BadParameter; without direct buffer addresses the call succeeds writing nothing; otherwise BufferTooSmall exactly when the 32-bit `Width * Height * 3` exceeds the target, BadParameter exactly for an unknown format, and only Bayer and YUV go to interpolation |
| BgrConvert.ConvertMono8 | eyetracker/camera/prosilica/ProsilicaGigESDK_mac/examples/Java/PvJNI/PvJNI/PvJNI.cpp:3039-3051 | a Mono8 frame writes each image byte as the blue, green and red byte of its pixel, three bytes per image byte |
| BgrConvert.ConvertMono16 | eyetracker/camera/prosilica/ProsilicaGigESDK_mac/examples/Java/PvJNI/PvJNI/PvJNI.cpp:3053-3070 | a Mono16 frame writes each little-endian sample, shifted right by `BitDepth - 8` and cut to a byte, into all three bytes of its pixel |
| BgrConvert.ConvertBgr24 | eyetracker/camera/prosilica/ProsilicaGigESDK_mac/examples/Java/PvJNI/PvJNI/PvJNI.cpp:3111-3118 | a Bgr24 frame is copied byte for byte |
| BgrConvert.ConvertRgb24 | eyetracker/camera/prosilica/ProsilicaGigESDK_mac/examples/Java/PvJNI/PvJNI/PvJNI.cpp:3097-3109 | an Rgb24 frame writes each triple with its first and third bytes exchanged |
| BgrConvert.ConvertRgba32 | eyetracker/camera/prosilica/ProsilicaGigESDK_mac/examples/Java/PvJNI/PvJNI/PvJNI.cpp:3120-3132 | an Rgba32 frame writes each quadruple's first three bytes in reverse order and drops the fourth |
| BgrConvert.ConvertBgra32 | eyetracker/camera/prosilica/ProsilicaGigESDK_mac/examples/Java/PvJNI/PvJNI/PvJNI.cpp:3134-3146 | a Bgra32 frame writes each quadruple's first three bytes in order and drops the fourth |
| BgrConvert.ConvertMono12 | eyetracker/camera/prosilica/ProsilicaGigESDK_mac/examples/Java/PvJNI/PvJNI/PvJNI.cpp:3236-3266 | a Mono12Packed frame writes the grey level of every pixel the loop reaches, three bytes each, which can run up to two bytes past the target |
| BgrConvert.Mono8ChannelsAreSource | eyetracker/camera/prosilica/ProsilicaGigESDK_mac/examples/Java/PvJNI/PvJNI/PvJNI.cpp:3039-3052 | each of the three channels of a Mono8 conversion is the source image |
| BgrConvert.Sample16 | eyetracker/camera/prosilica/ProsilicaGigESDK_mac/examples/Java/PvJNI/PvJNI/PvJNI.cpp:3055-3063 | a 16-bit sample is the little-endian pair of bytes |
| BgrConvert.Mono16KeepsTopBits | eyetracker/camera/prosilica/ProsilicaGigESDK_mac/examples/Java/PvJNI/PvJNI/PvJNI.cpp:3053-3071 | for a sample within its bit depth the grey level is exactly its top 8 bits |
| BgrConvert.Mono16AtEightBits | eyetracker/camera/prosilica/ProsilicaGigESDK_mac/examples/Java/PvJNI/PvJNI/PvJNI.cpp:3053-3071 | at bit depth 8 the grey level is the low byte of each sample |
| BgrConvert.Rgb24IsSwappedTriples | eyetracker/camera/prosilica/ProsilicaGigESDK_mac/examples/Java/PvJNI/PvJNI/PvJNI.cpp:3097-3109 | RGB conversion is the BGR reading of the triples with red and blue exchanged |
| BgrConvert.Rgb24SwapTwice | eyetracker/camera/prosilica/ProsilicaGigESDK_mac/examples/Java/PvJNI/PvJNI/PvJNI.cpp:3097-3109 | converting an RGB image twice gives the original bytes |
| BgrConvert.Rgb24AgreesWithBgr24 | eyetracker/camera/prosilica/ProsilicaGigESDK_mac/examples/Java/PvJNI/PvJNI/PvJNI.cpp:3097-3118 | an RGB image converts to what its BGR copy converts to |
| BgrConvert.AlphaIgnored | eyetracker/camera/prosilica/ProsilicaGigESDK_mac/examples/Java/PvJNI/PvJNI/PvJNI.cpp:3120-3146 | buffers differing only in alpha convert alike, in both 32-bit formats |
| BgrConvert.RgbaIsSwappedBgra | eyetracker/camera/prosilica/ProsilicaGigESDK_mac/examples/Java/PvJNI/PvJNI/PvJNI.cpp:3120-3146 | RGBA conversion is BGRA conversion with red and blue exchanged |
| BgrConvert.FirstPixel | eyetracker/camera/prosilica/ProsilicaGigESDK_mac/examples/Java/PvJNI/PvJNI/PvJNI.cpp:3249-3250 | the first 12-bit pixel has the low byte as its top 8 bits |
| BgrConvert.SecondPixel | eyetracker/camera/prosilica/ProsilicaGigESDK_mac/examples/Java/PvJNI/PvJNI/PvJNI.cpp:3256-3257 | the second 12-bit pixel has the upper byte as its top 8 bits |
| BgrConvert.Pixels | eyetracker/camera/prosilica/ProsilicaGigESDK_mac/examples/Java/PvJNI/PvJNI/PvJNI.cpp:3245-3264 | two pixels per packed group, in order |
| BgrConvert.Mono12PackedWritten | eyetracker/camera/prosilica/ProsilicaGigESDK_mac/examples/Java/PvJNI/PvJNI/PvJNI.cpp:3236-3266 | as written: all pixels, or as many as start before the end of the target, so up to two bytes past it; each the pixel shifted and cut to a byte |
| BgrConvert.Mono12PackedAsWritten | eyetracker/camera/prosilica/ProsilicaGigESDK_mac/examples/Java/PvJNI/PvJNI/PvJNI.cpp:3236-3266 | the source's loop over the packed groups computes exactly `Mono12PackedWritten`, and matches the corrected unpacking when the target length is a multiple of 3 |
| BgrConvert.Mono12PackedOverrun | eyetracker/camera/prosilica/ProsilicaGigESDK_mac/examples/Java/PvJNI/PvJNI/PvJNI.cpp:3247-3259 | a 1x1 frame with a 4-byte target gets 6 bytes written |
| BgrConvert.Mono12PackedToBgr | eyetracker/camera/prosilica/ProsilicaGigESDK_mac/examples/Java/PvJNI/PvJNI/PvJNI.cpp:3236-3266 | the corrected unpacking, which the source does not use: the longest prefix of the pixels whose bytes all fit the target |
| BgrConvert.Mono12At12Bits | eyetracker/camera/prosilica/ProsilicaGigESDK_mac/examples/Java/PvJNI/PvJNI/PvJNI.cpp:3249-3258 | at 12 bits the grey levels are the low and upper bytes of the group |
| BgrConvert.WrittenFitsTarget | eyetracker/camera/prosilica/ProsilicaGigESDK_mac/examples/Java/PvJNI/PvJNI/PvJNI.cpp:3033-3146 | for a consistent frame, what an unpacked format writes fits a target that passed the size check |
| CStrings.UntilNul | coxlab_eyetracker/camera/prosilica/ProsilicaGigESDK_mac/examples/GetXMLFile/GetXMLFile.cpp:68-77 | a C string is the prefix of the buffer before its first NUL |
| CStrings.Find | coxlab_eyetracker/camera/prosilica/ProsilicaGigESDK_mac/examples/CamSetup/CamSetup.cpp:244 | `strchr` finds the first occurrence, and None exactly when the character is absent |
| CStrings.Tokens | eyetracker/camera/prosilica/ProsilicaGigESDK_mac/examples/Java/PvJNI/PvJNI/PvJNI.cpp:1976-1990 | the `strtok` tokens are non-empty and free of the delimiter |
| CStrings.TokensKeepText | eyetracker/camera/prosilica/ProsilicaGigESDK_mac/examples/Java/PvJNI/PvJNI/PvJNI.cpp:1976-1990 | tokenizing loses nothing but the delimiters |
| CStrings.TokensBound | eyetracker/camera/prosilica/ProsilicaGigESDK_mac/examples/Java/PvJNI/PvJNI/PvJNI.cpp:1960-1987 | there are at most as many tokens as delimiters plus one, so the enumeration list never overflows |
| CStrings.JoinTokens | coxlab_eyetracker/camera/prosilica/ProsilicaGigESDK_mac/examples/GetXMLFile/GetXMLFile.cpp:77-92 | non-empty delimiter-free fields joined by the delimiter tokenize back into the fields |
| CStrings.SkipSpace | coxlab_eyetracker/camera/prosilica/ProsilicaGigESDK_mac/examples/CamSetup/CamSetup.cpp:127 | the conversions skip exactly the leading white space |
| CStrings.StrtolHex | coxlab_eyetracker/camera/prosilica/ProsilicaGigESDK_mac/examples/GetXMLFile/GetXMLFile.cpp:86-92 | `strtol` in base 16 gives the parsed value when it fits a long, `LONG_MAX` above that range and `LONG_MIN` below it |
| CStrings.Format | coxlab_eyetracker/camera/prosilica/ProsilicaGigESDK_mac/examples/CamSetup/CamSetup.cpp:197 | `%lu` and `%x` text is a non-empty run of digits with no sign or white space |
| CStrings.FormatValue | coxlab_eyetracker/camera/prosilica/ProsilicaGigESDK_mac/examples/CamSetup/CamSetup.cpp:197 | the digits printed for a number have that number as their value |
| CStrings.ParseFormat | coxlab_eyetracker/camera/prosilica/ProsilicaGigESDK_mac/examples/CamSetup/CamSetup.cpp:127-197 | printing a number and reading the text back gives the number |
| Alignment.Wrap32 | coxlab_eyetracker/image_processing/cl_convolution.py:36-37 | the int32 conversion keeps in-range values and is congruent modulo 2^32 |
| Alignment.FloorDiv | coxlab_eyetracker/image_processing/cl_convolution.py:28-32 | numpy int32 `/` is the floor quotient for a positive divisor |
| Alignment.FloorMod | coxlab_eyetracker/image_processing/cl_convolution.py:34-44 | numpy `%` takes the sign of the divisor and completes the floor division, 0 for a zero divisor |
| Alignment.IntDivUp | coxlab_eyetracker/image_processing/cl_convolution.py:22-26 | the least q with q * b >= a, for any sign of a and a positive b |
| Alignment.IntDivDown | ImageProcessing/cl_convolution.py:28-32 | the greatest q with q * b <= a |
| Alignment.IntAlignUp | coxlab_eyetracker/image_processing/cuda_convolution.py:34-38 | a multiple of b in [a, a + b), or a wrapped negative value when that passes the int32 maximum |
| Alignment.IntAlignDown | coxlab_eyetracker/image_processing/localmem_cl_conv.py:29-33 | a multiple of b in (a - b, a] |
| Alignment.DivUpDown | coxlab_eyetracker/image_processing/localmem_cl_conv.py:8-19 | the two roundings differ by one exactly when b does not divide a |
| Alignment.AlignIsDivTimesB | ImageProcessing/cl_convolution.py:22-44 | aligning is dividing in the same direction and multiplying back |
| Alignment.AlignIdempotent | coxlab_eyetracker/image_processing/cuda_convolution.py:34-44 | aligning an aligned value changes nothing |
| Alignment.KernelRadius | coxlab_eyetracker/image_processing/cl_convolution.py:508-509 | a radius exists exactly for odd widths, and the width is twice it plus one |
| Alignment.AlignedRadius | coxlab_eyetracker/image_processing/cl_convolution.py:511-514 | the aligned radius is a positive multiple of 16, within 16 below the radius, or 16 for a small radius |
| Alignment.AlignedRadiusIsLargest | coxlab_eyetracker/image_processing/cuda_convolution.py:525-528 | no positive multiple of 16 up to the radius is larger than the aligned radius |
| Alignment.ColumnLaunchFor | coxlab_eyetracker/image_processing/localmem_cl_conv.py:361-368 | the column work group never exceeds the image or the 8 by 8 tile, and the groups cover the image |
| CamSetup.TrimRight | coxlab_eyetracker/camera/prosilica/ProsilicaGigESDK_mac/examples/CamSetup/CamSetup.cpp:87-92 | the result is a prefix ending in a non-space, everything cut being white space |
| CamSetup.StrTrim | coxlab_eyetracker/camera/prosilica/ProsilicaGigESDK_mac/examples/CamSetup/CamSetup.cpp:81-104 | the result has no white space at either end |
| CamSetup.StrTrimIsSlice | coxlab_eyetracker/camera/prosilica/ProsilicaGigESDK_mac/examples/CamSetup/CamSetup.cpp:81-104 | the result is the slice of the input between its leading and trailing white space |
| CamSetup.StrTrimIdempotent | coxlab_eyetracker/camera/prosilica/ProsilicaGigESDK_mac/examples/CamSetup/CamSetup.cpp:81-104 | trimming twice trims nothing more |
| CamSetup.ValueText | coxlab_eyetracker/camera/prosilica/ProsilicaGigESDK_mac/examples/CamSetup/CamSetup.cpp:173-219 | exactly string, enumeration, uint32 and float32 values have a text; `atol` of an integer's text gives the integer back, and a float's text is its `%g` text |
| CamSetup.ClampUint32 | coxlab_eyetracker/camera/prosilica/ProsilicaGigESDK_mac/examples/CamSetup/CamSetup.cpp:125-141 | the value set lies in [min, max] and is the 32-bit `atol` value whenever that is in range |
| CamSetup.ClampFloat32 | coxlab_eyetracker/camera/prosilica/ProsilicaGigESDK_mac/examples/CamSetup/CamSetup.cpp:146-166 | the float set lies in [min, max], is the parsed value whenever that is in range, and is otherwise the nearer bound |
| CamSetup.SetValue | coxlab_eyetracker/camera/prosilica/ProsilicaGigESDK_mac/examples/CamSetup/CamSetup.cpp:107-170 | setting succeeds exactly for strings, integers, floats and an enumeration given one of its choices; it keeps the type and writability, sets the text of strings and enumerations, and puts numbers inside their range |
| CamSetup.WriteAttribute | coxlab_eyetracker/camera/prosilica/ProsilicaGigESDK_mac/examples/CamSetup/CamSetup.cpp:222-239 | a line is saved exactly for a writable non-command attribute with a text, as `label = value` and a newline |
| CamSetup.SplitLine | coxlab_eyetracker/camera/prosilica/ProsilicaGigESDK_mac/examples/CamSetup/CamSetup.cpp:244-253 | a line splits at its first '=' and fails exactly when there is none |
| CamSetup.ReadAttribute | coxlab_eyetracker/camera/prosilica/ProsilicaGigESDK_mac/examples/CamSetup/CamSetup.cpp:242-270 | a line changes at most the attribute it names, and only a writable non-command one with non-empty label and value |
| CamSetup.PieceLength | coxlab_eyetracker/camera/prosilica/ProsilicaGigESDK_mac/examples/CamSetup/CamSetup.cpp:279-285 | one `fgets(lLine, 256, …)` takes up to and including the first newline, never more than 255 characters |
| CamSetup.Fgets | coxlab_eyetracker/camera/prosilica/ProsilicaGigESDK_mac/examples/CamSetup/CamSetup.cpp:279-285 | the pieces the loading loop reads concatenate back to the whole file, each non-empty and shorter than the buffer |
| CamSetup.FgetsLines | coxlab_eyetracker/camera/prosilica/ProsilicaGigESDK_mac/examples/CamSetup/CamSetup.cpp:279-285 | a file written as lines that each end in their only newline and fit the buffer is read back as exactly those lines |
| CamSetup.LoadLines | coxlab_eyetracker/camera/prosilica/ProsilicaGigESDK_mac/examples/CamSetup/CamSetup.cpp:273-293 | loading lines keeps the set of attributes |
| CamSetup.SetupLoad | coxlab_eyetracker/camera/prosilica/ProsilicaGigESDK_mac/examples/CamSetup/CamSetup.cpp:273-293 | loading a file keeps the set of attributes and is loading its lines one after the other whenever the file is made of whole lines |
| CamSetup.SetupSave | coxlab_eyetracker/camera/prosilica/ProsilicaGigESDK_mac/examples/CamSetup/CamSetup.cpp:296-320 | the file holds at most one line per listed attribute, every line is the saved line of a listed attribute, and every attribute that has a saved line has it in the file |
| CamSetup.CollectLines | coxlab_eyetracker/camera/prosilica/ProsilicaGigESDK_mac/examples/CamSetup/CamSetup.cpp:308-309 | the lines are, in list order, the saved lines of exactly the attributes that have one |
| CamSetup.LoadKeepsFixed | coxlab_eyetracker/camera/prosilica/ProsilicaGigESDK_mac/examples/CamSetup/CamSetup.cpp:261-262 | loading never changes a read-only or command attribute |
| CamSetup.SetSavedValue | coxlab_eyetracker/camera/prosilica/ProsilicaGigESDK_mac/examples/CamSetup/CamSetup.cpp:107-170 | setting an attribute from the text saved for one of the same kind succeeds and gives back the saved integer, text or enumeration choice, and the float as read and clamped |
| CamSetup.SetSavedNumber | coxlab_eyetracker/camera/prosilica/ProsilicaGigESDK_mac/examples/CamSetup/CamSetup.cpp:125-145 | the decimal text saved for an integer attribute, read back with `atol` and clamped to the same range, gives the saved integer |
| CamSetup.SetSavedFloat | coxlab_eyetracker/camera/prosilica/ProsilicaGigESDK_mac/examples/CamSetup/CamSetup.cpp:146-166 | the text saved for a float attribute is accepted and gives the saved float as read and clamped |
| CamSetup.SetSavedText | coxlab_eyetracker/camera/prosilica/ProsilicaGigESDK_mac/examples/CamSetup/CamSetup.cpp:111-124 | the text saved for a string or enumeration attribute is set back unchanged |
| CamSetup.ReadSetsValue | coxlab_eyetracker/camera/prosilica/ProsilicaGigESDK_mac/examples/CamSetup/CamSetup.cpp:234-264 | a line naming a known writable attribute with a value it accepts is loaded into that attribute alone |
| CamSetup.SaveThenRead | coxlab_eyetracker/camera/prosilica/ProsilicaGigESDK_mac/examples/CamSetup/CamSetup.cpp:234-264 | a saved line read back into a camera sets the same value and nothing else |
| CamSetup.SavedLineWhole | coxlab_eyetracker/camera/prosilica/ProsilicaGigESDK_mac/examples/CamSetup/CamSetup.cpp:234-285 | a saved line that fits the buffer is one `fgets` line |
| CamSetup.LoadSavedLines | coxlab_eyetracker/camera/prosilica/ProsilicaGigESDK_mac/examples/CamSetup/CamSetup.cpp:273-320 | loading the lines saved from distinct attributes restores each saved attribute and changes no other |
| CamSetup.SaveThenLoad | coxlab_eyetracker/camera/prosilica/ProsilicaGigESDK_mac/examples/CamSetup/CamSetup.cpp:273-320 | saving a camera to a file and loading that file into another restores every saved attribute and changes nothing else |
| CamSetup.SplitSavedLine | coxlab_eyetracker/camera/prosilica/ProsilicaGigESDK_mac/examples/CamSetup/CamSetup.cpp:234-253 | the saved line of a name and value splits back into both |
| XmlUrl.HexField | coxlab_eyetracker/camera/prosilica/ProsilicaGigESDK_mac/examples/GetXMLFile/GetXMLFile.cpp:86-92 | a URL field is read as a 64-bit unsigned value |
| XmlUrl.ParseUrl | coxlab_eyetracker/camera/prosilica/ProsilicaGigESDK_mac/examples/GetXMLFile/GetXMLFile.cpp:75-99 | parsing fails for a missing field or a zero address or length, and names the first field minus its 6-character prefix |
| XmlUrl.ParseUrlText | coxlab_eyetracker/camera/prosilica/ProsilicaGigESDK_mac/examples/GetXMLFile/GetXMLFile.cpp:75-99 | a URL written for a location parses back into it, whatever NUL padding follows |
| XmlUrl.RoundUp4 | coxlab_eyetracker/camera/prosilica/ProsilicaGigESDK_mac/examples/GetXMLFile/GetXMLFile.cpp:109 | the buffer size is the next multiple of 4, and wraps to 0 within 3 of 2^64 |
| XmlUrl.RoundUp4Idempotent | coxlab_eyetracker/camera/prosilica/ProsilicaGigESDK_mac/examples/GetXMLFile/GetXMLFile.cpp:109 | rounding a rounded size changes nothing |
| XmlUrl.HugeLengthsDoNotFit | coxlab_eyetracker/camera/prosilica/ProsilicaGigESDK_mac/examples/GetXMLFile/GetXMLFile.cpp:109 | every length from 2^63 - 3 to 2^64 - 4 rounds to more than `max_size()`, 2^63 - 1, so `resize` throws |
| XmlUrl.MinusEightField | coxlab_eyetracker/camera/prosilica/ProsilicaGigESDK_mac/examples/GetXMLFile/GetXMLFile.cpp:91-109 | the length field "-8" is read as 2^64 - 8, one of those lengths |
| XmlUrl.AllFsField | coxlab_eyetracker/camera/prosilica/ProsilicaGigESDK_mac/examples/GetXMLFile/GetXMLFile.cpp:91-109 | the length field "FFFFFFFFFFFFFFFF" saturates at 2^63 - 1, one of those lengths |
| XmlUrl.Chunks | coxlab_eyetracker/camera/prosilica/ProsilicaGigESDK_mac/examples/GetXMLFile/GetXMLFile.cpp:112-118 | every piece is 512 bytes but the last, which is non-empty, and all lie inside the buffer |
| XmlUrl.ChunksTotal | coxlab_eyetracker/camera/prosilica/ProsilicaGigESDK_mac/examples/GetXMLFile/GetXMLFile.cpp:112-118 | the piece sizes add up to the buffer size |
| XmlUrl.ChunksConsecutive | coxlab_eyetracker/camera/prosilica/ProsilicaGigESDK_mac/examples/GetXMLFile/GetXMLFile.cpp:112-118 | each piece starts where the previous one ends |
| XmlUrl.ReadPieces | coxlab_eyetracker/camera/prosilica/ProsilicaGigESDK_mac/examples/GetXMLFile/GetXMLFile.cpp:112-126 | the loop stops at the first failing piece and otherwise fills the whole buffer |
| XmlUrl.FirstFailureUnique | coxlab_eyetracker/camera/prosilica/ProsilicaGigESDK_mac/examples/GetXMLFile/GetXMLFile.cpp:112-126 | only one piece is the first whose read fails, so the reported offset is determined |
| XmlUrl.FillIsMemory | coxlab_eyetracker/camera/prosilica/ProsilicaGigESDK_mac/examples/GetXMLFile/GetXMLFile.cpp:120-121 | the pieces read in order are camera memory from the file address on |
| XmlUrl.SavedBytes | coxlab_eyetracker/camera/prosilica/ProsilicaGigESDK_mac/examples/GetXMLFile/GetXMLFile.cpp:134 | exactly `length` bytes are saved |
| XmlUrl.SavedBytesAreMemory | coxlab_eyetracker/camera/prosilica/ProsilicaGigESDK_mac/examples/GetXMLFile/GetXMLFile.cpp:109-134 | the saved bytes are the file's bytes in camera memory |
| XmlUrl.DownloadXmlFile | coxlab_eyetracker/camera/prosilica/ProsilicaGigESDK_mac/examples/GetXMLFile/GetXMLFile.cpp:68-139 | an unreadable URL and a bad URL are each reported where the source returns; a rounded size `resize` cannot allocate (above `max_size()` or the memory available) ends the program with the uncaught exception, and otherwise a failed piece is reported by the offset of the first piece that fails; with every piece read, a file that cannot be opened, a length that wraps the rounding (an over-read) and a short write are told apart in that order, and a save holds the file's bytes |
| XmlBrute.RoundUpQuad | eye_tracker/camera/prosilica/ProsilicaGigESDK_mac/examples/GetXMLFile/GetXMLFile.cpp:52-58 | the least multiple of 4 at or above the value, 0 when the 32-bit increment wraps |
| XmlBrute.BruteQuadlets | eye_tracker/camera/prosilica/ProsilicaGigESDK_mac/examples/GetXMLFile/GetXMLFile.cpp:52-58 | the increment loop computes that rounding |
| XmlBrute.RoundUpQuadIdempotent | eye_tracker/camera/prosilica/ProsilicaGigESDK_mac/examples/GetXMLFile/GetXMLFile.cpp:52-58 | a multiple of four is left as it is |
| XmlBrute.WordBytesRoundTrip | eye_tracker/camera/prosilica/ProsilicaGigESDK_mac/examples/GetXMLFile/GetXMLFile.cpp:91-93 | storing a register in network byte order loses nothing |
| XmlBrute.CameraMemRead | eye_tracker/camera/prosilica/ProsilicaGigESDK_mac/examples/GetXMLFile/GetXMLFile.cpp:78-99 | at most `Quad` values, value i read at From + 4 i, stopping only at a failed read |
| XmlBrute.ScanAsWritten | eye_tracker/camera/prosilica/ProsilicaGigESDK_mac/examples/GetXMLFile/GetXMLFile.cpp:113 | `%24s` stores nothing after a missing name |
| XmlBrute.ScanAsWrittenDropsFields | eye_tracker/camera/prosilica/ProsilicaGigESDK_mac/examples/GetXMLFile/GetXMLFile.cpp:113-115 | for a short URL free of white space the name swallows both numbers, which stay unassigned |
| XmlBrute.ScanUrl | eye_tracker/camera/prosilica/ProsilicaGigESDK_mac/examples/GetXMLFile/GetXMLFile.cpp:113 | the intended scan takes a name of 1 to 24 characters before the first ';' |
| XmlBrute.ScanUrlText | eye_tracker/camera/prosilica/ProsilicaGigESDK_mac/examples/GetXMLFile/GetXMLFile.cpp:113 | the intended scan reads back the name and both numbers of every URL |
| XmlBrute.FetchFile | eye_tracker/camera/prosilica/ProsilicaGigESDK_mac/examples/GetXMLFile/GetXMLFile.cpp:123-142 | the corrected download loop, which differs from the source in piece size, bytes written, count and advance (see its Left-out line): at most `len` bytes, all of them exactly when complete, being the registers' bytes in order, cut short only at an unreadable register |
| XmlBrute.Request | eye_tracker/camera/prosilica/ProsilicaGigESDK_mac/examples/GetXMLFile/GetXMLFile.cpp:107-115 | a file is requested only with a non-zero register and length |
| XmlBrute.RequestOfUrl | eye_tracker/camera/prosilica/ProsilicaGigESDK_mac/examples/GetXMLFile/GetXMLFile.cpp:107-115 | a header spelling a URL requests that file |
| XmlBrute.CameraGetFile | eye_tracker/camera/prosilica/ProsilicaGigESDK_mac/examples/GetXMLFile/GetXMLFile.cpp:102-153 | with the intended scan `ScanUrl` and the corrected loop of `FetchFile`: an unreadable header, a URL without a file and an uncreatable file are each reported; a download holds what `FetchFile` promises |
| XmlBrute.StepAsWritten | eye_tracker/camera/prosilica/ProsilicaGigESDK_mac/examples/GetXMLFile/GetXMLFile.cpp:125-136 | one pass writes 4 got bytes and subtracts `got` quadlets from the byte count, in 32 bits |
| XmlBrute.LenCountsQuadlets | eye_tracker/camera/prosilica/ProsilicaGigESDK_mac/examples/GetXMLFile/GetXMLFile.cpp:123-136 | for a 4-byte file 512 bytes are written and the count wraps instead of reaching 0 |
| XmlBrute.StepCountingBytes | eye_tracker/camera/prosilica/ProsilicaGigESDK_mac/examples/GetXMLFile/GetXMLFile.cpp:125-136 | the pass as written with only the count changed to bytes: 4 got bytes written, the count down by 4 got, the register on by a whole step |
| XmlBrute.ByteCountAloneWraps | eye_tracker/camera/prosilica/ProsilicaGigESDK_mac/examples/GetXMLFile/GetXMLFile.cpp:123-136 | with only the count corrected a 4-byte file still gets 512 bytes and a wrapped count |
| FramesQueue.RemoveFirst | coxlab_eyetracker/camera/prosilica/_ProsilicaGigESDK_mac/examples/Java/JStream/src/prosilica/JStream.java:792 | `Vector.remove` drops exactly the first equal element, or nothing when there is none |
| FramesQueue.RemoveFirstCount | coxlab_eyetracker/camera/prosilica/_ProsilicaGigESDK_mac/examples/Java/JStream/src/prosilica/JStream.java:813 | removing a queued frame takes exactly one copy of it away |
| FramesQueue.Clear | coxlab_eyetracker/camera/prosilica/_ProsilicaGigESDK_mac/examples/Java/JStream/src/prosilica/JStream.java:772-778 | clear empties the stack and sets the count to 0 |
| FramesQueue.Push | coxlab_eyetracker/camera/prosilica/_ProsilicaGigESDK_mac/examples/Java/JStream/src/prosilica/JStream.java:823-829 | push puts the frame on top, the rest unchanged, and raises the count |
| FramesQueue.Bury | coxlab_eyetracker/camera/prosilica/_ProsilicaGigESDK_mac/examples/Java/JStream/src/prosilica/JStream.java:832-838 | bury puts the frame at the bottom, the rest unchanged, and raises the count |
| FramesQueue.Grab | coxlab_eyetracker/camera/prosilica/_ProsilicaGigESDK_mac/examples/Java/JStream/src/prosilica/JStream.java:781-799 | grab returns the top frame and removes it unless it is null; null and no change on an empty queue |
| FramesQueue.Pull | coxlab_eyetracker/camera/prosilica/_ProsilicaGigESDK_mac/examples/Java/JStream/src/prosilica/JStream.java:802-820 | pull returns the bottom frame and removes one copy of it unless it is null; null and no change on an empty queue |
| FramesQueue.Size | coxlab_eyetracker/camera/prosilica/_ProsilicaGigESDK_mac/examples/Java/JStream/src/prosilica/JStream.java:841-844 | the size is the number of stacked frames |
| FramesQueue.PullDistinct | coxlab_eyetracker/camera/prosilica/_ProsilicaGigESDK_mac/examples/Java/JStream/src/prosilica/JStream.java:802-820 | on distinct frames a pull removes exactly the bottom one, the others keeping their order |
| FramesQueue.PushThenGrab | coxlab_eyetracker/camera/prosilica/_ProsilicaGigESDK_mac/examples/Java/JStream/src/prosilica/JStream.java:781-829 | push then grab returns the pushed frame and restores the queue |
| FramesQueue.BuryThenPull | coxlab_eyetracker/camera/prosilica/_ProsilicaGigESDK_mac/examples/Java/JStream/src/prosilica/JStream.java:802-838 | bury then pull of a frame not yet queued returns it and restores the queue |
| FramesQueue.SizeChanges | coxlab_eyetracker/camera/prosilica/_ProsilicaGigESDK_mac/examples/Java/JStream/src/prosilica/JStream.java:781-844 | push and bury raise the size by one, a successful grab or pull lowers it by one, and an empty queue answers null |
| FramesQueue.Run | coxlab_eyetracker/camera/prosilica/_ProsilicaGigESDK_mac/examples/Java/JStream/src/prosilica/JStream.java:765-844 | any sequence of operations keeps the count equal to the number of stacked frames |
| FramesQueue.StepIsDeque | coxlab_eyetracker/camera/prosilica/_ProsilicaGigESDK_mac/examples/Java/JStream/src/prosilica/JStream.java:781-838 | one operation acts on distinct frames as on a double-ended list |
| FramesQueue.RunIsDeque | coxlab_eyetracker/camera/prosilica/_ProsilicaGigESDK_mac/examples/Java/JStream/src/prosilica/JStream.java:763-849 | on distinct non-null frames the queue behaves as a double-ended list: push and grab at the top, bury and pull at the bottom |
| ReadyFrames.Constructed | Camera/Prosilica/Prosilica.h:62-80 | construction leaves no frame ready or queued, with `nqueued` uninitialised |
| ReadyFrames.QueueFrame | Camera/Prosilica/Prosilica.h:361-364 | queueing hands one frame to the driver and counts it |
| ReadyFrames.QueueAll | Camera/Prosilica/Prosilica.h:344-348 | the capture start queues frames 0 to 4 once each |
| ReadyFrames.FrameCompleted | Camera/Prosilica/Prosilica.h:366-383 | the completed frame joins the back; over the high-water mark the front frame is dropped and requeued |
| ReadyFrames.GetAndLock | Camera/Prosilica/Prosilica.h:307-321 | a take makes the front of the deque the current frame, and is possible exactly when a frame is ready |
| ReadyFrames.Release | Camera/Prosilica/Prosilica.h:323-326 | a release requeues the current frame by its stored index |
| ReadyFrames.StartEstablishes | Camera/Prosilica/Prosilica.h:329-359 | starting the capture establishes the invariant |
| ReadyFrames.StepKeeps | Camera/Prosilica/Prosilica.h:307-383 | completions, takes and releases keep the deque at most 3 long, keep `nqueued` counting the driver's frames, and lose or duplicate none of the five frames |
| ReadyFrames.RunKeeps | Camera/Prosilica/Prosilica.h:307-383 | every run of allowed events keeps that invariant |
| ReadyFrames.TakesInCompletionOrder | Camera/Prosilica/Prosilica.h:316-317 | frames are taken in the order they completed |
| StreamCapture.QueueFrames | eye_tracker/camera/prosilica/ProsilicaGigESDK_mac/examples/Java/JThread3/src/prosilica/JThread3.java:251-253 | frames 0 to 4 are queued in order |
| StreamCapture.Capture | eye_tracker/camera/prosilica/ProsilicaGigESDK_mac/examples/Java/JThread3/src/prosilica/JThread3.java:235-290 | without a frame size nothing is called and the answer is false; otherwise the frames are queued, the loop runs, and the queue is cleared |
| StreamCapture.LoopCycles | eye_tracker/camera/prosilica/ProsilicaGigESDK_mac/examples/Java/JThread3/src/prosilica/JThread3.java:259-276 | the loop alternates a wait and a requeue of the same frame, the frame index cycling through 0 to 4 |
| StreamCapture.LoopCount | eye_tracker/camera/prosilica/ProsilicaGigESDK_mac/examples/Java/JThread3/src/prosilica/JThread3.java:259-270 | the count never exceeds `Max`, and the loop ends without error exactly when `Max` frames were counted |
| StreamCapture.CancelledStops | eye_tracker/camera/prosilica/ProsilicaGigESDK_mac/examples/Java/JThread3/src/prosilica/JThread3.java:264-265 | a cancelled frame ends the loop with `eCancelled` without being counted |
| StreamCapture.ClearedAtEnd | eye_tracker/camera/prosilica/ProsilicaGigESDK_mac/examples/Java/JThread3/src/prosilica/JThread3.java:281 | after the loop the driver queue is cleared, whatever ended it |
| Stage.CurrentPosition | coxlab_eyetracker/motion/SimulatedStageController.py:57-58 | an axis in [-3, 3) reads its position (0, 1, 2 are x, y, r), any other raises `IndexError` |
| Stage.Place | coxlab_eyetracker/motion/SimulatedStageController.py:39 | writing an axis sets exactly that axis and keeps the other two; an invalid axis raises |
| Stage.Home | coxlab_eyetracker/motion/SimulatedStageController.py:34-35 | homing puts the axis at 0.0 and leaves the other axes where they were |
| Stage.MoveAbsolute | coxlab_eyetracker/motion/SimulatedStageController.py:37-40 | the axis ends at the target position, the others do not move, and an invalid axis raises |
| Stage.MoveRelative | coxlab_eyetracker/motion/SimulatedStageController.py:42-46 | the axis moves by the delta from where it was, the others do not move, and an invalid axis raises |
| Stage.CompositeRelativeSums | coxlab_eyetracker/motion/SimulatedStageController.py:53-55 | a well-formed composite relative move adds to every axis the total of the deltas aimed at it, wherever an axis is named twice |
| Stage.CompositeAbsoluteLastWins | coxlab_eyetracker/motion/SimulatedStageController.py:49-51 | a well-formed composite absolute move leaves every axis at the last position aimed at it, and untouched axes where they were |
| Stage.CompositeFails | coxlab_eyetracker/motion/SimulatedStageController.py:49-55 | a composite move raises exactly when some axis is invalid or has no matching position |
| PyList.Resolve | coxlab_eyetracker/motion/SimulatedStageController.py:35 | an index names an element exactly when it lies in [-n, n); a negative one counts from the end |
| PyList.Get | coxlab_eyetracker/motion/SimulatedStageController.py:58 | reading a list gives the element the index names, and raises exactly when the index is out of range |
| PyList.Set | coxlab_eyetracker/motion/SimulatedStageController.py:35 | writing a list keeps its length, changes only the named element, and raises exactly when the index is out of range |
| PyList.GetAfterSet | coxlab_eyetracker/motion/SimulatedStageController.py:35 | reading back an element just written gives the written value |
| SimulatedLed.Init | coxlab_eyetracker/led/SimulatedLEDController.py:17-23 | the controller starts with one off channel per requested channel, each at current 20 |
| SimulatedLed.SoftStatus | coxlab_eyetracker/led/SimulatedLEDController.py:50-51 | the soft status is the status itself |
| SimulatedLed.TurnOn | coxlab_eyetracker/led/SimulatedLEDController.py:41-45 | turning on sets the status to 1 and changes the current only when one is given, a current of 0 included; other channels keep theirs; a bad channel raises |
| SimulatedLed.TurnOff | coxlab_eyetracker/led/SimulatedLEDController.py:47-48 | turning off sets the status to 0 and keeps every current and every other channel |
| SimulatedLed.SetStatus | coxlab_eyetracker/led/SimulatedLEDController.py:32-36 | setting a status is turning on without a current or turning off, and never touches the current |
| SimulatedLed.SetCurrent | coxlab_eyetracker/led/SimulatedLEDController.py:38-39 | setting a current keeps every status and every other channel's current |
| SimulatedLed.RunStatus | coxlab_eyetracker/led/SimulatedLEDController.py:32-48 | any sequence of on/off calls on one valid channel succeeds, keeps the channel count, and leaves that channel with the status its last call set while the other channels keep theirs |
| MightexLed.Init | coxlab_eyetracker/led/MightexLEDController.py:25-31 | the cache starts with exactly the channels 1 to 4, every one off at current 0 |
| MightexLed.ParseResponse | coxlab_eyetracker/led/MightexLEDController.py:41-42 | a parsed reply neither starts nor ends with a prompt, line end, blank or `#`, and is no longer than the reply |
| MightexLed.ParseResponseCuts | coxlab_eyetracker/led/MightexLEDController.py:41-42 | the parsed reply is exactly the slice that removes only junk and leaves none at either end |
| MightexLed.ReadCurrent | coxlab_eyetracker/led/MightexLEDController.py:55-66 | the current is the integer in the reply's last word, and 0 when the reply has no word or the last word is not an integer |
| MightexLed.ReadCurrentOfWords | coxlab_eyetracker/led/MightexLEDController.py:57-61 | a reply whose last word is a decimal number is read as that number, whatever words precede it |
| MightexLed.ReadStatus | coxlab_eyetracker/led/MightexLEDController.py:68-76 | the status is the mode 0 to 3 the reply names, and 0 for any other reply |
| MightexLed.Connect | coxlab_eyetracker/led/MightexLEDController.py:35-39 | connecting queries mode then current for channels 1 to 4 in turn and caches what each reply says, leaving other cache entries alone |
| MightexLed.Refreshed | coxlab_eyetracker/led/MightexLEDController.py:37-39 | a refreshed cache holds the read value for every refreshed channel and the old value for every other one |
| MightexLed.Queries | coxlab_eyetracker/led/MightexLEDController.py:37-39 | the queries alternate `?MODE` and `?CURRENT`, one pair per channel in order |
| MightexLed.TurnOn | coxlab_eyetracker/led/MightexLEDController.py:91-110 | turning on sends mode 1, the current (the cached one when none is given) with the `Imax` limit, and the two queries; the cache then holds status 1 and the reported current; without a given current an uncached channel raises after the mode command |
| MightexLed.TurnOnCached | coxlab_eyetracker/led/MightexLEDController.py:91-110 | after turning on with no current the cached status reads 1, the cached current is the device's report, and the cached current is what the device was sent |
| MightexLed.TurnOff | coxlab_eyetracker/led/MightexLEDController.py:112-117 | turning off sends mode 0 and a mode query, caches status 0 and keeps every cached current |
| MightexLed.TurnOffCached | coxlab_eyetracker/led/MightexLEDController.py:112-120 | after turning off the soft status reads 0 and the soft current is what it was |
| MightexLed.SetStatus | coxlab_eyetracker/led/MightexLEDController.py:78-82 | setting a status is turning on without a current, or turning off |
| MightexLed.SetCurrent | coxlab_eyetracker/led/MightexLEDController.py:84-89 | setting a current sends it, then caches the reported current and keeps every cached status |
| MightexLed.TurnOffAll | coxlab_eyetracker/led/MightexLEDController.py:46-47 | turning off channels in turn sends a mode-0 command and a query per channel in order, zeroes exactly those channels' cached status and keeps all currents |
| MightexLed.Shutdown | coxlab_eyetracker/led/MightexLEDController.py:44-49 | the corrected shutdown turns off every channel 1 to 4, one mode-0 command per channel |
| MightexLed.ShutdownLeavesChannel4On | coxlab_eyetracker/led/MightexLEDController.py:44-47 | the shutdown as written leaves a lit channel 4 on and sends its first command to a channel 0 |
| PyStr.Strip | coxlab_eyetracker/led/MightexLEDController.py:42 | stripping removes only characters of the set from each end and leaves none of them at either end |
| PyStr.StripUnique | coxlab_eyetracker/led/MightexLEDController.py:42 | the stripped text is the one and only slice that removes only set characters and leaves none at either end |
| PyStr.StripIdempotent | coxlab_eyetracker/led/MightexLEDController.py:42 | stripping twice gives the same text as stripping once |
| PyStr.Split | coxlab_eyetracker/led/MightexLEDController.py:58 | every word of a split is non-empty and free of white space |
| PyStr.SplitJoin | coxlab_eyetracker/led/MightexLEDController.py:58 | splitting words joined by single spaces gives back the words |
| PyStr.PyIntFormat | coxlab_eyetracker/led/MightexLEDController.py:61 | `int()` of a decimal numeral, with or without a minus sign, is the number it writes |
| PyStr.PyIntRejects | coxlab_eyetracker/led/MightexLEDController.py:60-64 | `int()` of a text holding a character other than white space, digits or a sign raises `ValueError` |
| PyStr.Lower | eye_tracker/util/Povray/Povray.py:218 | lower-casing maps A-Z to a-z and keeps every other character, position by position |
| PyStr.LowerIdempotent | eye_tracker/util/Povray/Povray.py:218 | lower-casing twice is lower-casing once, and leaves no upper-case letter |
| ConfigUtil.Merge | coxlab_eyetracker/util/__init__.py:56-58 | merging the sections keeps every key of the dictionary it updates |
| ConfigUtil.Update | coxlab_eyetracker/util/__init__.py:58 | updating with a section's items gives exactly the old keys plus the section's keys |
| ConfigUtil.UpdateLastWins | coxlab_eyetracker/util/__init__.py:58 | the last item for a key in a section gives that key's value |
| ConfigUtil.MergeLastWins | coxlab_eyetracker/util/__init__.py:56-58 | the last section's last item for a key gives that key's merged value |
| ConfigUtil.MergeUntouched | coxlab_eyetracker/util/__init__.py:56-58 | a key no section names keeps its value through the merge |
| ConfigUtil.Convert | coxlab_eyetracker/util/__init__.py:61-65 | a value becomes `True` exactly when it starts with "true" in any case, `False` exactly when it starts with "false", and otherwise stays the same text |
| ConfigUtil.ConfigToDict | coxlab_eyetracker/util/__init__.py:54-67 | converting raises `TypeError` exactly when the merged dictionary already holds a boolean; otherwise it has the merged keys, each converted |
| ConfigUtil.ConfigToDictFixed | coxlab_eyetracker/util/__init__.py:54-67 | the corrected conversion has the merged keys, converts text values and keeps booleans |
| ConfigUtil.LoadDefaultConfig | coxlab_eyetracker/util/__init__.py:70-74 | the default loader as written returns the shared dictionary's keys, and raises exactly when that dictionary already holds a boolean |
| ConfigUtil.DefaultsNeverRead | coxlab_eyetracker/util/__init__.py:70-74 | on a fresh start the default loader as written returns an empty dictionary: the defaults are never read |
| ConfigUtil.SecondLoadRaises | coxlab_eyetracker/util/__init__.py:54-81 | a first file load leaves a boolean in the shared dictionary, and the next default load then raises `TypeError` |
| ConfigUtil.LoadDefaultConfigFixed | coxlab_eyetracker/util/__init__.py:36-51 | the corrected defaults hold exactly the four keys of the default configuration text |
| ConfigUtil.DefaultValues | coxlab_eyetracker/util/__init__.py:36-51 | the corrected defaults are false, false, the calibration path and true |
| ConfigUtil.FileOverridesDefaults | coxlab_eyetracker/util/__init__.py:77-81 | a default the file does not name survives loading the file |
| ConfigUtil.FileKeyWins | coxlab_eyetracker/util/__init__.py:77-81 | the last value the file gives a key is the loaded value, converted |
| ConfigUtil.Expose | coxlab_eyetracker/util/__init__.py:85-89 | exposing accepts exactly a non-empty list of objects of one type, raises `IndexError` on an empty one and `ValueError` otherwise |
| ConfigUtil.GetRegular | coxlab_eyetracker/util/__init__.py:103-107 | reading a parameter succeeds exactly when every object has it with one common value, which is the result |
| ConfigUtil.GetProxy | coxlab_eyetracker/util/__init__.py:97-101 | the corrected proxy getter behaves as the regular getter |
| ConfigUtil.ProxyDisagreementRaisesNameError | coxlab_eyetracker/util/__init__.py:97-101 | two proxies that disagree make the getter as written raise `NameError` where the regular getter raises `ValueError` |
| ConfigUtil.SetAll | coxlab_eyetracker/util/__init__.py:109-115 | writing a parameter sets it on every object and changes nothing else |
| ConfigUtil.SetThenGet | coxlab_eyetracker/util/__init__.py:109-115 | reading a parameter just written to every object gives the written value |
| Requirements.SplitLines | setup.py:16 | splitting at newlines gives at least one piece, and no piece holds a newline |
| Requirements.JoinSplitLines | setup.py:16 | joining the pieces with newlines gives back the text |
| Requirements.SplitJoinLines | setup.py:16 | splitting lines free of newlines joined by newlines gives back the lines |
| Requirements.LastBefore | setup.py:20 | the search finds the last occurrence before a bound, or reports that there is none |
| Requirements.EditableName | setup.py:20 | an editable line yields the text after its last `#egg=`, which holds no further marker; a line without a marker stays as it is |
| Requirements.RequirementsAppend | setup.py:14-35 | both readers work line by line: the result for two runs of lines is the two results in turn |
| Requirements.PlainFileRoundTrip | setup.py:14-35 | a file of plain package lines reads back as exactly those lines and has no dependency links |
| Requirements.SkippedLines | setup.py:17-22 | blank, comment and `-f` lines contribute no requirement |
| Requirements.FindLinksUrl | setup.py:21-33 | a `-f URL` line contributes its URL as a dependency link and nothing as a requirement |
| Requirements.EditableLine | setup.py:19-33 | a `-e URL#egg=NAME` line contributes NAME as a requirement and the whole URL as a dependency link |
| Povray.Flatten | eye_tracker/util/Povray/Povray.py:122-133 | the walk replaces every list or tuple element by its elements, in order, and keeps every other element: the result is the reference flattening |
| Povray.InsertAll | eye_tracker/util/Povray/Povray.py:128-130 | inserting the elements one by one at an advancing position splices them in, in order, and leaves the position after them |
| Povray.FlatAppend | eye_tracker/util/Povray/Povray.py:122-133 | flattening works element by element: the flattening of two runs is the two flattenings in turn |
| Povray.FlatIdentity | eye_tracker/util/Povray/Povray.py:122-133 | a sequence holding no list or tuple is its own flattening |
| Povray.FlatOneLevel | eye_tracker/util/Povray/Povray.py:122-133 | when no element nests two levels deep, the flattening holds no list or tuple and flattening it again changes nothing |
| Povray.Spaces | eye_tracker/util/Povray/Povray.py:37 | the indent of a level is two spaces per level, nothing below level zero |
| Povray.Lock | eye_tracker/util/Povray/Povray.py:12-15 | taking the lock succeeds exactly when no item holds it, and then the item holds it |
| Povray.Unlock | eye_tracker/util/Povray/Povray.py:16-19 | releasing the lock succeeds exactly when that very item holds it, and leaves the writer free |
| Povray.Indent | eye_tracker/util/Povray/Povray.py:20-21 | indenting goes one level deeper and writes nothing |
| Povray.Dedent | eye_tracker/util/Povray/Povray.py:22-24 | dedenting succeeds exactly when the level is at least one, and goes one level up |
| Povray.Writeln | eye_tracker/util/Povray/Povray.py:34-37 | writing a line fails exactly while an item holds the lock; otherwise it appends one line: the level's indent followed by the text |
| Povray.BlockBegin | eye_tracker/util/Povray/Povray.py:25-27 | opening a block writes `{` at the current level and goes one level deeper |
| Povray.BlockEnd | eye_tracker/util/Povray/Povray.py:28-33 | closing a block goes one level up and writes `}` there, followed by a blank line when back at the top level; it fails at level zero or while locked |
| Povray.BlockRestores | eye_tracker/util/Povray/Povray.py:25-33 | a block opened and closed at once restores the level and writes both braces at the starting level |
| Povray.BalancedRun | eye_tracker/util/Povray/Povray.py:12-37 | calls that close every block they open and release every lock before writing never fail an assertion and leave the writer unlocked at its starting level |
| Povray.WriteWhileLocked | eye_tracker/util/Povray/Povray.py:14-36 | a line or block written while an item holds the lock fails |
| Povray.Py2Pov | eye_tracker/util/Povray/Povray.py:216-218 | the POV-Ray name of a class is its name lower-cased, character by character, and lower-casing it again changes nothing |
| Povray.KwName | eye_tracker/util/Povray/Povray.py:221-224 | a keyword item takes the name it is given, or else its class name lower-cased |
| Povray.KwTextSplits | eye_tracker/util/Povray/Povray.py:226-227 | the text of a keyword item splits back at its first space into the name and the value text |
| Povray.KeywordNames | eye_tracker/util/Povray/Povray.py:229-230 | the generated keyword classes are written `color`, `translate`, `scale`, `rotate` and `angle` |
| MinMax.Ravel | coxlab_eyetracker/image_processing/VanillaBackend.py:156-157 | the raveled image holds rows times columns values |
| MinMax.RavelIndex | coxlab_eyetracker/image_processing/VanillaBackend.py:156-157 | pixel (r, c) sits at position r times the row length plus c of the raveled image |
| MinMax.FirstBest | coxlab_eyetracker/image_processing/VanillaBackend.py:156-157 | the position found holds the image's extreme value and no earlier position holds that value |
| MinMax.FirstBestUnique | coxlab_eyetracker/image_processing/VanillaBackend.py:156-157 | only one position is the first to hold the extreme value |
| MinMax.LocationHoldsExtreme | coxlab_eyetracker/image_processing/SimpleEyeFeatureFinder.py:26-30 | the reported pixel is at least as extreme as every pixel, and every pixel before it in row-major order holds a different value |
| MinMax.Unravel | coxlab_eyetracker/image_processing/VanillaBackend.py:163-164 | a raveled position splits back into the row and column that give it |
| MinMax.FindMinmax | coxlab_eyetracker/image_processing/VanillaBackend.py:150-164 | no image gives `([0, 0], [0])`; an empty image raises `ValueError`; otherwise the result is the first darkest and first brightest pixel, as row and column |
| MinMax.Flatten | coxlab_eyetracker/image_processing/SimpleEyeFeatureFinder.py:21-24 | a colour frame becomes the per-pixel mean of its channels, a grey frame stays as it is |
| MinMax.AnalyzeImage | coxlab_eyetracker/image_processing/SimpleEyeFeatureFinder.py:16-39 | the corneal reflection is the first brightest pixel and the pupil the first darkest, both stages report the same places, no sizes are set, and an empty frame raises |
| ClMinMax.Halvings | coxlab_eyetracker/image_processing/cl_minmax.py:28-31 | the halvings run from half the count down to exactly one, each at least one |
| ClMinMax.HalvingsHalve | coxlab_eyetracker/image_processing/cl_minmax.py:28-31 | each scratch size is the previous one halved, rounded down |
| ClMinMax.ScratchSizes | coxlab_eyetracker/image_processing/cl_minmax.py:24-31 | an image has scratch buffers exactly when it has a pixel; the first holds half the pixel count rounded up, the last holds one |
| ClMinMax.Pick | coxlab_eyetracker/image_processing/cl_minmax.py:59-74 | a work item keeps one of its two entries, one at least as extreme as both; on equal pixels a minimum keeps the second entry and a maximum the first |
| ClMinMax.Level | coxlab_eyetracker/image_processing/cl_minmax.py:48-74 | work item g of a launch keeps one of entries 2g and 2g+1, at least as extreme as both, when both lie in the input; when 2g+1 lies past the end it keeps entry 2g or the value past the end, at least as extreme as both; past the end entirely it keeps that value |
| ClMinMax.Reduce | coxlab_eyetracker/image_processing/cl_minmax.py:107-126 | the chained launches end with as many entries as the last scratch buffer holds |
| ClMinMax.IndexedCovers | coxlab_eyetracker/image_processing/cl_minmax.py:25 | pairing the pixels with `arange` gives a first level holding only real pixels with their own indices, which covers every pixel |
| ClMinMax.ReduceAsWritten | coxlab_eyetracker/image_processing/cl_minmax.py:96-147 | the finder as written reports an index exactly when the image has a pixel |
| ClMinMax.DropsOddLevelTail | coxlab_eyetracker/image_processing/cl_minmax.py:26-31 | on a 2x3 image whose last pixel is the brightest, the finder as written reports index 0: an odd middle level loses its last entry |
| ClMinMax.ReadsPastEnd | coxlab_eyetracker/image_processing/cl_minmax.py:48-74 | on a one-pixel image the finder as written reports the index of whatever lies past the end of the image |
| ClMinMax.CeilSizes | coxlab_eyetracker/image_processing/cl_minmax.py:26-31 | the corrected level sizes halve rounding up, from half the count down to one |
| ClMinMax.FixedLevelSizes | coxlab_eyetracker/image_processing/cl_minmax.py:26-31 | the corrected launches produce levels of exactly the `CeilSizes` sizes, the last of which is the reduction's result |
| ClMinMax.LevelFixed | coxlab_eyetracker/image_processing/cl_minmax.py:48-74 | a corrected launch keeps, for each pair, one entry of that pair (the unpaired last entry itself), never a value past the end, and every input entry is matched or beaten by its pair's output |
| ClMinMax.WinnerBeats | coxlab_eyetracker/image_processing/cl_minmax.py:48-74 | the entry a corrected work item keeps matches or beats both entries of its pair |
| ClMinMax.ReduceFixed | coxlab_eyetracker/image_processing/cl_minmax.py:116-126 | the corrected launches end with exactly one entry |
| ClMinMax.ReduceCorrected | coxlab_eyetracker/image_processing/cl_minmax.py:96-147 | the corrected finder reports an index exactly when the image has a pixel |
| ClMinMax.ReduceFixedKeeps | coxlab_eyetracker/image_processing/cl_minmax.py:116-126 | every corrected level holds only real pixels with their own indices, and every pixel is matched or beaten by one of its entries |
| ClMinMax.CorrectedFindsExtreme | coxlab_eyetracker/image_processing/cl_minmax.py:96-147 | the corrected finder's index holds a pixel at least as extreme as every pixel |
| ClMinMax.CorrectedOnCounterexamples | coxlab_eyetracker/image_processing/cl_minmax.py:96-147 | on the two images that defeat the finder as written the corrected finder reports the brightest pixel |
| ClMinMax.CorrectedFindsStrictMax | coxlab_eyetracker/image_processing/cl_minmax.py:96-147 | when one pixel is strictly brighter than every other, the corrected maximum finder reports that pixel's index |
| ClMinMax.Coords | coxlab_eyetracker/image_processing/cl_minmax.py:149-153 | the row and column found recombine into the raveled index, with the column inside the row |
| ClMinMax.CoordsOfPixel | coxlab_eyetracker/image_processing/cl_minmax.py:149-153 | the coordinates of a pixel's raveled index are that pixel |
| ClMinMax.CorrectedCoords | coxlab_eyetracker/image_processing/cl_minmax.py:96-161 | on any non-empty image the corrected finder's coordinates name a pixel at least as extreme as every pixel |
| Pipeline.Init | coxlab_eyetracker/image_processing/PipelinedFeatureFinder.py:135-156 | the finder starts with one pair of empty queues per worker, both turns at worker 0 and a grace of one more than the worker count |
| Pipeline.Turn | coxlab_eyetracker/image_processing/PipelinedFeatureFinder.py:165-166 | a turn index at or past the worker count wraps to worker 0 and is otherwise kept |
| Pipeline.NextTurn | coxlab_eyetracker/image_processing/PipelinedFeatureFinder.py:165-169 | the turn after the one for position a is the turn for position a + 1 |
| Pipeline.AnalyzeImage | coxlab_eyetracker/image_processing/PipelinedFeatureFinder.py:164-171 | a job goes to the back of the input queue of the worker whose turn it is, the turn advances, and the image joins the back of the image queue; without workers the call raises `IndexError` |
| Pipeline.Work | coxlab_eyetracker/image_processing/PipelinedFeatureFinder.py:39-59 | a worker blocks on an empty input queue; otherwise it takes its first job and puts the result, with `transform` and `im_array` cleared, at the back of its output queue |
| Pipeline.GetResult | coxlab_eyetracker/image_processing/PipelinedFeatureFinder.py:174-189 | during the grace period the call returns `None` and only counts down; afterwards it takes the first result of the worker whose turn it is, attaches the first queued image, and advances the turn; it blocks while either queue is empty |
| Pipeline.InitInv | ImageProcessing/PipelinedFeatureFinder.py:110-131 | the constructed finder with at least one worker satisfies the pipeline invariant |
| Pipeline.AnalyzeKeeps | ImageProcessing/PipelinedFeatureFinder.py:139-146 | handing in an image always succeeds from an invariant state, keeps the invariant, and puts the job on worker number dispatched-count modulo worker-count |
| Pipeline.WorkKeeps | coxlab_eyetracker/image_processing/PipelinedFeatureFinder.py:39-59 | any worker step keeps the invariant, whatever the interleaving |
| Pipeline.GetResultPairs | ImageProcessing/PipelinedFeatureFinder.py:149-163 | after the grace period every result comes back in submission order, computed from the next unanswered job and paired with that job's own image, and the invariant holds after |
| Pipeline.Poll | coxlab_eyetracker/image_processing/PipelinedFeatureFinder.py:174-189 | a run of k calls that finishes returns k values |
| Pipeline.GracePeriod | coxlab_eyetracker/image_processing/PipelinedFeatureFinder.py:156-178 | the first calls within the grace period all return `None` and touch no queue |
| Starburst.Slope | coxlab_eyetracker/image_processing/SubpixelStarburstEyeFeatureFinder.py:321-322 | the slope is 2 at the first sample, the difference with the previous sample elsewhere, and 0 where either sample is outside the image |
| Starburst.ScanRay | coxlab_eyetracker/image_processing/SubpixelStarburstEyeFeatureFinder.py:337-353 | the scan as written reports the sample just before the first place where the threshold has been crossed and the slope is not positive, and nothing when there is no such place; samples outside the image do not end it |
| Starburst.ScanSpec | coxlab_eyetracker/image_processing/SubpixelStarburstEyeFeatureFinder.py:340-353 | the inner loop from any sample finds the first stop at or after it, given that none came before |
| Starburst.ScanRayFixed | coxlab_eyetracker/image_processing/SubpixelStarburstEyeFeatureFinder.py:340-343 | the corrected scan ends at the first sample outside the image, and otherwise reports the sample before the first stop |
| Starburst.ScanFixedSpec | coxlab_eyetracker/image_processing/SubpixelStarburstEyeFeatureFinder.py:340-353 | the corrected inner loop finds the first stop before the ray leaves the image |
| Starburst.EdgeCounterexample | coxlab_eyetracker/image_processing/SubpixelStarburstEyeFeatureFinder.py:341-343 | a ray whose third sample lies outside the image gets a boundary from the scan as written but none from the corrected scan |
| Starburst.ScansAgreeInImage | coxlab_eyetracker/image_processing/SubpixelStarburstEyeFeatureFinder.py:340-353 | on a ray wholly inside the image the two scans agree |
| Starburst.RayBoundary | coxlab_eyetracker/image_processing/SubpixelStarburstEyeFeatureFinder.py:350-352 | a ray contributes one point exactly when its scan finds a boundary, and that point is the position of the boundary sample |
| Starburst.BoundariesAppend | coxlab_eyetracker/image_processing/SubpixelStarburstEyeFeatureFinder.py:337-353 | each ray contributes its own boundary point, at most one, in ray order |
| Starburst.Exclude | coxlab_eyetracker/image_processing/SubpixelStarburstEyeFeatureFinder.py:355-364 | the filter keeps, in order, exactly the points farther from the exclusion center than the radius, and all points when there is no center |
| Starburst.ExcludeIdempotent | coxlab_eyetracker/image_processing/SubpixelStarburstEyeFeatureFinder.py:360-363 | filtering the kept points again removes nothing |
| Starburst.FindRayBoundaries | coxlab_eyetracker/image_processing/SubpixelStarburstEyeFeatureFinder.py:355-367 | without an exclusion the result is all boundary points; with one it is exactly the boundary points outside the circle |
| Starburst.FitMean | coxlab_eyetracker/image_processing/SubpixelStarburstEyeFeatureFinder.py:591-606 | the mean fit fails exactly when there are no points |
| Starburst.FitCircle | coxlab_eyetracker/image_processing/SubpixelStarburstEyeFeatureFinder.py:609-618 | the circle fit fails exactly without points, falls back to the mean fit for up to three points, and fits a circle beyond |
| Starburst.FitEllipse | coxlab_eyetracker/image_processing/SubpixelStarburstEyeFeatureFinder.py:648-756 | the ellipse fit falls back to the mean fit below five points, and fails without points or when the conic found is no ellipse |
| Starburst.FitRansac | coxlab_eyetracker/image_processing/SubpixelStarburstEyeFeatureFinder.py:759-766 | the RANSAC fit raises on `None`, falls back to the circle fit below eight points, and runs RANSAC from eight on |
| Starburst.Fallbacks | coxlab_eyetracker/image_processing/SubpixelStarburstEyeFeatureFinder.py:595-618 | with no points every fit fails; one to three points give the mean fit everywhere; four give the circle fit but the mean ellipse fit; four to seven give the circle fit from RANSAC |
| Starburst.FitterFor | coxlab_eyetracker/image_processing/SubpixelStarburstEyeFeatureFinder.py:77-84 | each of the three algorithm names selects its own fit, and any other name selects the mean fit |
| Starburst.RansacBest | coxlab_eyetracker/image_processing/SubpixelStarburstEyeFeatureFinder.py:768-802 | the loop keeps the all-points fit unless a qualifying candidate has a strictly smaller error; the chosen fit is no worse than every qualifying candidate and strictly better than every earlier one |
| Starburst.RandomSplitAsWritten | coxlab_eyetracker/image_processing/SubpixelStarburstEyeFeatureFinder.py:804-807 | the split as written is the first k indices and those from k + 1 on |
| Starburst.SplitDropsIndex | coxlab_eyetracker/image_processing/SubpixelStarburstEyeFeatureFinder.py:804-807 | whenever fewer than all indices are sampled, the split as written loses one index, which is then neither sampled nor tested as an inlier |
| Starburst.RandomSplit | coxlab_eyetracker/image_processing/SubpixelStarburstEyeFeatureFinder.py:804-807 | the corrected split is k indices followed by all the others, which together give back the ordering |
| Starburst.SplitPartitions | coxlab_eyetracker/image_processing/SubpixelStarburstEyeFeatureFinder.py:804-807 | the corrected split puts every index on exactly one side |
| Frugal.Max | ImageProcessing/FrugalCompositeEyeFeatureFinder.py:74 | the larger error level is one of the two, and lies above a threshold exactly when either does |
| Frugal.Init | ImageProcessing/FrugalCompositeEyeFeatureFinder.py:28-41 | the finder starts on its first run, with no result and the counter at `minimum_frames_to_reseed` (50) |
| Frugal.TrackedLevel | ImageProcessing/FrugalCompositeEyeFeatureFinder.py:71-75 | the error level is one of the two starburst errors when they are stored, above a threshold exactly when either is; without stored errors it stays `inf`, above every threshold |
| Frugal.Analyze | ImageProcessing/FrugalCompositeEyeFeatureFinder.py:46-129 | with a guess the call returns features, reseeded exactly on the first run, on an error level above 100 or when the counter runs out, and refined exactly when the refining starburst call returned; the counter is reset on a reseed and counts down otherwise; the timestamp is the guess's or 0; without a guess the call raises `AttributeError` |
| Frugal.AnalyzeAsWritten | ImageProcessing/FrugalCompositeEyeFeatureFinder.py:53-67 | the call as written raises `TypeError` exactly when tracking after the first frame raises (a missing guess or a starburst failure), with only the counter decremented; it returns features exactly when there is a guess and tracking did not raise, and then agrees with the corrected call |
| Frugal.TrackingFailureRaises | ImageProcessing/FrugalCompositeEyeFeatureFinder.py:59-67 | a starburst failure while tracking makes the call as written raise `TypeError`, where the corrected call reseeds |
| Frugal.AnalyzeKeeps | ImageProcessing/FrugalCompositeEyeFeatureFinder.py:53-84 | every call keeps the counter at or below 50, and a call that returns features reseeded exactly when the counter was reset |
| Frugal.Run | ImageProcessing/FrugalCompositeEyeFeatureFinder.py:46-129 | a run of frames gives one outcome per frame |
| Frugal.ReseedWithin | ImageProcessing/FrugalCompositeEyeFeatureFinder.py:53-84 | whatever the tracking errors, a run of frames with guesses at least as long as the counter holds reseeds at least once |
| CameraEvents.Blanks | eyetracker/camera/prosilica/ProsilicaGigESDK_mac/examples/SampleViewer/src/EvntWindow.cpp:100 | a cleared batch holds only zeroed events |
| CameraEvents.Batches | eyetracker/camera/prosilica/ProsilicaGigESDK_mac/examples/SampleViewer/src/EvntWindow.cpp:365-388 | the callback posts one batch per five events, rounding up, each of five events |
| CameraEvents.BatchesKeepOrder | eyetracker/camera/prosilica/ProsilicaGigESDK_mac/examples/SampleViewer/src/EvntWindow.cpp:372-387 | the batches hold the events in order followed only by zeroed padding, and every batch starts with a real event |
| CameraEvents.DeliveredIds | eyetracker/camera/prosilica/ProsilicaGigESDK_mac/examples/SampleViewer/src/EvntWindow.cpp:334-353 | the real events the window sees across all batches are exactly the events of the callback's list, in order |
| CameraEvents.Stamp | eyetracker/camera/prosilica/ProsilicaGigESDK_mac/examples/SampleViewer/src/EvntWindow.cpp:337-339 | the 64-bit stamp splits back into its high and low words |
| CameraEvents.StampInjective | eyetracker/camera/prosilica/ProsilicaGigESDK_mac/examples/SampleViewer/src/EvntWindow.cpp:337-339 | two events share a stamp only when both words agree |
| CameraEvents.Init | eyetracker/camera/prosilica/ProsilicaGigESDK_mac/examples/SampleViewer/src/EvntWindow.cpp:137-147 | the window starts with an empty list, no reference stamp, not paused, auto-scrolling |
| CameraEvents.Trim | eyetracker/camera/prosilica/ProsilicaGigESDK_mac/examples/SampleViewer/src/EvntWindow.cpp:331-332 | trimming keeps the newest lines, at most 5000 of them, and a list within the bound stays as it is |
| CameraEvents.Lines | eyetracker/camera/prosilica/ProsilicaGigESDK_mac/examples/SampleViewer/src/EvntWindow.cpp:334-353 | at most one line per event of the batch and only for real events (non-zero id); a reference once set is kept, and a newly set reference is the stamp of one of the batch's real events |
| CameraEvents.LinesSpec | eyetracker/camera/prosilica/ProsilicaGigESDK_mac/examples/SampleViewer/src/EvntWindow.cpp:334-353 | one line per real event, in order; once set, the reference stamp never changes, and every line's tick count lies within the 64-bit range relative to it |
| CameraEvents.LinesCount | eyetracker/camera/prosilica/ProsilicaGigESDK_mac/examples/SampleViewer/src/EvntWindow.cpp:334-353 | exactly one line per real event |
| CameraEvents.LinesFrom | eyetracker/camera/prosilica/ProsilicaGigESDK_mac/examples/SampleViewer/src/EvntWindow.cpp:334-353 | with a reference set, line k is the k-th real event: its stamp minus the reference, its id and its data words |
| CameraEvents.LinesFromFirst | eyetracker/camera/prosilica/ProsilicaGigESDK_mac/examples/SampleViewer/src/EvntWindow.cpp:334-353 | with no reference set, the first real event's non-zero stamp becomes it: its line shows 0 and line k shows the k-th real event's stamp minus it, with its id and data words |
| CameraEvents.FirstEventIsReference | eyetracker/camera/prosilica/ProsilicaGigESDK_mac/examples/SampleViewer/src/EvntWindow.cpp:341-347 | the first real event while no reference is set shows 0 ticks and its stamp becomes the reference |
| CameraEvents.AppendEvents | eyetracker/camera/prosilica/ProsilicaGigESDK_mac/examples/SampleViewer/src/EvntWindow.cpp:321-358 | while paused nothing changes; otherwise the trimmed list is kept as the head of the new list, the ids of the new list are those of the trimmed list followed by the batch's real ids, the list stays within 5000 lines plus the batch, and a set reference is kept |
| CameraEvents.ListBounded | eyetracker/camera/prosilica/ProsilicaGigESDK_mac/examples/SampleViewer/src/EvntWindow.cpp:331-353 | the list never grows past 5000 lines plus one batch |
| CameraEvents.Clear | eyetracker/camera/prosilica/ProsilicaGigESDK_mac/examples/SampleViewer/src/EvntWindow.cpp:290-293 | the Clear button empties the list and keeps the reference stamp |
| CameraEvents.TogglePause | eyetracker/camera/prosilica/ProsilicaGigESDK_mac/examples/SampleViewer/src/EvntWindow.cpp:295-304 | the Pause button flips pausing and keeps the list |
| CameraEvents.ToggleAutoScroll | eyetracker/camera/prosilica/ProsilicaGigESDK_mac/examples/SampleViewer/src/EvntWindow.cpp:306-309 | the auto-scroll box flips auto-scrolling and keeps everything else |
| CameraEvents.PauseResume | eyetracker/camera/prosilica/ProsilicaGigESDK_mac/examples/SampleViewer/src/EvntWindow.cpp:295-309 | pausing then resuming restores the window, appending while paused changes nothing, and toggling auto-scroll twice restores it |

## Left out

- Socket and serial I/O (the `IPSerialBridge` base of the Mightex driver, the camera serial port, the GigE register reads): every reply is a parameter of the model; the text of the Mightex commands is kept as a command datatype and not rendered.
- Threads, mutexes and condition variables (the Prosilica frame callbacks, the pipelined workers' queues): a blocking wait is modelled as a `None` or `Blocked` outcome, and threads as explicit work steps.
- Floating point: Python floats are modelled as `real`, and NumPy truthiness of an array as an already decided boolean.
- Java `int` overflow in the binding's frame pool and enumeration list, which would need more than 2^31 entries.
- The INI text parser of `SafeConfigParser` and `os.linesep`: configuration files are given already parsed into sections of key/value text.
- Povray: `File.write` of a whole scene, `include`, `declare` and the `Vector`/`Item` classes; only `flatten`, `py2pov`, the keyword items and the indent/lock bookkeeping are modelled.
- MinMax: the NaN that an empty colour axis gives in `SimpleEyeFeatureFinder`.
- Partial state changes that an escaping exception leaves behind (for example the pipelined finder's turn counter before an `IndexError`) beyond those stated in each member's contract.
- ClMinMax: which pixel a whole reduction reports when several share the extreme value (only the rule of one work item, `Pick`, is stated), and the float32 coordinates, which are modelled as exact quotients.
- Starburst: the normalised threshold, the numerics of the circle and ellipse fits and the RANSAC inlier test are inputs; the ellipse conic and a singular least-squares system (`LinAlgError`) are both given as a single `conic` value; samples and coordinates are integers; a negative `cutoff_index` and the woven OpenCL variant are not modelled.
- Frugal: the fast-radial and starburst finders are parameters; the stage-1 positions and `ds` are not modelled.
- Pipeline: the queues' `maxsize` of 3 (puts never block in the model), pickling of the images, `stop_threads`/`__del__`, and the worker's own feature finder, which is a parameter.
- CameraEvents: the reference stamp `iStamp` is a `double` in the window's header (inc/EvntWindow.h:192), so a 64-bit stamp above 2^53 is rounded when it is stored and the tick differences shown for later events are off by that rounding; the model keeps the exact stamp.
- CameraEvents: the text formatting of a line and the division by the timestamp frequency, the `SetFirstItem` auto-scroll, the callback registration and the window layout.
- BgrConvert.ConvertToBgr: only frames whose buffer holds every byte the loops read are modelled; for an image size that is not a multiple of the pixel group the source reads up to three bytes past the image, and past the buffer when it ends there, and those bytes have no value in the model.
- BgrConvert: the Bayer and YUV formats go through the vendor's colour interpolation and are reported as `Interpolated`; the deprecated Rgb48 format writes nothing, as in the source.
- Alignment: the fourth convolution module (`localmem_cl_conv.py`) guards its odd-width check with an `assert` of a tuple, which never fires; its kernel radius is modelled as in the other three modules.
- Stage: the console prints and sleeps of the simulated stage, and its random start position, which the source has switched off.
- Alignment: the four convolution modules carry identical copies of the alignment helpers; one copy is cited per row.
- Clocks: the time stamps the trackers attach to features are inputs.
- CamSetup: the `%g` text of a float32 value and its parsing with `atof` and the cast to `tPvFloat32` are the parameter `FloatText`; float32 rounding is therefore not modelled, and the float round trip is stated through that parameter.
- CamSetup: the 128-byte value buffer handed to the SDK's string and enumeration getters; what the SDK does with a longer value is not visible, so the model saves such a value whole.
- CamSetup: a failing range query, which makes the source report an integer or float attribute as not loaded; the range is part of the attribute's type in the model.
- CamSetup: opening the file and listing the camera's attributes; when either fails the source returns false before reading or writing a line.
- CamSetup.SaveThenLoad: the round trip is stated only for attributes whose saved line fits the 256-byte `fgets` buffer, whose name has no '=' and whose name and value have no white space at their ends and no newline; for the others the source does not restore the value either.
- BgrConvert.Sample16: the source reads a 16-bit sample through an `unsigned short` pointer, so its byte order is the host's; the model reads it little-endian, as a little-endian host does.
- XmlUrl.DownloadXmlFile: after a failed `fopen` the sample still calls `fclose` on the null file, which the C standard leaves undefined; the model ends with `OpenFailed` and says nothing about that call. Which sizes the allocator refuses below `max_size()` depends on the host's memory, so it is the parameter `capacity`.
- XmlBrute.FetchFile: besides counting bytes, the corrected loop asks for no more quadlets than the missing bytes need, writes only the missing bytes of the last piece, and starts the next piece after the last register read; the loop as written is modelled only one pass at a time (`StepAsWritten`, `StepCountingBytes`).
- XmlBrute.ScanAsWritten: the 512-byte header buffer is filled from the camera with no terminating NUL, so `sscanf` can read past it when the header holds no white space; the model scans the buffer only up to its end.
- XmlBrute.CameraGetFile: it parses the URL with the intended `ScanUrl`, not the `%24s` scan as written (`ScanAsWritten`), and downloads with the corrected `FetchFile`.
- CameraEvents.LinesFromFirst: a first real event whose stamp is 0 leaves the reference unset, so the next real event shows 0 ticks too; the line values are stated only once a non-zero reference exists.

## Findings

| source | as written | input that shows it | evidently intended | confidence | as-written member | corrected member |
|---|---|---|---|---|---|---|
| eyetracker/camera/prosilica/ProsilicaGigESDK_mac/examples/SampleViewer/src/SerialWindow.cpp:181-204 | the write loop packs four bytes per register from the caller's buffer, reading up to three bytes past `length` | a 1-byte write from the buffers 1,0,0,0 and 1,9,9,9: the registers differ | pack only the given bytes and zero-pad the last register | not executed | RegisterPacking.PackReadsPastLength | RegisterPacking.UnpackPack |
| eyetracker/camera/prosilica/ProsilicaGigESDK_mac/examples/Java/PvJNI/PvJNI/PvJNI.cpp:3236-3266 | the Mono12Packed loop writes two pixels (6 bytes) while only the write position is below the end | a 1x1 frame and a 4-byte target: 6 bytes are written | stop before a pixel that does not fit | not executed | BgrConvert.Mono12PackedOverrun | BgrConvert.Mono12PackedToBgr |
| eye_tracker/camera/prosilica/ProsilicaGigESDK_mac/examples/GetXMLFile/GetXMLFile.cpp:113 | `%24s` stops only at white space, so the name swallows the `;addr;len` fields | the URL `Local:a.xml;200;10`: the address and length are never assigned | read the name up to the first `;` | not executed | XmlBrute.ScanAsWrittenDropsFields | XmlBrute.ScanUrlText |
| eye_tracker/camera/prosilica/ProsilicaGigESDK_mac/examples/GetXMLFile/GetXMLFile.cpp:123-136 | `len -= got` subtracts the number of quadlets read from a byte count, and the first read asks for 128 quadlets whatever the length | a 4-byte file: 512 bytes are written and the count wraps, even with only the subtraction corrected | write and count only the file's bytes: ask for no more quadlets than the missing bytes need and subtract the bytes written | not executed | XmlBrute.ByteCountAloneWraps | XmlBrute.FetchFile |
| coxlab_eyetracker/led/MightexLEDController.py:44-47 | the destructor turns off channels `range(0, n_channels)`, that is 0 to 3 | channel 4 lit at shutdown stays on | turn off channels 1 to 4 | not executed | MightexLed.ShutdownLeavesChannel4On | MightexLed.Shutdown |
| coxlab_eyetracker/util/__init__.py:70-74 | a `StringIO` is passed to `read`, which expects file names | any fresh start: the defaults dictionary is empty | parse the default text with `readfp` | not executed | ConfigUtil.DefaultsNeverRead | ConfigUtil.DefaultValues |
| coxlab_eyetracker/util/__init__.py:54-81 | the mutable default `d={}` is shared between calls, so converted booleans are matched as text again | a file load followed by a default load: `TypeError` | a fresh dictionary per call | not executed | ConfigUtil.SecondLoadRaises | ConfigUtil.FileOverridesDefaults |
| coxlab_eyetracker/util/__init__.py:97-101 | the proxy getter raises the misspelt `ValuError` | two proxies that disagree: `NameError` | raise `ValueError` | not executed | ConfigUtil.ProxyDisagreementRaisesNameError | ConfigUtil.GetProxy |
| coxlab_eyetracker/image_processing/cl_minmax.py:26-31 | the scratch levels halve with floor division, dropping the last element of an odd level | a 2x3 image whose last pixel is the brightest: index 0 is reported | round each level up | not executed | ClMinMax.DropsOddLevelTail | ClMinMax.CorrectedOnCounterexamples |
| coxlab_eyetracker/image_processing/cl_minmax.py:48-74 | the pair kernel reads the partner element without a bounds check | a one-pixel image: the index past the end is reported | compare only elements inside the level | not executed | ClMinMax.ReadsPastEnd | ClMinMax.CorrectedFindsExtreme |
| ImageProcessing/FrugalCompositeEyeFeatureFinder.py:59-67 | when tracking raises, the handler assigns into `features`, which is still `None` | a starburst failure on the second frame: `TypeError` | reseed, as for a high tracking error | not executed | Frugal.TrackingFailureRaises | Frugal.Analyze |
| coxlab_eyetracker/image_processing/SubpixelStarburstEyeFeatureFinder.py:341-343 | `isnan` is applied to the loop index instead of the sample | a ray with samples 1, 5 and then one outside the image: the code reports an edge at sample 1, the corrected scan none | stop the scan at the first sample outside the image | not executed | Starburst.EdgeCounterexample | Starburst.ScanRayFixed |
| coxlab_eyetracker/image_processing/SubpixelStarburstEyeFeatureFinder.py:804-807 | the second part of the split starts at `k + 1`, dropping index `k` | k = 1 out of 3 indices: one index is in neither part | start the second part at `k` | not executed | Starburst.SplitDropsIndex | Starburst.SplitPartitions |
| coxlab_eyetracker/camera/prosilica/ProsilicaGigESDK_mac/examples/GetXMLFile/GetXMLFile.cpp:68-139 | the length is rounded up to a multiple of 4 in 64-bit arithmetic, which wraps for huge lengths | a length of 2^64 - 3: the buffer is sized 0 and the save reads past it | refuse lengths whose rounding overflows | not executed | XmlUrl.DownloadXmlFile | XmlUrl.SavedBytesAreMemory |

=== FILE: alignment.dfy ===
/** The alignment helpers the GPU convolution modules use to size kernel
    launches. They convert both operands to 32-bit numpy integers first, so
    `/` and `%` are numpy's floor division and floor modulo (the remainder
    takes the sign of the divisor, and a zero divisor gives 0 with a warning
    instead of an exception), and the one addition that can leave the 32-bit
    range wraps around. */
module Alignment {
  import opened Wrappers

  const I32Min: int := -0x8000_0000
  const I32Max: int := 0x7FFF_FFFF

  type Int32 = x: int | I32Min <= x <= I32Max

  /** Two's complement wrap of an integer into 32 bits. */
  function Wrap32(x: int): (r: Int32)
    ensures I32Min <= x <= I32Max ==> r == x
    ensures (r - x) % 0x1_0000_0000 == 0
  {
    (x - I32Min) % 0x1_0000_0000 + I32Min
  }

  /** numpy's `a / b` on two int32 values: the floor of the quotient, 0 for a
      zero divisor, and the one overflowing case wrapped. */
  function FloorDiv(a: Int32, b: Int32): (q: Int32)
    ensures b > 0 ==> q * b <= a < (q + 1) * b
  {
    if b == 0 then 0
    else if b > 0 then DivRange(a, b); a / b
    else Wrap32((-(a as int)) / (-(b as int)))
  }

  /** Euclidean division by a positive divisor is the floor quotient and never
      moves away from zero past its dividend. */
  lemma DivRange(a: int, b: int)
    requires b > 0
    ensures (a / b) * b <= a < (a / b + 1) * b
    ensures a >= 0 ==> 0 <= a / b <= a
    ensures a < 0 ==> a <= a / b < 0
  {
    DivBracket(a, b, a / b);
    if a >= 0 {
      DivOfNonNegative(a, b, a / b);
    } else {
      DivOfNegative(a, b, a / b);
    }
  }

  lemma DivBracket(a: int, b: int, q: int)
    requires b > 0 && q == a / b
    ensures q * b <= a < (q + 1) * b
  {
    var m := a % b;
    assert a == q * b + m && 0 <= m < b;
    assert (q + 1) * b == q * b + b;
  }

  lemma DivOfNonNegative(a: int, b: int, q: int)
    requires b > 0 && a >= 0 && q * b <= a < (q + 1) * b
    ensures 0 <= q <= a
  {
    if q < 0 {
      MulLe(q + 1, 0, b);
    }
    MulLe(1, b, q);
  }

  lemma DivOfNegative(a: int, b: int, q: int)
    requires b > 0 && a < 0 && q * b <= a < (q + 1) * b
    ensures a <= q < 0
  {
    if q >= 0 {
      MulLe(0, q, b);
    }
    if q < a {
      MulLe(1, b, -(q + 1));
    }
  }

  /** A multiple of `b` leaves no remainder. */
  lemma MulModZero(q: int, b: int)
    requires b > 0
    ensures (q * b) % b == 0
  {
    var x := q * b;
    var p, r := x / b, x % b;
    assert x == p * b + r && 0 <= r < b;
    assert (q - p) * b == r;
    if q - p >= 1 {
      MulLe(1, q - p, b);
    } else if q - p <= -1 {
      MulLe(q - p, -1, b);
    }
  }

  lemma MulLe(x: int, y: int, c: int)
    requires x <= y && c >= 0
    ensures x * c <= y * c
  {
  }

  /** numpy's `a % b` on two int32 values: the remainder takes the sign of the
      divisor, and a zero divisor gives 0. */
  function FloorMod(a: Int32, b: Int32): (m: Int32)
    ensures b > 0 ==> 0 <= m < b
    ensures b > 0 ==> a == FloorDiv(a, b) * b + m
    ensures b < 0 ==> b < m <= 0
    ensures b == 0 ==> m == 0
  {
    if b == 0 then 0
    else if b > 0 then a % b
    else -((-(a as int)) % (-(b as int)))
  }

  /** `int_div_up`: one more than the floor quotient when it leaves a remainder. */
  function IntDivUp(a: Int32, b: Int32): (q: Int32)
    ensures b > 0 ==> q * b >= a && (q - 1) * b < a
    ensures b == 0 ==> q == 0
  {
    if FloorMod(a, b) != 0 then Wrap32(FloorDiv(a, b) + 1) else FloorDiv(a, b)
  }

  /** `int_div_down`: the floor quotient. */
  function IntDivDown(a: Int32, b: Int32): (q: Int32)
    ensures b > 0 ==> q * b <= a && a < (q + 1) * b
    ensures b == 0 ==> q == 0
  {
    FloorDiv(a, b)
  }

  /** `int_align_up`: `a` itself when `b` divides it, otherwise the next
      multiple of `b`, which wraps when it passes the int32 maximum. */
  function IntAlignUp(a: Int32, b: Int32): (r: Int32)
    ensures b > 0 && a + b - 1 <= I32Max ==> r % b == 0 && a <= r < a + b
    ensures b > 0 ==> (r % b == 0 && a <= r < a + b) || r < 0
    ensures b == 0 ==> r == a
  {
    AlignUpFacts(a, b);
    if FloorMod(a, b) != 0 then Wrap32(a - FloorMod(a, b) + b) else a
  }

  lemma AlignUpFacts(a: Int32, b: Int32)
    ensures b > 0 ==> var m := FloorMod(a, b);
      (a - m) % b == 0 && (a - m + b) % b == 0 && (m == 0 <==> a % b == 0)
  {
    if b > 0 {
      var q, m := FloorDiv(a, b), FloorMod(a, b);
      assert a - m == q * b;
      MulModZero(q, b);
      assert a - m + b == (q + 1) * b;
      MulModZero(q + 1, b);
    }
  }

  /** `int_align_down`: the multiple of `b` at or below `a`. */
  function IntAlignDown(a: Int32, b: Int32): (r: Int32)
    ensures b > 0 && a - b + 1 >= I32Min ==> r % b == 0 && a - b < r <= a
    ensures b == 0 ==> r == a
  {
    AlignUpFacts(a, b);
    Wrap32(a - FloorMod(a, b))
  }

  /** The two rounding directions differ by one exactly when `b` does not
      divide `a`, and agree otherwise. */
  lemma DivUpDown(a: Int32, b: Int32)
    requires b > 0
    ensures a % b == 0 ==> IntDivUp(a, b) == IntDivDown(a, b) && IntDivUp(a, b) * b == a
    ensures a % b != 0 ==> IntDivUp(a, b) == IntDivDown(a, b) + 1
  {
  }

  /** Aligning is dividing in the same direction and multiplying back. */
  lemma AlignIsDivTimesB(a: Int32, b: Int32)
    requires b > 0 && a + b - 1 <= I32Max && a - b + 1 >= I32Min
    ensures IntAlignUp(a, b) == IntDivUp(a, b) * b
    ensures IntAlignDown(a, b) == IntDivDown(a, b) * b
  {
    var q := FloorDiv(a, b);
    var m := FloorMod(a, b);
    assert a == q * b + m;
    if m != 0 {
      assert (q + 1) * b == q * b + b;
    }
  }

  /** Aligning up is idempotent, and aligning down leaves a multiple where it is. */
  lemma {:induction false} AlignIdempotent(a: Int32, b: Int32)
    requires b > 0 && a + b - 1 <= I32Max && a - b + 1 >= I32Min
    ensures IntAlignUp(IntAlignUp(a, b), b) == IntAlignUp(a, b)
    ensures IntAlignDown(IntAlignDown(a, b), b) == IntAlignDown(a, b)
  {
    var u := IntAlignUp(a, b);
    assert FloorMod(u, b) == 0;
    var d := IntAlignDown(a, b);
    assert FloorMod(d, b) == 0;
  }

  // ---------------------------------------------------------------- launch sizes

  /** Memory accesses of the row kernel are aligned to this many elements. */
  const CoalescingQuantum: nat := 16

  /** `width / 2` for a kernel of odd width; an even width fails the
      "Kernels must be of odd width" assertion. */
  function KernelRadius(width: nat): (r: Option<nat>)
    ensures r.Some? <==> width % 2 == 1
    ensures r.Some? ==> 2 * r.value + 1 == width
  {
    if width % 2 == 1 then Some(width / 2) else None
  }

  /** The row kernel radius rounded down to the coalescing quantum, or one
      quantum when that gives 0. */
  function AlignedRadius(radius: nat): (r: nat)
    ensures r > 0 && r % CoalescingQuantum == 0
    ensures radius >= CoalescingQuantum ==> radius - CoalescingQuantum < r <= radius
    ensures radius < CoalescingQuantum ==> r == CoalescingQuantum
  {
    var aligned := (radius / CoalescingQuantum) * CoalescingQuantum;
    if aligned == 0 then CoalescingQuantum else aligned
  }

  /** The aligned radius is the largest positive multiple of the quantum that
      is not above the radius, when one exists. */
  lemma AlignedRadiusIsLargest(radius: nat, m: nat)
    requires m > 0 && m % CoalescingQuantum == 0 && m <= radius
    ensures m <= AlignedRadius(radius)
  {
    var q := radius / CoalescingQuantum;
    assert m / CoalescingQuantum <= q;
    assert m == (m / CoalescingQuantum) * CoalescingQuantum;
  }

  datatype Size2 = Size2(x: nat, y: nat)

  /** The launch geometry the column pass of the local-memory convolution
      uses, for an image of `rows` by `cols`: work groups of at most 8 by 8
      items, and enough groups of 8 columns by 8 rows to cover the image. */
  datatype ColumnLaunch = ColumnLaunch(local: Size2, groups: Size2, global: Size2)

  const ColTileWidth: nat := 8
  const ColTileHeight: nat := 8
  const ColHStride: nat := 8

  function Min(a: nat, b: nat): nat
  {
    if a <= b then a else b
  }

  function ColumnLaunchFor(rows: nat, cols: nat): (l: ColumnLaunch)
    requires rows <= I32Max && cols <= I32Max
    ensures l.local.x <= cols && l.local.y <= rows
    ensures l.local.x <= ColTileWidth && l.local.y <= ColHStride
    ensures l.groups.x * ColTileWidth >= cols && l.groups.y * ColTileHeight >= rows
    ensures l.global.x == l.local.x * l.groups.x && l.global.y == l.local.y * l.groups.y
  {
    var local := Size2(Min(cols, ColTileWidth), Min(rows, ColHStride));
    var groups := Size2(IntDivUp(cols, ColTileWidth as Int32), IntDivUp(rows, ColTileHeight as Int32));
    ColumnLaunch(local, groups, Size2(local.x * groups.x, local.y * groups.y))
  }
}

=== FILE: arith.dfy ===
/** Integer facts shared by the modules that model shifts and fixed-width
    arithmetic: powers of two, and the 32- and 64-bit wrap of C unsigned
    integers. */
module Arith {

  function Pow2(n: nat): (p: nat)
    ensures p >= 1
  {
    if n == 0 then 1 else 2 * Pow2(n - 1)
  }

  lemma {:induction false} Pow2Add(a: nat, b: nat)
    ensures Pow2(a + b) == Pow2(a) * Pow2(b)
  {
    if a > 0 {
      Pow2Add(a - 1, b);
    }
  }

  lemma {:induction false} Pow2Mono(a: nat, b: nat)
    requires a <= b
    ensures Pow2(a) <= Pow2(b)
  {
    if a < b {
      Pow2Mono(a, b - 1);
    }
  }

  const U32: nat := 0x1_0000_0000
  const U64: nat := 0x1_0000_0000_0000_0000

  /** Value of an integer after conversion to a 32-bit unsigned type. */
  function ToU32(x: int): (r: nat)
    ensures r < U32
    ensures 0 <= x < U32 ==> r == x
  {
    x % U32
  }

  /** Value of an integer after conversion to a 64-bit unsigned type. */
  function ToU64(x: int): (r: nat)
    ensures r < U64
    ensures 0 <= x < U64 ==> r == x
  {
    x % U64
  }

  /** Adding to a wrapped value and wrapping again is wrapping the sum. */
  lemma ToU32Add(a: int, b: int)
    ensures ToU32(ToU32(a) + b) == ToU32(a + b)
  {
    var q := a / U32;
    assert a == q * U32 + ToU32(a);
    ModShift(a + b, q, U32);
  }

  lemma ToU64Add(a: int, b: int)
    ensures ToU64(ToU64(a) + b) == ToU64(a + b)
  {
    var q := a / U64;
    assert a == q * U64 + ToU64(a);
    ModShift(a + b, q, U64);
  }

  /** Subtracting a multiple of the modulus leaves the remainder alone. */
  lemma ModShift(x: int, q: int, m: nat)
    requires m > 0
    ensures (x - q * m) % m == x % m
  {
    var r := x % m;
    assert x == (x / m) * m + r;
    assert x - q * m == (x / m - q) * m + r;
    assert 0 <= r < m;
    DivUnique(x - q * m, x / m - q, r, m);
  }

  /** Quotient and remainder are the only such pair. */
  lemma DivUnique(x: int, q: int, r: int, m: nat)
    requires m > 0 && x == q * m + r && 0 <= r < m
    ensures x % m == r
  {
    var q2, r2 := x / m, x % m;
    assert x == q2 * m + r2 && 0 <= r2 < m;
    assert (q - q2) * m == r2 - r;
    if q > q2 {
      MulMono(1, q - q2, m);
    } else if q < q2 {
      MulMono(1, q2 - q, m);
    }
  }

  /** Quotient and remainder of `q * m + r` when `0 <= r < m`. */
  lemma QuotRem(x: int, q: int, r: int, m: nat)
    requires m > 0 && x == q * m + r && 0 <= r < m
    ensures x / m == q && x % m == r
  {
    DivUnique(x, q, r, m);
    assert x == (x / m) * m + r;
    MulCancel(x / m, q, m);
  }

  /** `x >> s` on a non-negative integer. */
  function Shr(x: nat, s: nat): nat
  {
    Quot(x, Pow2(s))
  }

  /** Quotient of non-negative integers. */
  function Quot(x: nat, d: nat): nat
    requires d > 0
  {
    x / d
  }

  /** The quotient `x / d` brackets `x` between two consecutive multiples of `d`. */
  lemma DivBounds(x: nat, d: nat)
    requires d > 0
    ensures (x / d) * d <= x < (x / d + 1) * d
    ensures x / d <= x
  {
    var q, r := x / d, x % d;
    assert x == q * d + r && 0 <= r < d;
    assert (q + 1) * d == q * d + d;
    MulMono(1, d, q);
  }

  /** Shifting a value of `w` bits right by `w - 8` leaves a byte. */
  lemma ShrToByte(x: nat, w: nat)
    requires 8 <= w && x < Pow2(w)
    ensures Shr(x, w - 8) < 256
  {
    Pow2Add(w - 8, 8);
    assert Pow2(8) == 256;
    DivBelow(x, Pow2(w - 8), 256);
  }

  /** A quotient stays below `m` when the dividend is below `m` divisors. */
  lemma DivBelow(x: nat, d: nat, m: nat)
    requires d > 0 && x < d * m
    ensures x / d < m
  {
    var q := x / d;
    assert q * d + x % d == x;
    if q >= m {
      MulMono(m, q, d);
      assert false;
    }
  }

  /** A positive factor can be cancelled. */
  lemma MulCancel(a: int, b: int, c: nat)
    requires c > 0 && a * c == b * c
    ensures a == b
  {
    assert (a - b) * c == a * c - b * c;
  }

  lemma MulMono(a: nat, b: nat, c: nat)
    requires a <= b
    ensures a * c <= b * c
  {
  }

  /** Least multiple of `b` reached by `x`: `ceil(x / b)` for non-negative x. */
  function CeilDiv(x: nat, b: nat): (q: nat)
    requires b > 0
    ensures q * b >= x
    ensures q == 0 || (q - 1) * b < x
  {
    (x + b - 1) / b
  }

  /** An exact multiple divides evenly, rounded up or not. */
  lemma CeilDivExact(q: nat, b: nat)
    requires b > 0
    ensures CeilDiv(q * b, b) == q && (q * b) / b == q
  {
    QuotRem(q * b + b - 1, q, b - 1, b);
    QuotRem(q * b, q, 0, b);
  }
}

=== FILE: bgr_convert.dfy ===
/** Conversion of a captured frame into the 3-bytes-per-pixel BGR buffer of a
    Java `BufferedImage` (`FrameToBGRBuffer` of the Java binding). Only the
    integer pixel formats are converted here; the Bayer formats go through
    the vendor's colour interpolation and the YUV formats through floating
    point, and both are reported as `Interpolated`. Each conversion is stated
    as the sequence of BGR pixels it produces; `Bytes` lays them out in the
    target, blue first. */
module BgrConvert {
  import opened Wrappers
  import opened Arith

  type Byte = b: int | 0 <= b < 256

  datatype PixelFormat =
    | Mono8 | Mono16 | Bayer8 | Bayer16 | Rgb24 | Rgb48
    | Yuv411 | Yuv422 | Yuv444 | Bgr24 | Rgba32 | Bgra32
    | Mono12Packed | Bayer12Packed
    | Unknown(code: nat)

  /** The fields of the frame structure the conversion reads; `data` is the
      frame's image buffer, of which the first `imageSize` bytes hold the image. */
  datatype Frame = Frame(width: nat, height: nat, format: PixelFormat,
                         bitDepth: nat, imageSize: nat, data: seq<Byte>)

  datatype PvError = BufferTooSmall | BadParameter

  /** What a conversion does to the target: writes these bytes from its start,
      hands the frame to the vendor interpolation, or fails. */
  datatype Outcome = Written(bytes: seq<Byte>) | Interpolated | Failed(error: PvError)

  /** One pixel of the target, in the order its bytes are stored. */
  datatype Bgr = Bgr(b: Byte, g: Byte, r: Byte)

  /** The target bytes of a run of pixels. */
  function Bytes(ps: seq<Bgr>): (out: seq<Byte>)
    ensures |out| == 3 * |ps|
    ensures forall j :: 0 <= j < |ps| ==>
      out[3 * j] == ps[j].b && out[3 * j + 1] == ps[j].g && out[3 * j + 2] == ps[j].r
  {
    if |ps| == 0 then [] else [ps[0].b, ps[0].g, ps[0].r] + Bytes(ps[1..])
  }

  /** The first `n` byte triples of a buffer read as BGR pixels. */
  function Triples(data: seq<Byte>, n: nat): seq<Bgr>
    requires 3 * n <= |data|
  {
    seq(n, j requires 0 <= j < n => Bgr(data[3 * j], data[3 * j + 1], data[3 * j + 2]))
  }

  /** Reading the target back as triples gives the pixels written. */
  lemma TriplesOfBytes(ps: seq<Bgr>)
    ensures Triples(Bytes(ps), |ps|) == ps
  {
    var out := Bytes(ps);
    var back := Triples(out, |ps|);
    forall j | 0 <= j < |ps|
      ensures back[j] == ps[j]
    {
      assert back[j] == Bgr(out[3 * j], out[3 * j + 1], out[3 * j + 2]);
      assert out[3 * j] == ps[j].b && out[3 * j + 1] == ps[j].g && out[3 * j + 2] == ps[j].r;
    }
    assert back == ps;
  }

  /** Writing the triples of a buffer gives its first `3 n` bytes back. */
  lemma BytesOfTriples(data: seq<Byte>, n: nat)
    requires 3 * n <= |data|
    ensures Bytes(Triples(data, n)) == data[..3 * n]
  {
    var out := Bytes(Triples(data, n));
    forall k | 0 <= k < 3 * n
      ensures out[k] == data[k]
    {
      var j := k / 3;
      var p := Triples(data, n)[j];
      assert p == Bgr(data[3 * j], data[3 * j + 1], data[3 * j + 2]);
      assert out[3 * j] == p.b && out[3 * j + 1] == p.g && out[3 * j + 2] == p.r;
      assert k == 3 * j || k == 3 * j + 1 || k == 3 * j + 2;
    }
  }

  /** The same colour in all three channels. */
  function Grey(v: Byte): (p: Bgr)
    ensures p.b == p.g == p.r == v
  {
    Bgr(v, v, v)
  }

  /** Red and blue exchanged. */
  function Swap(p: Bgr): (q: Bgr)
    ensures q.b == p.r && q.g == p.g && q.r == p.b
  {
    Bgr(p.r, p.g, p.b)
  }

  /** The source loops read whole pixel groups, so for an image size that is
      not a multiple of the group size they read up to the end of the last
      group; the frame buffer must hold those bytes. */
  predicate ReadsInside(f: Frame)
  {
    match f.format
    case Mono8 => f.imageSize <= |f.data|
    case Bgr24 => f.imageSize <= |f.data|
    case Mono16 => 2 * (f.imageSize / 2) <= |f.data|
    case Rgb24 => 3 * CeilDiv(f.imageSize, 3) <= |f.data|
    case Mono12Packed => 3 * CeilDiv(f.imageSize, 3) <= |f.data|
    case Rgba32 => f.imageSize == 0 || 4 * CeilDiv(f.imageSize, 4) - 1 <= |f.data|
    case Bgra32 => f.imageSize == 0 || 4 * CeilDiv(f.imageSize, 4) - 1 <= |f.data|
    case _ => true
  }

  /** `Width * Height * 3` as the source computes it, in 32-bit unsigned arithmetic. */
  function Needed(f: Frame): nat
  {
    ToU32(f.width * f.height * 3)
  }

  /** `BitDepth - 8` stored in an unsigned char. */
  function Shift(f: Frame): nat
  {
    (f.bitDepth - 8) % 256
  }

  /** `FrameToBGRBuffer`. `frame` is None when the Java frame carries no
      buffer; `tgtLen` is the capacity of the target buffer; `direct` is
      whether both the frame's buffer and the target have a direct address.
      Without one the call succeeds and writes nothing. */
  function ConvertToBgr(frame: Option<Frame>, tgtLen: nat, direct: bool): (r: Outcome)
    requires frame.Some? ==> ReadsInside(frame.value)
    ensures frame.None? ==> r == Failed(BadParameter)
    ensures frame.Some? && !direct ==> r == Written([])
    ensures frame.Some? && direct ==> (r == Failed(BufferTooSmall) <==> Needed(frame.value) > tgtLen)
    ensures frame.Some? && direct ==>
      (r == Failed(BadParameter) <==> Needed(frame.value) <= tgtLen && frame.value.format.Unknown?)
    ensures r == Interpolated ==>
      (frame.Some? && frame.value.format in {Bayer8, Bayer16, Bayer12Packed, Yuv411, Yuv422, Yuv444})
  {
    match frame
    case None => Failed(BadParameter)
    case Some(f) =>
      if !direct then Written([])
      else if Needed(f) > tgtLen then Failed(BufferTooSmall)
      else match f.format
        case Mono8 => Written(Bytes(Mono8ToBgr(f.data[..f.imageSize])))
        case Mono16 => Written(Bytes(Mono16ToBgr(f.data, f.imageSize / 2, Shift(f))))
        case Rgb24 => Written(Bytes(Rgb24ToBgr(f.data, CeilDiv(f.imageSize, 3))))
        case Bgr24 => Written(f.data[..f.imageSize])
        case Rgba32 => Written(Bytes(Rgba32ToBgr(f.data, CeilDiv(f.imageSize, 4))))
        case Bgra32 => Written(Bytes(Bgra32ToBgr(f.data, CeilDiv(f.imageSize, 4))))
        case Mono12Packed =>
          Written(Bytes(Mono12PackedWritten(Groups(f.data, CeilDiv(f.imageSize, 3)), tgtLen, Shift(f))))
        case Rgb48 => Written([])
        case Unknown(_) => Failed(BadParameter)
        case _ => Interpolated
  }

  // ---------------------------------------------------------------- mono

  /** Mono8: every source byte becomes a grey pixel. */
  function Mono8ToBgr(src: seq<Byte>): seq<Bgr>
  {
    seq(|src|, i requires 0 <= i < |src| => Grey(src[i]))
  }

  /** One colour channel of a run of pixels: 0 blue, 1 green, 2 red. */
  function Channel(ps: seq<Bgr>, c: nat): (ch: seq<Byte>)
    requires c < 3
    ensures |ch| == |ps|
  {
    seq(|ps|, i requires 0 <= i < |ps| => if c == 0 then ps[i].b else if c == 1 then ps[i].g else ps[i].r)
  }

  /** Each of the three channels of a Mono8 conversion is the source image,
      and so is every third byte of the target from any of the first three. */
  lemma Mono8ChannelsAreSource(src: seq<Byte>, c: nat)
    requires c < 3
    ensures Channel(Mono8ToBgr(src), c) == src
    ensures forall i :: 0 <= i < |src| ==> Bytes(Mono8ToBgr(src))[3 * i + c] == src[i]
  {
  }

  /** The 16-bit little-endian sample `i` of the buffer. */
  function Sample16(data: seq<Byte>, i: nat): (s: nat)
    requires 2 * i + 1 < |data|
    ensures s < 0x1_0000
    ensures s % 256 == data[2 * i] && s / 256 == data[2 * i + 1]
  {
    (data[2 * i] as nat) + 256 * (data[2 * i + 1] as nat)
  }

  /** `(unsigned char)(sample >> shift)`. */
  function Grey16(sample: nat, shift: nat): Byte
  {
    Shr(sample, shift) % 256
  }

  /** Mono16: `count` samples, each shifted down to a byte and written as grey. */
  function Mono16ToBgr(data: seq<Byte>, count: nat, shift: nat): seq<Bgr>
    requires 2 * count <= |data|
  {
    seq(count, i requires 0 <= i < count => Grey(Grey16(Sample16(data, i), shift)))
  }

  /** For a sample that fits its bit depth (8 to 16 bits), the grey level is
      exactly its 8 most significant bits: the byte cast cuts nothing off. */
  lemma Mono16KeepsTopBits(sample: nat, bitDepth: nat)
    requires 8 <= bitDepth <= 16 && sample < Pow2(bitDepth)
    ensures Grey16(sample, (bitDepth - 8) % 256) == sample / Pow2(bitDepth - 8)
    ensures Grey16(sample, (bitDepth - 8) % 256) * Pow2(bitDepth - 8) <= sample
    ensures sample < (Grey16(sample, (bitDepth - 8) % 256) + 1) * Pow2(bitDepth - 8)
  {
    var w := bitDepth - 8;
    assert w % 256 == w;
    var q := Shr(sample, w);
    assert q == sample / Pow2(w);
    ShrToByte(sample, bitDepth);
    assert Grey16(sample, w) == q;
    DivBounds(sample, Pow2(w));
  }

  /** At a bit depth of 8 the Mono16 conversion is the low byte of each sample. */
  lemma Mono16AtEightBits(data: seq<Byte>, count: nat)
    requires 2 * count <= |data|
    ensures forall i :: 0 <= i < count ==>
      Mono16ToBgr(data, count, 0)[i] == Grey(data[2 * i])
  {
    assert Pow2(0) == 1;
  }

  // ---------------------------------------------------------------- colour

  /** Rgb24: `n` triples, each written with red and blue exchanged. */
  function Rgb24ToBgr(data: seq<Byte>, n: nat): seq<Bgr>
    requires 3 * n <= |data|
  {
    seq(n, j requires 0 <= j < n => Bgr(data[3 * j + 2], data[3 * j + 1], data[3 * j]))
  }

  /** The RGB path is the BGR reading of the same bytes with red and blue
      exchanged. */
  lemma Rgb24IsSwappedTriples(data: seq<Byte>, n: nat)
    requires 3 * n <= |data|
    ensures forall j :: 0 <= j < n ==> Rgb24ToBgr(data, n)[j] == Swap(Triples(data, n)[j])
  {
  }

  /** Converting the converted image again gives the original triples back. */
  lemma Rgb24SwapTwice(data: seq<Byte>, n: nat)
    requires 3 * n <= |data|
    ensures Bytes(Rgb24ToBgr(Bytes(Rgb24ToBgr(data, n)), n)) == data[..3 * n]
  {
    var once := Rgb24ToBgr(data, n);
    assert Rgb24ToBgr(Bytes(once), n) == Triples(data, n);
    BytesOfTriples(data, n);
  }

  /** Converting an RGB image gives what copying the same image stored
      in BGR order gives: the two paths agree. */
  lemma Rgb24AgreesWithBgr24(f: Frame)
    requires f.format == Rgb24 && f.imageSize % 3 == 0 && f.imageSize <= |f.data|
    ensures var g := f.(format := Bgr24, data := Bytes(Rgb24ToBgr(f.data, f.imageSize / 3)));
      ConvertToBgr(Some(f), Needed(f), true) == ConvertToBgr(Some(g), Needed(g), true)
  {
    var n := f.imageSize / 3;
    assert CeilDiv(f.imageSize, 3) == n;
    var g := f.(format := Bgr24, data := Bytes(Rgb24ToBgr(f.data, n)));
    assert g.data[..g.imageSize] == g.data;
  }

  /** Rgba32: `n` quadruples, alpha dropped, red and blue exchanged. */
  function Rgba32ToBgr(data: seq<Byte>, n: nat): seq<Bgr>
    requires n == 0 || 4 * n - 1 <= |data|
  {
    seq(n, j requires 0 <= j < n => Bgr(data[4 * j + 2], data[4 * j + 1], data[4 * j]))
  }

  /** Bgra32: `n` quadruples, alpha dropped, order kept. */
  function Bgra32ToBgr(data: seq<Byte>, n: nat): seq<Bgr>
    requires n == 0 || 4 * n - 1 <= |data|
  {
    seq(n, j requires 0 <= j < n => Bgr(data[4 * j], data[4 * j + 1], data[4 * j + 2]))
  }

  /** Two buffers that differ only in their alpha bytes convert alike. */
  lemma AlphaIgnored(a: seq<Byte>, b: seq<Byte>, n: nat)
    requires n > 0 && 4 * n - 1 <= |a| && 4 * n - 1 <= |b|
    requires forall k :: 0 <= k < 4 * n - 1 && k % 4 != 3 ==> a[k] == b[k]
    ensures Rgba32ToBgr(a, n) == Rgba32ToBgr(b, n)
    ensures Bgra32ToBgr(a, n) == Bgra32ToBgr(b, n)
  {
    forall j | 0 <= j < n
      ensures Bgra32ToBgr(a, n)[j] == Bgra32ToBgr(b, n)[j]
    {
      AlphaFree(a, b, n, j);
    }
    forall j | 0 <= j < n
      ensures Rgba32ToBgr(a, n)[j] == Rgba32ToBgr(b, n)[j]
    {
      AlphaFree(a, b, n, j);
    }
  }

  lemma AlphaFree(a: seq<Byte>, b: seq<Byte>, n: nat, j: nat)
    requires j < n && 4 * n - 1 <= |a| && 4 * n - 1 <= |b|
    requires forall k :: 0 <= k < 4 * n - 1 && k % 4 != 3 ==> a[k] == b[k]
    ensures a[4 * j] == b[4 * j] && a[4 * j + 1] == b[4 * j + 1] && a[4 * j + 2] == b[4 * j + 2]
  {
    assert (4 * j) % 4 == 0 && (4 * j + 1) % 4 == 1 && (4 * j + 2) % 4 == 2;
  }

  /** The RGBA path is the BGRA path with red and blue exchanged. */
  lemma RgbaIsSwappedBgra(data: seq<Byte>, n: nat)
    requires n == 0 || 4 * n - 1 <= |data|
    ensures |Rgba32ToBgr(data, n)| == |Bgra32ToBgr(data, n)| == n
    ensures forall j :: 0 <= j < n ==> Rgba32ToBgr(data, n)[j] == Swap(Bgra32ToBgr(data, n)[j])
  {
  }

  // ---------------------------------------------------------------- mono 12 packed

  /** Three bytes holding two 12-bit pixels: the low byte, the shared middle
      byte and the upper byte, in memory order. */
  datatype Packed12 = Packed12(lByte: Byte, mByte: Byte, uByte: Byte)

  function Groups(data: seq<Byte>, n: nat): (gs: seq<Packed12>)
    requires 3 * n <= |data|
    ensures |gs| == n
  {
    seq(n, j requires 0 <= j < n => Packed12(data[3 * j], data[3 * j + 1], data[3 * j + 2]))
  }

  /** First pixel of a group: `LByte << 4` plus the high nibble of the middle byte. */
  function FirstPixel(g: Packed12): (p: nat)
    ensures p < 0x1000 && p / 16 == g.lByte
  {
    g.lByte * 16 + (g.mByte / 16) % 16
  }

  /** Second pixel as the source computes it: the low nibble of the middle
      byte is shifted right by four more bits, so it always adds 0. */
  function SecondPixel(g: Packed12): (p: nat)
    ensures p < 0x1000 && p / 16 == g.uByte
  {
    g.uByte * 16 + (g.mByte % 16) / 16
  }

  /** The pixels of the groups in order, two per group. */
  function Pixels(gs: seq<Packed12>): (ps: seq<nat>)
    ensures |ps| == 2 * |gs|
    ensures forall j :: 0 <= j < |gs| ==> ps[2 * j] == FirstPixel(gs[j]) && ps[2 * j + 1] == SecondPixel(gs[j])
  {
    if |gs| == 0 then [] else [FirstPixel(gs[0]), SecondPixel(gs[0])] + Pixels(gs[1..])
  }

  /** Grey pixels, each `(unsigned char)(pixel >> shift)`. */
  function GreyPixels(ps: seq<nat>, shift: nat): seq<Bgr>
  {
    seq(|ps|, i requires 0 <= i < |ps| => Grey(Shr(ps[i], shift) % 256))
  }

  /** Number of pixels the source loop writes: one per pixel while the write
      position is still before the end of the target. */
  function WrittenAsIs(gs: seq<Packed12>, tgtLen: nat): nat
  {
    if 2 * |gs| < CeilDiv(tgtLen, 3) then 2 * |gs| else CeilDiv(tgtLen, 3)
  }

  /** Mono12Packed as the source does it: a pixel is written, three bytes at a
      time, whenever the write position is still before the end of the target;
      so the last pixel can run up to two bytes past `tgtLen`. */
  function Mono12PackedWritten(gs: seq<Packed12>, tgtLen: nat, shift: nat): (out: seq<Bgr>)
    ensures |out| <= 2 * |gs| && 3 * |out| < tgtLen + 3
    ensures |out| == 2 * |gs| || 3 * |out| >= tgtLen
    ensures forall i :: 0 <= i < |out| ==> out[i] == Grey(Shr(Pixels(gs)[i], shift) % 256)
  {
    GreyPixels(Pixels(gs)[..WrittenAsIs(gs, tgtLen)], shift)
  }

  /** The source's loop over the packed groups, which computes
      `Mono12PackedWritten`. */
  method Mono12PackedAsWritten(gs: seq<Packed12>, tgtLen: nat, shift: nat) returns (out: seq<Bgr>)
    ensures out == Mono12PackedWritten(gs, tgtLen, shift)
    ensures 3 * |out| < tgtLen + 3
    ensures tgtLen % 3 == 0 ==> out == Mono12PackedToBgr(gs, tgtLen, shift)
  {
    var ps := Pixels(gs);
    var limit := CeilDiv(tgtLen, 3);
    out := [];
    var j := 0;
    while j < |gs|
      invariant 0 <= j <= |gs|
      invariant out == GreyPixels(ps[..if 2 * j < limit then 2 * j else limit], shift)
    {
      if 3 * |out| < tgtLen {
        out := out + [Grey(Shr(ps[2 * j], shift) % 256)];
        assert ps[..2 * j + 1] == ps[..2 * j] + [ps[2 * j]];
        if 3 * |out| < tgtLen {
          out := out + [Grey(Shr(ps[2 * j + 1], shift) % 256)];
          assert ps[..2 * j + 2] == ps[..2 * j + 1] + [ps[2 * j + 1]];
        }
      }
      j := j + 1;
    }
  }

  /** The smallest case: one 1x1 frame (two bytes of image, one packed group)
      and a target one byte longer than the image needs; the source writes
      six bytes into a four-byte target. */
  method Mono12PackedOverrun() returns (written: nat)
    ensures written == 6 && written > 4
  {
    var out := Mono12PackedAsWritten([Packed12(1, 2, 3)], 4, 4);
    written := 3 * |out|;
  }

  /** Mono12Packed with the guard the bound check evidently means: a pixel is
      written only when all three of its bytes fit in the target. */
  function Mono12PackedToBgr(gs: seq<Packed12>, tgtLen: nat, shift: nat): (out: seq<Bgr>)
    ensures 3 * |out| <= tgtLen && |out| <= 2 * |gs|
    ensures |out| == 2 * |gs| || 3 * |out| + 3 > tgtLen
    ensures out == GreyPixels(Pixels(gs)[..|out|], shift)
  {
    var ps := Pixels(gs);
    var k := if 2 * |gs| < tgtLen / 3 then 2 * |gs| else tgtLen / 3;
    GreyPixels(ps[..k], shift)
  }

  /** At 12 bits the shift of 4 drops the nibble the second pixel loses, so
      the grey levels are just the low and upper bytes of the group. */
  lemma Mono12At12Bits(g: Packed12)
    ensures Shr(FirstPixel(g), 4) % 256 == g.lByte
    ensures Shr(SecondPixel(g), 4) % 256 == g.uByte
    ensures Shr(SecondPixel(g), 4) == Shr(g.uByte * 16 + g.mByte % 16, 4)
  {
    assert Pow2(4) == 16;
  }

  // ---------------------------------------------------------------- written bytes

  /** The frame passes the checks before the format switch. */
  predicate Converts(f: Frame, tgtLen: nat)
  {
    ReadsInside(f) && Needed(f) <= tgtLen
  }

  /** Mono8 writes every image byte three times. */
  lemma ConvertMono8(f: Frame, tgtLen: nat)
    requires Converts(f, tgtLen) && f.format == Mono8
    ensures var r := ConvertToBgr(Some(f), tgtLen, true);
      r.Written? && |r.bytes| == 3 * f.imageSize
      && forall i :: 0 <= i < f.imageSize ==>
        r.bytes[3 * i] == f.data[i] && r.bytes[3 * i + 1] == f.data[i] && r.bytes[3 * i + 2] == f.data[i]
  {
    var ps := Mono8ToBgr(f.data[..f.imageSize]);
    assert ConvertToBgr(Some(f), tgtLen, true) == Written(Bytes(ps));
    forall i | 0 <= i < f.imageSize
      ensures ps[i] == Grey(f.data[i])
    {
    }
  }

  /** Mono16 writes every 16-bit sample, shifted down to a byte, three times. */
  lemma ConvertMono16(f: Frame, tgtLen: nat)
    requires Converts(f, tgtLen) && f.format == Mono16
    ensures var r, n := ConvertToBgr(Some(f), tgtLen, true), f.imageSize / 2;
      r.Written? && |r.bytes| == 3 * n
      && forall i :: 0 <= i < n ==>
        var v := Grey16(Sample16(f.data, i), Shift(f));
        r.bytes[3 * i] == v && r.bytes[3 * i + 1] == v && r.bytes[3 * i + 2] == v
  {
    var n := f.imageSize / 2;
    var ps := Mono16ToBgr(f.data, n, Shift(f));
    assert ConvertToBgr(Some(f), tgtLen, true) == Written(Bytes(ps));
    forall i | 0 <= i < n
      ensures Bytes(ps)[3 * i] == Bytes(ps)[3 * i + 1] == Bytes(ps)[3 * i + 2] == Grey16(Sample16(f.data, i), Shift(f))
    {
      assert ps[i] == Grey(Grey16(Sample16(f.data, i), Shift(f)));
    }
  }

  /** Bgr24 copies the image. */
  lemma ConvertBgr24(f: Frame, tgtLen: nat)
    requires Converts(f, tgtLen) && f.format == Bgr24
    ensures ConvertToBgr(Some(f), tgtLen, true) == Written(f.data[..f.imageSize])
  {
  }

  /** Rgb24 writes each triple with red and blue exchanged. */
  lemma ConvertRgb24(f: Frame, tgtLen: nat)
    requires Converts(f, tgtLen) && f.format == Rgb24
    ensures var r, n := ConvertToBgr(Some(f), tgtLen, true), CeilDiv(f.imageSize, 3);
      r.Written? && |r.bytes| == 3 * n
      && forall j :: 0 <= j < n ==>
        r.bytes[3 * j] == f.data[3 * j + 2] && r.bytes[3 * j + 1] == f.data[3 * j + 1] && r.bytes[3 * j + 2] == f.data[3 * j]
  {
    var ps := Rgb24ToBgr(f.data, CeilDiv(f.imageSize, 3));
    assert ConvertToBgr(Some(f), tgtLen, true) == Written(Bytes(ps));
    forall j | 0 <= j < |ps|
      ensures Bytes(ps)[3 * j] == f.data[3 * j + 2] && Bytes(ps)[3 * j + 1] == f.data[3 * j + 1] && Bytes(ps)[3 * j + 2] == f.data[3 * j]
    {
      assert ps[j] == Bgr(f.data[3 * j + 2], f.data[3 * j + 1], f.data[3 * j]);
    }
  }

  /** Rgba32 drops the alpha byte of each quadruple and exchanges red and blue. */
  lemma ConvertRgba32(f: Frame, tgtLen: nat)
    requires Converts(f, tgtLen) && f.format == Rgba32
    ensures var r, n := ConvertToBgr(Some(f), tgtLen, true), CeilDiv(f.imageSize, 4);
      r.Written? && |r.bytes| == 3 * n
      && forall j :: 0 <= j < n ==>
        r.bytes[3 * j] == f.data[4 * j + 2] && r.bytes[3 * j + 1] == f.data[4 * j + 1] && r.bytes[3 * j + 2] == f.data[4 * j]
  {
    var ps := Rgba32ToBgr(f.data, CeilDiv(f.imageSize, 4));
    assert ConvertToBgr(Some(f), tgtLen, true) == Written(Bytes(ps));
    forall j | 0 <= j < |ps|
      ensures Bytes(ps)[3 * j] == f.data[4 * j + 2] && Bytes(ps)[3 * j + 1] == f.data[4 * j + 1] && Bytes(ps)[3 * j + 2] == f.data[4 * j]
    {
      assert ps[j] == Bgr(f.data[4 * j + 2], f.data[4 * j + 1], f.data[4 * j]);
    }
  }

  /** Bgra32 drops the alpha byte of each quadruple. */
  lemma ConvertBgra32(f: Frame, tgtLen: nat)
    requires Converts(f, tgtLen) && f.format == Bgra32
    ensures var r, n := ConvertToBgr(Some(f), tgtLen, true), CeilDiv(f.imageSize, 4);
      r.Written? && |r.bytes| == 3 * n
      && forall j :: 0 <= j < n ==>
        r.bytes[3 * j] == f.data[4 * j] && r.bytes[3 * j + 1] == f.data[4 * j + 1] && r.bytes[3 * j + 2] == f.data[4 * j + 2]
  {
    var ps := Bgra32ToBgr(f.data, CeilDiv(f.imageSize, 4));
    assert ConvertToBgr(Some(f), tgtLen, true) == Written(Bytes(ps));
    forall j | 0 <= j < |ps|
      ensures Bytes(ps)[3 * j] == f.data[4 * j] && Bytes(ps)[3 * j + 1] == f.data[4 * j + 1] && Bytes(ps)[3 * j + 2] == f.data[4 * j + 2]
    {
      assert ps[j] == Bgr(f.data[4 * j], f.data[4 * j + 1], f.data[4 * j + 2]);
    }
  }

  /** Mono12Packed writes, three times each, the grey level of every pixel
      the source loop reaches: all of them, or as many as start before the
      end of the target, the last one possibly running past it. */
  lemma ConvertMono12(f: Frame, tgtLen: nat)
    requires Converts(f, tgtLen) && f.format == Mono12Packed
    ensures var r, gs := ConvertToBgr(Some(f), tgtLen, true), Groups(f.data, CeilDiv(f.imageSize, 3));
      r.Written? && |r.bytes| == 3 * WrittenAsIs(gs, tgtLen) && |r.bytes| < tgtLen + 3
      && forall i :: 0 <= i < WrittenAsIs(gs, tgtLen) ==>
        var v := Shr(Pixels(gs)[i], Shift(f)) % 256;
        r.bytes[3 * i] == v && r.bytes[3 * i + 1] == v && r.bytes[3 * i + 2] == v
  {
    var gs := Groups(f.data, CeilDiv(f.imageSize, 3));
    var ps := Mono12PackedWritten(gs, tgtLen, Shift(f));
    assert ConvertToBgr(Some(f), tgtLen, true) == Written(Bytes(ps));
    assert |ps| == WrittenAsIs(gs, tgtLen);
  }

  // ---------------------------------------------------------------- target size

  /** For a frame whose image size matches its geometry, the bytes written
      fit in any target that passed the size check. */
  lemma WrittenFitsTarget(f: Frame, tgtLen: nat)
    requires ReadsInside(f)
    requires f.width * f.height * 3 < U32
    requires f.format in {Mono8, Mono16, Rgb24, Bgr24, Rgba32, Bgra32}
    requires f.imageSize == f.width * f.height * BytesPerPixel(f.format)
    ensures ConvertToBgr(Some(f), tgtLen, true).Written? ==> |ConvertToBgr(Some(f), tgtLen, true).bytes| <= tgtLen
  {
    var wh := f.width * f.height;
    CeilDivExact(wh, BytesPerPixel(f.format));
    assert Needed(f) == 3 * wh;
  }

  /** Bytes per pixel of the unpacked formats. */
  function BytesPerPixel(p: PixelFormat): nat
  {
    match p
    case Mono16 => 2
    case Rgb24 => 3
    case Bgr24 => 3
    case Rgba32 => 4
    case Bgra32 => 4
    case _ => 1
  }
}

=== FILE: cam_setup.dfy ===
/** The camera-setup sample: it saves every writable attribute of a camera
    as a `label = value` line of a text file, and loads such a file back,
    line by line, into a camera. The camera is modelled as a map from
    attribute name to the attribute's type, write flag and current value;
    what the vendor library does when a value is set is modelled by
    `SetValue`. */
module CamSetup {
  import opened Wrappers
  import opened CStrings
  import Arith

  // ---------------------------------------------------------------- strtrim

  /** The string with its trailing white space cut off. */
  function TrimRight(s: string): (r: string)
    ensures |r| <= |s| && r == s[..|r|]
    ensures |r| > 0 ==> !IsSpace(r[|r| - 1])
    ensures forall i :: |r| <= i < |s| ==> IsSpace(s[i])
  {
    if |s| > 0 && IsSpace(s[|s| - 1]) then TrimRight(s[..|s| - 1]) else s
  }

  /** `strtrim`: trailing white space is cut first, then the result starts
      after the leading white space. */
  function StrTrim(s: string): (r: string)
    ensures |r| <= |s|
    ensures |r| > 0 ==> !IsSpace(r[0]) && !IsSpace(r[|r| - 1])
  {
    SkipSpace(TrimRight(s))
  }

  /** The trimmed string is the slice of the input between its leading and
      trailing runs of white space: nothing inside it changes. */
  lemma StrTrimIsSlice(s: string)
    ensures var r := StrTrim(s); var lo := |TrimRight(s)| - |r|;
      0 <= lo <= |s| - |r| && r == s[lo..lo + |r|]
      && (forall i :: 0 <= i < lo ==> IsSpace(s[i]))
      && (forall i :: lo + |r| <= i < |s| ==> IsSpace(s[i]))
  {
    var t := TrimRight(s);
    var r := StrTrim(s);
    var lo := |t| - |r|;
    assert t == s[..|t|];
    assert r == t[lo..];
    assert r == s[lo..lo + |r|];
    SkipSpaceSkipsSpace(t);
    forall i | 0 <= i < lo
      ensures IsSpace(s[i])
    {
      assert s[i] == t[i];
    }
  }

  lemma {:induction false} SkipSpaceSkipsSpace(s: string)
    ensures forall i :: 0 <= i < |s| - |SkipSpace(s)| ==> IsSpace(s[i])
  {
    if |s| > 0 && IsSpace(s[0]) {
      SkipSpaceSkipsSpace(s[1..]);
    }
  }

  /** Trimming twice trims nothing more. */
  lemma StrTrimIdempotent(s: string)
    ensures StrTrim(StrTrim(s)) == StrTrim(s)
  {
    var r := StrTrim(s);
    TrimRightKeeps(r, "");
    assert r + "" == r;
    SkipSpaceKeeps("", r);
    assert "" + r == r;
  }

  /** White space after a string that does not end in white space is cut. */
  lemma {:induction false} TrimRightKeeps(s: string, spaces: string)
    requires |s| == 0 || !IsSpace(s[|s| - 1])
    requires forall i :: 0 <= i < |spaces| ==> IsSpace(spaces[i])
    ensures TrimRight(s + spaces) == s
    decreases |spaces|
  {
    if |spaces| > 0 {
      var t := s + spaces;
      assert t[..|t| - 1] == s + spaces[..|spaces| - 1];
      TrimRightKeeps(s, spaces[..|spaces| - 1]);
    } else {
      assert s + spaces == s;
    }
  }

  /** White space before a string that does not start with white space is skipped. */
  lemma {:induction false} SkipSpaceKeeps(spaces: string, s: string)
    requires |s| == 0 || !IsSpace(s[0])
    requires forall i :: 0 <= i < |spaces| ==> IsSpace(spaces[i])
    ensures SkipSpace(spaces + s) == s
    decreases |spaces|
  {
    if |spaces| > 0 {
      assert (spaces + s)[1..] == spaces[1..] + s;
      SkipSpaceKeeps(spaces[1..], s);
    } else {
      assert spaces + s == s;
    }
  }

  // ---------------------------------------------------------------- the camera

  /** The attribute types of the camera API that this sample distinguishes;
      `Other` stands for the types it neither saves nor loads. */
  datatype AttrType =
    | StringAttr
    | EnumAttr(choices: set<string>)
    | Uint32Attr(min: nat, max: nat)
    | Float32Attr(lo: real, hi: real)
    | CommandAttr
    | Other

  /** One attribute: its type, whether it is writable, and its value, held in
      `text` for strings and enumerations, in `number` for integers and in
      `float` for floating-point attributes. */
  datatype Attr = Attr(kind: AttrType, writable: bool, text: string, number: nat, float: real)

  type Camera = map<string, Attr>

  /** The C library's conversions between a `tPvFloat32` and text, which the
      model does not spell out: `sprintf` with `%g`, and `atof` followed by
      the cast to `tPvFloat32`. */
  datatype FloatText = FloatText(show: real -> string, read: string -> real)

  /** Attributes the sample saves and loads: writable and not commands. */
  predicate Persistent(a: Attr)
  {
    a.kind != CommandAttr && a.writable
  }

  /** `Value2String`: the text of the attribute's value, `%lu` for integers
      and `%g` for floats; None for a type it does not handle. */
  function ValueText(a: Attr, ft: FloatText): (r: Option<string>)
    ensures r.Some? <==> a.kind.StringAttr? || a.kind.EnumAttr? || a.kind.Uint32Attr? || a.kind.Float32Attr?
    ensures a.kind.StringAttr? || a.kind.EnumAttr? ==> r == Some(a.text)
    ensures a.kind.Uint32Attr? ==> r.Some? && Atol(r.value) == a.number
    ensures a.kind.Float32Attr? ==> r == Some(ft.show(a.float))
  {
    match a.kind
    case StringAttr => Some(a.text)
    case EnumAttr(_) => Some(a.text)
    case Uint32Attr(_, _) => ParseFormat(a.number, 10, ""); assert Format(a.number, 10) + "" == Format(a.number, 10); Some(Format(a.number, 10))
    case Float32Attr(_, _) => Some(ft.show(a.float))
    case _ => None
  }

  /** The value the sample sets for an integer attribute: `atol` stored in
      an unsigned 32-bit variable, then raised to the minimum or lowered to
      the maximum of the attribute's range. */
  function ClampUint32(text: string, min: nat, max: nat): (v: nat)
    ensures min <= max ==> min <= v <= max
    ensures var x := Arith.ToU32(Atol(text)); min <= x <= max ==> v == x
    ensures v == min || v == max || v == Arith.ToU32(Atol(text))
  {
    var x := Arith.ToU32(Atol(text));
    if min > x then min else if max < x then max else x
  }

  /** The value the sample sets for a floating-point attribute: the parsed
      value raised to the minimum or lowered to the maximum of the range. */
  function ClampFloat32(x: real, lo: real, hi: real): (v: real)
    ensures lo <= hi ==> lo <= v <= hi
    ensures lo <= x <= hi ==> v == x
    ensures v == lo || v == hi || v == x
  {
    if lo > x then lo else if hi < x then hi else x
  }

  /** `String2Value`: the attribute after setting it from text, or None when
      the setting fails. An enumeration accepts only one of its choices; the
      numeric types are clamped to their range. */
  function SetValue(a: Attr, value: string, ft: FloatText): (r: Option<Attr>)
    ensures r.Some? <==> (a.kind.StringAttr? || a.kind.Uint32Attr? || a.kind.Float32Attr?
                          || (a.kind.EnumAttr? && value in a.kind.choices))
    ensures r.Some? ==> r.value.kind == a.kind && r.value.writable == a.writable
    ensures r.Some? && (a.kind.StringAttr? || a.kind.EnumAttr?) ==> r.value == a.(text := value)
    ensures r.Some? && a.kind.Uint32Attr? ==>
      r.value.text == a.text && r.value.float == a.float
      && (a.kind.min <= a.kind.max ==> a.kind.min <= r.value.number <= a.kind.max)
    ensures r.Some? && a.kind.Float32Attr? ==>
      r.value.text == a.text && r.value.number == a.number
      && (a.kind.lo <= a.kind.hi ==> a.kind.lo <= r.value.float <= a.kind.hi)
  {
    match a.kind
    case StringAttr => Some(a.(text := value))
    case EnumAttr(choices) => if value in choices then Some(a.(text := value)) else None
    case Uint32Attr(min, max) => Some(a.(number := ClampUint32(value, min, max)))
    case Float32Attr(lo, hi) => Some(a.(float := ClampFloat32(ft.read(value), lo, hi)))
    case _ => None
  }

  /** `WriteAttribute`: the line saved for an attribute, if any. */
  function WriteAttribute(cam: Camera, name: string, ft: FloatText): (line: Option<string>)
    ensures line.Some? ==> name in cam && Persistent(cam[name])
    ensures line.Some? ==>
      ValueText(cam[name], ft).Some? && line.value == name + " = " + ValueText(cam[name], ft).value + "\n"
    ensures name in cam && Persistent(cam[name]) && ValueText(cam[name], ft).Some? ==> line.Some?
  {
    if name in cam && Persistent(cam[name]) then
      match ValueText(cam[name], ft)
      case Some(v) => Some(name + " = " + v + "\n")
      case None => None
    else None
  }

  /** What loading one line did. */
  datatype LoadResult = Ignored | Loaded | CouldNotLoad

  /** The name and value of a line: the text before and after its first
      '=', each trimmed. None for a line with no '='. */
  function SplitLine(line: string): (r: Option<(string, string)>)
    ensures r.None? <==> '=' !in line
    ensures r.Some? ==> '=' !in r.value.0
  {
    match Find(line, '=')
    case None => None
    case Some(i) => Some((StrTrim(line[..i]), StrTrim(line[i + 1..])))
  }

  /** `ReadAttribute`: a line with no '=', an empty name or value, an
      unknown name, or an attribute that is a command or read-only is
      ignored; otherwise the value is set, and a failed setting is
      reported. */
  function ReadAttribute(cam: Camera, line: string, ft: FloatText): (r: (Camera, LoadResult))
    ensures r.0.Keys == cam.Keys
    ensures r.1 != Loaded ==> r.0 == cam
    ensures r.1 == Loaded ==>
      (SplitLine(line).Some? &&
       var name := SplitLine(line).value.0;
       name in cam && Persistent(cam[name]) && r.0 == cam[name := r.0[name]])
  {
    match SplitLine(line)
    case None => (cam, Ignored)
    case Some((name, value)) =>
      if |name| == 0 || |value| == 0 || name !in cam || !Persistent(cam[name]) then (cam, Ignored)
      else match SetValue(cam[name], value, ft)
        case None => (cam, CouldNotLoad)
        case Some(a) => (cam[name := a], Loaded)
  }

  // ---------------------------------------------------------------- files

  /** The text of a file written line by line. */
  function FileText(lines: seq<string>): string
  {
    if |lines| == 0 then "" else lines[0] + FileText(lines[1..])
  }

  /** The size of the `fgets` line buffer. */
  const LineBuffer: nat := 256

  /** The length of what one `fgets(lLine, 256, lFile)` reads: up to and
      including the first newline, and at most 255 characters. */
  function PieceLength(text: string): (n: nat)
    requires |text| > 0
    ensures 0 < n <= |text| && n < LineBuffer
    ensures '\n' !in text[..n - 1]
    ensures text[n - 1] == '\n' || n == |text| || n == LineBuffer - 1
  {
    var m := if |text| < LineBuffer - 1 then |text| else LineBuffer - 1;
    match Find(text[..m], '\n')
    case Some(i) => assert text[..i + 1][..i] == text[..m][..i]; i + 1
    case None => assert text[..m - 1] == text[..m][..m - 1]; m
  }

  /** The lines the loading loop reads from a file: `fgets` until the end of
      the file. */
  function Fgets(text: string): (lines: seq<string>)
    ensures FileText(lines) == text
    ensures forall j :: 0 <= j < |lines| ==> 0 < |lines[j]| < LineBuffer
    decreases |text|
  {
    if |text| == 0 then []
    else
      var n := PieceLength(text);
      var rest := Fgets(text[n..]);
      assert ([text[..n]] + rest)[1..] == rest;
      assert text[..n] + text[n..] == text;
      [text[..n]] + rest
  }

  /** A line `fgets` reads whole: it ends in its only newline and fits the
      buffer. */
  predicate WholeLine(line: string)
  {
    0 < |line| < LineBuffer && line[|line| - 1] == '\n' && '\n' !in line[..|line| - 1]
  }

  predicate AllWhole(lines: seq<string>)
  {
    forall j :: 0 <= j < |lines| ==> WholeLine(lines[j])
  }

  /** A file of whole lines is read back line by line. */
  lemma {:induction false} FgetsLines(lines: seq<string>)
    requires AllWhole(lines)
    ensures Fgets(FileText(lines)) == lines
    decreases |lines|
  {
    if |lines| > 0 {
      var line, text := lines[0], FileText(lines);
      assert text == line + FileText(lines[1..]);
      assert text[..|line|] == line;
      FirstPiece(line, FileText(lines[1..]));
      assert text[|line|..] == FileText(lines[1..]);
      FgetsLines(lines[1..]);
      assert lines == [line] + lines[1..];
    }
  }

  lemma FirstPiece(line: string, rest: string)
    requires WholeLine(line)
    ensures PieceLength(line + rest) == |line|
  {
    var text := line + rest;
    var m := if |text| < LineBuffer - 1 then |text| else LineBuffer - 1;
    var i := |line| - 1;
    assert text[..m][i] == '\n';
    assert text[..m][..i] == line[..i];
    FindFirst(text[..m], '\n', i);
  }

  /** `SetupLoad`: the lines read one after the other. */
  function LoadLines(cam: Camera, lines: seq<string>, ft: FloatText): (r: Camera)
    ensures r.Keys == cam.Keys
    decreases |lines|
  {
    if |lines| == 0 then cam else LoadLines(ReadAttribute(cam, lines[0], ft).0, lines[1..], ft)
  }

  /** `SetupLoad`: the file read with `fgets`, one line at a time. */
  function SetupLoad(cam: Camera, text: string, ft: FloatText): (r: Camera)
    ensures r.Keys == cam.Keys
    ensures forall lines :: FileText(lines) == text && AllWhole(lines) ==> r == LoadLines(cam, lines, ft)
  {
    forall lines | FileText(lines) == text && AllWhole(lines)
      ensures Fgets(text) == lines
    {
      FgetsLines(lines);
    }
    LoadLines(cam, Fgets(text), ft)
  }

  /** The lines `write` gives for the listed names, in the order of the
      list; names it gives no line for are skipped. */
  function Collect(names: seq<string>, write: string -> Option<string>): (lines: seq<string>)
    ensures |lines| <= |names|
  {
    if |names| == 0 then []
    else
      var rest := Collect(names[1..], write);
      match write(names[0])
      case Some(line) => [line] + rest
      case None => rest
  }

  /** The line `WriteAttribute` saves for each attribute name. */
  function Writer(cam: Camera, ft: FloatText): string -> Option<string>
  {
    name => WriteAttribute(cam, name, ft)
  }

  /** `SetupSave`: the `WriteAttribute` line of every listed attribute that
      is saved, in the order of the list. */
  function SetupSave(cam: Camera, names: seq<string>, ft: FloatText): (lines: seq<string>)
    ensures |lines| <= |names|
    ensures forall j :: 0 <= j < |lines| ==> exists i :: 0 <= i < |names| && WriteAttribute(cam, names[i], ft) == Some(lines[j])
    ensures forall i :: 0 <= i < |names| && WriteAttribute(cam, names[i], ft).Some? ==>
      WriteAttribute(cam, names[i], ft).value in lines
  {
    var lines := Collect(names, Writer(cam, ft));
    CollectLines(names, Writer(cam, ft));
    var at := Positions(names, Writer(cam, ft));
    forall i | 0 <= i < |names| && WriteAttribute(cam, names[i], ft).Some?
      ensures WriteAttribute(cam, names[i], ft).value in lines
    {
      assert Written(names, i, Writer(cam, ft));
      var j :| 0 <= j < |at| && at[j] == i;
      assert lines[j] == WriteAttribute(cam, names[i], ft).value;
    }
    forall j | 0 <= j < |lines|
      ensures exists i :: 0 <= i < |names| && WriteAttribute(cam, names[i], ft) == Some(lines[j])
    {
      var i := Positions(names, Writer(cam, ft))[j];
      assert Writer(cam, ft)(names[i]) == Some(lines[j]);
    }
    lines
  }

  /** The list position `i` gets a line. */
  predicate Written(names: seq<string>, i: int, write: string -> Option<string>)
  {
    0 <= i < |names| && write(names[i]).Some?
  }

  /** The positions in the list of the names that get a line. */
  function Positions(names: seq<string>, write: string -> Option<string>): seq<nat>
  {
    PositionsFrom(names, write, 0)
  }

  /** The positions of the names that get a line, counted from `base`. */
  function PositionsFrom(names: seq<string>, write: string -> Option<string>, base: nat): seq<nat>
    decreases |names|
  {
    if |names| == 0 then []
    else
      var rest := PositionsFrom(names[1..], write, base + 1);
      if write(names[0]).Some? then [base] + rest else rest
  }

  /** The collected lines are, one for one and in order, the lines of the
      positions that get one, and those are exactly the positions whose
      name gets a line. */
  lemma CollectLines(names: seq<string>, write: string -> Option<string>)
    ensures var at, lines := Positions(names, write), Collect(names, write);
      |at| == |lines|
      && (forall j :: 0 <= j < |at| ==> at[j] < |names| && write(names[at[j]]) == Some(lines[j]))
      && (forall j, k :: 0 <= j < k < |at| ==> at[j] < at[k])
      && (forall i :: Written(names, i, write) <==> i in at)
  {
    PositionsLines(names, write, 0);
    PositionsIncrease(names, write, 0);
    PositionsExact(names, write, 0);
  }

  lemma {:induction false} PositionsLength(names: seq<string>, write: string -> Option<string>, base: nat)
    ensures |PositionsFrom(names, write, base)| == |Collect(names, write)|
    decreases |names|
  {
    if |names| > 0 {
      PositionsLength(names[1..], write, base + 1);
    }
  }

  lemma PositionsLines(names: seq<string>, write: string -> Option<string>, base: nat)
    ensures var at, lines := PositionsFrom(names, write, base), Collect(names, write);
      |at| == |lines|
      && forall j :: 0 <= j < |at| ==>
        base <= at[j] < base + |names| && write(names[at[j] - base]) == Some(lines[j])
  {
    PositionsLength(names, write, base);
    forall j | 0 <= j < |PositionsFrom(names, write, base)|
      ensures var at := PositionsFrom(names, write, base);
        base <= at[j] < base + |names| && write(names[at[j] - base]) == Some(Collect(names, write)[j])
    {
      PositionLine(names, write, base, j);
    }
  }

  /** The `j`-th position holds the name that wrote the `j`-th line. */
  lemma {:induction false} PositionLine(names: seq<string>, write: string -> Option<string>, base: nat, j: nat)
    requires j < |PositionsFrom(names, write, base)|
    ensures j < |Collect(names, write)|
    ensures var at := PositionsFrom(names, write, base);
      base <= at[j] < base + |names| && write(names[at[j] - base]) == Some(Collect(names, write)[j])
    decreases |names|
  {
    PositionsLength(names, write, base);
    var tail := names[1..];
    var at, p := PositionsFrom(names, write, base), PositionsFrom(tail, write, base + 1);
    var lines, rest := Collect(names, write), Collect(tail, write);
    if write(names[0]).Some? {
      assert at == [base] + p && lines == [write(names[0]).value] + rest;
      if j > 0 {
        PositionLine(tail, write, base + 1, j - 1);
        assert at[j] == p[j - 1] && lines[j] == rest[j - 1];
        assert names[at[j] - base] == tail[p[j - 1] - (base + 1)];
      }
    } else {
      assert at == p && lines == rest;
      PositionLine(tail, write, base + 1, j);
      assert names[at[j] - base] == tail[p[j] - (base + 1)];
    }
  }

  lemma {:induction false} PositionsIncrease(names: seq<string>, write: string -> Option<string>, base: nat)
    ensures forall j :: 0 <= j < |PositionsFrom(names, write, base)| ==> base <= PositionsFrom(names, write, base)[j]
    ensures forall j, k :: 0 <= j < k < |PositionsFrom(names, write, base)| ==>
      PositionsFrom(names, write, base)[j] < PositionsFrom(names, write, base)[k]
    decreases |names|
  {
    if |names| > 0 {
      PositionsIncrease(names[1..], write, base + 1);
      var rest := PositionsFrom(names[1..], write, base + 1);
      var at := PositionsFrom(names, write, base);
      if write(names[0]).Some? {
        assert at == [base] + rest;
        forall j, k | 0 <= j < k < |at|
          ensures at[j] < at[k]
        {
          assert at[k] == rest[k - 1];
          if j > 0 {
            assert at[j] == rest[j - 1];
          }
        }
      }
    }
  }

  lemma {:induction false} PositionsExact(names: seq<string>, write: string -> Option<string>, base: nat)
    ensures forall i :: Written(names, i, write) <==> base + i in PositionsFrom(names, write, base)
    ensures forall n :: n in PositionsFrom(names, write, base) ==> base <= n < base + |names|
    decreases |names|
  {
    if |names| > 0 {
      var tail := names[1..];
      PositionsExact(tail, write, base + 1);
      var rest := PositionsFrom(tail, write, base + 1);
      var at := PositionsFrom(names, write, base);
      assert forall n :: n in at <==> (n in rest || (n == base && write(names[0]).Some?));
      forall i
        ensures Written(names, i, write) <==> base + i in at
      {
        if 1 <= i < |names| {
          assert tail[i - 1] == names[i];
          assert Written(names, i, write) <==> Written(tail, i - 1, write);
          assert base + i == (base + 1) + (i - 1);
        }
      }
    }
  }

  // ---------------------------------------------------------------- round trip

  /** The attribute `name` of `after` holds the value saved from `cam`, as
      far as the text of its value carries it: floats come back as `%g`
      then `atof` made them, clamped to the range. */
  predicate Restored(after: Camera, name: string, cam: Camera, ft: FloatText)
  {
    name in after && name in cam && RestoredAttr(after[name], cam[name], ft)
  }

  /** Attribute `x` holds the value saved from attribute `c`. */
  predicate RestoredAttr(x: Attr, c: Attr, ft: FloatText)
  {
    x.kind == c.kind
    && (c.kind.Uint32Attr? ==> x.number == c.number)
    && (c.kind.StringAttr? || c.kind.EnumAttr? ==> x.text == c.text)
    && (c.kind.Float32Attr? ==> x.float == ClampFloat32(ft.read(ft.show(c.float)), c.kind.lo, c.kind.hi))
  }

  /** What a saved attribute needs to be read back: a name with no '=' and
      no white space at its ends, a non-empty value text with no white space
      at its ends, no newline inside the line, which fits the `fgets`
      buffer, a value the loading camera accepts, and a loading camera
      that has the attribute, of the same type and writable. */
  predicate Reloadable(cam: Camera, name: string, target: Camera, ft: FloatText)
  {
    name in cam && Persistent(cam[name]) && ValueText(cam[name], ft).Some?
    && |name| > 0 && '=' !in name && StrTrim(name) == name && '\n' !in name
    && (var v := ValueText(cam[name], ft).value;
        |v| > 0 && StrTrim(v) == v && '\n' !in v && |name| + |v| + 4 < LineBuffer)
    && name in target && target[name].kind == cam[name].kind && target[name].writable
    && (cam[name].kind.Uint32Attr? ==>
          cam[name].number < Arith.U32 && cam[name].kind.min <= cam[name].number <= cam[name].kind.max)
    && (cam[name].kind.EnumAttr? ==> cam[name].text in cam[name].kind.choices)
  }

  /** A saved line is read back into the same value. */
  lemma SaveThenRead(cam: Camera, name: string, target: Camera, ft: FloatText)
    requires Reloadable(cam, name, target, ft)
    ensures var (after, res) := ReadAttribute(target, WriteAttribute(cam, name, ft).value, ft);
      res == Loaded && after == target[name := after[name]] && Restored(after, name, cam, ft)
      && after[name].writable
  {
    var v := ValueText(cam[name], ft).value;
    SplitSavedLine(name, v);
    SetSavedValue(cam[name], target[name], ft);
    ReadSetsValue(target, name + " = " + v + "\n", name, v, ft);
  }

  /** A line that splits into a known, persistent name and a value the
      attribute accepts loads that value into that attribute. */
  lemma ReadSetsValue(cam: Camera, line: string, name: string, v: string, ft: FloatText)
    requires SplitLine(line) == Some((name, v)) && |name| > 0 && |v| > 0
    requires name in cam && Persistent(cam[name]) && SetValue(cam[name], v, ft).Some?
    ensures ReadAttribute(cam, line, ft) == (cam[name := SetValue(cam[name], v, ft).value], Loaded)
  {
  }

  /** Setting an attribute from the text saved for another of the same kind
      succeeds and restores the saved value. */
  lemma SetSavedValue(c: Attr, t: Attr, ft: FloatText)
    requires Persistent(c) && ValueText(c, ft).Some? && t.kind == c.kind && t.writable
    requires c.kind.Uint32Attr? ==> c.number < Arith.U32 && c.kind.min <= c.number <= c.kind.max
    requires c.kind.EnumAttr? ==> c.text in c.kind.choices
    ensures var a := SetValue(t, ValueText(c, ft).value, ft);
      a.Some? && a.value.writable && RestoredAttr(a.value, c, ft)
  {
    if c.kind.Uint32Attr? {
      SetSavedNumber(c, t, ft);
    } else if c.kind.Float32Attr? {
      SetSavedFloat(c, t, ft);
    } else {
      SetSavedText(c, t, ft);
    }
  }

  lemma SetSavedNumber(c: Attr, t: Attr, ft: FloatText)
    requires c.kind.Uint32Attr? && t.kind == c.kind
    requires c.number < Arith.U32 && c.kind.min <= c.number <= c.kind.max
    ensures var a := SetValue(t, ValueText(c, ft).value, ft);
      a.Some? && a.value.writable == t.writable && RestoredAttr(a.value, c, ft)
  {
    var v := ValueText(c, ft).value;
    assert Atol(v) == c.number;
    assert Arith.ToU32(Atol(v)) == c.number;
    var n := ClampUint32(v, c.kind.min, c.kind.max);
    assert n == c.number;
    assert SetValue(t, v, ft) == Some(t.(number := n));
  }

  lemma SetSavedFloat(c: Attr, t: Attr, ft: FloatText)
    requires c.kind.Float32Attr? && t.kind == c.kind
    ensures var a := SetValue(t, ValueText(c, ft).value, ft);
      a.Some? && a.value.writable == t.writable && RestoredAttr(a.value, c, ft)
  {
    var v := ValueText(c, ft).value;
    assert SetValue(t, v, ft) == Some(t.(float := ClampFloat32(ft.read(v), c.kind.lo, c.kind.hi)));
  }

  lemma SetSavedText(c: Attr, t: Attr, ft: FloatText)
    requires c.kind.StringAttr? || c.kind.EnumAttr?
    requires t.kind == c.kind && (c.kind.EnumAttr? ==> c.text in c.kind.choices)
    ensures var a := SetValue(t, ValueText(c, ft).value, ft);
      a.Some? && a.value.writable == t.writable && RestoredAttr(a.value, c, ft)
  {
    assert ValueText(c, ft) == Some(c.text);
    assert SetValue(t, c.text, ft) == Some(t.(text := c.text));
  }

  /** A saved line is a whole line for `fgets`. */
  lemma SavedLineWhole(cam: Camera, name: string, target: Camera, ft: FloatText)
    requires Reloadable(cam, name, target, ft)
    ensures WholeLine(WriteAttribute(cam, name, ft).value)
  {
    var v := ValueText(cam[name], ft).value;
    LineWhole(name, v);
  }

  /** A saved line whose name and value hold no newline is one whole line. */
  lemma LineWhole(name: string, v: string)
    requires '\n' !in name && '\n' !in v && |name| + |v| + 4 < LineBuffer
    ensures WholeLine(name + " = " + v + "\n")
  {
    var line := name + " = " + v + "\n";
    assert line[..|line| - 1] == name + " = " + v;
    assert '\n' !in " = ";
  }

  predicate Distinct(names: seq<string>)
  {
    forall i, k :: 0 <= i < k < |names| ==> names[i] != names[k]
  }

  ghost predicate AllReloadable(cam: Camera, names: seq<string>, target: Camera, ft: FloatText)
  {
    forall i :: Written(names, i, Writer(cam, ft)) ==> Reloadable(cam, names[i], target, ft)
  }

  /** Every saved attribute of `after` has its saved value. */
  ghost predicate AllRestored(after: Camera, cam: Camera, names: seq<string>, ft: FloatText)
  {
    forall i :: Written(names, i, Writer(cam, ft)) ==> Restored(after, names[i], cam, ft)
  }

  /** Every attribute of `target` that is not saved is unchanged in `after`. */
  ghost predicate OthersKept(after: Camera, target: Camera, cam: Camera, names: seq<string>, ft: FloatText)
  {
    forall k :: k in target && (forall i :: Written(names, i, Writer(cam, ft)) ==> names[i] != k)
      ==> k in after && after[k] == target[k]
  }

  /** Loading the lines saved from a list of distinct attributes gives every
      saved attribute its value back and changes nothing else. */
  lemma {:induction false} LoadSavedLines(cam: Camera, names: seq<string>, target: Camera, ft: FloatText)
    requires Distinct(names) && AllReloadable(cam, names, target, ft)
    ensures AllRestored(LoadLines(target, Collect(names, Writer(cam, ft)), ft), cam, names, ft)
    ensures OthersKept(LoadLines(target, Collect(names, Writer(cam, ft)), ft), target, cam, names, ft)
    decreases |names|
  {
    if |names| > 0 {
      var tail := names[1..];
      TailWritten(names, Writer(cam, ft));
      match WriteAttribute(cam, names[0], ft)
      case None =>
        LoadSavedLines(cam, tail, target, ft);
      case Some(line) =>
        LoadSavedStep(cam, names, target, ft, line);
    }
  }

  /** A position of the tail gets a line exactly when the next one of the
      list does. */
  lemma TailWritten(names: seq<string>, write: string -> Option<string>)
    requires |names| > 0
    ensures forall i :: 0 <= i ==> (Written(names[1..], i, write) <==> Written(names, i + 1, write))
    ensures forall i :: 0 <= i < |names| - 1 ==> names[1..][i] == names[i + 1]
  {
    forall i | 0 <= i
      ensures Written(names[1..], i, write) <==> Written(names, i + 1, write)
    {
      if 0 <= i < |names| - 1 {
        assert names[1..][i] == names[i + 1];
      }
    }
  }

  lemma {:induction false} LoadSavedStep(cam: Camera, names: seq<string>, target: Camera, ft: FloatText, line: string)
    requires |names| > 0 && WriteAttribute(cam, names[0], ft) == Some(line)
    requires Distinct(names) && AllReloadable(cam, names, target, ft)
    ensures AllRestored(LoadLines(target, Collect(names, Writer(cam, ft)), ft), cam, names, ft)
    ensures OthersKept(LoadLines(target, Collect(names, Writer(cam, ft)), ft), target, cam, names, ft)
    decreases |names|, 0
  {
    var tail := names[1..];
    assert Written(names, 0, Writer(cam, ft));
    SaveThenRead(cam, names[0], target, ft);
    var next := ReadAttribute(target, line, ft).0;
    var rest := Collect(tail, Writer(cam, ft));
    LoadFirst(target, Collect(names, Writer(cam, ft)), line, rest, ft);
    ReloadableTail(cam, names, target, next, ft);
    LoadSavedLines(cam, tail, next, ft);
    var after := LoadLines(next, rest, ft);
    RestoredStep(cam, names, next, after, ft);
    KeptStep(cam, names, target, next, after, ft);
  }

  /** Loading a file starts with its first line. */
  lemma LoadFirst(target: Camera, lines: seq<string>, line: string, rest: seq<string>, ft: FloatText)
    requires lines == [line] + rest
    ensures LoadLines(target, lines, ft) == LoadLines(ReadAttribute(target, line, ft).0, rest, ft)
  {
    assert lines[1..] == rest;
  }

  lemma ReloadableTail(cam: Camera, names: seq<string>, target: Camera, next: Camera, ft: FloatText)
    requires |names| > 0 && Distinct(names) && AllReloadable(cam, names, target, ft)
    requires names[0] in next && next == target[names[0] := next[names[0]]]
    ensures Distinct(names[1..]) && AllReloadable(cam, names[1..], next, ft)
  {
    var tail := names[1..];
    TailWritten(names, Writer(cam, ft));
    forall i | Written(tail, i, Writer(cam, ft))
      ensures Reloadable(cam, tail[i], next, ft)
    {
      assert Written(names, i + 1, Writer(cam, ft));
      assert tail[i] != names[0];
      ReloadableFrame(cam, tail[i], target, next, ft);
    }
  }

  /** Whether an attribute can be read back depends only on that attribute
      of the loading camera. */
  lemma ReloadableFrame(cam: Camera, name: string, target: Camera, next: Camera, ft: FloatText)
    requires Reloadable(cam, name, target, ft) && name in next && next[name] == target[name]
    ensures Reloadable(cam, name, next, ft)
  {
  }

  lemma RestoredStep(cam: Camera, names: seq<string>, next: Camera, after: Camera, ft: FloatText)
    requires |names| > 0 && Distinct(names) && Restored(next, names[0], cam, ft)
    requires AllRestored(after, cam, names[1..], ft) && OthersKept(after, next, cam, names[1..], ft)
    ensures AllRestored(after, cam, names, ft)
  {
    var tail := names[1..];
    TailWritten(names, Writer(cam, ft));
    forall i | Written(names, i, Writer(cam, ft))
      ensures Restored(after, names[i], cam, ft)
    {
      if i == 0 {
        assert forall j :: Written(tail, j, Writer(cam, ft)) ==> tail[j] != names[0];
      } else {
        assert Written(tail, i - 1, Writer(cam, ft));
      }
    }
  }

  lemma KeptStep(cam: Camera, names: seq<string>, target: Camera, next: Camera, after: Camera, ft: FloatText)
    requires |names| > 0 && Written(names, 0, Writer(cam, ft))
    requires names[0] in next && next == target[names[0] := next[names[0]]]
    requires OthersKept(after, next, cam, names[1..], ft)
    ensures OthersKept(after, target, cam, names, ft)
  {
    var tail := names[1..];
    TailWritten(names, Writer(cam, ft));
    forall k | k in target && (forall i :: Written(names, i, Writer(cam, ft)) ==> names[i] != k)
      ensures k in after && after[k] == target[k]
    {
      assert k != names[0];
      forall j | Written(tail, j, Writer(cam, ft))
        ensures tail[j] != k
      {
        assert Written(names, j + 1, Writer(cam, ft));
      }
    }
  }

  /** Saving a camera's listed attributes to a file and loading the file into
      a camera gives every saved attribute its saved value and changes
      nothing else. */
  lemma SaveThenLoad(cam: Camera, names: seq<string>, target: Camera, ft: FloatText)
    requires Distinct(names) && AllReloadable(cam, names, target, ft)
    ensures SetupLoad(target, FileText(SetupSave(cam, names, ft)), ft).Keys == target.Keys
    ensures AllRestored(SetupLoad(target, FileText(SetupSave(cam, names, ft)), ft), cam, names, ft)
    ensures OthersKept(SetupLoad(target, FileText(SetupSave(cam, names, ft)), ft), target, cam, names, ft)
  {
    var lines := SetupSave(cam, names, ft);
    CollectLines(names, Writer(cam, ft));
    var at := Positions(names, Writer(cam, ft));
    forall j | 0 <= j < |lines|
      ensures WholeLine(lines[j])
    {
      assert Written(names, at[j], Writer(cam, ft));
      SavedLineWhole(cam, names[at[j]], target, ft);
    }
    assert AllWhole(lines);
    LoadSavedLines(cam, names, target, ft);
  }

  /** Loading never changes a read-only or command attribute. */
  lemma {:induction false} LoadKeepsFixed(cam: Camera, lines: seq<string>, name: string, ft: FloatText)
    requires name in cam && !Persistent(cam[name])
    ensures LoadLines(cam, lines, ft)[name] == cam[name]
    decreases |lines|
  {
    if |lines| > 0 {
      var next := ReadAttribute(cam, lines[0], ft).0;
      assert next[name] == cam[name];
      LoadKeepsFixed(next, lines[1..], name, ft);
    }
  }

  /** The saved line of a name and a value splits back into both. */
  lemma SplitSavedLine(name: string, v: string)
    requires |name| > 0 && '=' !in name && StrTrim(name) == name
    requires |v| > 0 && StrTrim(v) == v
    ensures SplitLine(name + " = " + v + "\n") == Some((name, v))
  {
    var line := name + " = " + v + "\n";
    assert line == name + (" = " + v + "\n");
    FindAfter(name, " = " + v + "\n");
    var i := |name| + 1;
    assert line[..i] == name + " ";
    assert line[i + 1..] == " " + (v + "\n");
    TrimmedName(name);
    TrimmedValue(v);
  }

  lemma TrimmedName(name: string)
    requires |name| > 0 && StrTrim(name) == name
    ensures StrTrim(name + " ") == name
  {
    EdgeChars(name);
    TrimRightKeeps(name, " ");
    SkipSpaceKeeps("", name);
    assert "" + name == name;
  }

  lemma TrimmedValue(v: string)
    requires |v| > 0 && StrTrim(v) == v
    ensures StrTrim(" " + (v + "\n")) == v
  {
    EdgeChars(v);
    assert " " + (v + "\n") == (" " + v) + "\n";
    TrimRightKeeps(" " + v, "\n");
    SkipSpaceKeeps(" ", v);
  }

  /** A string that trimming leaves alone has no white space at its ends. */
  lemma EdgeChars(s: string)
    requires |s| > 0 && StrTrim(s) == s
    ensures !IsSpace(s[0]) && !IsSpace(s[|s| - 1])
  {
  }

  /** The first '=' of a name free of '=' followed by " = ..." is right
      after the name's space. */
  lemma FindAfter(name: string, rest: string)
    requires '=' !in name && |rest| >= 2 && rest[0] == ' ' && rest[1] == '='
    ensures Find(name + rest, '=') == Some(|name| + 1)
  {
    var s := name + rest;
    var i := |name| + 1;
    assert s[i] == '=';
    assert s[..i] == name + [' '];
    FindFirst(s, '=', i);
  }

  /** `strchr` finds the index of the first occurrence. */
  lemma {:induction false} FindFirst(s: string, c: char, i: nat)
    requires i < |s| && s[i] == c && c !in s[..i]
    ensures Find(s, c) == Some(i)
  {
    if i > 0 {
      assert s[0] == s[..i][0];
      assert s[1..][..i - 1] == s[1..i];
      FindFirst(s[1..], c, i - 1);
    }
  }
}

=== FILE: camera_events.dfy ===
/** The camera-event window of the SampleViewer sample
    (eyetracker/.../SampleViewer/src/EvntWindow.cpp): the SDK callback
    forwards the events it receives in fixed batches of five, zero-padded,
    and the window appends a line per real event to a list it keeps below
    5000 lines, timing every event from a reference stamp taken from the
    first one. The list is a sequence of entries; their text formatting and
    the division by the timestamp frequency are not modelled (an entry
    records the tick difference it would divide). */
module CameraEvents {
  import Arith

  /** `kMaxEvents`: events per batch. */
  const MaxEvents: nat := 5

  /** `kMaxListCount`: the list length the window trims back to. */
  const MaxListCount: nat := 5000

  const TwoTo32: nat := 0x1_0000_0000

  type U32 = x: nat | x < TwoTo32

  /** A `tPvCameraEvent`. */
  datatype Event = Event(id: U32, stampLo: U32, stampHi: U32, data: seq<U32>)

  /** The zeroed event that pads a batch (`Clear` and the constructor's
      `memset`). */
  const Blank: Event := Event(0, 0, 0, [0, 0, 0, 0])

  // ------------------------------------------------------------------ batching

  function Blanks(k: nat): (s: seq<Event>)
    ensures |s| == k && forall i :: 0 <= i < k ==> s[i] == Blank
  {
    seq(k, _ => Blank)
  }

  /** `OnCameraEvents`: five events per posted batch, in order; the last
      batch is posted only when it holds an event, padded with blank
      events. */
  function Batches(events: seq<Event>): (bs: seq<seq<Event>>)
    ensures |bs| == (|events| + MaxEvents - 1) / MaxEvents
    ensures forall b :: 0 <= b < |bs| ==> |bs[b]| == MaxEvents
    decreases |events|
  {
    if |events| == 0 then []
    else if |events| <= MaxEvents then [events + Blanks(MaxEvents - |events|)]
    else [events[..MaxEvents]] + Batches(events[MaxEvents..])
  }

  /** The batches one after the other. */
  function Concat(bs: seq<seq<Event>>): seq<Event>
  {
    if |bs| == 0 then [] else bs[0] + Concat(bs[1..])
  }

  /** The batches hold the events in order, followed only by padding, and
      every batch starts with a real event: no empty batch is posted. */
  lemma {:induction false} BatchesKeepOrder(events: seq<Event>)
    ensures |Concat(Batches(events))| >= |events|
    ensures Concat(Batches(events)) == events + Blanks(|Concat(Batches(events))| - |events|)
    ensures forall b :: 0 <= b < |Batches(events)| ==> Batches(events)[b][0] == events[b * MaxEvents]
    decreases |events|
  {
    var bs := Batches(events);
    if |events| == 0 {
    } else if |events| <= MaxEvents {
      assert bs == [events + Blanks(MaxEvents - |events|)];
      assert Concat(bs) == bs[0] + Concat(bs[1..]);
      assert bs[1..] == [];
    } else {
      var rest := events[MaxEvents..];
      BatchesKeepOrder(rest);
      assert bs[1..] == Batches(rest);
      assert Concat(bs) == events[..MaxEvents] + Concat(Batches(rest));
      var pad := |Concat(Batches(rest))| - |rest|;
      assert Concat(bs) == events[..MaxEvents] + (rest + Blanks(pad));
      assert events[..MaxEvents] + rest == events;
      forall b | 0 <= b < |bs| ensures bs[b][0] == events[b * MaxEvents] {
        if b > 0 {
          assert bs[b] == Batches(rest)[b - 1];
          assert rest[(b - 1) * MaxEvents] == events[b * MaxEvents];
        }
      }
    }
  }

  /** The events the window sees across all batches are exactly the real
      events of the callback's list, in order: padding has id 0. */
  lemma DeliveredIds(events: seq<Event>)
    ensures RealIds(Concat(Batches(events))) == RealIds(events)
  {
    BatchesKeepOrder(events);
    var pad := |Concat(Batches(events))| - |events|;
    RealIdsAppend(events, Blanks(pad));
    BlanksHaveNoIds(pad);
  }

  lemma {:induction false} RealIdsAppend(a: seq<Event>, b: seq<Event>)
    ensures RealIds(a + b) == RealIds(a) + RealIds(b)
    decreases |a|
  {
    if |a| == 0 {
      assert a + b == b;
    } else {
      var head := if a[0].id != 0 then [a[0].id] else [];
      assert (a + b)[0] == a[0] && (a + b)[1..] == a[1..] + b;
      assert RealIds(a + b) == head + RealIds(a[1..] + b);
      assert RealIds(a) == head + RealIds(a[1..]);
      RealIdsAppend(a[1..], b);
      assert head + (RealIds(a[1..]) + RealIds(b)) == (head + RealIds(a[1..])) + RealIds(b);
    }
  }

  lemma {:induction false} BlanksHaveNoIds(k: nat)
    ensures RealIds(Blanks(k)) == []
    decreases k
  {
    if k > 0 {
      assert Blanks(k)[1..] == Blanks(k - 1);
      BlanksHaveNoIds(k - 1);
    }
  }

  // ------------------------------------------------------------------ timestamps

  /** The 64-bit stamp `TimestampHi << 32 | TimestampLo`. */
  function Stamp(e: Event): (s: nat)
    ensures s < TwoTo32 * TwoTo32
    ensures s / TwoTo32 == e.stampHi && s % TwoTo32 == e.stampLo
  {
    Arith.DivUnique(e.stampHi * TwoTo32 + e.stampLo, e.stampHi, e.stampLo, TwoTo32);
    assert e.stampHi * TwoTo32 <= (TwoTo32 - 1) * TwoTo32;
    StampQuotient(e.stampHi, e.stampLo);
    e.stampHi * TwoTo32 + e.stampLo
  }

  lemma StampQuotient(hi: U32, lo: U32)
    ensures (hi * TwoTo32 + lo) / TwoTo32 == hi
  {
    var x := hi * TwoTo32 + lo;
    Arith.DivUnique(x, hi, lo, TwoTo32);
    assert x == (x / TwoTo32) * TwoTo32 + lo;
    Arith.MulCancel(x / TwoTo32, hi, TwoTo32);
  }

  /** Two events share a stamp only when both halves agree. */
  lemma StampInjective(a: Event, b: Event)
    requires Stamp(a) == Stamp(b)
    ensures a.stampHi == b.stampHi && a.stampLo == b.stampLo
  {
  }

  // ------------------------------------------------------------------ the window

  /** A list line: the event's ticks since the reference stamp, its id and
      its data words. */
  datatype Entry = Entry(ticks: int, id: U32, data: seq<U32>)

  /** The window: its list, the reference stamp `iStamp` (0 while unset),
      and the pause and auto-scroll switches. */
  datatype Window = Window(list: seq<Entry>, reference: nat, paused: bool, autoScroll: bool)

  /** The constructor. */
  function Init(): (w: Window)
    ensures w.list == [] && w.reference == 0 && !w.paused && w.autoScroll
  {
    Window([], 0, false, true)
  }

  /** `while (GetCount() > kMaxListCount) Delete(0)`: the newest lines, at
      most 5000 of them. */
  function Trim(list: seq<Entry>): (r: seq<Entry>)
    ensures |r| <= MaxListCount && |r| <= |list|
    ensures r == list[|list| - |r|..]
    ensures |list| <= MaxListCount ==> r == list
  {
    if |list| > MaxListCount then list[|list| - MaxListCount..] else list
  }

  /** The lines the real events (non-zero id) of `events` add, and the
      reference stamp after them: the first event while no reference is set
      becomes the reference and shows 0 ticks. */
  function Lines(reference: nat, events: seq<Event>): (r: (seq<Entry>, nat))
    ensures |r.0| <= |events|
    ensures forall i :: 0 <= i < |r.0| ==> r.0[i].id != 0
    ensures reference != 0 ==> r.1 == reference
    ensures reference == 0 ==> r.1 == 0 || exists i :: 0 <= i < |events| && events[i].id != 0 && r.1 == Stamp(events[i])
    decreases |events|
  {
    if |events| == 0 then ([], reference)
    else
      var e := events[0];
      if e.id == 0 then
        var rest := Lines(reference, events[1..]);
        assert reference == 0 && rest.1 != 0 ==> exists i :: 0 <= i < |events| && events[i].id != 0 && rest.1 == Stamp(events[i]) by {
          if reference == 0 && rest.1 != 0 {
            var i :| 0 <= i < |events[1..]| && events[1..][i].id != 0 && rest.1 == Stamp(events[1..][i]);
            assert events[i + 1] == events[1..][i];
          }
        }
        rest
      else
        var s := Stamp(e);
        var ticks := if reference != 0 then s - reference else 0;
        var ref := if reference != 0 then reference else s;
        var rest := Lines(ref, events[1..]);
        assert reference == 0 && rest.1 != 0 && ref == 0 ==> exists i :: 0 <= i < |events| && events[i].id != 0 && rest.1 == Stamp(events[i]) by {
          if reference == 0 && rest.1 != 0 && ref == 0 {
            var i :| 0 <= i < |events[1..]| && events[1..][i].id != 0 && rest.1 == Stamp(events[1..][i]);
            assert events[i + 1] == events[1..][i];
          }
        }
        ([Entry(ticks, e.id, e.data)] + rest.0, rest.1)
  }

  /** The ids of the real events, in order. */
  function RealIds(events: seq<Event>): seq<U32>
  {
    if |events| == 0 then []
    else (if events[0].id != 0 then [events[0].id] else []) + RealIds(events[1..])
  }

  function EntryIds(entries: seq<Entry>): seq<U32>
  {
    if |entries| == 0 then [] else [entries[0].id] + EntryIds(entries[1..])
  }

  /** One line per real event, in order; with a reference set every line
      shows its ticks from it, and the reference never changes once set. */
  lemma {:induction false} LinesSpec(reference: nat, events: seq<Event>)
    ensures EntryIds(Lines(reference, events).0) == RealIds(events)
    ensures reference != 0 ==> Lines(reference, events).1 == reference
    ensures reference != 0 ==> forall i :: 0 <= i < |Lines(reference, events).0| ==>
      -(reference as int) <= Lines(reference, events).0[i].ticks < TwoTo32 * TwoTo32 - reference
    decreases |events|
  {
    if |events| > 0 {
      var e := events[0];
      if e.id == 0 {
        LinesSpec(reference, events[1..]);
      } else {
        var s := Stamp(e);
        var ref := if reference != 0 then reference else s;
        LinesSpec(ref, events[1..]);
      }
    }
  }

  /** The real events (non-zero id), in order. */
  function RealEvents(events: seq<Event>): (r: seq<Event>)
    ensures |r| <= |events|
    ensures forall k :: 0 <= k < |r| ==> r[k].id != 0
  {
    if |events| == 0 then []
    else (if events[0].id != 0 then [events[0]] else []) + RealEvents(events[1..])
  }

  /** One line per real event. */
  lemma {:induction false} LinesCount(reference: nat, events: seq<Event>)
    ensures |Lines(reference, events).0| == |RealEvents(events)|
    decreases |events|
  {
    if |events| > 0 {
      var e := events[0];
      var ref := if reference != 0 || e.id == 0 then reference else Stamp(e);
      LinesCount(ref, events[1..]);
    }
  }

  /** Line `k` of `lines` shows the `k`-th of `shown` with ticks from `base`. */
  predicate ShownFrom(lines: seq<Entry>, shown: seq<Event>, base: nat)
  {
    |lines| == |shown|
    && forall k :: 0 <= k < |shown| ==> lines[k] == Entry(Stamp(shown[k]) - base, shown[k].id, shown[k].data)
  }

  /** A real event in front adds its line in front. */
  lemma LinesOfReal(reference: nat, events: seq<Event>)
    requires |events| > 0 && events[0].id != 0
    ensures var e, s := events[0], Stamp(events[0]);
      var ref := if reference != 0 then reference else s;
      Lines(reference, events).0 == [Entry(if reference != 0 then s - reference else 0, e.id, e.data)] + Lines(ref, events[1..]).0
      && RealEvents(events) == [e] + RealEvents(events[1..])
  {
  }

  /** The line of one more real event in front keeps the lines shown from
      the same base. */
  lemma ShownCons(e: Event, lines: seq<Entry>, shown: seq<Event>, base: nat)
    requires ShownFrom(lines, shown, base)
    ensures ShownFrom([Entry(Stamp(e) - base, e.id, e.data)] + lines, [e] + shown, base)
  {
    var l2, s2 := [Entry(Stamp(e) - base, e.id, e.data)] + lines, [e] + shown;
    forall k | 1 <= k < |s2|
      ensures l2[k] == Entry(Stamp(s2[k]) - base, s2[k].id, s2[k].data)
    {
      assert l2[k] == lines[k - 1] && s2[k] == shown[k - 1];
    }
  }

  /** With a reference set, line `k` is the `k`-th real event: its ticks
      from the reference, its id and its data words. */
  lemma {:induction false} LinesFrom(reference: nat, events: seq<Event>)
    requires reference != 0
    ensures ShownFrom(Lines(reference, events).0, RealEvents(events), reference)
    decreases |events|
  {
    if |events| > 0 {
      var e, tail := events[0], events[1..];
      LinesFrom(reference, tail);
      if e.id != 0 {
        LinesOfReal(reference, events);
        ShownCons(e, Lines(reference, tail).0, RealEvents(tail), reference);
      } else {
        assert RealEvents(events) == RealEvents(tail);
      }
    }
  }

  /** With no reference set, the first real event, when its stamp is not 0,
      becomes the reference: line `k` shows the ticks of the `k`-th real
      event from it (0 for the first), its id and its data words. */
  lemma {:induction false} LinesFromFirst(events: seq<Event>)
    requires |RealEvents(events)| > 0 && Stamp(RealEvents(events)[0]) != 0
    ensures ShownFrom(Lines(0, events).0, RealEvents(events), Stamp(RealEvents(events)[0]))
    decreases |events|
  {
    var e, tail := events[0], events[1..];
    if e.id == 0 {
      assert RealEvents(events) == RealEvents(tail);
      LinesFromFirst(tail);
    } else {
      LinesOfReal(0, events);
      LinesFrom(Stamp(e), tail);
      ShownCons(e, Lines(Stamp(e), tail).0, RealEvents(tail), Stamp(e));
    }
  }

  /** The first real event when no reference is set shows 0 ticks and
      becomes the reference. */
  lemma FirstEventIsReference(e: Event, events: seq<Event>)
    requires e.id != 0
    ensures Lines(0, [e] + events).0[0].ticks == 0
    ensures Stamp(e) != 0 ==> Lines(0, [e] + events).1 == Lines(Stamp(e), events).1
  {
    assert ([e] + events)[1..] == events;
  }

  /** `OnAppendEvents`: nothing while paused; otherwise the list is trimmed
      and the batch's real events are appended. */
  function AppendEvents(w: Window, batch: seq<Event>): (r: Window)
    ensures w.paused ==> r == w
    ensures !w.paused ==> EntryIds(r.list) == EntryIds(Trim(w.list)) + RealIds(batch)
    ensures !w.paused ==> |Trim(w.list)| <= |r.list| && r.list[..|Trim(w.list)|] == Trim(w.list)
    ensures !w.paused ==> |r.list| <= MaxListCount + |batch|
    ensures w.reference != 0 ==> r.reference == w.reference
    ensures r.paused == w.paused && r.autoScroll == w.autoScroll
  {
    if w.paused then w
    else
      var lines := Lines(w.reference, batch);
      LinesSpec(w.reference, batch);
      EntryIdsAppend(Trim(w.list), lines.0);
      assert (Trim(w.list) + lines.0)[..|Trim(w.list)|] == Trim(w.list);
      w.(list := Trim(w.list) + lines.0, reference := lines.1)
  }

  lemma {:induction false} EntryIdsAppend(a: seq<Entry>, b: seq<Entry>)
    ensures EntryIds(a + b) == EntryIds(a) + EntryIds(b)
    decreases |a|
  {
    if |a| == 0 {
      assert a + b == b;
    } else {
      assert (a + b)[0] == a[0] && (a + b)[1..] == a[1..] + b;
      EntryIdsAppend(a[1..], b);
    }
  }

  /** The list never grows past 5000 lines plus one batch. */
  lemma ListBounded(w: Window, batch: seq<Event>)
    requires |w.list| <= MaxListCount + MaxEvents && |batch| == MaxEvents
    ensures |AppendEvents(w, batch).list| <= MaxListCount + MaxEvents
  {
  }

  /** The Clear button empties the list; Pause and auto-scroll toggle. */
  function Clear(w: Window): (r: Window)
    ensures r.list == [] && r.reference == w.reference && r.paused == w.paused
  {
    w.(list := [])
  }

  function TogglePause(w: Window): (r: Window)
    ensures r.paused == !w.paused && r.list == w.list && r.reference == w.reference
  {
    w.(paused := !w.paused)
  }

  function ToggleAutoScroll(w: Window): (r: Window)
    ensures r.autoScroll == !w.autoScroll && r.paused == w.paused
    ensures r.list == w.list && r.reference == w.reference
  {
    w.(autoScroll := !w.autoScroll)
  }

  /** Pausing and resuming leaves the window as it was, and appending while
      paused changes nothing; so does toggling auto-scroll twice. */
  lemma PauseResume(w: Window, batch: seq<Event>)
    ensures TogglePause(TogglePause(w)) == w
    ensures ToggleAutoScroll(ToggleAutoScroll(w)) == w
    ensures !w.paused ==> TogglePause(AppendEvents(TogglePause(w), batch)) == w
  {
  }
}

=== FILE: cl_minmax.dfy ===
/** The OpenCL minimum/maximum finder (coxlab_eyetracker/image_processing/cl_minmax.py):
    the raveled image and its indices are reduced pairwise, level after
    level, into the scratch buffers `build_scratch` sizes, until one
    (value, index) entry is left; the index is then turned into a
    (row, column) pair. Each work item of a level is one element of the
    level's output; a read past the end of a buffer yields whatever lies
    there, given here as the parameter `beyond`. */
module ClMinMax {
  import opened Wrappers
  import MinMax
  import Arith

  /** A pixel value with the raveled index it came from. */
  type Entry = (real, int)

  // -------------------------------------------------------------- as written

  /** The halvings `while l > 1: l /= 2` appends (Python 2 floor division). */
  function Halvings(l: nat): (sizes: seq<nat>)
    ensures forall i :: 0 <= i < |sizes| ==> sizes[i] >= 1
    ensures |sizes| > 0 ==> sizes[|sizes| - 1] == 1
    ensures l > 1 ==> |sizes| > 0 && sizes[0] == l / 2
    ensures l <= 1 ==> sizes == []
  {
    if l <= 1 then [] else [l / 2] + Halvings(l / 2)
  }

  /** `build_scratch`: the pixel count is rounded up to an even number once,
      then halved down to one. */
  function ScratchSizes(n: nat): (sizes: seq<nat>)
    ensures n >= 1 <==> |sizes| > 0
    ensures |sizes| > 0 ==> sizes[0] == (n + 1) / 2 && sizes[|sizes| - 1] == 1
  {
    Halvings(if n % 2 != 0 then n + 1 else n)
  }

  /** Each scratch size is the previous one halved, rounded down. */
  lemma {:induction false} HalvingsHalve(l: nat, i: nat)
    requires 0 < i < |Halvings(l)|
    ensures Halvings(l)[i] == Halvings(l)[i - 1] / 2
    decreases l
  {
    if i > 1 {
      HalvingsHalve(l / 2, i - 1);
    }
  }

  /** The reduction rule of one work item: for a minimum the first entry
      wins only when strictly smaller, for a maximum the second wins only
      when strictly larger. */
  function Pick(a: Entry, b: Entry, least: bool): (e: Entry)
    ensures e == a || e == b
    ensures MinMax.Better(e.0, a.0, least) && MinMax.Better(e.0, b.0, least)
    ensures a.0 == b.0 ==> e == (if least then b else a)
  {
    if a.0 < b.0 then (if least then a else b) else (if least then b else a)
  }

  /** `input[i]`, or whatever lies past the end. */
  function At(s: seq<Entry>, i: nat, beyond: Entry): Entry
  {
    if i < |s| then s[i] else beyond
  }

  /** One kernel launch as written: work item `g` reduces entries `2g` and
      `2g + 1`. The `index_b >= datasize` guard writes the first entry, but
      the comparison after it always overwrites that write. */
  function Level(input: seq<Entry>, size: nat, least: bool, beyond: Entry): (out: seq<Entry>)
    ensures |out| == size
    ensures forall g :: 0 <= g < size && 2 * g + 1 < |input| ==>
      (out[g] == input[2 * g] || out[g] == input[2 * g + 1])
      && MinMax.Better(out[g].0, input[2 * g].0, least) && MinMax.Better(out[g].0, input[2 * g + 1].0, least)
    ensures forall g :: 0 <= g < size && 2 * g < |input| <= 2 * g + 1 ==>
      (out[g] == input[2 * g] || out[g] == beyond)
      && MinMax.Better(out[g].0, input[2 * g].0, least) && MinMax.Better(out[g].0, beyond.0, least)
    ensures forall g :: 0 <= g < size && |input| <= 2 * g ==> out[g] == beyond
  {
    seq(size, g requires 0 <= g < size => Pick(At(input, 2 * g, beyond), At(input, 2 * g + 1, beyond), least))
  }

  /** The launches over the scratch buffers, in order. */
  function Reduce(lvl: seq<Entry>, sizes: seq<nat>, least: bool, beyond: Entry): (out: seq<Entry>)
    ensures |sizes| > 0 ==> |out| == sizes[|sizes| - 1]
    ensures |sizes| == 0 ==> out == lvl
    decreases |sizes|
  {
    if |sizes| == 0 then lvl else Reduce(Level(lvl, sizes[0], least, beyond), sizes[1..], least, beyond)
  }

  /** The raveled pixels paired with `arange(0, l)`. */
  function Indexed(vals: seq<real>): (s: seq<Entry>)
    ensures |s| == |vals| && forall i :: 0 <= i < |s| ==> s[i] == (vals[i], i)
  {
    seq(|vals|, i requires 0 <= i < |vals| => (vals[i], i))
  }

  /** `__call__` as written, for the minimum (`least`) or the maximum: the
      index left in the last scratch buffer; an empty image has no scratch
      buffer (`IndexError`, `None` here). */
  function ReduceAsWritten(vals: seq<real>, least: bool, beyond: Entry): (r: Option<int>)
    ensures r.Some? <==> |vals| > 0
  {
    var sizes := ScratchSizes(|vals|);
    if |sizes| == 0 then None
    else Some(Reduce(Indexed(vals), sizes, least, beyond)[0].1)
  }

  /** A 2x3 image whose brightest pixel is the last: the middle level has
      three entries but one work item, so the pair holding the 9 is never
      compared and the maximum is reported at index 0. */
  lemma DropsOddLevelTail(beyond: Entry)
    ensures ReduceAsWritten([0.0, 0.0, 0.0, 0.0, 0.0, 9.0], false, beyond) == Some(0)
  {
    var vals := [0.0, 0.0, 0.0, 0.0, 0.0, 9.0];
    assert ScratchSizes(6) == [3, 1];
    var l0 := Level(Indexed(vals), 3, false, beyond);
    assert l0 == [(0.0, 0), (0.0, 2), (9.0, 5)];
    var l1 := Level(l0, 1, false, beyond);
    assert l1 == [(0.0, 0)];
    assert Reduce(Indexed(vals), [3, 1], false, beyond) == Reduce(l0, [1], false, beyond) == l1;
  }

  /** A one-pixel image: the single work item compares the pixel with the
      value past the end of the image, and reports that value's index. */
  lemma ReadsPastEnd()
    ensures ReduceAsWritten([5.0], false, (100.0, 7)) == Some(7)
    ensures ReduceAsWritten([5.0], true, (-1.0, 7)) == Some(7)
  {
    assert ScratchSizes(1) == [1];
    assert Level(Indexed([5.0]), 1, false, (100.0, 7)) == [(100.0, 7)];
    assert Level(Indexed([5.0]), 1, true, (-1.0, 7)) == [(-1.0, 7)];
  }

  // -------------------------------------------------------------- corrected

  /** Level sizes halved rounding up, so no entry is left without a work
      item. */
  function CeilSizes(n: nat): (sizes: seq<nat>)
    ensures forall i :: 0 <= i < |sizes| ==> sizes[i] >= 1
    ensures |sizes| > 0 ==> sizes[|sizes| - 1] == 1
    ensures n >= 2 ==> |sizes| > 0 && sizes[0] == (n + 1) / 2
    ensures n <= 1 ==> sizes == []
  {
    if n <= 1 then [] else [(n + 1) / 2] + CeilSizes((n + 1) / 2)
  }

  /** One launch that keeps the first entry of an unpaired last element
      instead of reading past the end. */
  function LevelFixed(input: seq<Entry>, least: bool): (out: seq<Entry>)
    ensures |out| == (|input| + 1) / 2
    ensures forall g :: 0 <= g < |out| ==> out[g] == input[2 * g] || (2 * g + 1 < |input| && out[g] == input[2 * g + 1])
    ensures forall p :: 0 <= p < |input| ==> MinMax.Better(out[p / 2].0, input[p].0, least)
  {
    var out := seq((|input| + 1) / 2, g requires 0 <= g < (|input| + 1) / 2 => Winner(input, g, least));
    forall p | 0 <= p < |input|
      ensures MinMax.Better(out[p / 2].0, input[p].0, least)
    {
      WinnerBeats(input, p, least);
    }
    out
  }

  /** The entry work item `g` keeps: the better of its pair, or the unpaired
      last entry. */
  function Winner(input: seq<Entry>, g: nat, least: bool): (e: Entry)
    requires 2 * g < |input|
    ensures e == input[2 * g] || (2 * g + 1 < |input| && e == input[2 * g + 1])
  {
    if 2 * g + 1 < |input| then Pick(input[2 * g], input[2 * g + 1], least) else input[2 * g]
  }

  lemma WinnerBeats(input: seq<Entry>, p: nat, least: bool)
    requires p < |input|
    ensures MinMax.Better(Winner(input, p / 2, least).0, input[p].0, least)
  {
    assert p == 2 * (p / 2) || p == 2 * (p / 2) + 1;
  }

  /** The launches of the corrected reduction, down to one entry. */
  function ReduceFixed(lvl: seq<Entry>, least: bool): (out: seq<Entry>)
    requires |lvl| > 0
    ensures |out| == 1
    decreases |lvl|
  {
    if |lvl| == 1 then lvl else ReduceFixed(LevelFixed(lvl, least), least)
  }
  /** The levels the corrected chain of launches produces, one per launch. */
  function FixedLevels(lvl: seq<Entry>, least: bool): (ls: seq<seq<Entry>>)
    requires |lvl| > 0
    decreases |lvl|
  {
    if |lvl| == 1 then [] else [LevelFixed(lvl, least)] + FixedLevels(LevelFixed(lvl, least), least)
  }

  /** The corrected launches produce levels of exactly the sizes
      `CeilSizes` gives, and the last of them is the reduction's result. */
  lemma {:induction false} FixedLevelSizes(lvl: seq<Entry>, least: bool)
    requires |lvl| > 0
    ensures var ls, sizes := FixedLevels(lvl, least), CeilSizes(|lvl|);
      |ls| == |sizes| && (forall i :: 0 <= i < |ls| ==> |ls[i]| == sizes[i])
      && (|lvl| > 1 ==> |ls| > 0 && ReduceFixed(lvl, least) == ls[|ls| - 1])
    decreases |lvl|
  {
    if |lvl| > 1 {
      var next := LevelFixed(lvl, least);
      FixedLevelSizes(next, least);
      var ls, rest := FixedLevels(lvl, least), FixedLevels(next, least);
      var sizes := CeilSizes(|lvl|);
      assert ls == [next] + rest && sizes == [|next|] + CeilSizes(|next|);
      forall i | 1 <= i < |ls|
        ensures |ls[i]| == sizes[i]
      {
        assert ls[i] == rest[i - 1];
      }
    }
  }


  /** The corrected finder: the index of an extreme pixel. */
  function ReduceCorrected(vals: seq<real>, least: bool): (r: Option<int>)
    ensures r.Some? <==> |vals| > 0
  {
    if |vals| == 0 then None else Some(ReduceFixed(Indexed(vals), least)[0].1)
  }

  /** Every entry of a level is a real pixel with its own index. */
  predicate Sound(vals: seq<real>, lvl: seq<Entry>)
  {
    forall p :: 0 <= p < |lvl| ==> 0 <= lvl[p].1 < |vals| && vals[lvl[p].1] == lvl[p].0
  }

  /** Every pixel is matched or beaten by some entry of the level. */
  predicate Covers(vals: seq<real>, lvl: seq<Entry>, least: bool)
  {
    forall j :: 0 <= j < |vals| ==> Beaten(lvl, vals[j], least)
  }

  /** Some entry of the level matches or beats `x`. */
  predicate Beaten(lvl: seq<Entry>, x: real, least: bool)
  {
    exists p :: 0 <= p < |lvl| && MinMax.Better(lvl[p].0, x, least)
  }

  /** A launch keeps every entry a real pixel. */
  lemma LevelSound(vals: seq<real>, lvl: seq<Entry>, least: bool)
    requires Sound(vals, lvl)
    ensures Sound(vals, LevelFixed(lvl, least))
  {
    var out := LevelFixed(lvl, least);
    forall q | 0 <= q < |out| ensures 0 <= out[q].1 < |vals| && vals[out[q].1] == out[q].0 {
      assert out[q] == lvl[2 * q] || out[q] == lvl[2 * q + 1];
    }
  }

  /** A launch keeps every pixel matched or beaten. */
  lemma LevelCovers(vals: seq<real>, lvl: seq<Entry>, least: bool)
    requires Covers(vals, lvl, least)
    ensures Covers(vals, LevelFixed(lvl, least), least)
  {
    var out := LevelFixed(lvl, least);
    forall j | 0 <= j < |vals| ensures Beaten(out, vals[j], least) {
      assert Beaten(lvl, vals[j], least);
      var p :| 0 <= p < |lvl| && MinMax.Better(lvl[p].0, vals[j], least);
      var q := p / 2;
      assert 0 <= q < |out|;
      assert MinMax.Better(out[q].0, lvl[p].0, least);
      assert MinMax.Better(out[q].0, vals[j], least);
    }
  }

  /** The corrected reduction ends on an entry that is sound and covers
      every pixel. */
  lemma {:induction false} ReduceFixedKeeps(vals: seq<real>, lvl: seq<Entry>, least: bool)
    requires |lvl| > 0 && Sound(vals, lvl) && Covers(vals, lvl, least)
    ensures Sound(vals, ReduceFixed(lvl, least)) && Covers(vals, ReduceFixed(lvl, least), least)
    decreases |lvl|
  {
    if |lvl| > 1 {
      var next := LevelFixed(lvl, least);
      LevelSound(vals, lvl, least);
      LevelCovers(vals, lvl, least);
      ReduceFixedKeeps(vals, next, least);
      assert ReduceFixed(lvl, least) == ReduceFixed(next, least);
    }
  }

  /** `k` is the index of a pixel holding the extreme value. */
  predicate Extreme(vals: seq<real>, k: int, least: bool)
  {
    0 <= k < |vals| && forall j :: 0 <= j < |vals| ==> MinMax.Better(vals[k], vals[j], least)
  }

  /** The corrected finder reports a pixel holding the image's extreme
      value. */
  lemma CorrectedFindsExtreme(vals: seq<real>, least: bool)
    requires |vals| > 0
    ensures Extreme(vals, ReduceCorrected(vals, least).value, least)
  {
    var lvl := Indexed(vals);
    IndexedCovers(vals, least);
    ReduceFixedKeeps(vals, lvl, least);
    LastEntry(vals, ReduceFixed(lvl, least), least);
  }

  /** The raveled pixels with their indices cover themselves. */
  lemma IndexedCovers(vals: seq<real>, least: bool)
    ensures Sound(vals, Indexed(vals)) && Covers(vals, Indexed(vals), least)
  {
    var lvl := Indexed(vals);
    forall j | 0 <= j < |vals| ensures Beaten(lvl, vals[j], least) {
      assert MinMax.Better(lvl[j].0, vals[j], least);
    }
  }

  /** A single sound entry covering every pixel holds the extreme value. */
  lemma LastEntry(vals: seq<real>, out: seq<Entry>, least: bool)
    requires |out| == 1 && Sound(vals, out) && Covers(vals, out, least)
    ensures Extreme(vals, out[0].1, least)
  {
    forall j | 0 <= j < |vals| ensures MinMax.Better(vals[out[0].1], vals[j], least) {
      assert Beaten(out, vals[j], least);
    }
  }

  /** The corrected finder does what the as-written one gets wrong. */
  lemma CorrectedOnCounterexamples()
    ensures ReduceCorrected([0.0, 0.0, 0.0, 0.0, 0.0, 9.0], false) == Some(5)
    ensures ReduceCorrected([5.0], false) == Some(0)
  {
    CorrectedFindsStrictMax([0.0, 0.0, 0.0, 0.0, 0.0, 9.0], 5);
    CorrectedFindsStrictMax([5.0], 0);
  }

  /** When one pixel is strictly brighter than all the others, the corrected
      finder reports that pixel. */
  lemma CorrectedFindsStrictMax(vals: seq<real>, m: nat)
    requires m < |vals|
    requires forall j :: 0 <= j < |vals| && j != m ==> vals[j] < vals[m]
    ensures ReduceCorrected(vals, false) == Some(m)
  {
    CorrectedFindsExtreme(vals, false);
    var k := ReduceCorrected(vals, false).value;
    assert MinMax.Better(vals[k], vals[m], false);
  }

  // -------------------------------------------------------------- coordinates

  /** `x = floor(index / cols)`, `y = index - x * cols`. */
  function Coords(index: nat, cols: nat): (xy: (nat, nat))
    requires cols > 0
    ensures xy.0 * cols + xy.1 == index && xy.1 < cols
  {
    var x := index / cols;
    (x, index - x * cols)
  }

  /** Coordinates invert the raveling of a pixel position. */
  lemma CoordsOfPixel(r: nat, c: nat, cols: nat)
    requires c < cols
    ensures Coords(r * cols + c, cols) == (r, c)
  {
    var x := r * cols + c;
    Arith.DivUnique(x, r, c, cols);
    assert x == (x / cols) * cols + c;
    assert (x / cols) * cols == r * cols;
    Arith.MulCancel(x / cols, r, cols);
  }

  /** On an image, the corrected finder's coordinates name a pixel holding
      the extreme value. */
  lemma CorrectedCoords(img: MinMax.Image, least: bool, r2: nat, c2: nat)
    requires MinMax.Rect(img) && |img| > 0 && MinMax.Cols(img) > 0
    requires r2 < |img| && c2 < MinMax.Cols(img)
    ensures ReduceCorrected(MinMax.Ravel(img), least).Some? && ReduceCorrected(MinMax.Ravel(img), least).value >= 0
    ensures var xy := Coords(ReduceCorrected(MinMax.Ravel(img), least).value as nat, MinMax.Cols(img));
      xy.0 < |img| && MinMax.Better(img[xy.0][xy.1], img[r2][c2], least)
  {
    var vals := MinMax.Ravel(img);
    MinMax.RavelIndex(img, r2, c2);
    CorrectedFindsExtreme(vals, least);
    ExtremePixel(img, ReduceCorrected(vals, least).value, least, r2, c2);
  }

  /** The coordinates of an extreme raveled position name an extreme pixel. */
  lemma ExtremePixel(img: MinMax.Image, k: int, least: bool, r2: nat, c2: nat)
    requires MinMax.Rect(img) && MinMax.Cols(img) > 0
    requires r2 < |img| && c2 < MinMax.Cols(img)
    requires Extreme(MinMax.Ravel(img), k, least)
    ensures var xy := Coords(k as nat, MinMax.Cols(img));
      xy.0 < |img| && MinMax.Better(img[xy.0][xy.1], img[r2][c2], least)
  {
    var vals := MinMax.Ravel(img);
    var j := PixelIndex(img, r2, c2);
    ExtremeAt(vals, k, least, j);
    CoordsPixel(img, k);
  }

  /** The raveled position of pixel `(r, c)`. */
  lemma PixelIndex(img: MinMax.Image, r: nat, c: nat) returns (j: nat)
    requires MinMax.Rect(img) && r < |img| && c < MinMax.Cols(img)
    ensures j < |MinMax.Ravel(img)| && MinMax.Ravel(img)[j] == img[r][c]
  {
    MinMax.RavelIndex(img, r, c);
    j := r * MinMax.Cols(img) + c;
  }

  lemma ExtremeAt(vals: seq<real>, k: int, least: bool, j: int)
    requires Extreme(vals, k, least) && 0 <= j < |vals|
    ensures 0 <= k < |vals| && MinMax.Better(vals[k], vals[j], least)
  {
  }

  /** The coordinates of a raveled position name the pixel stored there. */
  lemma CoordsPixel(img: MinMax.Image, k: int)
    requires MinMax.Rect(img) && MinMax.Cols(img) > 0
    requires 0 <= k < |MinMax.Ravel(img)|
    ensures var xy := Coords(k as nat, MinMax.Cols(img));
      xy.0 < |img| && xy.1 < MinMax.Cols(img) && MinMax.Ravel(img)[k] == img[xy.0][xy.1]
  {
    var cols := MinMax.Cols(img);
    var xy := Coords(k as nat, cols);
    MinMax.RowBelow(xy.0, xy.1, |img|, cols);
    MinMax.RavelIndex(img, xy.0, xy.1);
  }
}

=== FILE: config.dfy ===
/** The configuration helpers of the eye tracker's Python utilities
    (coxlab_eyetracker/util/__init__.py): `config_to_dict`, which merges the
    sections of a parsed configuration into one dictionary and turns values
    starting with "true"/"false" (any case) into booleans; the default and
    file loaders built on it; and `ParamExpose`, which reads and writes one
    parameter across a list of objects. A parsed configuration is given as
    its sections' `items()`; parsing the INI text itself is not modelled. */
module ConfigUtil {
  import opened Wrappers
  import PyStr

  /** A dictionary value: the text read from the file, or a converted boolean. */
  datatype Value = Text(s: string) | Flag(b: bool)

  /** The exceptions the helpers can raise. */
  datatype Error = TypeError | ValueError | NameError | IndexError | AttributeError

  type Dict = map<string, Value>

  /** A parsed configuration: for each section, its `items()` in order. */
  type Parsed = seq<seq<(string, string)>>

  /** `d.update(dict(items))` for every section in order: later sections
      overwrite earlier keys. */
  function Merge(d: Dict, cp: Parsed): (r: Dict)
    ensures forall k :: k in d ==> k in r
    decreases |cp|
  {
    if |cp| == 0 then d else Merge(Update(d, cp[0]), cp[1..])
  }

  /** `d.update(dict(items))` for one section; within a section a later
      item overwrites an earlier one. */
  function Update(d: Dict, items: seq<(string, string)>): (r: Dict)
    ensures forall k :: k in r <==> k in d || exists i :: 0 <= i < |items| && items[i].0 == k
    decreases |items|
  {
    if |items| == 0 then d
    else
      var r := Update(d[items[0].0 := Text(items[0].1)], items[1..]);
      assert forall i :: 1 <= i < |items| ==> items[1..][i - 1] == items[i];
      r
  }

  /** The value `config_to_dict` stores for a text: `True` when it starts
      with "true", `False` when it starts with "false", in any case, and the
      text itself otherwise. */
  function Convert(s: string): (v: Value)
    ensures v == Flag(true) <==> PyStr.StartsWith(PyStr.Lower(s), "true")
    ensures v == Flag(false) <==> PyStr.StartsWith(PyStr.Lower(s), "false")
    ensures v.Text? <==> !PyStr.StartsWith(PyStr.Lower(s), "true") && !PyStr.StartsWith(PyStr.Lower(s), "false")
    ensures v.Text? ==> v.s == s
  {
    var l := PyStr.Lower(s);
    if PyStr.StartsWith(l, "true") then
      assert l[0] == 't';
      Flag(true)
    else if PyStr.StartsWith(l, "false") then Flag(false)
    else Text(s)
  }

  /** Some value of the dictionary is already a boolean. */
  predicate HasFlag(d: Dict)
  {
    exists k :: k in d && d[k].Flag?
  }

  /** `config_to_dict(cp, d)`: merge, then convert every value. `re.match` on
      a value that is already a boolean raises `TypeError`. */
  function ConfigToDict(cp: Parsed, d: Dict): (r: Result<Dict, Error>)
    ensures r.Err? <==> HasFlag(Merge(d, cp))
    ensures r.Ok? ==> r.value.Keys == Merge(d, cp).Keys
    ensures r.Ok? ==> forall k :: k in r.value ==> r.value[k] == Convert(Merge(d, cp)[k].s)
  {
    var merged := Merge(d, cp);
    if HasFlag(merged) then Err(TypeError)
    else Ok(map k | k in merged :: Convert(merged[k].s))
  }

  /** `config_to_dict` converting only the values that are still text, so
      a dictionary converted once can be merged into again. */
  function ConfigToDictFixed(cp: Parsed, d: Dict): (r: Dict)
    ensures r.Keys == Merge(d, cp).Keys
    ensures forall k :: k in r ==>
      r[k] == (match Merge(d, cp)[k] case Text(s) => Convert(s) case Flag(b) => Flag(b))
  {
    var merged := Merge(d, cp);
    map k | k in merged :: match merged[k] case Text(s) => Convert(s) case Flag(b) => Flag(b)
  }

  /** The configuration `default_config` holds. */
  const DefaultConfig: Parsed := [
    [("use_simulated", "False"), ("use_file_for_camera", "False,")],
    [("calibration_path", "~/.eyetracker/calibration")],
    [("enable_mw_conduit", "true")]
  ]

  // ------------------------------------------------------------- as written

  /** `load_default_config` as written: `SafeConfigParser.read` is given the
      `StringIO`, which it takes as a list of file names, so no section is
      read; the result is the shared default dictionary of `config_to_dict`
      (`d={}`), which every call updates in place. */
  function LoadDefaultConfig(shared: Dict): (r: Result<Dict, Error>)
    ensures r.Err? <==> HasFlag(shared)
    ensures r.Ok? ==> r.value.Keys == shared.Keys
  {
    assert Merge(shared, []) == shared;
    ConfigToDict([], shared)
  }

  /** `load_config_file` as written: the file is merged into the dictionary
      `load_default_config` returned, which is the shared one; the result is
      again that shared dictionary. */
  function LoadConfigFile(shared: Dict, file: Parsed): (r: Result<Dict, Error>)
  {
    match LoadDefaultConfig(shared)
    case Err(e) => Err(e)
    case Ok(d) => ConfigToDict(file, d)
  }

  /** The defaults are never read: on a fresh start the default loader
      returns an empty dictionary. */
  lemma DefaultsNeverRead()
    ensures LoadDefaultConfig(map[]) == Ok(map[])
  {
    assert Merge(map[], []) == map[];
  }

  /** The first file load leaves a boolean in the shared dictionary, and the
      next load of the defaults then raises `TypeError`. */
  lemma SecondLoadRaises()
    ensures LoadConfigFile(map[], [[("use_simulated", "False")]]) == Ok(map["use_simulated" := Flag(false)])
    ensures LoadDefaultConfig(map["use_simulated" := Flag(false)]) == Err(TypeError)
  {
    var file: Parsed := [[("use_simulated", "False")]];
    DefaultsNeverRead();
    assert Merge(map[], file) == map["use_simulated" := Text("False")] by {
      assert file[1..] == [];
      assert Update(map[], file[0]) == map["use_simulated" := Text("False")] by {
        assert file[0][1..] == [];
      }
    }
    ConvertFalse("False");
    assert !HasFlag(Merge(map[], file));
    var r := ConfigToDict(file, map[]).value;
    assert r.Keys == {"use_simulated"};
    assert r["use_simulated"] == Convert("False");
    assert r == map["use_simulated" := Flag(false)];
    var d := map["use_simulated" := Flag(false)];
    assert d["use_simulated"].Flag?;
  }

  // ------------------------------------------------------------- corrected

  /** The defaults parsed from `default_config` into a fresh dictionary. */
  function LoadDefaultConfigFixed(): (r: Dict)
    ensures r.Keys == {"use_simulated", "use_file_for_camera", "calibration_path", "enable_mw_conduit"}
  {
    ConfigToDictFixed(DefaultConfig, map[])
  }

  /** The file merged over freshly parsed defaults. */
  function LoadConfigFileFixed(file: Parsed): (r: Dict)
  {
    ConfigToDictFixed(file, LoadDefaultConfigFixed())
  }

  /** The defaults convert as intended; "False," counts as false. With the
      keys `LoadDefaultConfigFixed` guarantees, this is the whole
      dictionary. */
  lemma DefaultValues()
    ensures LoadDefaultConfigFixed()["use_simulated"] == Flag(false)
    ensures LoadDefaultConfigFixed()["use_file_for_camera"] == Flag(false)
    ensures LoadDefaultConfigFixed()["calibration_path"] == Text("~/.eyetracker/calibration")
    ensures LoadDefaultConfigFixed()["enable_mw_conduit"] == Flag(true)
  {
    MergedDefaults();
    DefaultValue("use_simulated", "False");
    DefaultValue("use_file_for_camera", "False,");
    DefaultValue("calibration_path", "~/.eyetracker/calibration");
    DefaultValue("enable_mw_conduit", "true");
    ConvertFalse("False");
    ConvertFalse("False,");
    ConvertTrue();
    ConvertPath();
  }

  /** One default: the converted text of its entry. */
  lemma DefaultValue(k: string, text: string)
    requires k in Merge(map[], DefaultConfig) && Merge(map[], DefaultConfig)[k] == Text(text)
    ensures k in LoadDefaultConfigFixed() && LoadDefaultConfigFixed()[k] == Convert(text)
  {
  }

  /** The defaults' sections merged, before any conversion. */
  lemma MergedDefaults()
    ensures Merge(map[], DefaultConfig) == map["use_simulated" := Text("False"), "use_file_for_camera" := Text("False,"),
      "calibration_path" := Text("~/.eyetracker/calibration"), "enable_mw_conduit" := Text("true")]
  {
    var c := DefaultConfig;
    var d1 := map["use_simulated" := Text("False"), "use_file_for_camera" := Text("False,")];
    var d2 := d1["calibration_path" := Text("~/.eyetracker/calibration")];
    var d3 := d2["enable_mw_conduit" := Text("true")];
    assert Update(map[], c[0]) == d1 by {
      assert c[0][1..][1..] == [];
    }
    assert Update(d1, c[1]) == d2 by {
      assert c[1][1..] == [];
    }
    assert Update(d2, c[2]) == d3 by {
      assert c[2][1..] == [];
    }
    assert c[1..][1..][1..] == [];
    assert Merge(d2, c[2..]) == d3;
    assert c[1..][1..] == c[2..];
  }

  /** Any text that lower-cases to a "false..." text converts to false. */
  lemma ConvertFalse(s: string)
    requires s == "False" || s == "False,"
    ensures Convert(s) == Flag(false)
  {
    var l := PyStr.Lower(s);
    assert l[..5] == "false";
    assert l[0] != 't';
  }

  lemma ConvertTrue()
    ensures Convert("true") == Flag(true)
  {
    assert PyStr.Lower("true") == "true";
  }

  lemma ConvertPath()
    ensures Convert("~/.eyetracker/calibration") == Text("~/.eyetracker/calibration")
  {
    assert PyStr.Lower("~/.eyetracker/calibration")[0] == '~';
  }

  /** Keys of the file override the defaults; the other defaults stay. */
  lemma FileOverridesDefaults(file: Parsed, k: string)
    requires k in LoadDefaultConfigFixed() && !(exists s, i :: 0 <= s < |file| && 0 <= i < |file[s]| && file[s][i].0 == k)
    ensures k in LoadConfigFileFixed(file) && LoadConfigFileFixed(file)[k] == LoadDefaultConfigFixed()[k]
  {
    MergeUntouched(LoadDefaultConfigFixed(), file, k);
    var d := LoadDefaultConfigFixed();
    match d[k]
    case Text(s) =>
      assert d == ConfigToDictFixed(DefaultConfig, map[]);
      ConvertedIsStable(k);
    case Flag(b) =>
  }

  /** A default that stays text after conversion converts to itself again. */
  lemma ConvertedIsStable(k: string)
    requires k in LoadDefaultConfigFixed() && LoadDefaultConfigFixed()[k].Text?
    ensures Convert(LoadDefaultConfigFixed()[k].s) == LoadDefaultConfigFixed()[k]
  {
    DefaultValues();
  }

  /** A key no item names keeps its value through a merge. */
  lemma {:induction false} MergeUntouched(d: Dict, cp: Parsed, k: string)
    requires k in d && !(exists s, i :: 0 <= s < |cp| && 0 <= i < |cp[s]| && cp[s][i].0 == k)
    ensures k in Merge(d, cp) && Merge(d, cp)[k] == d[k]
    decreases |cp|
  {
    if |cp| > 0 {
      UpdateUntouched(d, cp[0], k);
      MergeUntouched(Update(d, cp[0]), cp[1..], k);
    }
  }

  lemma {:induction false} UpdateUntouched(d: Dict, items: seq<(string, string)>, k: string)
    requires k in d && forall i :: 0 <= i < |items| ==> items[i].0 != k
    ensures k in Update(d, items) && Update(d, items)[k] == d[k]
    decreases |items|
  {
    if |items| > 0 {
      UpdateUntouched(d[items[0].0 := Text(items[0].1)], items[1..], k);
    }
  }

  /** A key the file names takes the converted value of the last item that
      names it. */
  lemma {:induction false} UpdateLastWins(d: Dict, items: seq<(string, string)>, i: nat)
    requires i < |items| && forall j :: i < j < |items| ==> items[j].0 != items[i].0
    ensures Update(d, items)[items[i].0] == Text(items[i].1)
    decreases |items|
  {
    if i == 0 {
      UpdateUntouched(d[items[0].0 := Text(items[0].1)], items[1..], items[0].0);
    } else {
      UpdateLastWins(d[items[0].0 := Text(items[0].1)], items[1..], i - 1);
    }
  }

  /** A key the file names takes the converted value of the last item that
      names it, whatever the defaults held. */
  lemma FileKeyWins(file: Parsed, s: nat, i: nat)
    requires s < |file| && i < |file[s]|
    requires forall j :: i < j < |file[s]| ==> file[s][j].0 != file[s][i].0
    requires forall t, j :: s < t < |file| && 0 <= j < |file[t]| ==> file[t][j].0 != file[s][i].0
    ensures file[s][i].0 in LoadConfigFileFixed(file)
    ensures LoadConfigFileFixed(file)[file[s][i].0] == Convert(file[s][i].1)
  {
    MergeLastWins(LoadDefaultConfigFixed(), file, s, i);
  }

  lemma {:induction false} MergeLastWins(d: Dict, cp: Parsed, s: nat, i: nat)
    requires s < |cp| && i < |cp[s]|
    requires forall j :: i < j < |cp[s]| ==> cp[s][j].0 != cp[s][i].0
    requires forall t, j :: s < t < |cp| && 0 <= j < |cp[t]| ==> cp[t][j].0 != cp[s][i].0
    ensures cp[s][i].0 in Merge(d, cp) && Merge(d, cp)[cp[s][i].0] == Text(cp[s][i].1)
    decreases s
  {
    var k := cp[s][i].0;
    if s == 0 {
      UpdateLastWins(d, cp[0], i);
      forall t, j | 0 <= t < |cp[1..]| && 0 <= j < |cp[1..][t]| ensures cp[1..][t][j].0 != k {
        assert cp[1..][t] == cp[t + 1];
      }
      MergeUntouched(Update(d, cp[0]), cp[1..], k);
    } else {
      assert cp[1..][s - 1] == cp[s];
      forall t, j | s - 1 < t < |cp[1..]| && 0 <= j < |cp[1..][t]| ensures cp[1..][t][j].0 != k {
        assert cp[1..][t] == cp[t + 1];
      }
      MergeLastWins(Update(d, cp[0]), cp[1..], s - 1, i);
    }
  }

  // ------------------------------------------------------------- ParamExpose

  /** An object as `ParamExpose` sees it: its type and its attributes. */
  datatype Obj<V> = Obj(kind: nat, attrs: map<string, V>)

  /** `ParamExpose.__init__`: the objects must all be of the first one's type
      (an empty list raises `IndexError` at `objs[0]`). */
  function Expose<V>(objs: seq<Obj<V>>): (r: Result<seq<Obj<V>>, Error>)
    ensures |objs| == 0 ==> r == Err(IndexError)
    ensures |objs| > 0 ==> (r.Ok? <==> forall i :: 0 <= i < |objs| ==> objs[i].kind == objs[0].kind)
    ensures r.Ok? ==> r.value == objs
  {
    if |objs| == 0 then Err(IndexError)
    else if forall i :: 0 <= i < |objs| ==> objs[i].kind == objs[0].kind then Ok(objs)
    else Err(ValueError)
  }

  /** The objects all have the attribute, with one and the same value. */
  predicate Agree<V(==)>(objs: seq<Obj<V>>, param: string)
    requires |objs| > 0 && forall i :: 0 <= i < |objs| ==> param in objs[i].attrs
  {
    forall i :: 0 <= i < |objs| ==> objs[i].attrs[param] == objs[0].attrs[param]
  }

  /** `get_from_regular_objs`: the common value, or `ValueError` when the
      objects disagree; a missing attribute raises `AttributeError`. */
  function GetRegular<V(==)>(objs: seq<Obj<V>>, param: string): (r: Result<V, Error>)
    requires |objs| > 0
    ensures r.Ok? <==> (forall i :: 0 <= i < |objs| ==> param in objs[i].attrs) && Agree(objs, param)
    ensures r.Ok? ==> forall i :: 0 <= i < |objs| ==> objs[i].attrs[param] == r.value
  {
    if !(forall i :: 0 <= i < |objs| ==> param in objs[i].attrs) then Err(AttributeError)
    else if Agree(objs, param) then Ok(objs[0].attrs[param])
    else Err(ValueError)
  }

  /** `get_from_proxy_objs` as written: on disagreement it names `ValuError`,
      which does not exist, so `NameError` is raised instead of
      `ValueError`. */
  function GetProxyAsWritten<V(==)>(objs: seq<Obj<V>>, param: string): (r: Result<V, Error>)
    requires |objs| > 0
  {
    if !(forall i :: 0 <= i < |objs| ==> param in objs[i].attrs) then Err(AttributeError)
    else if Agree(objs, param) then Ok(objs[0].attrs[param])
    else Err(NameError)
  }

  /** The proxy getter raising `ValueError`, as the regular one does. */
  function GetProxy<V(==)>(objs: seq<Obj<V>>, param: string): (r: Result<V, Error>)
    requires |objs| > 0
    ensures r == GetRegular(objs, param)
  {
    if !(forall i :: 0 <= i < |objs| ==> param in objs[i].attrs) then Err(AttributeError)
    else if Agree(objs, param) then Ok(objs[0].attrs[param])
    else Err(ValueError)
  }

  /** Two objects that disagree make the proxy getter as written raise
      `NameError` where the regular getter raises `ValueError`. */
  lemma ProxyDisagreementRaisesNameError()
    ensures var objs := [Obj(0, map["gain" := 1]), Obj(0, map["gain" := 2])];
      GetProxyAsWritten(objs, "gain") == Err(NameError) && GetRegular(objs, "gain") == Err(ValueError)
  {
    var objs := [Obj(0, map["gain" := 1]), Obj(0, map["gain" := 2])];
    assert objs[1].attrs["gain"] != objs[0].attrs["gain"];
    assert !Agree(objs, "gain");
  }

  /** `set_to_regular_objs` / `set_to_proxy_objs`: the value is written to
      every object, other attributes untouched. */
  function SetAll<V>(objs: seq<Obj<V>>, param: string, value: V): (r: seq<Obj<V>>)
    ensures |r| == |objs|
    ensures forall i :: 0 <= i < |objs| ==>
      r[i].kind == objs[i].kind && r[i].attrs == objs[i].attrs[param := value]
  {
    seq(|objs|, i requires 0 <= i < |objs| => Obj(objs[i].kind, objs[i].attrs[param := value]))
  }

  /** Reading a parameter just written through the proxy gives the written
      value. */
  lemma SetThenGet<V>(objs: seq<Obj<V>>, param: string, value: V)
    requires |objs| > 0
    ensures GetRegular(SetAll(objs, param, value), param) == Ok(value)
  {
  }
}

=== FILE: cstrings.dfy ===
/** The C library string routines the camera samples lean on, for the
    "C" locale: `isspace`, `strchr`, `strtok` with a one-character delimiter
    set, `strtol` in base 16, `atol`, and the `%lu`/`%x` formatting that
    writes the numbers those routines read back. A C string is modelled as
    the characters before its terminating NUL. */
module CStrings {
  import opened Wrappers

  /** `isspace` in the "C" locale. */
  predicate IsSpace(c: char)
  {
    c == ' ' || c == '\t' || c == '\n' || c == '\U{B}' || c == '\U{C}' || c == '\r'
  }

  /** The characters of a buffer before its first NUL, as `strlen` sees them. */
  function UntilNul(s: string): (r: string)
    ensures |r| <= |s| && r == s[..|r|]
    ensures '\0' !in r
    ensures |r| < |s| ==> s[|r|] == '\0'
  {
    if |s| == 0 || s[0] == '\0' then [] else [s[0]] + UntilNul(s[1..])
  }

  /** A NUL-free text followed by NUL padding reads back as the text. */
  lemma {:induction false} UntilNulOf(text: string, padding: string)
    requires '\0' !in text
    requires |padding| == 0 || padding[0] == '\0'
    ensures UntilNul(text + padding) == text
  {
    if |text| > 0 {
      assert (text + padding)[1..] == text[1..] + padding;
      UntilNulOf(text[1..], padding);
    } else {
      assert text + padding == padding;
    }
  }

  /** `strchr`: index of the first occurrence of `c`, if any. */
  function Find(s: string, c: char): (r: Option<nat>)
    ensures r.Some? ==> r.value < |s| && s[r.value] == c && c !in s[..r.value]
    ensures r.None? ==> c !in s
  {
    if |s| == 0 then None
    else if s[0] == c then Some(0)
    else match Find(s[1..], c)
      case None => None
      case Some(i) => assert s[1..][..i] == s[1..i + 1]; Some(i + 1)
  }

  // ---------------------------------------------------------------- strtok

  /** Length of the leading run of characters different from `d`. */
  function RunLength(s: string, d: char): (n: nat)
    ensures n <= |s|
    ensures d !in s[..n]
    ensures n < |s| ==> s[n] == d
  {
    if |s| == 0 || s[0] == d then 0
    else
      var n := RunLength(s[1..], d);
      assert s[..n + 1] == [s[0]] + s[1..][..n];
      n + 1
  }

  /** The tokens successive `strtok` calls return for the delimiter `d`:
      maximal non-empty runs free of `d`, in order. */
  function Tokens(s: string, d: char): (ts: seq<string>)
    ensures forall i :: 0 <= i < |ts| ==> |ts[i]| > 0 && d !in ts[i]
    decreases |s|
  {
    if |s| == 0 then []
    else if s[0] == d then Tokens(s[1..], d)
    else
      var n := RunLength(s, d);
      [s[..n]] + Tokens(s[n..], d)
  }

  /** The characters of `s` other than `d`, in order. */
  function Without(s: string, d: char): (r: string)
    ensures d !in r
  {
    if |s| == 0 then []
    else (if s[0] == d then [] else [s[0]]) + Without(s[1..], d)
  }

  function Concat(ts: seq<string>): string
  {
    if |ts| == 0 then [] else ts[0] + Concat(ts[1..])
  }

  /** Tokenizing loses nothing but the delimiters. */
  lemma {:induction false} TokensKeepText(s: string, d: char)
    ensures Concat(Tokens(s, d)) == Without(s, d)
    decreases |s|
  {
    if |s| == 0 {
    } else if s[0] == d {
      TokensKeepText(s[1..], d);
    } else {
      var n := RunLength(s, d);
      var ts := Tokens(s, d);
      assert ts[1..] == Tokens(s[n..], d);
      TokensKeepText(s[n..], d);
      WithoutSplit(s, n, d);
      WithoutRun(s[..n], d);
    }
  }

  lemma {:induction false} WithoutRun(s: string, d: char)
    requires d !in s
    ensures Without(s, d) == s
  {
    if |s| > 0 {
      WithoutRun(s[1..], d);
    }
  }

  lemma {:induction false} WithoutSplit(s: string, n: nat, d: char)
    requires n <= |s|
    ensures Without(s, d) == Without(s[..n], d) + Without(s[n..], d)
  {
    if n > 0 {
      assert s[..n][1..] == s[1..][..n - 1];
      assert s[n..] == s[1..][n - 1..];
      WithoutSplit(s[1..], n - 1, d);
    }
  }

  /** There are never more tokens than delimiters plus one; this is why the
      enumeration list allocated with that length can hold every token. */
  lemma {:induction false} TokensBound(s: string, d: char)
    ensures |Tokens(s, d)| <= Count(s, d) + 1
    ensures |s| > 0 && s[0] == d ==> |Tokens(s, d)| <= Count(s, d)
    decreases |s|
  {
    if |s| == 0 {
    } else if s[0] == d {
      TokensBound(s[1..], d);
    } else {
      var n := RunLength(s, d);
      assert Count(s, d) == Count(s[..n], d) + Count(s[n..], d) by {
        assert s == s[..n] + s[n..];
        CountAppend(s[..n], s[n..], d);
      }
      CountAbsent(s[..n], d);
      if n == |s| {
        assert s[n..] == [];
      } else {
        TokensBound(s[n..], d);
      }
    }
  }

  lemma {:induction false} CountAbsent<T>(s: seq<T>, x: T)
    requires x !in s
    ensures Count(s, x) == 0
  {
    if |s| > 0 {
      CountAbsent(s[1..], x);
    }
  }

  /** The entries joined with the delimiter between them. */
  function Join(values: seq<string>, d: char): string
    requires |values| > 0
  {
    if |values| == 1 then values[0] else values[0] + [d] + Join(values[1..], d)
  }

  lemma {:induction false} JoinCount(values: seq<string>, d: char)
    requires |values| > 0
    requires forall i :: 0 <= i < |values| ==> d !in values[i]
    ensures Count(Join(values, d), d) == |values| - 1
  {
    CountAbsent(values[0], d);
    if |values| > 1 {
      JoinCount(values[1..], d);
      CountAppend(values[0] + [d], Join(values[1..], d), d);
      CountAppend(values[0], [d], d);
    }
  }

  /** Joined entries that are non-empty and free of the delimiter tokenize
      back into the entries. */
  lemma {:induction false} JoinTokens(values: seq<string>, d: char)
    requires |values| > 0
    requires forall i :: 0 <= i < |values| ==> |values[i]| > 0 && d !in values[i]
    ensures Tokens(Join(values, d), d) == values
  {
    var v := values[0];
    if |values| == 1 {
      RunTokens(v, "", d);
      assert v + "" == v;
    } else {
      var rest := Join(values[1..], d);
      JoinTokens(values[1..], d);
      assert v + [d] + rest == v + ([d] + rest);
      RunTokens(v, [d] + rest, d);
      assert ([d] + rest)[1..] == rest;
    }
  }

  /** A token followed by nothing or by a delimiter is cut exactly there. */
  lemma RunTokens(v: string, rest: string, d: char)
    requires |v| > 0 && d !in v
    requires |rest| == 0 || rest[0] == d
    ensures Tokens(v + rest, d) == [v] + Tokens(rest, d)
  {
    RunLengthOf(v, rest, d);
    assert (v + rest)[..|v|] == v;
    assert (v + rest)[|v|..] == rest;
  }

  lemma {:induction false} RunLengthOf(v: string, rest: string, d: char)
    requires d !in v
    requires |rest| == 0 || rest[0] == d
    ensures RunLength(v + rest, d) == |v|
  {
    if |v| > 0 {
      assert (v + rest)[1..] == v[1..] + rest;
      RunLengthOf(v[1..], rest, d);
    } else {
      assert v + rest == rest;
    }
  }

  // ---------------------------------------------------------------- numbers

  /** Value of a digit in base 16 (both cases), if it is one. */
  function HexDigit(c: char): (r: Option<nat>)
    ensures r.Some? ==> r.value < 16
  {
    if '0' <= c <= '9' then Some(c as nat - '0' as nat)
    else if 'a' <= c <= 'f' then Some(c as nat - 'a' as nat + 10)
    else if 'A' <= c <= 'F' then Some(c as nat - 'A' as nat + 10)
    else None
  }

  /** Value of a decimal digit, if it is one. */
  function DecDigit(c: char): (r: Option<nat>)
    ensures r.Some? ==> r.value < 10
  {
    if '0' <= c <= '9' then Some(c as nat - '0' as nat) else None
  }

  function Digit(c: char, base: nat): Option<nat>
    requires base == 10 || base == 16
  {
    if base == 16 then HexDigit(c) else DecDigit(c)
  }

  predicate IsDigit(c: char, base: nat)
    requires base == 10 || base == 16
  {
    Digit(c, base).Some?
  }

  /** Length of the leading run of digits. */
  function DigitRun(s: string, base: nat): (n: nat)
    requires base == 10 || base == 16
    ensures n <= |s|
    ensures forall i :: 0 <= i < n ==> IsDigit(s[i], base)
    ensures n < |s| ==> !IsDigit(s[n], base)
  {
    if |s| == 0 || !IsDigit(s[0], base) then 0 else 1 + DigitRun(s[1..], base)
  }

  /** Value of a string of digits, most significant first. */
  function DigitsValue(s: string, base: nat): nat
    requires base == 10 || base == 16
    requires forall i :: 0 <= i < |s| ==> IsDigit(s[i], base)
  {
    if |s| == 0 then 0
    else
      assert IsDigit(s[|s| - 1], base);
      DigitsValue(s[..|s| - 1], base) * base + Digit(s[|s| - 1], base).value
  }

  /** Leading white space skipped by the C conversions. */
  function SkipSpace(s: string): (r: string)
    ensures |r| <= |s| && r == s[|s| - |r|..]
    ensures |r| > 0 ==> !IsSpace(r[0])
  {
    if |s| > 0 && IsSpace(s[0]) then SkipSpace(s[1..]) else s
  }

  /** Conversion shared by `strtol` and `atol`: white space, an optional sign,
      then the longest run of digits; no digits gives 0. */
  function ParseSigned(s: string, base: nat): int
    requires base == 10 || base == 16
  {
    var t := SkipSpace(s);
    var neg := |t| > 0 && t[0] == '-';
    var u := if |t| > 0 && (t[0] == '-' || t[0] == '+') then t[1..] else t;
    var v := if base == 16 && |u| >= 3 && u[0] == '0' && (u[1] == 'x' || u[1] == 'X') && IsDigit(u[2], 16)
             then u[2..] else u;
    var n := DigitRun(v, base);
    var m := DigitsValue(v[..n], base);
    if neg then -(m as int) else m
  }

  const LongMin: int := -0x8000_0000_0000_0000
  const LongMax: int := 0x7FFF_FFFF_FFFF_FFFF

  /** `strtol(s, NULL, 16)` for a 64-bit `long`: out-of-range values
      saturate at LONG_MIN and LONG_MAX. */
  function StrtolHex(s: string): (v: int)
    ensures LongMin <= v <= LongMax
    ensures LongMin <= ParseSigned(s, 16) <= LongMax ==> v == ParseSigned(s, 16)
    ensures ParseSigned(s, 16) > LongMax ==> v == LongMax
    ensures ParseSigned(s, 16) < LongMin ==> v == LongMin
  {
    var v := ParseSigned(s, 16);
    if v < LongMin then LongMin else if v > LongMax then LongMax else v
  }

  /** `atol(s)`, for values that fit in a long. */
  function Atol(s: string): int
  {
    ParseSigned(s, 10)
  }

  /** The digit character for a value below the base (lower-case hex). */
  function DigitChar(d: nat): (c: char)
    requires d < 16
    ensures HexDigit(c) == Some(d)
    ensures d < 10 ==> DecDigit(c) == Some(d)
  {
    if d < 10 then ('0' as nat + d) as char else ('a' as nat + d - 10) as char
  }

  /** `sprintf("%lu")` for base 10 and `"%x"` for base 16. */
  function Format(n: nat, base: nat): (s: string)
    requires base == 10 || base == 16
    ensures |s| > 0
    ensures forall i :: 0 <= i < |s| ==> IsDigit(s[i], base)
    ensures !IsSpace(s[0]) && s[0] != '-' && s[0] != '+'
  {
    if n < base then [DigitChar(n)]
    else Format(n / base, base) + [DigitChar(n % base)]
  }

  lemma {:induction false} FormatValue(n: nat, base: nat)
    requires base == 10 || base == 16
    ensures DigitsValue(Format(n, base), base) == n
  {
    var s := Format(n, base);
    if n >= base {
      assert s[..|s| - 1] == Format(n / base, base);
      FormatValue(n / base, base);
    }
  }

  /** Printing a number and converting the text back gives the number, as
      long as what follows the digits is not itself a digit. */
  lemma ParseFormat(n: nat, base: nat, rest: string)
    requires base == 10 || base == 16
    requires |rest| == 0 || (!IsDigit(rest[0], base) && rest[0] != 'x' && rest[0] != 'X')
    ensures ParseSigned(Format(n, base) + rest, base) == n
  {
    var f := Format(n, base);
    var s := f + rest;
    FormatThenText(f, rest, base);
    ParseUnsignedText(s, base);
    DigitRunOf(f, rest, base);
    assert s[..|f|] == f;
    FormatValue(n, base);
  }

  /** Digits followed by text that is neither a digit nor an `x` start
      with a digit and carry no hex prefix. */
  lemma FormatThenText(f: string, rest: string, base: nat)
    requires base == 10 || base == 16
    requires |f| > 0 && forall i :: 0 <= i < |f| ==> IsDigit(f[i], base)
    requires |rest| == 0 || (!IsDigit(rest[0], base) && rest[0] != 'x' && rest[0] != 'X')
    ensures var s := f + rest; IsDigit(s[0], base) && (|s| >= 2 ==> s[1] != 'x' && s[1] != 'X')
  {
    var s := f + rest;
    assert s[0] == f[0];
    if |s| >= 2 {
      if |f| >= 2 {
        assert s[1] == f[1] && IsDigit(f[1], base);
      } else {
        assert s[1] == rest[0];
      }
    }
  }

  /** Text that starts with a digit and no hex prefix is read as its
      leading run of digits. */
  lemma ParseUnsignedText(s: string, base: nat)
    requires base == 10 || base == 16
    requires |s| > 0 && IsDigit(s[0], base)
    requires |s| >= 2 ==> s[1] != 'x' && s[1] != 'X'
    ensures ParseSigned(s, base) == DigitsValue(s[..DigitRun(s, base)], base)
  {
    assert !IsSpace(s[0]);
    assert SkipSpace(s) == s;
    assert s[0] != '-' && s[0] != '+';
    assert !(base == 16 && |s| >= 3 && s[0] == '0' && (s[1] == 'x' || s[1] == 'X'));
  }

  lemma {:induction false} DigitRunOf(f: string, rest: string, base: nat)
    requires base == 10 || base == 16
    requires forall i :: 0 <= i < |f| ==> IsDigit(f[i], base)
    requires |rest| == 0 || !IsDigit(rest[0], base)
    ensures DigitRun(f + rest, base) == |f|
  {
    if |f| > 0 {
      assert (f + rest)[1..] == f[1..] + rest;
      DigitRunOf(f[1..], rest, base);
    } else {
      assert f + rest == rest;
    }
  }
}

=== FILE: frames_queue.dfy ===
/** The queue of frames of the Java streaming sample (`FramesQueue` in
    JStream.java): a stack whose top is index 0, a count kept beside it, and
    frames that may be null. Frames are compared by reference, so a frame is
    modelled by its identity. The monitor (`synchronized`, `notifyAll`) only
    keeps threads apart and is not modelled. */
module FramesQueue {
  import opened Wrappers

  /** A reference to a frame; `None` is Java's null. */
  type Frame = Option<nat>

  /** `iCount` and `iStack`; element 0 is the top of the stack. */
  datatype Queue = Queue(count: int, stack: seq<Frame>)

  /** The count the queue keeps always equals the number of stacked frames. */
  predicate Valid(q: Queue)
  {
    q.count == |q.stack|
  }

  /** The constructor: no frame, count 0. */
  const Empty: Queue := Queue(0, [])

  /** Index of the first element equal to `x`. */
  function FirstIndex(s: seq<Frame>, x: Frame): (i: nat)
    requires x in s
    ensures i < |s| && s[i] == x && x !in s[..i]
  {
    if s[0] == x then 0
    else
      assert s[1..][..FirstIndex(s[1..], x)] == s[1..FirstIndex(s[1..], x) + 1];
      1 + FirstIndex(s[1..], x)
  }

  /** `Vector.remove(Object)`: drop the first element equal to `x`, if any. */
  function RemoveFirst(s: seq<Frame>, x: Frame): (r: seq<Frame>)
    ensures x !in s ==> r == s
    ensures x in s ==> r == s[..FirstIndex(s, x)] + s[FirstIndex(s, x) + 1..]
  {
    if |s| == 0 then s
    else if s[0] == x then s[1..]
    else
      var rest := RemoveFirst(s[1..], x);
      RemoveAfterHead(s, x, rest);
      [s[0]] + rest
  }

  /** Removing from the tail of a sequence whose head is not `x` removes
      from the whole sequence. */
  lemma RemoveAfterHead(s: seq<Frame>, x: Frame, rest: seq<Frame>)
    requires |s| > 0 && s[0] != x
    requires x !in s[1..] ==> rest == s[1..]
    requires x in s[1..] ==> rest == s[1..][..FirstIndex(s[1..], x)] + s[1..][FirstIndex(s[1..], x) + 1..]
    ensures x !in s ==> [s[0]] + rest == s
    ensures x in s ==> [s[0]] + rest == s[..FirstIndex(s, x)] + s[FirstIndex(s, x) + 1..]
  {
    assert s == [s[0]] + s[1..];
    if x in s {
      assert x in s[1..];
      HeadThenFound(s, x, rest);
    }
  }

  lemma HeadThenFound(s: seq<Frame>, x: Frame, rest: seq<Frame>)
    requires |s| > 0 && s[0] != x && x in s[1..]
    requires rest == s[1..][..FirstIndex(s[1..], x)] + s[1..][FirstIndex(s[1..], x) + 1..]
    ensures [s[0]] + rest == s[..FirstIndex(s, x)] + s[FirstIndex(s, x) + 1..]
  {
    var j := FirstIndex(s[1..], x);
    assert FirstIndex(s, x) == j + 1;
    assert s[..j + 1] == [s[0]] + s[1..][..j];
    assert s[j + 2..] == s[1..][j + 1..];
  }

  /** Removing a queued frame takes exactly one copy of it away. */
  lemma {:induction false} RemoveFirstCount(s: seq<Frame>, x: Frame)
    requires x in s
    ensures |RemoveFirst(s, x)| == |s| - 1
    ensures multiset(RemoveFirst(s, x)) == multiset(s) - multiset{x}
    decreases |s|
  {
    assert s == [s[0]] + s[1..];
    if s[0] != x {
      RemoveFirstCount(s[1..], x);
      assert RemoveFirst(s, x) == [s[0]] + RemoveFirst(s[1..], x);
    }
  }

  /** `clear`. */
  function Clear(q: Queue): (r: Queue)
    ensures Valid(r) && r.count == 0 && r.stack == []
  {
    Queue(0, [])
  }

  /** `push`: the frame goes on top and the count rises. */
  function Push(q: Queue, f: Frame): (r: Queue)
    ensures r.count == q.count + 1
    ensures |r.stack| == |q.stack| + 1 && r.stack[0] == f && r.stack[1..] == q.stack
    ensures Valid(q) ==> Valid(r)
  {
    Queue(q.count + 1, [f] + q.stack)
  }

  /** `bury`: the frame goes at the bottom and the count rises. */
  function Bury(q: Queue, f: Frame): (r: Queue)
    ensures r.count == q.count + 1
    ensures |r.stack| == |q.stack| + 1 && r.stack[|q.stack|] == f && r.stack[..|q.stack|] == q.stack
    ensures Valid(q) ==> Valid(r)
  {
    Queue(q.count + 1, q.stack + [f])
  }

  /** `grab`: the top frame, removed from the queue unless it is null; null
      and an unchanged queue when the count is 0. */
  function Grab(q: Queue): (r: (Queue, Frame))
    requires Valid(q)
    ensures Valid(r.0)
    ensures q.count == 0 ==> r == (q, None)
    ensures q.count > 0 && q.stack[0].Some? ==> r == (Queue(q.count - 1, q.stack[1..]), q.stack[0])
    ensures q.count > 0 && q.stack[0].None? ==> r == (q, None)
  {
    if q.count > 0 then
      var f := q.stack[0];
      if f.Some? then (Queue(q.count - 1, RemoveFirst(q.stack, f)), f) else (q, None)
    else (q, None)
  }

  /** `pull`: the bottom frame, removed from the queue unless it is null. The
      removal is `Vector.remove`, which takes the FIRST element equal to the
      frame: when the same frame is stacked twice the copy nearer the top goes. */
  function Pull(q: Queue): (r: (Queue, Frame))
    requires Valid(q)
    ensures Valid(r.0)
    ensures q.count == 0 ==> r == (q, None)
    ensures q.count > 0 ==> r.1 == q.stack[|q.stack| - 1]
    ensures q.count > 0 && r.1.Some? ==> multiset(r.0.stack) == multiset(q.stack) - multiset{r.1}
    ensures q.count > 0 && r.1.None? ==> r.0 == q
  {
    if q.count > 0 then
      var f := q.stack[|q.stack| - 1];
      RemoveFirstCount(q.stack, f);
      if f.Some? then (Queue(q.count - 1, RemoveFirst(q.stack, f)), f) else (q, None)
    else (q, None)
  }

  /** `size`. */
  function Size(q: Queue): (n: int)
    requires Valid(q)
    ensures n == |q.stack| && n >= 0
  {
    q.count
  }

  /** Frames on the stack are all distinct (each frame object is queued once). */
  predicate Distinct(s: seq<Frame>)
  {
    forall i, j :: 0 <= i < j < |s| ==> s[i] != s[j]
  }

  /** Pulling from a queue of distinct frames removes exactly the bottom one
      and keeps the others in their order. */
  lemma PullDistinct(q: Queue)
    requires Valid(q) && Distinct(q.stack) && q.count > 0
    requires q.stack[|q.stack| - 1].Some?
    ensures Pull(q).0 == Queue(q.count - 1, q.stack[..|q.stack| - 1])
  {
    var s := q.stack;
    var f := s[|s| - 1];
    var i := FirstIndex(s, f);
    assert s[i] == s[|s| - 1];
    assert i == |s| - 1;
    assert s[i + 1..] == [];
    assert RemoveFirst(s, f) == s[..|s| - 1];
  }

  /** Push then grab returns the pushed frame and restores the queue. */
  lemma PushThenGrab(q: Queue, id: nat)
    requires Valid(q)
    ensures Grab(Push(q, Some(id))) == (q, Some(id))
  {
  }

  /** Bury then pull returns the buried frame and restores the queue, when the
      frame is not already queued. */
  lemma {:induction false} BuryThenPull(q: Queue, id: nat)
    requires Valid(q) && Some(id) !in q.stack
    ensures Pull(Bury(q, Some(id))) == (q, Some(id))
  {
    var s := q.stack + [Some(id)];
    var i := FirstIndex(s, Some(id));
    assert forall k :: 0 <= k < |q.stack| ==> s[k] == q.stack[k];
    assert i == |q.stack|;
    assert s[..i] == q.stack && s[i + 1..] == [];
    assert RemoveFirst(s, Some(id)) == q.stack;
  }

  /** A successful grab or pull lowers the size by one; push and bury raise it
      by one; grab and pull on an empty queue answer null and keep size 0. */
  lemma SizeChanges(q: Queue, f: Frame)
    requires Valid(q)
    ensures Size(Push(q, f)) == Size(q) + 1 && Size(Bury(q, f)) == Size(q) + 1
    ensures Grab(q).1.Some? ==> Size(Grab(q).0) == Size(q) - 1
    ensures Pull(q).1.Some? ==> Size(Pull(q).0) == Size(q) - 1
    ensures Size(q) == 0 ==> Grab(q) == (q, None) && Pull(q) == (q, None) && Size(Grab(q).0) == 0
  {
  }

  // ------------------------------------------------- reference double-ended list

  /** The operations a client applies to the queue. */
  datatype Op = PushOp(id: nat) | BuryOp(id: nat) | GrabOp | PullOp | ClearOp

  /** The queue after the operations, starting from `q`. */
  function Run(q: Queue, ops: seq<Op>): (r: Queue)
    requires Valid(q)
    ensures Valid(r)
    decreases |ops|
  {
    if |ops| == 0 then q
    else
      var next := match ops[0]
        case PushOp(id) => Push(q, Some(id))
        case BuryOp(id) => Bury(q, Some(id))
        case GrabOp => Grab(q).0
        case PullOp => Pull(q).0
        case ClearOp => Clear(q);
      Run(next, ops[1..])
  }

  /** A plain double-ended list: push and grab work on the front, bury and
      pull on the back. */
  function Deque(s: seq<nat>, ops: seq<Op>): seq<nat>
    decreases |ops|
  {
    if |ops| == 0 then s
    else
      var next := match ops[0]
        case PushOp(id) => [id] + s
        case BuryOp(id) => s + [id]
        case GrabOp => if |s| > 0 then s[1..] else s
        case PullOp => if |s| > 0 then s[..|s| - 1] else s
        case ClearOp => [];
      Deque(next, ops[1..])
  }

  /** The frames of a stack of non-null frames. */
  function Ids(s: seq<Frame>): (r: seq<nat>)
    requires forall i :: 0 <= i < |s| ==> s[i].Some?
    ensures |r| == |s| && forall i :: 0 <= i < |s| ==> r[i] == s[i].value
  {
    seq(|s|, i requires 0 <= i < |s| => s[i].value)
  }

  /** Every frame is queued at most once and none is null. */
  predicate WellFormed(q: Queue)
  {
    Valid(q) && Distinct(q.stack) && forall i :: 0 <= i < |q.stack| ==> q.stack[i].Some?
  }

  /** The operations never queue a frame that is already queued. */
  predicate Fresh(q: Queue, ops: seq<Op>)
    requires Valid(q)
    decreases |ops|
  {
    |ops| == 0 ||
    ((match ops[0]
      case PushOp(id) => Some(id) !in q.stack
      case BuryOp(id) => Some(id) !in q.stack
      case _ => true)
     && Fresh(Step(q, ops[0]), ops[1..]))
  }

  function Step(q: Queue, op: Op): (r: Queue)
    requires Valid(q)
    ensures Valid(r)
  {
    match op
    case PushOp(id) => Push(q, Some(id))
    case BuryOp(id) => Bury(q, Some(id))
    case GrabOp => Grab(q).0
    case PullOp => Pull(q).0
    case ClearOp => Clear(q)
  }

  /** Pushing a frame not yet queued puts it at the front of the list. */
  lemma PushIsDeque(q: Queue, id: nat)
    requires WellFormed(q) && Some(id) !in q.stack
    ensures WellFormed(Push(q, Some(id)))
    ensures Ids(Push(q, Some(id)).stack) == [id] + Ids(q.stack)
  {
    var s := q.stack;
    var t := [Some(id)] + s;
    assert Distinct(t) by {
      forall i, j | 0 <= i < j < |t| ensures t[i] != t[j] {
        if i == 0 { assert t[j] == s[j - 1]; }
      }
    }
  }

  /** Burying a frame not yet queued puts it at the back of the list. */
  lemma BuryIsDeque(q: Queue, id: nat)
    requires WellFormed(q) && Some(id) !in q.stack
    ensures WellFormed(Bury(q, Some(id)))
    ensures Ids(Bury(q, Some(id)).stack) == Ids(q.stack) + [id]
  {
    var s := q.stack;
    var t := s + [Some(id)];
    assert Distinct(t) by {
      forall i, j | 0 <= i < j < |t| ensures t[i] != t[j] {
        if j == |s| { assert t[i] == s[i]; }
      }
    }
  }

  /** Grabbing drops the front of the list. */
  lemma GrabIsDeque(q: Queue)
    requires WellFormed(q)
    ensures WellFormed(Grab(q).0)
    ensures Ids(Grab(q).0.stack) == (if |q.stack| > 0 then Ids(q.stack)[1..] else Ids(q.stack))
  {
  }

  /** Pulling drops the back of the list. */
  lemma PullIsDeque(q: Queue)
    requires WellFormed(q)
    ensures WellFormed(Pull(q).0)
    ensures Ids(Pull(q).0.stack) == (if |q.stack| > 0 then Ids(q.stack)[..|q.stack| - 1] else Ids(q.stack))
  {
    var s := q.stack;
    if |s| > 0 {
      PullDistinct(q);
      var t := s[..|s| - 1];
      assert Distinct(t);
      assert forall k :: 0 <= k < |t| ==> t[k] == s[k];
      assert Ids(t) == Ids(s)[..|s| - 1];
    }
  }

  /** One operation on a well-formed queue acts on its frames as on the
      double-ended list, and keeps the queue well formed. */
  lemma StepIsDeque(q: Queue, op: Op)
    requires WellFormed(q)
    requires op.PushOp? || op.BuryOp? ==> Some(op.id) !in q.stack
    ensures WellFormed(Step(q, op))
    ensures Ids(Step(q, op).stack) == Deque(Ids(q.stack), [op])
  {
    match op
    case PushOp(id) => PushIsDeque(q, id);
    case BuryOp(id) => BuryIsDeque(q, id);
    case GrabOp => GrabIsDeque(q);
    case PullOp => PullIsDeque(q);
    case ClearOp =>
  }

  /** On distinct non-null frames the queue behaves as the double-ended list:
      push/grab at the top, bury/pull at the bottom, relative order kept. */
  lemma {:induction false} RunIsDeque(q: Queue, ops: seq<Op>)
    requires WellFormed(q) && Fresh(q, ops)
    ensures WellFormed(Run(q, ops))
    ensures Ids(Run(q, ops).stack) == Deque(Ids(q.stack), ops)
    decreases |ops|
  {
    if |ops| > 0 {
      StepIsDeque(q, ops[0]);
      var next := Step(q, ops[0]);
      assert Run(q, ops) == Run(next, ops[1..]);
      RunIsDeque(next, ops[1..]);
      assert Deque(Ids(q.stack), ops) == Deque(Deque(Ids(q.stack), [ops[0]]), ops[1..]);
    }
  }
}

=== FILE: frugal.dfy ===
/** The reseeding logic of `FrugalCompositeEyeFeatureFinder`
    (ImageProcessing/FrugalCompositeEyeFeatureFinder.py): after the first
    frame it tracks with the starburst finder seeded by the previous guess,
    and reseeds with an exhaustive fast-radial search, refined by starburst,
    when the tracking error is too high or too many frames have passed
    since the last reseed. The two feature finders are parameters: what
    each did on this frame is an input. */
module Frugal {
  import opened Wrappers

  /** `reseed_threshold`. */
  const ReseedThreshold: real := 100.0

  /** `minimum_frames_to_reseed`, also the starting `reseed_count`. */
  const MinimumFramesToReseed: int := 50

  /** A fit error: a real number, or the `inf` of a missing measurement. */
  datatype Level = Finite(x: real) | Inf

  /** `level > threshold`. */
  predicate Above(l: Level, t: real)
  {
    l.Inf? || l.x > t
  }

  /** `max(a, b)` on error levels. */
  function Max(a: Level, b: Level): (r: Level)
    ensures r == a || r == b
    ensures forall t: real :: Above(r, t) <==> Above(a, t) || Above(b, t)
  {
    if a.Inf? || b.Inf? then Inf
    else if a.x >= b.x then a else b
  }

  /** What the starburst finder did on this frame: it raised, or it returned
      features, with its `(cr_err, pupil_err)` estimates when it stored
      them. */
  datatype Starburst = Raised | Returned(errors: Option<(Level, Level)>)

  /** Where the frame's features come from: starburst tracking from the
      previous guess, or a reseed whose starburst refinement succeeded or
      not. */
  datatype Source = Tracked | Reseeded(refined: bool)

  /** The parts of the feature dictionary the control logic decides. */
  datatype Features = Features(source: Source, timestamp: real)

  /** The exceptions `analyze_image` lets escape. */
  datatype Failure = TypeError | AttributeError

  /** The guess dictionary, reduced to its optional `timestamp`. */
  datatype Guess = Guess(timestamp: Option<real>)

  /** The finder's state between frames. */
  datatype Finder = Finder(firstRun: bool, reseedCount: int, result: Option<Features>)

  /** The reseed counter never exceeds its reset value. */
  predicate Valid(f: Finder)
  {
    f.reseedCount <= MinimumFramesToReseed
  }

  /** The constructor. */
  function Init(): (f: Finder)
    ensures Valid(f) && f.firstRun && f.result.None?
    ensures f.reseedCount == MinimumFramesToReseed
  {
    Finder(true, MinimumFramesToReseed, None)
  }

  /** What the tracking call does: `guess.copy()` on a missing guess raises
      before starburst runs. */
  function Track(guess: Option<Guess>, track: Starburst): (s: Starburst)
    ensures guess.None? ==> s.Raised?
    ensures guess.Some? ==> s == track
  {
    if guess.None? then Raised else track
  }

  /** The error level of the tracked features: the larger of the two
      starburst errors, or `inf` when there is none. */
  function TrackedLevel(s: Starburst): (l: Level)
    ensures s.Returned? && s.errors.Some? ==>
      (l == s.errors.value.0 || l == s.errors.value.1)
      && forall t: real :: Above(l, t) <==> Above(s.errors.value.0, t) || Above(s.errors.value.1, t)
    ensures !(s.Returned? && s.errors.Some?) ==> forall t: real :: Above(l, t)
  {
    match s
    case Returned(Some((cr, pupil))) => Max(cr, pupil)
    case _ => Inf
  }

  /** `analyze_image` with a tracking failure treated as an infinite error,
      which forces a reseed. */
  function Analyze(f: Finder, guess: Option<Guess>, track: Starburst, refine: Starburst): (r: (Finder, Result<Features, Failure>))
    ensures r.1.Ok? <==> guess.Some?
    ensures r.0.reseedCount == MinimumFramesToReseed || r.0.reseedCount == f.reseedCount - 1
    ensures f.firstRun ==> r.0.reseedCount == MinimumFramesToReseed
    ensures f.reseedCount - 1 <= 0 ==> r.0.reseedCount == MinimumFramesToReseed
    ensures !f.firstRun && Above(TrackedLevel(Track(guess, track)), ReseedThreshold) ==> r.0.reseedCount == MinimumFramesToReseed
    ensures r.1.Ok? ==> !r.0.firstRun && r.0.result == Some(r.1.value)
    ensures r.1.Ok? ==> (r.1.value.source.Reseeded? <==>
      f.firstRun || Above(TrackedLevel(track), ReseedThreshold) || f.reseedCount - 1 <= 0)
    ensures r.1.Ok? && r.1.value.source.Reseeded? ==> r.1.value.source.refined == refine.Returned?
    ensures r.1.Ok? ==> r.1.value.timestamp == (if guess.value.timestamp.Some? then guess.value.timestamp.value else 0.0)
    ensures r.1.Err? ==> r.1.error == AttributeError && r.0.firstRun == f.firstRun && r.0.result == f.result
  {
    var count := f.reseedCount - 1;
    var level := if f.firstRun then Inf else TrackedLevel(Track(guess, track));
    var reseed := f.firstRun || Above(level, ReseedThreshold) || count <= 0;
    var source := if reseed then Reseeded(refine.Returned?) else Tracked;
    var next := if reseed then MinimumFramesToReseed else count;
    match guess
    case None => (f.(reseedCount := next), Err(AttributeError))
    case Some(g) =>
      var features := Features(source, if g.timestamp.Some? then g.timestamp.value else 0.0);
      (Finder(false, next, Some(features)), Ok(features))
  }

  /** `analyze_image` as written: when tracking raises, `features` is still
      `None`, so the handler's first item assignment raises `TypeError`,
      after the counter was decremented. */
  function AnalyzeAsWritten(f: Finder, guess: Option<Guess>, track: Starburst, refine: Starburst): (r: (Finder, Result<Features, Failure>))
    ensures r.1 == Err(TypeError) <==> !f.firstRun && (guess.None? || track.Raised?)
    ensures r.1.Ok? <==> guess.Some? && (f.firstRun || !track.Raised?)
    ensures r.1 == Err(TypeError) ==>
      r.0.firstRun == f.firstRun && r.0.result == f.result && r.0.reseedCount == f.reseedCount - 1
    ensures r.1 != Err(TypeError) ==> r == Analyze(f, guess, track, refine)
  {
    if !f.firstRun && Track(guess, track).Raised? then (f.(reseedCount := f.reseedCount - 1), Err(TypeError))
    else Analyze(f, guess, track, refine)
  }

  /** Whenever starburst tracking raises after the first frame, the
      original raises `TypeError` instead of reseeding; the corrected finder
      reseeds. */
  lemma TrackingFailureRaises(f: Finder, g: Guess, refine: Starburst)
    requires !f.firstRun
    ensures AnalyzeAsWritten(f, Some(g), Raised, refine).1 == Err(TypeError)
    ensures Analyze(f, Some(g), Raised, refine).1 == Ok(Features(Reseeded(refine.Returned?), if g.timestamp.Some? then g.timestamp.value else 0.0))
  {
  }

  /** Every call keeps the counter at or below its reset value, and a call
      that returns features reseeded exactly when the counter was reset. */
  lemma AnalyzeKeeps(f: Finder, guess: Option<Guess>, track: Starburst, refine: Starburst)
    requires Valid(f)
    ensures Valid(Analyze(f, guess, track, refine).0)
    ensures Valid(AnalyzeAsWritten(f, guess, track, refine).0)
    ensures var r := Analyze(f, guess, track, refine);
      r.1.Ok? ==> (r.1.value.source.Reseeded? <==> r.0.reseedCount == MinimumFramesToReseed)
  {
  }

  /** One frame's inputs. */
  datatype Call = Call(guess: Option<Guess>, track: Starburst, refine: Starburst)

  /** The results of a sequence of frames. */
  function Run(f: Finder, calls: seq<Call>): (rs: seq<Result<Features, Failure>>)
    ensures |rs| == |calls|
    decreases |calls|
  {
    if |calls| == 0 then []
    else
      var r := Analyze(f, calls[0].guess, calls[0].track, calls[0].refine);
      [r.1] + Run(r.0, calls[1..])
  }

  /** Some frame of the run reseeded. */
  predicate SomeReseed(rs: seq<Result<Features, Failure>>)
  {
    exists i :: 0 <= i < |rs| && rs[i].Ok? && rs[i].value.source.Reseeded?
  }

  /** Frames that all carry a guess. */
  predicate Guessed(calls: seq<Call>)
  {
    forall i :: 0 <= i < |calls| ==> calls[i].guess.Some?
  }

  /** Whatever the tracking errors, a run of successful frames as long as
      the counter reseeds at least once: tracking never goes on for more
      than `minimum_frames_to_reseed` frames. */
  lemma {:induction false} ReseedWithin(f: Finder, calls: seq<Call>)
    requires |calls| >= 1 && |calls| >= f.reseedCount && Guessed(calls)
    ensures SomeReseed(Run(f, calls))
    decreases |calls|
  {
    var r := Analyze(f, calls[0].guess, calls[0].track, calls[0].refine);
    var rs := Run(f, calls);
    assert rs[0] == r.1;
    if !r.1.value.source.Reseeded? {
      assert r.0.reseedCount == f.reseedCount - 1 >= 1;
      assert Guessed(calls[1..]) by {
        forall i | 0 <= i < |calls[1..]| ensures calls[1..][i].guess.Some? {
          assert calls[1..][i] == calls[i + 1];
        }
      }
      ReseedWithin(r.0, calls[1..]);
      var i :| 0 <= i < |Run(r.0, calls[1..])| && Run(r.0, calls[1..])[i].Ok? && Run(r.0, calls[1..])[i].value.source.Reseeded?;
      assert rs[i + 1] == Run(r.0, calls[1..])[i];
    }
  }
}

=== FILE: mightex_led.dfy ===
/** The Mightex LED controller driver (`MightexLEDController`): text
    commands sent over a serial bridge, replies parsed into a mode and a
    current, and per-channel status and current cached in two dictionaries
    so that `soft_status` / `soft_current` answer without device traffic.
    The bridge is abstract: each operation takes the raw reply the device
    gives to its query, and returns the commands it sends, in order. The text
    rendering of the commands (`"MODE %d 1"` ...) is not modelled. */
module MightexLed {
  import opened Wrappers
  import PyStr
  import CStrings

  /** `channelIs`: the device numbers its channels from 1. */
  const Channels: seq<int> := [1, 2, 3, 4]
  /** `n_channels`. */
  const ChannelCount: nat := 4
  /** `Imax`, the current limit sent with every `NORMAL` command. */
  const IMax: int := 500

  /** The characters `parse_response` strips from both ends of a reply. */
  const ReplyJunk: set<char> := {'>', '\r', '\n', ' ', '#'}

  /** The commands the driver sends. */
  datatype Command =
    | Mode(channel: int, mode: int)                   // "MODE ch m"
    | Normal(channel: int, imax: int, current: int)   // "NORMAL ch imax cur"
    | SetAmps(channel: int, current: int)             // "CURRENT ch cur"
    | AskCurrent(channel: int)                        // "?CURRENT ch"
    | AskMode(channel: int)                           // "?MODE ch"

  /** `internal_status` and `internal_current`. */
  datatype Mightex = Mightex(status: map<int, int>, current: map<int, int>)

  /** The result of a call: the new cache, the commands sent, and `false`
      when the call raised `KeyError` part-way. */
  datatype Step = Step(state: Mightex, sent: seq<Command>, ok: bool)

  /** The cache after construction: every channel off at current 0. */
  function Init(): (m: Mightex)
    ensures forall c :: c in Channels <==> c in m.status
    ensures forall c :: c in Channels <==> c in m.current
    ensures forall c :: c in Channels ==> m.status[c] == 0 && m.current[c] == 0
  {
    Mightex(map[1 := 0, 2 := 0, 3 := 0, 4 := 0], map[1 := 0, 2 := 0, 3 := 0, 4 := 0])
  }

  /** `parse_response`: the reply with prompt, line ends, blanks and `#`
      stripped from both ends. */
  function ParseResponse(raw: string): (r: string)
    ensures |r| > 0 ==> r[0] !in ReplyJunk && r[|r| - 1] !in ReplyJunk
    ensures |r| <= |raw|
  {
    PyStr.Strip(raw, ReplyJunk)
  }

  /** `parse_response` cuts off exactly the junk at both ends: any cut that
      removes only junk and leaves none at either end is the one it makes. */
  lemma ParseResponseCuts(raw: string, i: nat, j: nat)
    requires PyStr.StripAt(raw, ReplyJunk, i, j)
    ensures ParseResponse(raw) == raw[i..j]
  {
    PyStr.StripUnique(raw, ReplyJunk, i, j);
  }

  /** The last white-space separated word of a text, if any. */
  function LastWord(s: string): Option<string>
  {
    var ws := PyStr.Split(s);
    if |ws| == 0 then None else Some(ws[|ws| - 1])
  }

  /** `current`: the integer in the last word of the reply to `?CURRENT`, or
      0 when the reply has no word or its last word is not an integer. */
  function ReadCurrent(raw: string): (r: int)
    ensures LastWord(ParseResponse(raw)).None? ==> r == 0
    ensures LastWord(ParseResponse(raw)).Some? ==>
      r == (match PyStr.PyInt(LastWord(ParseResponse(raw)).value) case Some(v) => v case None => 0)
  {
    match LastWord(ParseResponse(raw))
    case None => 0
    case Some(w) =>
      match PyStr.PyInt(w)
      case None => 0
      case Some(v) => v
  }

  /** The replies `status` accepts. */
  const Modes: seq<string> := ["0", "1", "2", "3"]

  /** `status`: the mode 0 to 3 the device replies to `?MODE`, or 0 for any
      other reply. */
  function ReadStatus(raw: string): (r: int)
    ensures 0 <= r <= 3
    ensures ParseResponse(raw) in Modes ==> ParseResponse(raw) == Modes[r]
    ensures ParseResponse(raw) !in Modes ==> r == 0
  {
    ModeOf(ParseResponse(raw))
  }

  /** The mode a stripped reply names: its index in `Modes`, 0 for anything
      else. */
  function ModeOf(s: string): (r: int)
    ensures 0 <= r <= 3
    ensures s in Modes ==> s == Modes[r]
    ensures s !in Modes ==> r == 0
  {
    if s == "0" then 0 else if s == "1" then 1 else if s == "2" then 2 else if s == "3" then 3 else 0
  }

  /** A device reply made of words, the last one a number, is read as that
      number whatever words come first, as long as the reply does not start
      with reply junk. */
  lemma ReadCurrentOfWords(ws: seq<string>, n: nat)
    requires |ws| > 0 && ws[|ws| - 1] == CStrings.Format(n, 10)
    requires forall k :: 0 <= k < |ws| ==> |ws[k]| > 0 && PyStr.NoSpace(ws[k])
    requires ws[0][0] !in ReplyJunk
    ensures ReadCurrent(PyStr.JoinSpace(ws)) == n
  {
    var raw := PyStr.JoinSpace(ws);
    WordsUnstripped(ws, n);
    PyStr.SplitJoin(ws);
    assert LastWord(raw) == Some(ws[|ws| - 1]);
    PyStr.PyIntFormat(n, false);
    assert "" + CStrings.Format(n, 10) == CStrings.Format(n, 10);
  }

  /** Such a reply has no junk for `parse_response` to cut. */
  lemma WordsUnstripped(ws: seq<string>, n: nat)
    requires |ws| > 0 && ws[|ws| - 1] == CStrings.Format(n, 10)
    requires forall k :: 0 <= k < |ws| ==> |ws[k]| > 0
    requires ws[0][0] !in ReplyJunk
    ensures ParseResponse(PyStr.JoinSpace(ws)) == PyStr.JoinSpace(ws)
  {
    var raw := PyStr.JoinSpace(ws);
    JoinSpaceEnds(ws);
    var f := ws[|ws| - 1];
    assert CStrings.IsDigit(f[|f| - 1], 10);
    PyStr.StripNothing(raw, ReplyJunk);
  }

  /** Words joined by spaces start with the first word's first character and
      end with the last word's last character. */
  lemma {:induction false} JoinSpaceEnds(ws: seq<string>)
    requires |ws| > 0 && forall k :: 0 <= k < |ws| ==> |ws[k]| > 0
    ensures var s := PyStr.JoinSpace(ws);
      |s| > 0 && s[0] == ws[0][0] && s[|s| - 1] == ws[|ws| - 1][|ws[|ws| - 1]| - 1]
  {
    if |ws| > 1 {
      JoinSpaceEnds(ws[1..]);
      var rest := PyStr.JoinSpace(ws[1..]);
      assert PyStr.JoinSpace(ws) == ws[0] + " " + rest;
    }
  }

  /** `connect`: the cache is loaded from the device, channel by channel. */
  function Connect(m: Mightex, modeReply: int -> string, currentReply: int -> string): (r: Step)
    ensures r.ok && r.sent == Queries(Channels)
    ensures forall c :: c in Channels ==>
      c in r.state.status && r.state.status[c] == ReadStatus(modeReply(c))
      && c in r.state.current && r.state.current[c] == ReadCurrent(currentReply(c))
    ensures forall c :: c !in Channels ==>
      (c in r.state.status <==> c in m.status) && (c in r.state.current <==> c in m.current)
  {
    Step(Mightex(Refreshed(m.status, Channels, c => ReadStatus(modeReply(c))),
                 Refreshed(m.current, Channels, c => ReadCurrent(currentReply(c)))),
         Queries(Channels), true)
  }

  /** A cache after the given channels are read again from the device. */
  function Refreshed(cache: map<int, int>, channels: seq<int>, read: int -> int): (r: map<int, int>)
    ensures forall c :: c in r <==> c in cache || c in channels
    ensures forall c :: c in r ==> r[c] == if c in channels then read(c) else cache[c]
  {
    map c | c in cache.Keys + (set k | k in channels) :: if c in channels then read(c) else cache[c]
  }

  /** The `?MODE` and `?CURRENT` queries for the given channels, in turn. */
  function Queries(channels: seq<int>): (cs: seq<Command>)
    ensures |cs| == 2 * |channels|
    ensures forall k :: 0 <= k < |channels| ==>
      cs[2 * k] == AskMode(channels[k]) && cs[2 * k + 1] == AskCurrent(channels[k])
  {
    if |channels| == 0 then []
    else
      var rest := Queries(channels[1..]);
      assert forall k :: 1 <= k < |channels| ==> channels[k] == channels[1..][k - 1];
      [AskMode(channels[0]), AskCurrent(channels[0])] + rest
  }

  /** `turn_on`: mode 1, then the current (the cached one when none is
      given) as `NORMAL` and `CURRENT`, then the cache is refreshed from a
      `?CURRENT` query and the cached status set to 1; the final `?MODE`
      answer is not used. Without a given current, a channel missing from the
      cache raises `KeyError` right after the `MODE` command. */
  function TurnOn(m: Mightex, channel: int, current: Option<int>, currentReply: string): (r: Step)
    ensures r.ok <==> current.Some? || channel in m.current
    ensures !r.ok ==> r.state == m && r.sent == [Mode(channel, 1)]
    ensures r.ok ==> (var amps := if current.Some? then current.value else m.current[channel];
      r.sent == [Mode(channel, 1), Normal(channel, IMax, amps), SetAmps(channel, amps),
                 AskCurrent(channel), AskMode(channel)])
    ensures r.ok ==>
      (r.state.status == m.status[channel := 1]
       && r.state.current == m.current[channel := ReadCurrent(currentReply)])
  {
    if current.None? && channel !in m.current then Step(m, [Mode(channel, 1)], false)
    else
      var amps := if current.Some? then current.value else m.current[channel];
      Step(Mightex(m.status[channel := 1], m.current[channel := ReadCurrent(currentReply)]),
           [Mode(channel, 1), Normal(channel, IMax, amps), SetAmps(channel, amps),
            AskCurrent(channel), AskMode(channel)], true)
  }

  /** `turn_off`: mode 0 and a cached status of 0; the cached current is
      kept. */
  function TurnOff(m: Mightex, channel: int): (r: Step)
    ensures r.ok && r.sent == [Mode(channel, 0), AskMode(channel)]
    ensures r.state.status == m.status[channel := 0] && r.state.current == m.current
  {
    Step(Mightex(m.status[channel := 0], m.current), [Mode(channel, 0), AskMode(channel)], true)
  }

  /** `set_status`: `turn_on` without a current for a true value, `turn_off`
      otherwise. */
  function SetStatus(m: Mightex, channel: int, on: bool, currentReply: string): (r: Step)
    ensures on ==> r == TurnOn(m, channel, None, currentReply)
    ensures !on ==> r == TurnOff(m, channel)
  {
    if on then TurnOn(m, channel, None, currentReply) else TurnOff(m, channel)
  }

  /** `set_current`: send the current, then cache what the device reports. */
  function SetCurrent(m: Mightex, channel: int, current: int, currentReply: string): (r: Step)
    ensures r.ok && r.sent == [SetAmps(channel, current), AskCurrent(channel)]
    ensures r.state.status == m.status && r.state.current == m.current[channel := ReadCurrent(currentReply)]
  {
    Step(Mightex(m.status, m.current[channel := ReadCurrent(currentReply)]),
         [SetAmps(channel, current), AskCurrent(channel)], true)
  }

  /** `soft_status`: the cached status, no device traffic; `None` is the
      `KeyError` of an unknown channel. */
  function SoftStatus(m: Mightex, channel: int): Option<int>
  {
    if channel in m.status then Some(m.status[channel]) else None
  }

  /** `soft_current`: the cached current. */
  function SoftCurrent(m: Mightex, channel: int): Option<int>
  {
    if channel in m.current then Some(m.current[channel]) else None
  }

  /** After `turn_on` the cached status reads back 1 and the cached current
      is the device's report; without a given current, the cached one is
      what the device is sent. */
  lemma TurnOnCached(m: Mightex, channel: int, currentReply: string)
    requires channel in m.current
    ensures TurnOn(m, channel, None, currentReply).ok
    ensures SoftStatus(TurnOn(m, channel, None, currentReply).state, channel) == Some(1)
    ensures SoftCurrent(TurnOn(m, channel, None, currentReply).state, channel) == Some(ReadCurrent(currentReply))
    ensures TurnOn(m, channel, None, currentReply).sent[1] == Normal(channel, IMax, m.current[channel])
    ensures TurnOn(m, channel, None, currentReply).sent[2] == SetAmps(channel, m.current[channel])
  {
    TurnOnSends(m, channel, currentReply);
    TurnOnCaches(m, channel, currentReply);
  }

  lemma TurnOnSends(m: Mightex, channel: int, currentReply: string)
    requires channel in m.current
    ensures TurnOn(m, channel, None, currentReply).ok
    ensures TurnOn(m, channel, None, currentReply).sent[1] == Normal(channel, IMax, m.current[channel])
    ensures TurnOn(m, channel, None, currentReply).sent[2] == SetAmps(channel, m.current[channel])
  {
  }

  lemma TurnOnCaches(m: Mightex, channel: int, currentReply: string)
    requires channel in m.current
    ensures SoftStatus(TurnOn(m, channel, None, currentReply).state, channel) == Some(1)
    ensures SoftCurrent(TurnOn(m, channel, None, currentReply).state, channel) == Some(ReadCurrent(currentReply))
  {
  }

  /** After `turn_off` the cached status reads back 0 and the cached current
      is unchanged. */
  lemma TurnOffCached(m: Mightex, channel: int)
    ensures SoftStatus(TurnOff(m, channel).state, channel) == Some(0)
    ensures SoftCurrent(TurnOff(m, channel).state, channel) == SoftCurrent(m, channel)
  {
  }

  // ---------------------------------------------------------------- shutdown

  /** Turn off the given channels in turn. */
  function TurnOffAll(m: Mightex, channels: seq<int>): (r: Step)
    ensures r.ok && |r.sent| == 2 * |channels|
    ensures forall k :: 0 <= k < |channels| ==>
      r.sent[2 * k] == Mode(channels[k], 0) && r.sent[2 * k + 1] == AskMode(channels[k])
    ensures r.state.current == m.current
    ensures forall c :: c in r.state.status <==> c in m.status || c in channels
    ensures forall c :: c in r.state.status ==> r.state.status[c] == (if c in channels then 0 else m.status[c])
    decreases |channels|
  {
    if |channels| == 0 then Step(m, [], true)
    else
      var first := TurnOff(m, channels[0]);
      var rest := TurnOffAll(first.state, channels[1..]);
      assert forall c :: c in channels <==> c == channels[0] || c in channels[1..];
      Step(rest.state, first.sent + rest.sent, true)
  }

  /** `__del__` as written: `turn_off(c)` for `c in range(0, n_channels)`,
      that is channels 0 to 3, while the device numbers them 1 to 4. */
  function ShutdownAsWritten(m: Mightex): Step
  {
    TurnOffAll(m, [0, 1, 2, 3])
  }

  /** `__del__` turning off the channels the driver knows (`channelIs`). */
  function Shutdown(m: Mightex): (r: Step)
    ensures forall c :: c in Channels ==> c in r.state.status && r.state.status[c] == 0
    ensures |r.sent| == 2 * ChannelCount
    ensures forall k :: 0 <= k < ChannelCount ==> r.sent[2 * k] == Mode(Channels[k], 0)
  {
    TurnOffAll(m, Channels)
  }

  /** The shutdown as written leaves channel 4 on and sends a mode command
      to a channel 0 the device does not have. */
  lemma ShutdownLeavesChannel4On(m: Mightex)
    requires 4 in m.status && m.status[4] == 1
    ensures 4 in ShutdownAsWritten(m).state.status && ShutdownAsWritten(m).state.status[4] == 1
    ensures ShutdownAsWritten(m).sent[0] == Mode(0, 0)
  {
  }
}

=== FILE: minmax.dfy ===
/** Brightest and darkest pixel locations on the CPU: `find_minmax` of the
    plain Python backend (coxlab_eyetracker/image_processing/VanillaBackend.py)
    and the `SimpleEyeFeatureFinder`, which calls the brightest pixel the
    corneal reflection and the darkest the pupil. Both take the FIRST pixel
    in row-major order holding the extreme value (`nonzero`/`where` list
    matches in that order). Pixel values are reals. */
module MinMax {
  import opened Wrappers

  /** A grey image: rows of pixel values, all rows of one length. */
  type Image = seq<seq<real>>

  predicate Rect(img: Image)
  {
    forall r :: 0 <= r < |img| ==> |img[r]| == |img[0]|
  }

  function Cols(img: Image): nat
  {
    if |img| == 0 then 0 else |img[0]|
  }

  /** `image.ravel()`: the rows one after the other. */
  function Ravel(img: Image): (s: seq<real>)
    requires Rect(img)
    ensures |s| == |img| * Cols(img)
  {
    if |img| == 0 then []
    else
      assert Rect(img[1..]) by {
        forall r | 0 <= r < |img[1..]| ensures |img[1..][r]| == |img[1..][0]| {
          assert img[1..][r] == img[r + 1];
        }
      }
      assert |img| * Cols(img) == Cols(img) + (|img| - 1) * Cols(img);
      assert |img| > 1 ==> Cols(img[1..]) == Cols(img);
      img[0] + Ravel(img[1..])
  }

  /** Pixel `(r, c)` sits at `r * cols + c` of the raveled image. */
  lemma {:induction false} RavelIndex(img: Image, r: nat, c: nat)
    requires Rect(img) && r < |img| && c < Cols(img)
    ensures r * Cols(img) + c < |Ravel(img)|
    ensures Ravel(img)[r * Cols(img) + c] == img[r][c]
    decreases r
  {
    MulBelow(r, |img|, Cols(img), c);
    if r > 0 {
      var rest := img[1..];
      assert Rect(rest) && Cols(rest) == Cols(img) by {
        assert rest[0] == img[1];
        forall k | 0 <= k < |rest| ensures |rest[k]| == |rest[0]| {
          assert rest[k] == img[k + 1];
        }
      }
      RavelIndex(rest, r - 1, c);
      assert r * Cols(img) + c == Cols(img) + ((r - 1) * Cols(img) + c);
      assert rest[r - 1] == img[r];
    }
  }

  lemma MulBelow(r: nat, n: nat, w: nat, c: nat)
    requires r < n && c < w
    ensures r * w + c < n * w
  {
    assert (r + 1) * w <= n * w;
  }

  /** `x` is at least as extreme as `y`: no larger for a minimum, no
      smaller for a maximum. */
  predicate Better(x: real, y: real, least: bool)
  {
    if least then x <= y else x >= y
  }

  /** `k` is the first position of the extreme value of `s`. */
  predicate IsFirstBest(s: seq<real>, k: int, least: bool)
  {
    0 <= k < |s|
    && (forall j :: 0 <= j < |s| ==> Better(s[k], s[j], least))
    && (forall j :: 0 <= j < k ==> s[j] != s[k])
  }

  /** The first position of the minimum (`least`) or maximum of `s`. */
  function FirstBest(s: seq<real>, least: bool): (k: nat)
    requires |s| > 0
    ensures IsFirstBest(s, k, least)
  {
    if |s| == 1 then 0
    else
      var p := s[..|s| - 1];
      var k := FirstBest(p, least);
      assert forall j :: 0 <= j < |p| ==> p[j] == s[j];
      if s[|s| - 1] != s[k] && Better(s[|s| - 1], s[k], least) then |s| - 1 else k
  }

  /** There is only one first position of the extreme value. */
  lemma FirstBestUnique(s: seq<real>, k1: int, k2: int, least: bool)
    requires IsFirstBest(s, k1, least) && IsFirstBest(s, k2, least)
    ensures k1 == k2
  {
    assert Better(s[k1], s[k2], least) && Better(s[k2], s[k1], least);
  }

  /** Pixel `(r, c)` is the first extreme pixel in row-major order. */
  predicate Location(img: Image, r: int, c: int, least: bool)
    requires Rect(img)
  {
    0 <= r < |img| && 0 <= c < Cols(img) && IsFirstBest(Ravel(img), r * Cols(img) + c, least)
  }

  /** The pixel at the reported location holds the extreme value of the
      whole image, and every pixel before it in row-major order is strictly
      less extreme. */
  lemma LocationHoldsExtreme(img: Image, r: nat, c: nat, least: bool, r2: nat, c2: nat)
    requires Rect(img) && Location(img, r, c, least) && r2 < |img| && c2 < Cols(img)
    ensures Better(img[r][c], img[r2][c2], least)
    ensures r2 * Cols(img) + c2 < r * Cols(img) + c ==> img[r2][c2] != img[r][c]
  {
    RavelIndex(img, r, c);
    RavelIndex(img, r2, c2);
  }

  /** The image position of a raveled index. */
  function Unravel(k: nat, cols: nat): (rc: (nat, nat))
    requires cols > 0
    ensures rc.0 * cols + rc.1 == k && rc.1 < cols
  {
    (k / cols, k % cols)
  }

  /** `min(ravel)` of an empty image. */
  datatype Failure = ValueError

  /** `find_minmax`: the first minimum and first maximum locations, as
      `[row, col]` lists; no image gives `([0, 0], [0])`. */
  function FindMinmax(image: Option<Image>): (r: Result<(seq<int>, seq<int>), Failure>)
    requires image.Some? ==> Rect(image.value)
    ensures image.None? ==> r == Ok(([0, 0], [0]))
    ensures image.Some? ==> (r.Err? <==> |image.value| == 0 || Cols(image.value) == 0)
    ensures image.Some? && r.Ok? ==> (|r.value.0| == 2 && |r.value.1| == 2
      && Location(image.value, r.value.0[0], r.value.0[1], true)
      && Location(image.value, r.value.1[0], r.value.1[1], false))
  {
    match image
    case None => Ok(([0, 0], [0]))
    case Some(img) =>
      if |img| == 0 || Cols(img) == 0 then Err(ValueError)
      else
        var s := Ravel(img);
        assert |s| > 0 by {
          MulBelow(0, |img|, Cols(img), 0);
        }
        var lo := Unravel(FirstBest(s, true), Cols(img));
        var hi := Unravel(FirstBest(s, false), Cols(img));
        assert lo.0 < |img| && hi.0 < |img| by {
          RowBelow(lo.0, lo.1, |img|, Cols(img));
          RowBelow(hi.0, hi.1, |img|, Cols(img));
        }
        Ok(([lo.0, lo.1], [hi.0, hi.1]))
  }

  lemma RowBelow(r: nat, c: nat, n: nat, w: nat)
    requires w > 0 && r * w + c < n * w
    ensures r < n
  {
  }

  // -------------------------------------------------------- SimpleEyeFeatureFinder

  /** The frame handed to `analyze_image`: grey, or with a colour axis. */
  datatype Frame = Grey(img: Image) | Colour(pix: seq<seq<seq<real>>>)

  /** The mean of a pixel's channels. */
  function Mean(cs: seq<real>): real
    requires |cs| > 0
  {
    Sum(cs) / (|cs| as real)
  }

  function Sum(cs: seq<real>): real
  {
    if |cs| == 0 then 0.0 else Sum(cs[..|cs| - 1]) + cs[|cs| - 1]
  }

  /** A frame with a colour axis of one length everywhere, at least one
      channel deep. */
  predicate WellShaped(f: Frame)
  {
    match f
    case Grey(img) => Rect(img)
    case Colour(pix) =>
      (forall r :: 0 <= r < |pix| ==> |pix[r]| == |pix[0]|)
      && (forall r, c :: 0 <= r < |pix| && 0 <= c < |pix[r]| ==> |pix[r][c]| == |pix[0][0]| && |pix[r][c]| > 0)
  }

  /** `mean(image, 2)` for a colour frame; the frame itself otherwise. */
  function Flatten(f: Frame): (img: Image)
    requires WellShaped(f)
    ensures Rect(img)
    ensures f.Colour? ==> |img| == |f.pix| && forall r, c :: 0 <= r < |img| && 0 <= c < |img[r]| ==>
      |img[r]| == |f.pix[r]| && img[r][c] == Mean(f.pix[r][c])
    ensures f.Grey? ==> img == f.img
  {
    match f
    case Grey(img) => img
    case Colour(pix) => seq(|pix|, r requires 0 <= r < |pix| => seq(|pix[r]|, c requires 0 <= c < |pix[r]| => Mean(pix[r][c])))
  }

  /** `image.shape`. */
  function Shape(f: Frame): seq<nat>
    requires WellShaped(f)
  {
    match f
    case Grey(img) => [|img|, Cols(img)]
    case Colour(pix) =>
      if |pix| == 0 then [0, 0, 0]
      else if |pix[0]| == 0 then [|pix|, 0, 0]
      else [|pix|, |pix[0]|, |pix[0][0]|]
  }

  /** The feature dictionary `analyze_image` stores. */
  datatype Features = Features(
    pupilStage1: (int, int), crStage1: (int, int),
    pupil: (int, int), cr: (int, int),
    imShape: seq<nat>, pupilSize: Option<real>, crSize: Option<real>)

  /** `analyze_image`: the corneal reflection at the first brightest pixel,
      the pupil at the first darkest; both stages report the same places,
      and no sizes are measured. An empty frame raises `ValueError`. */
  function AnalyzeImage(f: Frame): (r: Result<Features, Failure>)
    requires WellShaped(f)
    ensures r.Err? <==> |Flatten(f)| == 0 || Cols(Flatten(f)) == 0
    ensures r.Ok? ==> Location(Flatten(f), r.value.cr.0, r.value.cr.1, false)
    ensures r.Ok? ==> Location(Flatten(f), r.value.pupil.0, r.value.pupil.1, true)
    ensures r.Ok? ==> r.value.pupilStage1 == r.value.pupil && r.value.crStage1 == r.value.cr
    ensures r.Ok? ==> r.value.pupilSize.None? && r.value.crSize.None? && r.value.imShape == Shape(f)
  {
    var im := Flatten(f);
    match FindMinmax(Some(im))
    case Err(e) => Err(e)
    case Ok((lo, hi)) =>
      var pupil := (lo[0], lo[1]);
      var cr := (hi[0], hi[1]);
      Ok(Features(pupil, cr, pupil, cr, Shape(f), None, None))
  }
}

=== FILE: pipeline.dfy ===
/** `PipelinedFeatureFinder` (coxlab_eyetracker/image_processing/ and the
    older ImageProcessing/ copy, which differ only in logging and queue
    bookkeeping): images are handed to `nworkers` workers in turn, every
    image is also kept in a FIFO queue, and results are collected from the
    workers in the same turn, each paired with the next queued image, after
    a grace period of `nworkers + 1` empty results.

    Workers are separate threads; here a worker's progress is the explicit
    step `Work`, so any interleaving of the threads is a sequence of calls.
    A blocking `get` on an empty queue is the outcome `Blocked`. The
    worker's feature finder is not modelled: a result records the job it
    was computed from. */
module Pipeline {
  import opened Wrappers
  import Arith

  /** The `(image, guess)` pair put on a worker's input queue. */
  datatype Job<I, G> = Job(image: I, guess: G)

  /** A result dictionary: the job the features were computed from, and its
      `transform` and `im_array` entries. */
  datatype Features<I, G, T> = Features(job: Job<I, G>, transform: Option<T>, imArray: Option<I>)

  /** The exception a missing worker raises. */
  datatype Failure = IndexError

  /** What a call did: finished with a new state and a value, blocked on an
      empty queue, or raised. */
  datatype Outcome<S, R> = Done(state: S, value: R) | Blocked | Raised(error: Failure)

  /** The finder: per worker an input and an output queue, the FIFO image
      queue, the two turn indices and the grace counter. `dispatched` and
      `taken` record how many images went in and how many results came out;
      the code keeps no such record. */
  datatype Pipeline<I, G, T> = Pipeline(
    inIdx: int, outIdx: int, grace: int,
    inputs: seq<seq<Job<I, G>>>, outputs: seq<seq<Features<I, G, T>>>, images: seq<I>,
    dispatched: seq<Job<I, G>>, taken: nat)

  /** The shape every reachable state has. */
  predicate Valid<I, G, T>(p: Pipeline<I, G, T>)
  {
    |p.inputs| == |p.outputs| && 0 <= p.inIdx && 0 <= p.outIdx
  }

  /** The constructor: `range(0, nworkers)` workers with empty queues, both
      turns at worker 0, a grace of `nworkers + 1`. */
  function Init<I, G, T>(nworkers: int): (p: Pipeline<I, G, T>)
    ensures Valid(p) && |p.inputs| == (if nworkers > 0 then nworkers else 0)
    ensures p.grace == nworkers + 1 && p.inIdx == 0 && p.outIdx == 0
    ensures forall w :: 0 <= w < |p.inputs| ==> p.inputs[w] == [] && p.outputs[w] == []
  {
    var n := if nworkers > 0 then nworkers else 0;
    Pipeline(0, 0, nworkers + 1, seq(n, _ => []), seq(n, _ => []), [], [], 0)
  }

  /** A turn index wraps to 0 once it reaches the number of workers. */
  function Turn(idx: int, n: int): (w: int)
    ensures idx >= n ==> w == 0
    ensures idx < n ==> w == idx
  {
    if idx >= n then 0 else idx
  }

  /** `analyze_image`: the job goes to the worker whose turn it is, the
      image to the back of the image queue. With no workers the queue list
      is empty and indexing it raises. */
  function AnalyzeImage<I, G, T>(p: Pipeline<I, G, T>, image: I, guess: G): (r: Outcome<Pipeline<I, G, T>, ()>)
    requires Valid(p)
    ensures r.Raised? <==> |p.inputs| == 0
    ensures r.Done? ==> Valid(r.state)
    ensures r.Done? ==> var w := Turn(p.inIdx, |p.inputs|);
      r.state.inIdx == w + 1
      && r.state.inputs == p.inputs[w := p.inputs[w] + [Job(image, guess)]]
      && r.state.images == p.images + [image]
      && r.state.outputs == p.outputs && r.state.outIdx == p.outIdx && r.state.grace == p.grace
  {
    var w := Turn(p.inIdx, |p.inputs|);
    if w >= |p.inputs| then Raised(IndexError)
    else
      var job := Job(image, guess);
      Done(p.(inIdx := w + 1, inputs := p.inputs[w := p.inputs[w] + [job]],
              images := p.images + [image], dispatched := p.dispatched + [job]), ())
  }

  /** One pass of worker `w`'s loop: take the next job, analyse it, clear
      `transform` and `im_array`, and put the result on its output queue. */
  function Work<I, G, T>(p: Pipeline<I, G, T>, w: int): (r: Outcome<Pipeline<I, G, T>, ()>)
    requires Valid(p) && 0 <= w < |p.inputs|
    ensures r.Blocked? <==> p.inputs[w] == []
    ensures r.Done? ==> Valid(r.state)
    ensures r.Done? ==> (r.state.inputs == p.inputs[w := p.inputs[w][1..]]
      && r.state.outputs == p.outputs[w := p.outputs[w] + [Features(p.inputs[w][0], None, None)]])
    ensures r.Done? ==> (r.state.images == p.images && r.state.inIdx == p.inIdx
      && r.state.outIdx == p.outIdx && r.state.grace == p.grace)
  {
    if p.inputs[w] == [] then Blocked
    else
      var features := Features(p.inputs[w][0], None, None);
      Done(p.(inputs := p.inputs[w := p.inputs[w][1..]],
              outputs := p.outputs[w := p.outputs[w] + [features]]), ())
  }

  /** `get_result`: `None` while the grace period lasts; then the next
      result of the worker whose turn it is, with the next queued image as
      its `im_array`. */
  function GetResult<I, G, T>(p: Pipeline<I, G, T>): (r: Outcome<Pipeline<I, G, T>, Option<Features<I, G, T>>>)
    requires Valid(p)
    ensures p.grace > 0 ==> r == Done(p.(grace := p.grace - 1), None)
    ensures p.grace <= 0 ==> (r.Raised? <==> |p.outputs| == 0)
    ensures p.grace <= 0 && |p.outputs| > 0 ==>
      (r.Blocked? <==> p.outputs[Turn(p.outIdx, |p.outputs|)] == [] || p.images == [])
    ensures r.Done? ==> Valid(r.state)
    ensures p.grace <= 0 && r.Done? ==> var w := Turn(p.outIdx, |p.outputs|);
      r.value == Some(p.outputs[w][0].(imArray := Some(p.images[0])))
      && r.state.outputs == p.outputs[w := p.outputs[w][1..]] && r.state.images == p.images[1..]
      && r.state.outIdx == w + 1 && r.state.inputs == p.inputs && r.state.inIdx == p.inIdx
  {
    if p.grace > 0 then Done(p.(grace := p.grace - 1), None)
    else
      var w := Turn(p.outIdx, |p.outputs|);
      if w >= |p.outputs| then Raised(IndexError)
      else if p.outputs[w] == [] || p.images == [] then Blocked
      else
        var result := p.outputs[w][0].(imArray := Some(p.images[0]));
        Done(p.(outIdx := w + 1, outputs := p.outputs[w := p.outputs[w][1..]],
                images := p.images[1..], taken := p.taken + 1), Some(result))
  }

  // ------------------------------------------------------------------ the invariant

  /** The jobs of `d` from position `lo` on that fall to worker `w` of `n`
      in turn: those at positions congruent to `w` modulo `n`. */
  function Stride<I, G>(d: seq<Job<I, G>>, lo: nat, w: int, n: int): seq<Job<I, G>>
    requires n > 0
    decreases |d| - lo
  {
    if lo >= |d| then []
    else (if lo % n == w then [d[lo]] else []) + Stride(d, lo + 1, w, n)
  }

  /** The jobs behind a queue of results. */
  function Jobs<I, G, T>(outs: seq<Features<I, G, T>>): (js: seq<Job<I, G>>)
    ensures |js| == |outs| && forall i :: 0 <= i < |outs| ==> js[i] == outs[i].job
  {
    if outs == [] then [] else [outs[0].job] + Jobs(outs[1..])
  }

  /** Every queued result has `transform` and `im_array` cleared. */
  predicate Cleared<I, G, T>(outs: seq<Features<I, G, T>>)
  {
    forall i :: 0 <= i < |outs| ==> outs[i].transform.None? && outs[i].imArray.None?
  }

  /** The image queue holds the images of the jobs not yet answered. */
  ghost predicate Pending<I, G>(images: seq<I>, d: seq<Job<I, G>>, taken: nat)
  {
    taken <= |d| && |images| == |d| - taken
    && forall i :: 0 <= i < |images| ==> images[i] == d[taken + i].image
  }

  /** Once the grace period is over: the next job goes to worker
      `|dispatched| mod n`, the next result comes from worker `taken mod n`,
      and each worker holds, results first, exactly the unanswered jobs
      that fell to it, in order. */
  ghost predicate Inv<I, G, T>(p: Pipeline<I, G, T>)
  {
    Valid(p) && |p.inputs| > 0
    && var n := |p.inputs|;
    p.inIdx <= n && p.outIdx <= n
    && Turn(p.inIdx, n) == |p.dispatched| % n
    && Turn(p.outIdx, n) == p.taken % n
    && Pending(p.images, p.dispatched, p.taken)
    && forall w :: 0 <= w < n ==> Holds(p, w)
  }

  /** Worker `w` holds, results first, exactly its unanswered jobs. */
  ghost predicate Holds<I, G, T>(p: Pipeline<I, G, T>, w: int)
    requires Valid(p) && 0 <= w < |p.inputs|
  {
    Cleared(p.outputs[w]) && Jobs(p.outputs[w]) + p.inputs[w] == Stride(p.dispatched, p.taken, w, |p.inputs|)
  }

  /** The turn after the one of position `a` is the turn of position
      `a + 1`. */
  lemma NextTurn(a: nat, n: int)
    requires n > 0
    ensures Turn(a % n + 1, n) == (a + 1) % n
  {
    var q, r := a / n, a % n;
    assert a + 1 == q * n + (r + 1);
    if r + 1 < n {
      Arith.DivUnique(a + 1, q, r + 1, n);
    } else {
      assert a + 1 == (q + 1) * n + 0;
      Arith.DivUnique(a + 1, q + 1, 0, n);
    }
  }

  /** Appending a job extends the stride of the worker whose turn it is. */
  lemma {:induction false} StrideAppend<I, G>(d: seq<Job<I, G>>, lo: nat, w: int, n: int, j: Job<I, G>)
    requires n > 0 && lo <= |d|
    ensures Stride(d + [j], lo, w, n) == Stride(d, lo, w, n) + (if |d| % n == w then [j] else [])
    decreases |d| - lo
  {
    if lo < |d| {
      assert (d + [j])[lo] == d[lo];
      StrideAppend(d, lo + 1, w, n, j);
    }
  }

  lemma JobsAppend<I, G, T>(a: seq<Features<I, G, T>>, x: Features<I, G, T>)
    ensures Jobs(a + [x]) == Jobs(a) + [x.job]
  {
  }

  /** The constructor satisfies the invariant when there are workers. */
  lemma InitInv<I, G, T>(nworkers: int)
    requires nworkers > 0
    ensures Inv(Init<I, G, T>(nworkers))
  {
  }

  /** `analyze_image` keeps the invariant and hands the job to worker
      `|dispatched| mod n`: images go round-robin. */
  lemma AnalyzeKeeps<I, G, T>(p: Pipeline<I, G, T>, image: I, guess: G)
    requires Inv(p)
    ensures AnalyzeImage(p, image, guess).Done?
    ensures Inv(AnalyzeImage(p, image, guess).state)
    ensures var w := |p.dispatched| % |p.inputs|;
      AnalyzeImage(p, image, guess).state.inputs[w] == p.inputs[w] + [Job(image, guess)]
  {
    var n := |p.inputs|;
    var q := AnalyzeImage(p, image, guess).state;
    NextTurn(|p.dispatched|, n);
    AnalyzePending(p, image, guess);
    forall w | 0 <= w < n ensures Holds(q, w) {
      AnalyzeHolds(p, image, guess, w);
    }
  }

  lemma AnalyzePending<I, G, T>(p: Pipeline<I, G, T>, image: I, guess: G)
    requires Inv(p)
    ensures Pending(AnalyzeImage(p, image, guess).state.images, p.dispatched + [Job(image, guess)], p.taken)
  {
    var q := AnalyzeImage(p, image, guess).state;
    var d := p.dispatched + [Job(image, guess)];
    forall i | 0 <= i < |q.images| ensures q.images[i] == d[p.taken + i].image {
      if i < |p.images| {
        assert q.images[i] == p.images[i];
      }
    }
  }

  lemma AnalyzeHolds<I, G, T>(p: Pipeline<I, G, T>, image: I, guess: G, w: int)
    requires Inv(p) && 0 <= w < |p.inputs|
    ensures Holds(AnalyzeImage(p, image, guess).state, w)
  {
    var n := |p.inputs|;
    var q := AnalyzeImage(p, image, guess).state;
    var j := Job(image, guess);
    assert Holds(p, w);
    StrideAppend(p.dispatched, p.taken, w, n, j);
    if w == |p.dispatched| % n {
      assert Jobs(q.outputs[w]) + q.inputs[w] == (Jobs(p.outputs[w]) + p.inputs[w]) + [j];
    } else {
      assert q.inputs[w] == p.inputs[w];
    }
  }

  /** A worker's step keeps the invariant. */
  lemma WorkKeeps<I, G, T>(p: Pipeline<I, G, T>, w: int)
    requires Inv(p) && 0 <= w < |p.inputs| && Work(p, w).Done?
    ensures Inv(Work(p, w).state)
  {
    var n := |p.inputs|;
    var q := Work(p, w).state;
    var x := Features(p.inputs[w][0], None, None);
    assert Holds(p, w);
    JobsAppend(p.outputs[w], x);
    assert Jobs(q.outputs[w]) + q.inputs[w] == Jobs(p.outputs[w]) + p.inputs[w];
    forall v | 0 <= v < n ensures Holds(q, v) {
      assert Holds(p, v);
    }
  }

  /** Once the grace period is over, every result `get_result` returns
      answers the oldest unanswered image, and carries that very image as
      its `im_array`: the two FIFO orders agree. The invariant is kept. */
  lemma GetResultPairs<I, G, T>(p: Pipeline<I, G, T>)
    requires Inv(p) && p.grace <= 0 && GetResult(p).Done?
    ensures p.taken < |p.dispatched|
    ensures GetResult(p).value.Some?
    ensures GetResult(p).value.value.job == p.dispatched[p.taken]
    ensures GetResult(p).value.value.imArray == Some(GetResult(p).value.value.job.image)
    ensures GetResult(p).value.value.transform.None?
    ensures Inv(GetResult(p).state)
  {
    var n := |p.inputs|;
    var q := GetResult(p).state;
    NextTurn(p.taken, n);
    assert Holds(p, Turn(p.outIdx, n));
    GetFront(p);
    GetPending(p);
    forall v | 0 <= v < n ensures Holds(q, v) {
      GetHolds(p, v);
    }
  }

  /** The front result of the worker whose turn it is answers the oldest
      unanswered job. */
  lemma GetFront<I, G, T>(p: Pipeline<I, G, T>)
    requires Inv(p) && p.grace <= 0 && GetResult(p).Done?
    ensures p.taken < |p.dispatched|
    ensures p.outputs[Turn(p.outIdx, |p.inputs|)][0].job == p.dispatched[p.taken]
    ensures p.images[0] == p.dispatched[p.taken].image
  {
    var n := |p.inputs|;
    var w := Turn(p.outIdx, n);
    var d := p.dispatched;
    assert |p.images| > 0;
    assert Holds(p, w);
    assert Stride(d, p.taken, w, n) == [d[p.taken]] + Stride(d, p.taken + 1, w, n);
    assert (Jobs(p.outputs[w]) + p.inputs[w])[0] == p.outputs[w][0].job;
  }

  lemma GetPending<I, G, T>(p: Pipeline<I, G, T>)
    requires Inv(p) && p.grace <= 0 && GetResult(p).Done?
    ensures Pending(GetResult(p).state.images, p.dispatched, p.taken + 1)
  {
    var q := GetResult(p).state;
    forall i | 0 <= i < |q.images| ensures q.images[i] == p.dispatched[p.taken + 1 + i].image {
      assert q.images[i] == p.images[i + 1];
    }
  }

  lemma GetHolds<I, G, T>(p: Pipeline<I, G, T>, v: int)
    requires Inv(p) && p.grace <= 0 && GetResult(p).Done? && 0 <= v < |p.inputs|
    ensures Holds(GetResult(p).state, v)
  {
    var n := |p.inputs|;
    var w := Turn(p.outIdx, n);
    var q := GetResult(p).state;
    var d := p.dispatched;
    GetFront(p);
    assert Holds(p, v);
    if v == w {
      assert Stride(d, p.taken, w, n) == [d[p.taken]] + Stride(d, p.taken + 1, w, n);
      assert Jobs(q.outputs[w]) + q.inputs[w] == (Jobs(p.outputs[w]) + p.inputs[w])[1..];
    } else {
      assert Stride(d, p.taken, v, n) == Stride(d, p.taken + 1, v, n);
      assert q.outputs[v] == p.outputs[v];
    }
  }

  /** `k` calls of `get_result`, stopping at the first that does not
      finish. */
  function Poll<I, G, T>(p: Pipeline<I, G, T>, k: nat): (r: Outcome<Pipeline<I, G, T>, seq<Option<Features<I, G, T>>>>)
    requires Valid(p)
    ensures r.Done? ==> Valid(r.state) && |r.value| == k
    decreases k
  {
    if k == 0 then Done(p, [])
    else
      match GetResult(p)
      case Done(q, x) =>
        (match Poll(q, k - 1)
         case Done(q2, xs) => Done(q2, [x] + xs)
         case Blocked => Blocked
         case Raised(e) => Raised(e))
      case Blocked => Blocked
      case Raised(e) => Raised(e)
  }

  /** During the grace period `get_result` returns `None` and touches no
      queue: from the constructor, the first `nworkers + 1` calls all return
      `None`. */
  lemma {:induction false} GracePeriod<I, G, T>(p: Pipeline<I, G, T>, k: nat)
    requires Valid(p) && k <= p.grace
    ensures Poll(p, k) == Done(p.(grace := p.grace - k), seq(k, _ => None))
    decreases k
  {
    if k == 0 {
      assert p.(grace := p.grace - 0) == p;
      var none: seq<Option<Features<I, G, T>>> := seq(0, _ => None);
      assert none == [];
    } else {
      var q := p.(grace := p.grace - 1);
      assert GetResult(p) == Done(q, None);
      GracePeriod(q, k - 1);
      assert q.(grace := q.grace - (k - 1)) == p.(grace := p.grace - k);
      var nones: seq<Option<Features<I, G, T>>> := seq(k, _ => None);
      assert [None] + seq(k - 1, _ => None) == nones;
    }
  }
}

=== FILE: povray.dfy ===
/** The POV-Ray scene writer's bookkeeping (eye_tracker/util/Povray/Povray.py):
    `flatten`, which removes one level of list/tuple nesting; the `File`
    writer's indentation, lock and block structure; and the keyword items'
    names and text. The scene file is the list of lines written; the line
    separator (`os.linesep`) is left implicit. */
module Povray {
  import opened Wrappers
  import PyStr
  import CStrings

  // -------------------------------------------------------------- flatten

  /** A sequence element: a list or tuple (`Group`) or anything else. */
  datatype Item<T> = Leaf(v: T) | Group(items: seq<Item<T>>)

  /** What one element becomes in the flattened sequence. */
  function Piece<T>(x: Item<T>): seq<Item<T>>
  {
    match x
    case Leaf(_) => [x]
    case Group(items) => items
  }

  /** The reference meaning of `flatten`: the pieces of the elements, in
      order. */
  function Flat<T>(s: seq<Item<T>>): seq<Item<T>>
  {
    if |s| == 0 then [] else Flat(s[..|s| - 1]) + Piece(s[|s| - 1])
  }

  /** `flatten`: walks the list, replacing each list/tuple element in place
      by its elements (inserted one by one) and stepping over them, so the
      inserted elements are not flattened again. */
  method Flatten<T>(s: seq<Item<T>>) returns (r: seq<Item<T>>)
    ensures r == Flat(s)
  {
    r := s;
    var i: nat := 0;
    ghost var k := 0;
    assert s[..0] == [];
    while i < |r|
      invariant Walked(s, k, r, i)
      decreases |s| - k
    {
      ghost var r0, i0 := r, i;
      r, i := Expand(r, i);
      FlattenNext(s, k, r0, i0, r, i);
      k := k + 1;
    }
    WalkedAll(s, k, r, i);
  }

  /** The walk has flattened the first `k` elements of `s` into `r[..i]`
      and left the others as they were. */
  ghost predicate Walked<T>(s: seq<Item<T>>, k: nat, r: seq<Item<T>>, i: nat)
  {
    k <= |s| && r == Flat(s[..k]) + s[k..] && i == |Flat(s[..k])|
  }

  /** One step of the walk: the element at `i` replaced by its piece, the
      index moved past it. */
  method Expand<T>(r: seq<Item<T>>, i: nat) returns (r': seq<Item<T>>, i': nat)
    requires i < |r|
    ensures r' == r[..i] + Piece(r[i]) + r[i + 1..] && i' == i + |Piece(r[i])|
  {
    match r[i] {
      case Group(x) =>
        var popped := r[..i] + r[i + 1..];
        assert popped[..i] == r[..i] && popped[i..] == r[i + 1..];
        r', i' := InsertAll(popped, i, x);
      case Leaf(_) =>
        assert r == r[..i] + [r[i]] + r[i + 1..];
        r', i' := r, i + 1;
    }
  }

  /** Expanding the element the walk stands on flattens one more element. */
  lemma FlattenNext<T>(s: seq<Item<T>>, k: nat, r0: seq<Item<T>>, i0: nat, r: seq<Item<T>>, i: nat)
    requires Walked(s, k, r0, i0) && i0 < |r0|
    requires r == r0[..i0] + Piece(r0[i0]) + r0[i0 + 1..] && i == i0 + |Piece(r0[i0])|
    ensures k < |s| && Walked(s, k + 1, r, i)
  {
    var done := Flat(s[..k]);
    assert s[k..] == [s[k]] + s[k + 1..];
    assert r0[..i0] == done && r0[i0] == s[k] && r0[i0 + 1..] == s[k + 1..];
    FlatStep(s, k);
  }

  /** A walk that has reached the end has flattened every element. */
  lemma WalkedAll<T>(s: seq<Item<T>>, k: nat, r: seq<Item<T>>, i: nat)
    requires Walked(s, k, r, i) && i >= |r|
    ensures r == Flat(s)
  {
    assert s[..k] == s;
  }

  /** `for item in x: seq.insert(i, item); i += 1`. */
  method InsertAll<T>(s: seq<T>, i0: nat, x: seq<T>) returns (r: seq<T>, i: nat)
    requires i0 <= |s|
    ensures r == s[..i0] + x + s[i0..] && i == i0 + |x|
  {
    r, i := s, i0;
    var j := 0;
    while j < |x|
      invariant 0 <= j <= |x| && i == i0 + j
      invariant r == s[..i0] + x[..j] + s[i0..]
    {
      r := r[..i] + [x[j]] + r[i..];
      assert x[..j + 1] == x[..j] + [x[j]];
      i, j := i + 1, j + 1;
    }
    assert x[..j] == x;
  }

  /** One more element adds its piece. */
  lemma FlatStep<T>(s: seq<Item<T>>, k: nat)
    requires k < |s|
    ensures Flat(s[..k + 1]) == Flat(s[..k]) + Piece(s[k])
  {
    assert s[..k + 1][..k] == s[..k];
  }

  /** No element is a list or tuple. */
  predicate NoGroups<T>(s: seq<Item<T>>)
  {
    forall i :: 0 <= i < |s| ==> s[i].Leaf?
  }

  /** Flattening a sequence without lists or tuples changes nothing. */
  lemma {:induction false} FlatIdentity<T>(s: seq<Item<T>>)
    requires NoGroups(s)
    ensures Flat(s) == s
  {
    if |s| > 0 {
      FlatIdentity(s[..|s| - 1]);
      assert s == s[..|s| - 1] + [s[|s| - 1]];
    }
  }

  /** Flattening works element by element: the result for two pieces is the
      two results one after the other. */
  lemma {:induction false} FlatAppend<T>(a: seq<Item<T>>, b: seq<Item<T>>)
    ensures Flat(a + b) == Flat(a) + Flat(b)
    decreases |b|
  {
    if |b| == 0 {
      assert a + b == a;
    } else {
      var c := a + b;
      var init := b[..|b| - 1];
      var last := b[|b| - 1];
      assert c[..|c| - 1] == a + init && c[|c| - 1] == last;
      FlatAppend(a, init);
      assert Flat(c) == Flat(a + init) + Piece(last);
      assert Flat(b) == Flat(init) + Piece(last);
    }
  }

  /** Flattening a sequence of groups of leaves removes exactly one level:
      flattening again changes nothing. */
  lemma {:induction false} FlatOneLevel<T>(s: seq<Item<T>>)
    requires forall i :: 0 <= i < |s| ==> NoGroups(Piece(s[i]))
    ensures NoGroups(Flat(s))
    ensures Flat(Flat(s)) == Flat(s)
  {
    FlatLeaves(s);
    FlatIdentity(Flat(s));
  }

  lemma {:induction false} FlatLeaves<T>(s: seq<Item<T>>)
    requires forall i :: 0 <= i < |s| ==> NoGroups(Piece(s[i]))
    ensures NoGroups(Flat(s))
  {
    if |s| > 0 {
      FlatLeaves(s[..|s| - 1]);
      assert NoGroups(Piece(s[|s| - 1]));
    }
  }

  // -------------------------------------------------------------- File

  /** A failed `assert` in the writer. */
  datatype Failure = AssertionFailed

  /** The writer: its indentation level, the item holding the lock (items
      are named by identity), and the lines written so far. */
  datatype Writer = Writer(indent: int, lock: Option<nat>, lines: seq<string>)

  /** `File.__init__` before any item is written. */
  const Opened: Writer := Writer(0, None, [])

  /** The indentation never goes below zero. */
  predicate Valid(w: Writer)
  {
    w.indent >= 0
  }

  /** `"  " * n`: two spaces per level, nothing for a negative count. */
  function Spaces(n: int): (r: string)
    ensures |r| == (if n > 0 then 2 * n else 0)
    ensures forall i :: 0 <= i < |r| ==> r[i] == ' '
  {
    if n <= 0 then "" else "  " + Spaces(n - 1)
  }

  /** `lock`: only an unlocked writer can be locked. */
  function Lock(w: Writer, item: nat): (r: Result<Writer, Failure>)
    ensures r.Ok? <==> w.lock.None?
    ensures r.Ok? ==> r.value.lock == Some(item) && r.value.indent == w.indent && r.value.lines == w.lines
  {
    if w.lock.Some? then Err(AssertionFailed) else Ok(w.(lock := Some(item)))
  }

  /** `unlock`: only the item holding the lock can release it. */
  function Unlock(w: Writer, item: nat): (r: Result<Writer, Failure>)
    ensures r.Ok? <==> w.lock == Some(item)
    ensures r.Ok? ==> r.value.lock.None? && r.value.indent == w.indent && r.value.lines == w.lines
  {
    if w.lock != Some(item) then Err(AssertionFailed) else Ok(w.(lock := None))
  }

  /** `indent`. */
  function Indent(w: Writer): (r: Writer)
    ensures r.indent == w.indent + 1 && r.lock == w.lock && r.lines == w.lines
  {
    w.(indent := w.indent + 1)
  }

  /** `dedent`: the level drops by one, and must not become negative. */
  function Dedent(w: Writer): (r: Result<Writer, Failure>)
    ensures r.Ok? <==> w.indent >= 1
    ensures r.Ok? ==> r.value.indent == w.indent - 1 && r.value.lock == w.lock && r.value.lines == w.lines
  {
    if w.indent - 1 >= 0 then Ok(w.(indent := w.indent - 1)) else Err(AssertionFailed)
  }

  /** `writeln`: forbidden while locked; the line is indented by two spaces
      per level. */
  function Writeln(w: Writer, s: string): (r: Result<Writer, Failure>)
    ensures r.Ok? <==> w.lock.None?
    ensures r.Ok? ==> r.value.indent == w.indent && r.value.lock == w.lock
    ensures r.Ok? ==> |r.value.lines| == |w.lines| + 1 && r.value.lines[..|w.lines|] == w.lines
    ensures r.Ok? ==> var line := r.value.lines[|w.lines|];
      |line| == |Spaces(w.indent)| + |s| && line[|Spaces(w.indent)|..] == s
      && forall i :: 0 <= i < |Spaces(w.indent)| ==> line[i] == ' '
  {
    if w.lock.Some? then Err(AssertionFailed)
    else
      var line := Spaces(w.indent) + s;
      assert line[|Spaces(w.indent)|..] == s;
      Ok(w.(lines := w.lines + [line]))
  }

  /** `block_begin`: an opening brace, then one level deeper. */
  function BlockBegin(w: Writer): (r: Result<Writer, Failure>)
    ensures r.Ok? <==> w.lock.None?
    ensures r.Ok? ==> r.value.indent == w.indent + 1 && r.value.lock == w.lock
    ensures r.Ok? ==> r.value.lines == w.lines + [Spaces(w.indent) + "{"]
  {
    match Writeln(w, "{")
    case Err(e) => Err(e)
    case Ok(v) => Ok(Indent(v))
  }

  /** `block_end`: one level up, a closing brace, and a blank line after a
      top-level block. */
  function BlockEnd(w: Writer): (r: Result<Writer, Failure>)
    ensures r.Ok? <==> w.lock.None? && w.indent >= 1
    ensures r.Ok? ==> r.value.indent == w.indent - 1 && r.value.lock == w.lock
    ensures r.Ok? ==> r.value.lines == w.lines + [Spaces(w.indent - 1) + "}"] + (if w.indent == 1 then [""] else [])
  {
    match Dedent(w)
    case Err(e) => Err(e)
    case Ok(v) =>
      match Writeln(v, "}")
      case Err(e) => Err(e)
      case Ok(u) =>
        if u.indent == 0 then
          var t := Writeln(u, "");
          assert Spaces(0) + "" == "";
          t
        else Ok(u)
  }

  /** A block opened and closed right away restores the level and writes
      the two braces at the level it started from. */
  lemma BlockRestores(w: Writer)
    requires Valid(w) && w.lock.None?
    ensures BlockBegin(w).Ok? && BlockEnd(BlockBegin(w).value).Ok?
    ensures BlockEnd(BlockBegin(w).value).value.indent == w.indent
    ensures BlockEnd(BlockBegin(w).value).value.lines
      == w.lines + [Spaces(w.indent) + "{", Spaces(w.indent) + "}"] + (if w.indent == 0 then [""] else [])
  {
  }

  /** The writer calls a scene description makes. */
  datatype Op = Begin | End | Line(s: string) | Hold(item: nat) | Release(item: nat)

  /** The writer after the calls; a failed assertion ends the run. */
  function Run(w: Writer, ops: seq<Op>): Result<Writer, Failure>
    decreases |ops|
  {
    if |ops| == 0 then Ok(w)
    else
      var next := match ops[0]
        case Begin => BlockBegin(w)
        case End => BlockEnd(w)
        case Line(s) => Writeln(w, s)
        case Hold(item) => Lock(w, item)
        case Release(item) => Unlock(w, item);
      match next
      case Err(e) => Err(e)
      case Ok(v) => Run(v, ops[1..])
  }

  /** The calls close every block they open, never close more than `open`
      blocks beyond those, and every lock is taken while the writer is free
      and released by the same item before the next line or block. */
  predicate Balanced(ops: seq<Op>, open: nat, held: Option<nat>)
    decreases |ops|
  {
    if |ops| == 0 then open == 0 && held.None?
    else match ops[0]
      case Begin => held.None? && Balanced(ops[1..], open + 1, held)
      case End => held.None? && open > 0 && Balanced(ops[1..], open - 1, held)
      case Line(_) => held.None? && Balanced(ops[1..], open, held)
      case Hold(item) => held.None? && Balanced(ops[1..], open, Some(item))
      case Release(item) => held == Some(item) && Balanced(ops[1..], open, None)
  }

  /** Balanced calls never fail an assertion, keep the level non-negative,
      and end `open` levels up from where they started, unlocked. */
  lemma {:induction false} BalancedRun(w: Writer, ops: seq<Op>, open: nat)
    requires Valid(w) && w.indent >= open && Balanced(ops, open, w.lock)
    ensures Run(w, ops).Ok?
    ensures Valid(Run(w, ops).value) && Run(w, ops).value.indent == w.indent - open
    ensures Run(w, ops).value.lock.None?
    decreases |ops|
  {
    if |ops| > 0 {
      match ops[0]
      case Begin => BalancedRun(BlockBegin(w).value, ops[1..], open + 1);
      case End => BalancedRun(BlockEnd(w).value, ops[1..], open - 1);
      case Line(s) => BalancedRun(Writeln(w, s).value, ops[1..], open);
      case Hold(item) => BalancedRun(Lock(w, item).value, ops[1..], open);
      case Release(item) => BalancedRun(Unlock(w, item).value, ops[1..], open);
    }
  }

  /** A write while an item holds the lock fails, whatever was written
      before. */
  lemma WriteWhileLocked(w: Writer, item: nat, s: string)
    requires w.lock.None?
    ensures Run(w, [Hold(item), Line(s)]).Err?
    ensures Run(w, [Hold(item), Begin]).Err?
  {
    assert [Hold(item), Line(s)][1..] == [Line(s)];
    assert [Hold(item), Begin][1..] == [Begin];
  }

  // -------------------------------------------------------------- keywords

  /** `py2pov`: the POV-Ray name of a Python class name, lower-cased. */
  function Py2Pov(name: string): (r: string)
    ensures |r| == |name|
    ensures forall i :: 0 <= i < |name| ==> r[i] == PyStr.LowerChar(name[i])
    ensures PyStr.Lower(r) == r
  {
    PyStr.LowerIdempotent(name);
    PyStr.Lower(name)
  }

  /** The name a `KWItem` takes: the one given, or its class name through
      `py2pov`. */
  function KwName(className: string, name: Option<string>): (r: string)
    ensures name.Some? ==> r == name.value
    ensures name.None? ==> r == Py2Pov(className)
  {
    match name
    case Some(n) => n
    case None => Py2Pov(className)
  }

  /** `KWItem.__str__`: the name, a space, and the value's text. */
  function KwText(name: string, val: string): (r: string)
    ensures |r| == |name| + 1 + |val|
  {
    name + " " + val
  }

  /** The text of a keyword item splits back into its name and value at
      the first space, when the name has none. */
  lemma KwTextSplits(name: string, val: string)
    requires ' ' !in name
    ensures CStrings.Find(KwText(name, val), ' ') == Some(|name|)
    ensures KwText(name, val)[..|name|] == name && KwText(name, val)[|name| + 1..] == val
  {
    var r := KwText(name, val);
    assert r[..|name|] == name;
    assert r[|name|] == ' ';
    assert r[|name| + 1..] == val;
  }

  /** The generated keyword classes are named in lower case. */
  lemma KeywordNames()
    ensures KwName("Color", None) == "color" && KwName("Translate", None) == "translate"
    ensures KwName("Scale", None) == "scale" && KwName("Rotate", None) == "rotate"
    ensures KwName("Angle", None) == "angle"
  {
  }
}

=== FILE: pvjni.dfy ===
/** Helpers of the Java binding of the camera SDK: `strcnt`, the list built
    from a comma-separated enumeration string, and the bounded pool of frame
    structures reused between captures. The lock around the pool only keeps
    threads apart and is not modelled. */
module PvJni {
  import opened Wrappers
  import CStrings

  /** `strcnt`: occurrences of `c` before the terminating NUL. The end of
      `s` stands for a NUL when `s` holds none. */
  method StrCnt(s: string, c: char) returns (count: nat)
    ensures count == Count(CStrings.UntilNul(s), c)
  {
    ghost var text := CStrings.UntilNul(s);
    count := 0;
    var i := 0;
    while i < |s| && s[i] != '\0'
      invariant 0 <= i <= |text|
      invariant count + Count(text[i..], c) == Count(text, c)
    {
      assert text[i] == s[i];
      assert text[i..][1..] == text[i + 1..];
      if s[i] == c {
        count := count + 1;
      }
      i := i + 1;
    }
    assert i == |text|;
  }

  /** The string array returned for an enumeration attribute: allocated with
      one slot per comma plus one and every slot "", then filled in order with
      the `strtok` tokens of the range string. */
  function EnumList(range: string): (list: seq<string>)
    ensures |list| == Count(range, ',') + 1
    ensures var ts := CStrings.Tokens(range, ',');
      |ts| <= |list| && list[..|ts|] == ts
      && forall i :: |ts| <= i < |list| ==> list[i] == ""
  {
    var ts := CStrings.Tokens(range, ',');
    CStrings.TokensBound(range, ',');
    ts + seq(Count(range, ',') + 1 - |ts|, _ => "")
  }

  /** A range string with no empty entry fills every slot of the list, and the
      slots joined back with commas give the string again. */
  lemma EnumListFull(values: seq<string>)
    requires |values| > 0
    requires forall i :: 0 <= i < |values| ==> |values[i]| > 0 && ',' !in values[i]
    ensures EnumList(CStrings.Join(values, ',')) == values
  {
    CStrings.JoinTokens(values, ',');
    CStrings.JoinCount(values, ',');
  }

  // ---------------------------------------------------------------- frame pool

  /** Most frame structures the pool keeps for reuse. */
  const PoolCapacity: nat := 100

  /** The pool is a FIFO queue of frame structures, identified by handle. */
  type Frame = nat

  predicate PoolOk(pool: seq<Frame>)
  {
    |pool| <= PoolCapacity
  }

  /** `PopAFrame`: the frame at the head of the pool, or a freshly allocated
      one (`spare`) when the pool is empty. */
  function PopAFrame(pool: seq<Frame>, spare: Frame): (r: (Frame, seq<Frame>))
    ensures |pool| > 0 ==> [r.0] + r.1 == pool
    ensures |pool| == 0 ==> r == (spare, [])
    ensures multiset(r.1) <= multiset(pool)
  {
    if |pool| > 0 then (pool[0], pool[1..]) else (spare, pool)
  }

  /** `PushAFrame`: the frame joins the tail of the pool unless the pool is
      full, in which case it is deleted. The flag says whether it was kept. */
  function PushAFrame(pool: seq<Frame>, f: Frame): (r: (seq<Frame>, bool))
    ensures r.1 <==> |pool| < PoolCapacity
    ensures r.1 ==> r.0 == pool + [f]
    ensures !r.1 ==> r.0 == pool
    ensures PoolOk(pool) ==> PoolOk(r.0)
  {
    if |pool| < PoolCapacity then (pool + [f], true) else (pool, false)
  }

  datatype PoolOp = Pop(spare: Frame) | Push(frame: Frame)

  /** The pool after a sequence of pops and pushes. */
  function RunPool(pool: seq<Frame>, ops: seq<PoolOp>): seq<Frame>
    decreases |ops|
  {
    if |ops| == 0 then pool
    else
      var next := match ops[0]
        case Pop(spare) => PopAFrame(pool, spare).1
        case Push(f) => PushAFrame(pool, f).0;
      RunPool(next, ops[1..])
  }

  /** No sequence of pops and pushes grows the pool past its capacity. */
  lemma {:induction false} PoolStaysBounded(pool: seq<Frame>, ops: seq<PoolOp>)
    requires PoolOk(pool)
    ensures PoolOk(RunPool(pool, ops))
    decreases |ops|
  {
    if |ops| > 0 {
      var next := match ops[0]
        case Pop(spare) => PopAFrame(pool, spare).1
        case Push(f) => PushAFrame(pool, f).0;
      PoolStaysBounded(next, ops[1..]);
    }
  }

  /** Frames pushed into a pool with room are appended in the order they are
      pushed, so pops, which take the head, return them first in first out. */
  lemma {:induction false} PoolIsFifo(pool: seq<Frame>, fs: seq<Frame>)
    requires |pool| + |fs| <= PoolCapacity
    ensures PushAll(pool, fs) == pool + fs
    decreases |fs|
  {
    if |fs| > 0 {
      assert PushAFrame(pool, fs[0]).0 == pool + [fs[0]];
      PoolIsFifo(pool + [fs[0]], fs[1..]);
      assert pool + [fs[0]] + fs[1..] == pool + fs;
    }
  }

  function PushAll(pool: seq<Frame>, fs: seq<Frame>): seq<Frame>
    decreases |fs|
  {
    if |fs| == 0 then pool else PushAll(PushAFrame(pool, fs[0]).0, fs[1..])
  }

  /** A pushed frame is the next one popped once the frames ahead of it are
      gone: pushing into an empty pool and popping returns it. */
  lemma PushThenPop(f: Frame, spare: Frame)
    ensures PopAFrame(PushAFrame([], f).0, spare) == (f, [])
  {
  }
}

=== FILE: pylist.dfy ===
/** Python list indexing, as the simulated controllers use it: an index in
    `[-n, n)` names an element (negative ones count from the end) and any
    other index raises `IndexError`. */
module PyList {
  import opened Wrappers

  /** The position an index names in a list of length `n`, if any. */
  function Resolve(n: nat, i: int): (r: Option<nat>)
    ensures r.Some? <==> -(n as int) <= i < n
    ensures r.Some? ==> r.value < n && (if i >= 0 then r.value == i else r.value == n + i)
  {
    if 0 <= i < n then Some(i)
    else if -(n as int) <= i < 0 then Some(n + i)
    else None
  }

  /** `s[i]`. */
  function Get<T>(s: seq<T>, i: int): (r: Option<T>)
    ensures r.Some? <==> Resolve(|s|, i).Some?
    ensures r.Some? ==> r.value == s[Resolve(|s|, i).value]
  {
    match Resolve(|s|, i)
    case None => None
    case Some(k) => Some(s[k])
  }

  /** `s[i] = v`. */
  function Set<T>(s: seq<T>, i: int, v: T): (r: Option<seq<T>>)
    ensures r.Some? <==> Resolve(|s|, i).Some?
    ensures r.Some? ==> |r.value| == |s|
    ensures r.Some? ==> forall k :: 0 <= k < |s| ==>
      r.value[k] == (if k == Resolve(|s|, i).value then v else s[k])
  {
    match Resolve(|s|, i)
    case None => None
    case Some(k) => Some(s[k := v])
  }

  /** Reading back a written element gives the written value. */
  lemma GetAfterSet<T>(s: seq<T>, i: int, v: T)
    requires Resolve(|s|, i).Some?
    ensures Get(Set(s, i, v).value, i) == Some(v)
  {
  }
}

=== FILE: pystr.dfy ===
/** The Python 2 `str` operations the eye tracker's Python code uses on
    device replies, requirement files and configuration values: `strip`
    with a set of characters, `split()` on white space, `int()` of a decimal
    string, `lower()` and `startswith`. Strings are byte strings in the "C"
    locale, so white space is the six `isspace` characters and only A-Z
    change case. */
module PyStr {
  import opened Wrappers
  import CStrings

  /** The characters `str.strip()` and `str.split()` treat as white space. */
  const Whitespace: set<char> := {' ', '\t', '\n', '\U{B}', '\U{C}', '\r'}

  lemma WhitespaceIsSpace(c: char)
    ensures c in Whitespace <==> CStrings.IsSpace(c)
  {
  }

  predicate AllIn(s: string, cs: set<char>)
  {
    forall i :: 0 <= i < |s| ==> s[i] in cs
  }

  // -------------------------------------------------------------------- strip

  /** Length of the leading run of characters from `cs`. */
  function LeadLen(s: string, cs: set<char>): (n: nat)
    ensures n <= |s| && AllIn(s[..n], cs) && (n < |s| ==> s[n] !in cs)
  {
    if |s| == 0 || s[0] !in cs then 0
    else
      var n := LeadLen(s[1..], cs);
      assert s[..n + 1] == [s[0]] + s[1..][..n];
      n + 1
  }

  /** Length of the trailing run of characters from `cs`. */
  function TrailLen(s: string, cs: set<char>): (n: nat)
    ensures n <= |s| && AllIn(s[|s| - n..], cs) && (n < |s| ==> s[|s| - n - 1] !in cs)
  {
    if |s| == 0 || s[|s| - 1] !in cs then 0
    else
      var p := s[..|s| - 1];
      var n := TrailLen(p, cs);
      assert s[|s| - (n + 1)..] == p[|p| - n..] + [s[|s| - 1]];
      n + 1
  }

  /** `s[i..j]` is `s` with the characters of `cs` stripped from both ends:
      everything cut off is in `cs`, and what is left neither starts nor
      ends with one of them. */
  predicate StripAt(s: string, cs: set<char>, i: nat, j: nat)
  {
    i <= j <= |s| && AllIn(s[..i], cs) && AllIn(s[j..], cs)
    && (i < j ==> s[i] !in cs && s[j - 1] !in cs)
  }

  /** `s.strip(cs)`. */
  function Strip(s: string, cs: set<char>): (r: string)
    ensures StripAt(s, cs, LeadLen(s, cs), LeadLen(s, cs) + |r|)
    ensures r == s[LeadLen(s, cs)..LeadLen(s, cs) + |r|]
  {
    var i := LeadLen(s, cs);
    var n := TrailLen(s[i..], cs);
    StripEnds(s, cs, i, n);
    s[i..|s| - n]
  }

  /** The leading run and the trailing run of what follows it bound the
      stripped text. */
  lemma StripEnds(s: string, cs: set<char>, i: nat, n: nat)
    requires i == LeadLen(s, cs) && n == TrailLen(s[i..], cs)
    ensures i <= |s| - n && StripAt(s, cs, i, |s| - n)
  {
    var t := s[i..];
    assert t[|t| - n..] == s[|s| - n..];
    if i < |s| - n {
      assert s[|s| - n - 1] == t[|t| - n - 1];
    }
  }

  lemma {:induction false} LeadLenUnique(s: string, cs: set<char>, i: nat)
    requires i <= |s| && AllIn(s[..i], cs) && (i < |s| ==> s[i] !in cs)
    ensures LeadLen(s, cs) == i
  {
    if i > 0 {
      assert s[..i][0] == s[0];
      assert s[1..][..i - 1] == s[1..i];
      var u := s[1..][..i - 1];
      assert AllIn(u, cs) by {
        forall k | 0 <= k < |u| ensures u[k] in cs {
          assert u[k] == s[..i][k + 1];
        }
      }
      LeadLenUnique(s[1..], cs, i - 1);
    }
  }

  lemma {:induction false} TrailLenUnique(s: string, cs: set<char>, n: nat)
    requires n <= |s| && AllIn(s[|s| - n..], cs) && (n < |s| ==> s[|s| - n - 1] !in cs)
    ensures TrailLen(s, cs) == n
  {
    if n > 0 {
      var p := s[..|s| - 1];
      assert s[|s| - n..][n - 1] == s[|s| - 1];
      var u := p[|p| - (n - 1)..];
      assert AllIn(u, cs) by {
        forall k | 0 <= k < |u| ensures u[k] in cs {
          assert u[k] == s[|s| - n..][k];
        }
      }
      TrailLenUnique(p, cs, n - 1);
    }
  }

  /** Stripping has one answer: any way of cutting `cs` characters off both
      ends that leaves no `cs` character at either end is `strip`'s. */
  lemma StripUnique(s: string, cs: set<char>, i: nat, j: nat)
    requires StripAt(s, cs, i, j)
    ensures Strip(s, cs) == s[i..j]
  {
    if i < j {
      LeadLenUnique(s, cs, i);
      var t := s[i..];
      assert t[|t| - (|s| - j)..] == s[j..];
      TrailLenUnique(t, cs, |s| - j);
      assert Strip(s, cs) == s[i..|s| - TrailLen(t, cs)];
    } else {
      assert forall k :: 0 <= k < |s| ==> s[k] in cs by {
        forall k | 0 <= k < |s| ensures s[k] in cs {
          if k < i { assert s[..i][k] == s[k]; } else { assert s[j..][k - j] == s[k]; }
        }
      }
      LeadLenUnique(s, cs, |s|);
      assert s[|s|..] == [] && TrailLen([], cs) == 0;
    }
  }

  /** Stripping twice is stripping once. */
  lemma StripIdempotent(s: string, cs: set<char>)
    ensures Strip(Strip(s, cs), cs) == Strip(s, cs)
  {
    var r := Strip(s, cs);
    assert r[..0] == [] && r[|r|..] == [];
    StripUnique(r, cs, 0, |r|);
  }

  // -------------------------------------------------------------------- split

  /** Length of the leading run of non-white-space characters. */
  function WordLen(s: string): (n: nat)
    ensures n <= |s| && (n < |s| ==> s[n] in Whitespace)
    ensures forall i :: 0 <= i < n ==> s[i] !in Whitespace
  {
    if |s| == 0 || s[0] in Whitespace then 0 else 1 + WordLen(s[1..])
  }

  /** `s.split()`: the maximal runs of non-white-space characters, in order. */
  function Split(s: string): (ts: seq<string>)
    ensures forall k :: 0 <= k < |ts| ==> |ts[k]| > 0 && NoSpace(ts[k])
    decreases |s|
  {
    if |s| == 0 then []
    else if s[0] in Whitespace then Split(s[1..])
    else
      var n := WordLen(s);
      [s[..n]] + Split(s[n..])
  }

  predicate NoSpace(w: string)
  {
    forall i :: 0 <= i < |w| ==> w[i] !in Whitespace
  }

  /** The words joined by single spaces. */
  function JoinSpace(ws: seq<string>): string
  {
    if |ws| == 0 then "" else if |ws| == 1 then ws[0] else ws[0] + " " + JoinSpace(ws[1..])
  }

  lemma {:induction false} WordLenOf(w: string, rest: string)
    requires NoSpace(w) && (|rest| == 0 || rest[0] in Whitespace)
    ensures WordLen(w + rest) == |w|
  {
    if |w| > 0 {
      assert (w + rest)[1..] == w[1..] + rest;
      WordLenOf(w[1..], rest);
    } else {
      assert w + rest == rest;
    }
  }

  /** Splitting words joined by spaces gives the words back. */
  lemma {:induction false} SplitJoin(ws: seq<string>)
    requires forall k :: 0 <= k < |ws| ==> |ws[k]| > 0 && NoSpace(ws[k])
    ensures Split(JoinSpace(ws)) == ws
  {
    if |ws| == 1 {
      WordLenOf(ws[0], "");
      assert ws[0][|ws[0]|..] == "";
      assert ws[0][..|ws[0]|] == ws[0];
    } else if |ws| > 1 {
      var rest := JoinSpace(ws[1..]);
      var s := ws[0] + (" " + rest);
      assert JoinSpace(ws) == s;
      WordLenOf(ws[0], " " + rest);
      assert s[..|ws[0]|] == ws[0];
      assert s[|ws[0]|..] == " " + rest;
      assert (" " + rest)[1..] == rest;
      SplitJoin(ws[1..]);
      assert ws == [ws[0]] + ws[1..];
    }
  }

  // -------------------------------------------------------------------- int()

  predicate AllDigits(s: string)
  {
    forall i :: 0 <= i < |s| ==> CStrings.IsDigit(s[i], 10)
  }

  /** `int(s)` in base 10: white space around an optional sign and at least
      one decimal digit; anything else raises `ValueError` (`None`). */
  function PyInt(s: string): (r: Option<int>)
  {
    PyIntStripped(Strip(s, Whitespace))
  }

  /** `int()` of text with the surrounding white space removed. */
  function PyIntStripped(t: string): (r: Option<int>)
  {
    var neg := |t| > 0 && t[0] == '-';
    var u := if |t| > 0 && (t[0] == '-' || t[0] == '+') then t[1..] else t;
    if |u| > 0 && AllDigits(u) then
      var m := CStrings.DigitsValue(u, 10);
      Some(if neg then -(m as int) else m)
    else None
  }

  /** A text that neither starts nor ends with a character of `cs` is
      unchanged by `strip(cs)`. */
  lemma StripNothing(s: string, cs: set<char>)
    requires |s| > 0 && s[0] !in cs && s[|s| - 1] !in cs
    ensures Strip(s, cs) == s
  {
    assert s[..0] == [] && s[|s|..] == [];
    StripUnique(s, cs, 0, |s|);
  }

  lemma DigitIsNotSpace(c: char)
    requires CStrings.IsDigit(c, 10)
    ensures c !in Whitespace
  {
  }

  /** `int()` of a sign and digits with no white space around them. */
  lemma PyIntBare(s: string)
    requires Strip(s, Whitespace) == s
    ensures var u := if |s| > 0 && (s[0] == '-' || s[0] == '+') then s[1..] else s;
      PyInt(s) == if |u| > 0 && AllDigits(u) then
        Some(if |s| > 0 && s[0] == '-' then -(CStrings.DigitsValue(u, 10) as int) else CStrings.DigitsValue(u, 10))
      else None
  {
  }

  /** A sign-free run of digits, alone or after a minus sign, is read by
      `int()` as its value. */
  lemma PyIntDigits(f: string, negative: bool)
    requires |f| > 0 && AllDigits(f)
    ensures PyInt((if negative then "-" else "") + f)
      == Some(if negative then -(CStrings.DigitsValue(f, 10) as int) else CStrings.DigitsValue(f, 10))
  {
    if negative {
      PyIntMinusDigits(f);
      assert (if negative then "-" else "") + f == "-" + f;
    } else {
      PyIntPlainDigits(f);
      assert (if negative then "-" else "") + f == f;
    }
  }

  lemma PyIntPlainDigits(f: string)
    requires |f| > 0 && AllDigits(f)
    ensures PyInt(f) == Some(CStrings.DigitsValue(f, 10))
  {
    DigitIsNotSpace(f[0]);
    DigitIsNotSpace(f[|f| - 1]);
    StripNothing(f, Whitespace);
    PyIntBare(f);
  }

  lemma PyIntMinusDigits(f: string)
    requires |f| > 0 && AllDigits(f)
    ensures PyInt("-" + f) == Some(-(CStrings.DigitsValue(f, 10) as int))
  {
    MinusUnstripped(f);
    MinusParsed(f);
  }

  lemma MinusParsed(f: string)
    requires |f| > 0 && AllDigits(f)
    ensures PyIntStripped("-" + f) == Some(-(CStrings.DigitsValue(f, 10) as int))
  {
    MinusTail(f);
    PyIntNegative("-" + f);
  }

  lemma MinusTail(f: string)
    ensures |"-" + f| == |f| + 1 && ("-" + f)[0] == '-' && ("-" + f)[1..] == f
  {
  }

  /** A minus sign followed by digits is read as the negated value. */
  lemma PyIntNegative(t: string)
    requires |t| > 1 && t[0] == '-' && AllDigits(t[1..])
    ensures PyIntStripped(t) == Some(-(CStrings.DigitsValue(t[1..], 10) as int))
  {
  }

  /** A minus sign before digits has no white space to strip. */
  lemma MinusUnstripped(f: string)
    requires |f| > 0 && AllDigits(f)
    ensures Strip("-" + f, Whitespace) == "-" + f
    ensures PyInt("-" + f) == PyIntStripped("-" + f)
  {
    var s := "-" + f;
    DigitIsNotSpace(f[|f| - 1]);
    assert s[0] == '-' && s[|s| - 1] == f[|f| - 1];
    StripNothing(s, Whitespace);
  }

  /** A number written in decimal, with or without a minus sign, is read
      back by `int()`. */
  lemma PyIntFormat(n: nat, negative: bool)
    ensures PyInt((if negative then "-" else "") + CStrings.Format(n, 10))
      == Some(if negative then -(n as int) else n)
  {
    var f := CStrings.Format(n, 10);
    PyIntDigits(f, negative);
    CStrings.FormatValue(n, 10);
  }

  /** `int()` refuses text holding anything but a sign and digits. */
  lemma PyIntRejects(s: string, i: nat)
    requires i < |s| && s[i] !in Whitespace && !CStrings.IsDigit(s[i], 10) && s[i] != '-' && s[i] != '+'
    ensures PyInt(s) == None
  {
    var t := Strip(s, Whitespace);
    var k := LeadLen(s, Whitespace);
    assert k <= i < k + |t|;
    assert t[i - k] == s[i];
  }

  // ------------------------------------------------------------ lower, prefix

  /** `lower()` of one character: A-Z only. */
  function LowerChar(c: char): (d: char)
    ensures 'A' <= c <= 'Z' ==> d as int == c as int + 32
    ensures !('A' <= c <= 'Z') ==> d == c
  {
    if 'A' <= c <= 'Z' then (c as int + 32) as char else c
  }

  /** `s.lower()`. */
  function Lower(s: string): (r: string)
    ensures |r| == |s| && forall i :: 0 <= i < |s| ==> r[i] == LowerChar(s[i])
  {
    seq(|s|, i requires 0 <= i < |s| => LowerChar(s[i]))
  }

  /** Lower-casing twice is lower-casing once; no upper-case letter is left. */
  lemma LowerIdempotent(s: string)
    ensures Lower(Lower(s)) == Lower(s)
    ensures forall i :: 0 <= i < |s| ==> !('A' <= Lower(s)[i] <= 'Z')
  {
  }

  /** `s.startswith(p)`. */
  predicate StartsWith(s: string, p: string)
  {
    |p| <= |s| && s[..|p|] == p
  }
}

=== FILE: ready_frames.dfy ===
/** The continuous-capture buffers of the `ProsilicaCamera` wrapper
    (Camera/Prosilica/Prosilica.h): five frames cycle between the driver,
    which fills queued frames and calls back `frameCompleted`, a deque of
    ready frames, and the client, which takes the oldest ready frame with
    `getAndLockCurrentFrame` and hands it back with `releaseCurrentFrame`.
    Frames are named by their index in `frame_multi_buffer`. The mutex and
    condition variable are not modelled: a take from an empty deque, which
    waits for the next completion, is modelled as not happening. */
module ReadyFrames {
  import opened Wrappers

  /** `FRAME_MULTI_BUFFER_SIZE`. */
  const BufferCount: nat := 5
  /** `HIGH_WATER_MARK`. */
  const HighWaterMark: nat := 2

  type Index = i: nat | i < BufferCount

  /** `ready_frames`, the frames queued to the driver (`pending`, not a field
      of the source: the driver's side of `nqueued`), `nqueued`, and
      `current_frame` (`None` until the first take). `held` records whether
      the client has taken `current` and not yet released it; it is not a
      field of the source either, and only the frame-conservation lemma
      uses it. */
  datatype Camera = Camera(ready: seq<Index>, pending: multiset<Index>, nqueued: int,
                           current: Option<Index>, held: bool)

  /** The state after construction: `nqueued` is never initialised by the
      constructor, so it starts at an arbitrary `n0`. */
  function Constructed(n0: int): (c: Camera)
    ensures c.ready == [] && c.pending == multiset{} && c.nqueued == n0 && c.current.None?
  {
    Camera([], multiset{}, n0, None, false)
  }

  /** `queueFrame`: hand the frame to the driver and count it. The driver's
      answer only goes to `_check`, which reports an error and returns it
      to a caller that drops it: the frame is counted as queued whatever
      the driver said, and the model takes no driver answer. */
  function QueueFrame(c: Camera, i: Index): (r: Camera)
    ensures r.nqueued == c.nqueued + 1 && r.pending == c.pending + multiset{i}
    ensures r.ready == c.ready && r.current == c.current && r.held == c.held
  {
    c.(pending := c.pending + multiset{i}, nqueued := c.nqueued + 1)
  }

  /** The frames queued by `startContinuousCapture`: indices 0 to 4 in order. */
  function QueueAll(c: Camera, from: nat): (r: Camera)
    requires from <= BufferCount
    ensures r.nqueued == c.nqueued + (BufferCount - from)
    ensures r.ready == c.ready && r.current == c.current && r.held == c.held
    ensures forall i: Index :: r.pending[i] == c.pending[i] + (if from <= i then 1 else 0)
    decreases BufferCount - from
  {
    if from == BufferCount then c else QueueAll(QueueFrame(c, from), from + 1)
  }

  /** `frameCompleted`: when more than `HIGH_WATER_MARK` frames are ready the
      oldest is dropped from the deque and requeued; the completed frame
      joins the back of the deque. */
  function FrameCompleted(c: Camera, i: Index): (r: Camera)
    requires i in c.pending
    ensures |c.ready| > HighWaterMark ==> r.ready == c.ready[1..] + [i]
    ensures |c.ready| <= HighWaterMark ==> r.ready == c.ready + [i]
    ensures |c.ready| > HighWaterMark ==>
      (r.nqueued == c.nqueued && r.pending == c.pending - multiset{i} + multiset{c.ready[0]})
    ensures |c.ready| <= HighWaterMark ==>
      (r.nqueued == c.nqueued - 1 && r.pending == c.pending - multiset{i})
    ensures r.current == c.current && r.held == c.held
  {
    var over := |c.ready| > HighWaterMark;
    var ready := (if over then c.ready[1..] else c.ready) + [i];
    var done := c.(ready := ready, pending := c.pending - multiset{i}, nqueued := c.nqueued - 1);
    if over then QueueFrame(done, c.ready[0]) else done
  }

  /** `getAndLockCurrentFrame`: the front of the deque becomes the current
      frame. `None` when no frame is ready (the source then waits). */
  function GetAndLock(c: Camera): (r: Option<(Camera, Index)>)
    ensures r.None? <==> |c.ready| == 0
    ensures r.Some? ==>
      (r.value.1 == c.ready[0] && r.value.0.ready == c.ready[1..]
       && r.value.0.current == Some(c.ready[0])
       && r.value.0.pending == c.pending && r.value.0.nqueued == c.nqueued)
  {
    if |c.ready| == 0 then None
    else Some((c.(ready := c.ready[1..], current := Some(c.ready[0]), held := true), c.ready[0]))
  }

  /** `releaseCurrentFrame`: requeue the current frame by its stored index.
      `None` when no frame was ever taken (the source then reads an
      uninitialised frame address). The current frame is not cleared. */
  function Release(c: Camera): (r: Option<Camera>)
    ensures r.None? <==> c.current.None?
    ensures r.Some? ==>
      (r.value.pending == c.pending + multiset{c.current.value}
       && r.value.nqueued == c.nqueued + 1 && r.value.ready == c.ready
       && r.value.current == c.current)
  {
    if c.current.None? then None
    else Some(QueueFrame(c, c.current.value).(held := false))
  }

  // --------------------------------------------------------------- invariants

  /** Each of the five frames is in exactly one place: queued to the driver,
      ready, or held by the client. */
  function Placed(c: Camera): multiset<Index>
  {
    c.pending + multiset(c.ready) + (if c.held && c.current.Some? then multiset{c.current.value} else multiset{})
  }

  function AllFrames(): (m: multiset<Index>)
    ensures forall i: Index :: m[i] == 1
  {
    multiset{0, 1, 2, 3, 4}
  }

  /** The state the capture keeps between calls, relative to the initial
      value `n0` of `nqueued`. */
  predicate Inv(c: Camera, n0: int)
  {
    |c.ready| <= HighWaterMark + 1
    && c.nqueued - n0 == |c.pending|
    && (c.held ==> c.current.Some?)
    && Placed(c) == AllFrames()
  }

  /** The client calls: a completion of a frame queued to the driver, a take,
      or a release. */
  datatype Event = Completed(i: Index) | Take | Give

  /** The event can happen in state `c`: the driver completes only frames
      queued to it; the client releases only a frame it holds and takes only
      when it holds none (the calling convention of the wrapper). */
  predicate Allowed(c: Camera, e: Event)
  {
    match e
    case Completed(i) => i in c.pending
    case Take => !c.held && |c.ready| > 0
    case Give => c.held && c.current.Some?
  }

  function Step(c: Camera, e: Event): (r: Camera)
    requires Allowed(c, e)
  {
    match e
    case Completed(i) => FrameCompleted(c, i)
    case Take => GetAndLock(c).value.0
    case Give => Release(c).value
  }

  /** Starting the capture from the constructed state establishes the
      invariant. */
  lemma StartEstablishes(n0: int)
    ensures Inv(QueueAll(Constructed(n0), 0), n0)
  {
    var c := QueueAll(Constructed(n0), 0);
    assert forall i: Index :: c.pending[i] == 1;
    assert c.pending == AllFrames() by {
      forall i | i in c.pending + AllFrames() ensures c.pending[i] == AllFrames()[i] { }
    }
    assert |c.pending| == 5 by {
      assert c.pending == multiset{0, 1, 2, 3, 4};
    }
  }

  lemma CompletedKeeps(c: Camera, i: Index, n0: int)
    requires Inv(c, n0) && i in c.pending
    ensures Inv(FrameCompleted(c, i), n0)
  {
    if |c.ready| > HighWaterMark {
      CompletedOver(c, i, n0);
    } else {
      CompletedUnder(c, i, n0);
    }
  }

  /** A completion past the high-water mark requeues the oldest ready frame. */
  lemma CompletedOver(c: Camera, i: Index, n0: int)
    requires Inv(c, n0) && i in c.pending && |c.ready| > HighWaterMark
    ensures Inv(FrameCompleted(c, i), n0)
  {
    var r := FrameCompleted(c, i);
    var x := c.ready[0];
    var tail := c.ready[1..];
    assert c.ready == [x] + tail;
    assert r.ready == tail + [i];
    Swap(c.pending, i, x, multiset(tail));
    assert r.pending + multiset(r.ready) == c.pending + multiset(c.ready);
  }

  /** Taking `i` out of a bag holding it and putting `x` in, while `i`
      replaces `x` in another bag, keeps the sum and the first bag's size. */
  lemma Swap(p: multiset<Index>, i: Index, x: Index, t: multiset<Index>)
    requires i in p
    ensures (p - multiset{i} + multiset{x}) + (t + multiset{i}) == p + (multiset{x} + t)
    ensures |p - multiset{i} + multiset{x}| == |p|
  {
    assert p - multiset{i} + multiset{i} == p;
  }

  /** A completion below the high-water mark just makes the frame ready. */
  lemma CompletedUnder(c: Camera, i: Index, n0: int)
    requires Inv(c, n0) && i in c.pending && |c.ready| <= HighWaterMark
    ensures Inv(FrameCompleted(c, i), n0)
  {
    var r := FrameCompleted(c, i);
    assert r.ready == c.ready + [i];
    Move(c.pending, i, multiset(c.ready));
    assert r.pending + multiset(r.ready) == c.pending + multiset(c.ready);
  }

  /** Moving `i` from one bag to another keeps the sum and shrinks the first. */
  lemma Move(p: multiset<Index>, i: Index, t: multiset<Index>)
    requires i in p
    ensures (p - multiset{i}) + (t + multiset{i}) == p + t
    ensures |p - multiset{i}| + 1 == |p|
  {
    assert p - multiset{i} + multiset{i} == p;
  }

  lemma TakeKeeps(c: Camera, n0: int)
    requires Inv(c, n0) && Allowed(c, Take)
    ensures Inv(Step(c, Take), n0)
  {
    assert c.ready == [c.ready[0]] + c.ready[1..];
  }

  /** Completions, takes and releases keep the deque at most
      `HIGH_WATER_MARK + 1` long, keep `nqueued` counting the frames queued to
      the driver, and lose or duplicate no frame. */
  lemma StepKeeps(c: Camera, e: Event, n0: int)
    requires Inv(c, n0) && Allowed(c, e)
    ensures Inv(Step(c, e), n0)
  {
    match e
    case Completed(i) => CompletedKeeps(c, i, n0);
    case Take => TakeKeeps(c, n0);
    case Give =>
  }

  /** The state after a run of allowed events, or `None` if one is not
      allowed. */
  function Run(c: Camera, es: seq<Event>): Option<Camera>
    decreases |es|
  {
    if |es| == 0 then Some(c)
    else if !Allowed(c, es[0]) then None
    else Run(Step(c, es[0]), es[1..])
  }

  lemma {:induction false} RunKeeps(c: Camera, es: seq<Event>, n0: int)
    requires Inv(c, n0)
    ensures Run(c, es).Some? ==> Inv(Run(c, es).value, n0)
    decreases |es|
  {
    if |es| > 0 && Allowed(c, es[0]) {
      StepKeeps(c, es[0], n0);
      RunKeeps(Step(c, es[0]), es[1..], n0);
    }
  }

  /** Frames are taken in the order they completed: two completions into a
      deque with room, then two takes, return the two frames in order. */
  lemma TakesInCompletionOrder(c: Camera, a: Index, b: Index)
    requires a in c.pending && b in c.pending - multiset{a}
    requires |c.ready| == 0
    ensures var c2 := FrameCompleted(FrameCompleted(c, a), b);
      GetAndLock(c2).Some? && GetAndLock(c2).value.1 == a
      && GetAndLock(GetAndLock(c2).value.0).Some? && GetAndLock(GetAndLock(c2).value.0).value.1 == b
  {
  }
}

=== FILE: register_packing.dfy ===
/** Serial-I/O register access of the camera (the SampleViewer serial window
    and the siotest console sample): bit fields of the SIO mode register,
    MSB-first packing of byte strings into 32-bit registers and back, and the
    receive-length clamp. Registers are 32 bits wide; addresses are unbounded
    naturals (the 64-bit address arithmetic of the source never wraps for the
    register map used here). */
module RegisterPacking {
  import opened Wrappers

  type Byte = bv8
  type Word = bv32

  /** Register map of the serial interface. */
  const RegSioMode: nat := 0x16104
  const RegSioTxStatus: nat := 0x16124
  const RegSioTxLength: nat := 0x1612C
  const RegSioRxLength: nat := 0x1614C
  const RegSioTxBuffer: nat := 0x16400
  const RegSioRxBuffer: nat := 0x16800

  /** Value the console sample writes to the mode register: 9600 baud,
      no parity, 8 data bits, 1 stop bit. */
  const DefaultSioMode: Word := 0x0000_0C05

  // ---------------------------------------------------------------- bit fields

  /** The field mask before shifting: all ones for a 32-bit (or wider) field,
      `(1 << len) - 1` otherwise. The source computes it in a 64-bit long and
      truncates it to 32 bits, which is why lengths from 32 to 63 give all ones;
      field positions and lengths are 32-bit unsigned values. */
  function Mask(len: Word): (m: Word)
    requires len < 64
    ensures len >= 32 ==> m == 0xFFFF_FFFF
  {
    if len >= 32 then 0xFFFF_FFFF
    else ((1 as Word) << len) - 1
  }

  /** Mask of the bits a field of `len` bits at `pos` occupies in the register. */
  function FieldMask(pos: Word, len: Word): Word
    requires pos < 32 && len < 64
  {
    Mask(len) << pos
  }

  /** Clear the field, then or in the masked data shifted to `pos`. */
  function SetBits(value: Word, data: Word, pos: Word, len: Word): Word
    requires pos < 32 && len < 64
  {
    (value & !(Mask(len) << pos)) | ((data & Mask(len)) << pos)
  }

  /** The field at `pos` of `len` bits, moved down to bit 0. */
  function GetBits(value: Word, pos: Word, len: Word): (r: Word)
    requires pos < 32 && len < 64
    ensures r & !Mask(len) == 0
  {
    (value >> pos) & Mask(len)
  }

  /** Setting a field leaves every bit outside the field as it was. */
  lemma SetBitsFrame(value: Word, data: Word, pos: Word, len: Word)
    requires pos < 32 && len < 64
    ensures SetBits(value, data, pos, len) & !FieldMask(pos, len) == value & !FieldMask(pos, len)
  {
  }

  /** Reading back a field that fits the register gives the data written,
      cut to the field width. */
  lemma GetSetBits(value: Word, data: Word, pos: Word, len: Word)
    requires pos < 32 && len < 64 && pos + len <= 32
    ensures GetBits(SetBits(value, data, pos, len), pos, len) == data & Mask(len)
  {
    if len >= 32 {
      GetSetWhole(value, data, pos, len);
    } else {
      GetSetNarrow(value, data, pos, len);
    }
  }

  /** A field of 32 bits or more is the whole register. */
  lemma GetSetWhole(value: Word, data: Word, pos: Word, len: Word)
    requires pos < 32 && 32 <= len < 64 && pos + len <= 32
    ensures GetBits(SetBits(value, data, pos, len), pos, len) == data & Mask(len)
  {
    assert pos == 0 && Mask(len) == 0xFFFF_FFFF;
  }

  lemma GetSetNarrow(value: Word, data: Word, pos: Word, len: Word)
    requires pos < 32 && len < 32 && pos + len <= 32
    ensures GetBits(SetBits(value, data, pos, len), pos, len) == data & Mask(len)
  {
  }

  // ---------------------------------------------------------------- mode register

  /** The four fields of the SIO mode register as the serial window reads them. */
  datatype SioMode = SioMode(baud: Word, parity: Word, charLen: Word, stopBits: Word)

  /** The field a combo box of the serial window edits. */
  datatype ModeField = Baud | Parity | CharLen | StopBits

  function FieldPos(f: ModeField): Word
  {
    match f
    case Baud => 0
    case Parity => 8
    case CharLen => 10
    case StopBits => 12
  }

  function FieldLen(f: ModeField): Word
  {
    match f
    case Baud => 8
    case Parity => 2
    case CharLen => 2
    case StopBits => 2
  }

  function FieldOf(m: SioMode, f: ModeField): Word
  {
    match f
    case Baud => m.baud
    case Parity => m.parity
    case CharLen => m.charLen
    case StopBits => m.stopBits
  }

  function DecodeMode(w: Word): (m: SioMode)
    ensures m.baud < 256 && m.parity < 4 && m.charLen < 4 && m.stopBits < 4
    ensures forall f :: FieldOf(m, f) == GetBits(w, FieldPos(f), FieldLen(f))
  {
    SioMode(GetBits(w, 0, 8), GetBits(w, 8, 2), GetBits(w, 10, 2), GetBits(w, 12, 2))
  }

  /** Reading back a mode field gives the choice written, cut to the field width. */
  lemma SetThenGet(value: Word, data: Word, f: ModeField)
    ensures GetBits(SetBits(value, data, FieldPos(f), FieldLen(f)), FieldPos(f), FieldLen(f))
         == data & Mask(FieldLen(f))
  {
    match f
    case Baud => {}
    case Parity => {}
    case CharLen => {}
    case StopBits => {}
  }

  /** Writing one mode field leaves the other three as they were. */
  lemma SetKeepsOtherFields(value: Word, data: Word, f: ModeField, g: ModeField)
    requires f != g
    ensures GetBits(SetBits(value, data, FieldPos(f), FieldLen(f)), FieldPos(g), FieldLen(g))
         == GetBits(value, FieldPos(g), FieldLen(g))
  {
    match f
    case Baud => SetBaudKeepsOthers(value, data, g);
    case Parity => SetParityKeepsOthers(value, data, g);
    case CharLen => SetCharLenKeepsOthers(value, data, g);
    case StopBits => SetStopBitsKeepsOthers(value, data, g);
  }

  /** One lemma per written field, so that every shift is a constant. */
  lemma SetBaudKeepsOthers(value: Word, data: Word, g: ModeField)
    requires g != Baud
    ensures GetBits(SetBits(value, data, 0, 8), FieldPos(g), FieldLen(g))
         == GetBits(value, FieldPos(g), FieldLen(g))
  {
    match g
    case Baud =>
    case Parity =>
    case CharLen =>
    case StopBits =>
  }

  lemma SetParityKeepsOthers(value: Word, data: Word, g: ModeField)
    requires g != Parity
    ensures GetBits(SetBits(value, data, 8, 2), FieldPos(g), FieldLen(g))
         == GetBits(value, FieldPos(g), FieldLen(g))
  {
    match g
    case Baud =>
    case Parity =>
    case CharLen =>
    case StopBits =>
  }

  lemma SetCharLenKeepsOthers(value: Word, data: Word, g: ModeField)
    requires g != CharLen
    ensures GetBits(SetBits(value, data, 10, 2), FieldPos(g), FieldLen(g))
         == GetBits(value, FieldPos(g), FieldLen(g))
  {
    match g
    case Baud =>
    case Parity =>
    case CharLen =>
    case StopBits =>
  }

  lemma SetStopBitsKeepsOthers(value: Word, data: Word, g: ModeField)
    requires g != StopBits
    ensures GetBits(SetBits(value, data, 12, 2), FieldPos(g), FieldLen(g))
         == GetBits(value, FieldPos(g), FieldLen(g))
  {
    match g
    case Baud =>
    case Parity =>
    case CharLen =>
    case StopBits =>
  }

  /** Changing one combo box rewrites exactly that field of the mode register. */
  function SetModeField(w: Word, f: ModeField, choice: Word): (r: Word)
    ensures FieldOf(DecodeMode(r), f) == choice & Mask(FieldLen(f))
    ensures forall g :: g != f ==> FieldOf(DecodeMode(r), g) == FieldOf(DecodeMode(w), g)
  {
    ModeFieldSet(w, f, choice);
    SetBits(w, choice, FieldPos(f), FieldLen(f))
  }

  lemma ModeFieldSet(w: Word, f: ModeField, choice: Word)
    ensures var r := SetBits(w, choice, FieldPos(f), FieldLen(f));
      FieldOf(DecodeMode(r), f) == choice & Mask(FieldLen(f))
      && forall g :: g != f ==> FieldOf(DecodeMode(r), g) == FieldOf(DecodeMode(w), g)
  {
    var r := SetBits(w, choice, FieldPos(f), FieldLen(f));
    SetThenGet(w, choice, f);
    forall g | g != f
      ensures FieldOf(DecodeMode(r), g) == FieldOf(DecodeMode(w), g)
    {
      SetKeepsOtherFields(w, choice, f, g);
    }
  }

  /** A combo-box change leaves every bit outside its field as it was. */
  lemma SetModeFieldFrame(w: Word, f: ModeField, choice: Word)
    ensures var mask := FieldMask(FieldPos(f), FieldLen(f));
      SetModeField(w, f, choice) & !mask == w & !mask
  {
    SetBitsFrame(w, choice, FieldPos(f), FieldLen(f));
  }

  /** Every mode field lies in bits 0 to 13, so the bits 14 to 31 are outside
      all of them. */
  lemma FieldMaskLow(f: ModeField)
    ensures FieldMask(FieldPos(f), FieldLen(f)) & 0xFFFF_C000 == 0
  {
    match f
    case Baud => {}
    case Parity => {}
    case CharLen => {}
    case StopBits => {}
  }

  /** 0x00000C05 is baud index 5, no parity, 8-bit characters, 1 stop bit. */
  lemma DefaultModeDecodes()
    ensures DecodeMode(DefaultSioMode) == SioMode(5, 0, 3, 0)
  {
  }

  // ---------------------------------------------------------------- packing

  /** Number of 32-bit registers a transfer of `length` bytes touches. */
  function NumRegs(length: nat): (n: nat)
    ensures 4 * n >= length && 4 * n < length + 4
  {
    (length + 3) / 4
  }

  /** Byte `k` (0 = most significant) of a register. */
  function ByteOf(w: Word, k: nat): Byte
    requires k < 4
  {
    if k == 0 then (w >> 24) as Byte
    else if k == 1 then ((w >> 16) & 0xFF) as Byte
    else if k == 2 then ((w >> 8) & 0xFF) as Byte
    else (w & 0xFF) as Byte
  }

  /** A register shifted left by `k` whole bytes. */
  function ShiftBytes(w: Word, k: nat): Word
    requires k < 4
  {
    if k == 0 then w else if k == 1 then w << 8 else if k == 2 then w << 16 else w << 24
  }

  /** Four bytes, first byte in the most significant position. */
  function PackWord(b0: Byte, b1: Byte, b2: Byte, b3: Byte): (w: Word)
    ensures ByteOf(w, 0) == b0 && ByteOf(w, 1) == b1
    ensures ByteOf(w, 2) == b2 && ByteOf(w, 3) == b3
  {
    (b0 as Word << 24) | (b1 as Word << 16) | (b2 as Word << 8) | (b3 as Word)
  }

  lemma PackOfBytes(w: Word)
    ensures PackWord(ByteOf(w, 0), ByteOf(w, 1), ByteOf(w, 2), ByteOf(w, 3)) == w
  {
  }

  /** Register addresses of a transfer: one per quadlet, 4 bytes apart. */
  function RegAddresses(address: nat, length: nat): (a: seq<nat>)
    ensures |a| == NumRegs(length)
    ensures forall i :: 0 <= i < |a| ==> a[i] == address + 4 * i
  {
    seq(NumRegs(length), i => address + 4 * i)
  }

  /** Write packing as the source does it: the loop reads four bytes for every
      register, so it reads the caller's memory `mem` up to the next multiple of
      four, past `length` when `length` is not a multiple of four. */
  function PackAsWritten(mem: seq<Byte>, length: nat): (words: seq<Word>)
    requires |mem| >= 4 * NumRegs(length)
    ensures |words| == NumRegs(length)
    ensures forall i, k :: 0 <= i < |words| && 0 <= k < 4 ==> ByteOf(words[i], k) == mem[4 * i + k]
  {
    seq(NumRegs(length), i requires 0 <= i < NumRegs(length) =>
      PackWord(mem[4 * i], mem[4 * i + 1], mem[4 * i + 2], mem[4 * i + 3]))
  }

  /** The packed registers of the source depend on bytes beyond `length`:
      two buffers that agree on their one meaningful byte pack differently. */
  lemma PackReadsPastLength()
    ensures PackAsWritten([1, 0, 0, 0], 1) != PackAsWritten([1, 9, 9, 9], 1)
  {
    var a := PackAsWritten([1, 0, 0, 0], 1);
    var b := PackAsWritten([1, 9, 9, 9], 1);
    assert ByteOf(a[0], 1) == 0;
    assert ByteOf(b[0], 1) == 9;
  }

  /** The byte at position `j` of the data, zero beyond its end. */
  function PadByte(data: seq<Byte>, j: nat): Byte
  {
    if j < |data| then data[j] else 0
  }

  /** The corrected write packing: it reads only the `|data|` bytes it is
      given and pads the last register with zeros. */
  function Pack(data: seq<Byte>): (words: seq<Word>)
    ensures |words| == NumRegs(|data|)
    ensures forall i, k :: 0 <= i < |words| && 0 <= k < 4 ==> ByteOf(words[i], k) == PadByte(data, 4 * i + k)
  {
    seq(NumRegs(|data|), i requires 0 <= i < NumRegs(|data|) =>
      PackWord(PadByte(data, 4 * i), PadByte(data, 4 * i + 1), PadByte(data, 4 * i + 2), PadByte(data, 4 * i + 3)))
  }

  /** On a buffer whose length is a multiple of four both packings agree. */
  lemma PackAgreesOnWholeQuadlets(data: seq<Byte>)
    requires |data| % 4 == 0
    ensures PackAsWritten(data, |data|) == Pack(data)
  {
    var a := PackAsWritten(data, |data|);
    var b := Pack(data);
    forall i | 0 <= i < |a|
      ensures a[i] == b[i]
    {
      PackOfBytes(a[i]);
      PackOfBytes(b[i]);
    }
  }

  /** Register writes of one F_WriteMem call of `length` bytes from the
      caller's memory `mem`: (address, value) pairs, each register taking the
      next four bytes of `mem`, as the source's loop reads them. */
  function WriteMem(address: nat, mem: seq<Byte>, length: nat): (writes: seq<(nat, Word)>)
    requires |mem| >= 4 * NumRegs(length)
    ensures |writes| == NumRegs(length)
    ensures forall i :: 0 <= i < |writes| ==> writes[i].0 == address + 4 * i
    ensures forall i, k :: 0 <= i < |writes| && 0 <= k < 4 ==> ByteOf(writes[i].1, k) == mem[4 * i + k]
  {
    var words := PackAsWritten(mem, length);
    seq(|words|, i requires 0 <= i < |words| => (address + 4 * i, words[i]))
  }

  /** Unpacking as the source's read loop does it: a 32-bit shift register
      reloaded every fourth byte, top byte taken, then shifted left by 8. */
  method UnpackLoop(words: seq<Word>, length: nat) returns (buffer: seq<Byte>)
    requires |words| == NumRegs(length)
    ensures |buffer| == length
    ensures forall i :: 0 <= i < length ==> buffer[i] == ByteOf(words[i / 4], i % 4)
  {
    var data: Word := 0;
    buffer := [];
    var i := 0;
    while i < length
      invariant 0 <= i <= length
      invariant |buffer| == i
      invariant forall j :: 0 <= j < i ==> buffer[j] == ByteOf(words[j / 4], j % 4)
      invariant i % 4 != 0 ==> data == ShiftBytes(words[i / 4], i % 4)
    {
      var w := words[i / 4];
      var k := i % 4;
      if k == 0 {
        data := w;
      }
      assert data == ShiftBytes(w, k);
      ShiftedTopByte(w, k);
      buffer := buffer + [TopByte(data)];
      data := NextByte(data);
      assert k < 3 ==> (i + 1) / 4 == i / 4 && (i + 1) % 4 == k + 1;
      i := i + 1;
    }
  }

  /** Bits 24 to 31 of the shift register. */
  function TopByte(data: Word): Byte
  {
    ((data >> 24) & 0xFF) as Byte
  }

  function NextByte(data: Word): Word
  {
    data << 8
  }

  lemma ShiftedTopByte(w: Word, k: nat)
    requires k < 4
    ensures TopByte(ShiftBytes(w, k)) == ByteOf(w, k)
    ensures k < 3 ==> NextByte(ShiftBytes(w, k)) == ShiftBytes(w, k + 1)
  {
    if k == 0 {
      assert ((w >> 24) & 0xFF) == w >> 24;
    } else if k == 1 {
      assert ((w << 8) >> 24) & 0xFF == (w >> 16) & 0xFF;
      assert (w << 8) << 8 == w << 16;
    } else if k == 2 {
      assert ((w << 16) >> 24) & 0xFF == (w >> 8) & 0xFF;
      assert (w << 16) << 8 == w << 24;
    } else {
      assert ((w << 24) >> 24) & 0xFF == w & 0xFF;
    }
  }

  /** The bytes F_ReadMem stores, as a function of the registers read. */
  function Unpack(words: seq<Word>, length: nat): (buffer: seq<Byte>)
    requires |words| == NumRegs(length)
    ensures |buffer| == length
    ensures forall i :: 0 <= i < length ==> buffer[i] == ByteOf(words[i / 4], i % 4)
  {
    seq(length, i requires 0 <= i < length => ByteOf(words[i / 4], i % 4))
  }

  /** Reading back what was written gives the data, for every length. */
  lemma UnpackPack(data: seq<Byte>)
    ensures Unpack(Pack(data), |data|) == data
  {
    var words := Pack(data);
    var back := Unpack(words, |data|);
    forall i | 0 <= i < |data|
      ensures back[i] == data[i]
    {
      assert 4 * (i / 4) + i % 4 == i;
    }
  }

  /** The source's own packing also round-trips on the `length` bytes it was
      asked to send, whatever the bytes beyond them. */
  lemma UnpackPackAsWritten(mem: seq<Byte>, length: nat)
    requires |mem| >= 4 * NumRegs(length)
    ensures Unpack(PackAsWritten(mem, length), length) == mem[..length]
  {
    var back := Unpack(PackAsWritten(mem, length), length);
    forall i | 0 <= i < length
      ensures back[i] == mem[i]
    {
      assert 4 * (i / 4) + i % 4 == i;
    }
  }

  /** Packing what was read gives the registers back when the length is a
      whole number of quadlets. */
  lemma PackUnpack(words: seq<Word>)
    ensures Pack(Unpack(words, 4 * |words|)) == words
  {
    var back := Pack(Unpack(words, 4 * |words|));
    forall i | 0 <= i < |words|
      ensures back[i] == words[i]
    {
      PackUnpackAt(words, i);
    }
  }

  lemma PackUnpackAt(words: seq<Word>, i: nat)
    requires i < |words|
    ensures Pack(Unpack(words, 4 * |words|))[i] == words[i]
  {
    var bytes := Unpack(words, 4 * |words|);
    var w := words[i];
    var p := Pack(bytes)[i];
    forall k | 0 <= k < 4
      ensures ByteOf(p, k) == ByteOf(w, k)
    {
      var j := 4 * i + k;
      assert j / 4 == i && j % 4 == k;
      PackByte(bytes, i, k);
      assert PadByte(bytes, j) == bytes[j];
      assert bytes[j] == ByteOf(w, k);
    }
    SameBytesSameWord(p, w);
  }

  lemma PackByte(data: seq<Byte>, i: nat, k: nat)
    requires i < NumRegs(|data|) && k < 4
    ensures ByteOf(Pack(data)[i], k) == PadByte(data, 4 * i + k)
  {
  }

  /** A register is determined by its four bytes. */
  lemma SameBytesSameWord(a: Word, b: Word)
    requires forall k :: 0 <= k < 4 ==> ByteOf(a, k) == ByteOf(b, k)
    ensures a == b
  {
    assert ByteOf(a, 0) == ByteOf(b, 0) && ByteOf(a, 1) == ByteOf(b, 1);
    assert ByteOf(a, 2) == ByteOf(b, 2) && ByteOf(a, 3) == ByteOf(b, 3);
    PackOfBytes(a);
    PackOfBytes(b);
  }

  // ---------------------------------------------------------------- serial transfers

  /** Receive length: what the camera reports, cut to the caller's buffer. */
  function ClampReceive(dataLength: nat, bufferLength: nat): (r: nat)
    ensures r <= bufferLength && r <= dataLength
    ensures r == dataLength || r == bufferLength
  {
    if dataLength > bufferLength then bufferLength else dataLength
  }

  /** One serial read: `rxLength` is the RX_LENGTH register, `rxRegs` the
      registers the RX buffer read returns (absent when that read fails) and
      `ackOk` whether writing the length back succeeds. The result is the
      received bytes, or None when a register access fails. */
  function ReadSerial(rxLength: Option<nat>, bufferLength: nat,
                      rxRegs: Option<seq<Word>>, ackOk: bool): (r: Option<seq<Byte>>)
    ensures r.Some? ==> rxLength.Some? && |r.value| == ClampReceive(rxLength.value, bufferLength)
    ensures r.Some? ==> |r.value| <= bufferLength
    ensures r.Some? && |r.value| > 0 ==>
      && rxRegs.Some? && ackOk
      && |rxRegs.value| == NumRegs(|r.value|)
      && forall i :: 0 <= i < |r.value| ==> r.value[i] == ByteOf(rxRegs.value[i / 4], i % 4)
    ensures rxLength.Some? && ClampReceive(rxLength.value, bufferLength) == 0 ==> r == Some([])
  {
    match rxLength
    case None => None
    case Some(len) =>
      var n := ClampReceive(len, bufferLength);
      if n == 0 then Some([])
      else if rxRegs.None? || |rxRegs.value| != NumRegs(n) || !ackOk then None
      else Some(Unpack(rxRegs.value, n))
  }

  /** Register writes of one serial transmission of the first `length`
      bytes of the caller's memory `mem` (after the transmitter is ready): the
      bytes written into the TX buffer registers, then the length into
      TX_LENGTH, which starts the transfer. */
  function TransmitWrites(mem: seq<Byte>, length: nat): (writes: seq<(nat, Word)>)
    requires length < 0x1_0000_0000 && |mem| >= 4 * NumRegs(length)
    ensures |writes| == NumRegs(length) + 1
    ensures writes[|writes| - 1] == (RegSioTxLength, length as Word)
    ensures forall i :: 0 <= i < |writes| - 1 ==> writes[i].0 == RegSioTxBuffer + 4 * i
  {
    WriteMem(RegSioTxBuffer, mem, length) + [(RegSioTxLength, length as Word)]
  }

  /** The transmitted registers carry the string: unpacking the TX buffer
      writes gives back the `length` bytes sent, whatever lies beyond them. */
  lemma TransmitCarriesData(mem: seq<Byte>, length: nat)
    requires length < 0x1_0000_0000 && |mem| >= 4 * NumRegs(length)
    ensures var w := TransmitWrites(mem, length);
      Unpack(seq(|w| - 1, i requires 0 <= i < |w| - 1 => w[i].1), length) == mem[..length]
  {
    var w := TransmitWrites(mem, length);
    var regs := seq(|w| - 1, i requires 0 <= i < |w| - 1 => w[i].1);
    assert regs == PackAsWritten(mem, length);
    UnpackPackAsWritten(mem, length);
  }
}

=== FILE: requirements.dfy ===
/** The requirements-file readers of the package's setup script
    (`parse_requirements`, `parse_dependency_links`): the file is split into
    lines at '\n'; comment and blank lines are skipped; a `-e URL#egg=NAME`
    line contributes `NAME` to the requirements and, like a `-f URL` line,
    its URL to the dependency links; every other line is a requirement as
    it stands. The regular expressions are modelled by hand: `\s` is the
    ASCII whitespace of `PyStr.Whitespace`. */
module Requirements {
  import opened Wrappers
  import CStrings
  import PyStr

  // -------------------------------------------------------------- lines

  /** `text.split('\n')`: the pieces between newlines, empty ones included. */
  function SplitLines(text: string): (ls: seq<string>)
    ensures |ls| >= 1
    ensures forall i :: 0 <= i < |ls| ==> '\n' !in ls[i]
    decreases |text|
  {
    match CStrings.Find(text, '\n')
    case None => [text]
    case Some(i) => [text[..i]] + SplitLines(text[i + 1..])
  }

  /** `'\n'.join(ls)`. */
  function JoinLines(ls: seq<string>): string
    requires |ls| >= 1
  {
    if |ls| == 1 then ls[0] else ls[0] + "\n" + JoinLines(ls[1..])
  }

  /** Joining the pieces gives the text back. */
  lemma {:induction false} JoinSplitLines(text: string)
    ensures JoinLines(SplitLines(text)) == text
    decreases |text|
  {
    match CStrings.Find(text, '\n')
    case None =>
    case Some(i) =>
      JoinSplitLines(text[i + 1..]);
      assert text == text[..i] + "\n" + text[i + 1..];
  }

  /** Splitting lines without newlines that were joined gives them back. */
  lemma {:induction false} SplitJoinLines(ls: seq<string>)
    requires |ls| >= 1 && forall i :: 0 <= i < |ls| ==> '\n' !in ls[i]
    ensures SplitLines(JoinLines(ls)) == ls
    decreases |ls|
  {
    if |ls| > 1 {
      var t := JoinLines(ls[1..]);
      var text := ls[0] + "\n" + t;
      assert text[..|ls[0]|] == ls[0];
      assert text[|ls[0]| + 1..] == t;
      assert CStrings.Find(text, '\n') == Some(|ls[0]|) by {
        FindAfter(ls[0], t);
      }
      SplitJoinLines(ls[1..]);
    } else {
      assert CStrings.Find(ls[0], '\n') == None;
    }
  }

  lemma FindAfter(a: string, b: string)
    requires '\n' !in a
    ensures CStrings.Find(a + "\n" + b, '\n') == Some(|a|)
  {
    var s := a + "\n" + b;
    var r := CStrings.Find(s, '\n');
    assert s[|a|] == '\n';
    assert r.Some? by {
      assert '\n' in s;
    }
    assert s[..|a|] == a;
  }

  // -------------------------------------------------------------- line kinds

  /** `re.match(r'(\s*#)|(\s*$)', line)`: a comment or a blank line. */
  predicate Ignored(line: string)
  {
    var w := PyStr.LeadLen(line, PyStr.Whitespace);
    w == |line| || line[w] == '#'
  }

  /** `re.match(r'\s*-F\s+', line)` for the flag letter `f`. */
  predicate HasFlag(line: string, f: char)
  {
    var w := PyStr.LeadLen(line, PyStr.Whitespace);
    w + 2 < |line| && line[w] == '-' && line[w + 1] == f && line[w + 2] in PyStr.Whitespace
  }

  /** `p` occurs in `s` at `j`. */
  predicate OccursAt(s: string, p: string, j: int)
  {
    0 <= j && j + |p| <= |s| && s[j..j + |p|] == p
  }

  /** The last place before `n` where `p` occurs in `s`. */
  function LastBefore(s: string, p: string, n: nat): (r: Option<nat>)
    ensures r.Some? ==> r.value < n && OccursAt(s, p, r.value)
    ensures r.Some? ==> forall j :: r.value < j < n ==> !OccursAt(s, p, j)
    ensures r.None? ==> forall j :: 0 <= j < n ==> !OccursAt(s, p, j)
  {
    if n == 0 then None
    else if OccursAt(s, p, n - 1) then Some(n - 1)
    else LastBefore(s, p, n - 1)
  }

  const EggMarker: string := "#egg="

  /** The name `re.sub(r'\s*-e\s+.*#egg=(.*)$', r'\1', line)` leaves for an
      editable line: the greedy `.*` makes it the text after the last
      `#egg=`; without one the pattern does not match and the line stays. */
  function EditableName(line: string): (r: string)
    ensures (exists j :: OccursAt(line, EggMarker, j)) ==>
      exists j :: OccursAt(line, EggMarker, j) && r == line[j + |EggMarker|..]
        && forall m :: j < m ==> !OccursAt(line, EggMarker, m)
    ensures r != line ==> !(exists j :: OccursAt(r, EggMarker, j))
    ensures !(exists j :: OccursAt(line, EggMarker, j)) ==> r == line
  {
    match LastBefore(line, EggMarker, |line| + 1)
    case None => line
    case Some(j) =>
      var r := line[j + |EggMarker|..];
      assert forall k :: OccursAt(r, EggMarker, k) ==> OccursAt(line, EggMarker, j + |EggMarker| + k) by {
        forall k | OccursAt(r, EggMarker, k) ensures OccursAt(line, EggMarker, j + |EggMarker| + k) {
          assert line[j + |EggMarker| + k..j + |EggMarker| + k + |EggMarker|] == r[k..k + |EggMarker|];
        }
      }
      r
  }

  /** What one line contributes to `parse_requirements`. */
  function Requirement(line: string): Option<string>
  {
    if Ignored(line) then None
    else if HasFlag(line, 'e') then Some(EditableName(line))
    else if HasFlag(line, 'f') then None
    else Some(line)
  }

  /** What a per-line reader gives for the lines, in order; a line it
      skips gives nothing. Both readers of `setup.py` have this shape. */
  function Collect(lines: seq<string>, read: string -> Option<string>): (rs: seq<string>)
    ensures |rs| <= |lines|
  {
    if |lines| == 0 then []
    else
      (match read(lines[0]) case None => [] case Some(r) => [r]) + Collect(lines[1..], read)
  }

  /** `parse_requirements` over the lines of the file. */
  function RequirementsOf(lines: seq<string>): (rs: seq<string>)
    ensures |rs| <= |lines|
  {
    Collect(lines, Requirement)
  }

  /** `parse_requirements` of the file's text. */
  function ParseRequirements(text: string): seq<string>
  {
    RequirementsOf(SplitLines(text))
  }

  // -------------------------------------------------------------- flags

  /** The length of a match of `\s*-[ef]\s+` at the start of `s`, or 0. */
  function FlagMatch(s: string): (m: nat)
    ensures m <= |s|
  {
    var w := PyStr.LeadLen(s, PyStr.Whitespace);
    if w + 2 < |s| && s[w] == '-' && (s[w + 1] == 'e' || s[w + 1] == 'f') && s[w + 2] in PyStr.Whitespace then
      w + 2 + PyStr.LeadLen(s[w + 2..], PyStr.Whitespace)
    else 0
  }

  /** `re.sub(r'\s*-[ef]\s+', '', s)`: every match, scanning left to right,
      is removed. */
  function DropFlags(s: string): (r: string)
    ensures |r| <= |s|
    decreases |s|
  {
    if |s| == 0 then ""
    else
      var m := FlagMatch(s);
      if m > 0 then DropFlags(s[m..]) else [s[0]] + DropFlags(s[1..])
  }

  /** What one line contributes to `parse_dependency_links`. */
  function DependencyLink(line: string): Option<string>
  {
    if HasFlag(line, 'e') || HasFlag(line, 'f') then Some(DropFlags(line)) else None
  }

  /** `parse_dependency_links` over the lines of the file. */
  function DependencyLinksOf(lines: seq<string>): (ds: seq<string>)
    ensures |ds| <= |lines|
  {
    Collect(lines, DependencyLink)
  }

  /** `parse_dependency_links` of the file's text. */
  function ParseDependencyLinks(text: string): seq<string>
  {
    DependencyLinksOf(SplitLines(text))
  }

  // -------------------------------------------------------------- properties

  /** A line that names a package as it stands: not blank, not a comment,
      not an option line. */
  predicate Plain(line: string)
  {
    '\n' !in line && !Ignored(line) && !HasFlag(line, 'e') && !HasFlag(line, 'f')
  }

  /** The readers work line by line: the result for two pieces of a file is
      the two results one after the other. */
  lemma RequirementsAppend(a: seq<string>, b: seq<string>)
    ensures RequirementsOf(a + b) == RequirementsOf(a) + RequirementsOf(b)
    ensures DependencyLinksOf(a + b) == DependencyLinksOf(a) + DependencyLinksOf(b)
  {
    CollectAppend(a, b, Requirement);
    CollectAppend(a, b, DependencyLink);
  }

  lemma {:induction false} CollectAppend(a: seq<string>, b: seq<string>, read: string -> Option<string>)
    ensures Collect(a + b, read) == Collect(a, read) + Collect(b, read)
    decreases |a|
  {
    if |a| > 0 {
      assert (a + b)[0] == a[0] && (a + b)[1..] == a[1..] + b;
      CollectAppend(a[1..], b, read);
    } else {
      assert a + b == b;
    }
  }

  /** A file of plain lines reads back as exactly those lines, in order,
      and has no dependency links. */
  lemma {:induction false} PlainFileRoundTrip(names: seq<string>)
    requires |names| >= 1 && forall i :: 0 <= i < |names| ==> Plain(names[i])
    ensures ParseRequirements(JoinLines(names)) == names
    ensures ParseDependencyLinks(JoinLines(names)) == []
  {
    SplitJoinLines(names);
    PlainLines(names);
  }

  lemma {:induction false} PlainLines(names: seq<string>)
    requires forall i :: 0 <= i < |names| ==> Plain(names[i])
    ensures RequirementsOf(names) == names
    ensures DependencyLinksOf(names) == []
    decreases |names|
  {
    if |names| > 0 {
      assert Plain(names[0]);
      PlainLines(names[1..]);
    }
  }

  /** Comment, blank and `-f` lines contribute no requirement. */
  lemma SkippedLines(line: string)
    requires Ignored(line) || (HasFlag(line, 'f') && !HasFlag(line, 'e'))
    ensures RequirementsOf([line]) == []
  {
  }

  /** A `-f` line's link is its URL once the flag is dropped. */
  lemma FindLinksUrl(indent: string, gap: string, url: string)
    requires PyStr.AllIn(indent, PyStr.Whitespace) && |gap| > 0 && PyStr.AllIn(gap, PyStr.Whitespace)
    requires NoFlag(url) && (|url| > 0 ==> url[0] !in PyStr.Whitespace)
    ensures DependencyLinksOf([indent + "-f" + gap + url]) == [url]
    ensures RequirementsOf([indent + "-f" + gap + url]) == []
  {
    var line := indent + "-f" + gap + url;
    FlagLine(indent, 'f', gap, url);
    FlagDropped(indent, 'f', gap, url);
    assert DependencyLink(line) == Some(url);
    assert Requirement(line) == None;
  }

  /** An editable line `-e URL#egg=NAME` gives the requirement `NAME` and
      the dependency link `URL#egg=NAME`. */
  lemma EditableLine(indent: string, gap: string, url: string, name: string)
    requires PyStr.AllIn(indent, PyStr.Whitespace) && |gap| > 0 && PyStr.AllIn(gap, PyStr.Whitespace)
    requires |url| > 0 && url[0] !in PyStr.Whitespace
    requires !(exists j :: OccursAt(name, EggMarker, j))
    requires NoFlag(url + EggMarker + name)
    ensures RequirementsOf([indent + "-e" + gap + (url + EggMarker + name)]) == [name]
    ensures DependencyLinksOf([indent + "-e" + gap + (url + EggMarker + name)]) == [url + EggMarker + name]
  {
    var rest := url + EggMarker + name;
    var line := indent + "-e" + gap + rest;
    assert line == indent + ['-', 'e'] + gap + rest;
    FlagLine(indent, 'e', gap, rest);
    EditableRequirement(indent, gap, url, name);
    EditableLink(indent, gap, rest);
    OneLine(line);
  }

  lemma EditableRequirement(indent: string, gap: string, url: string, name: string)
    requires HasFlag(indent + "-e" + gap + (url + EggMarker + name), 'e')
    requires !Ignored(indent + "-e" + gap + (url + EggMarker + name))
    requires !(exists j :: OccursAt(name, EggMarker, j))
    ensures Requirement(indent + "-e" + gap + (url + EggMarker + name)) == Some(name)
  {
    var head := indent + "-e" + gap + url;
    assert indent + "-e" + gap + (url + EggMarker + name) == head + EggMarker + name;
    EditableNameOf(head, name);
  }

  lemma EditableLink(indent: string, gap: string, rest: string)
    requires PyStr.AllIn(indent, PyStr.Whitespace) && |gap| > 0 && PyStr.AllIn(gap, PyStr.Whitespace)
    requires NoFlag(rest) && |rest| > 0 && rest[0] !in PyStr.Whitespace
    requires HasFlag(indent + "-e" + gap + rest, 'e')
    ensures DependencyLink(indent + "-e" + gap + rest) == Some(rest)
  {
    assert indent + "-e" + gap + rest == indent + ['-', 'e'] + gap + rest;
    FlagDropped(indent, 'e', gap, rest);
  }

  /** A one-line file gives what its line gives. */
  lemma OneLine(line: string)
    ensures RequirementsOf([line]) == (match Requirement(line) case None => [] case Some(r) => [r])
    ensures DependencyLinksOf([line]) == (match DependencyLink(line) case None => [] case Some(d) => [d])
  {
    assert [line][1..] == [];
  }

  /** The name of an editable line is the text after its only marker. */
  lemma EditableNameOf(head: string, name: string)
    requires !(exists j :: OccursAt(name, EggMarker, j))
    ensures EditableName(head + EggMarker + name) == name
  {
    MarkerAt(head, name);
    NameAfterLast(head + EggMarker + name, |head|, name);
  }

  /** The marker sits right before the name. */
  lemma MarkerAt(head: string, name: string)
    ensures OccursAt(head + EggMarker + name, EggMarker, |head|)
    ensures (head + EggMarker + name)[|head| + |EggMarker|..] == name
  {
    var line := head + EggMarker + name;
    assert line[|head|..|head| + |EggMarker|] == EggMarker;
  }

  /** Given where the last marker is, `EditableName` is the text after it. */
  lemma NameAfterLast(line: string, j: nat, name: string)
    requires OccursAt(line, EggMarker, j) && line[j + |EggMarker|..] == name
    requires !(exists k :: OccursAt(name, EggMarker, k))
    ensures EditableName(line) == name
  {
    forall m | j < m < j + |EggMarker| ensures !OccursAt(line, EggMarker, m) {
      NoOverlap(line, j, m);
    }
    TailOccurrences(line, j + |EggMarker|);
    var r := EditableName(line);
    var k :| OccursAt(line, EggMarker, k) && r == line[k + |EggMarker|..]
      && forall m :: k < m ==> !OccursAt(line, EggMarker, m);
  }

  /** The marker occurs in `line` from `t` on exactly where it occurs in
      the tail `line[t..]`. */
  lemma TailOccurrences(line: string, t: nat)
    requires t <= |line|
    ensures forall k :: t <= k ==> (OccursAt(line, EggMarker, k) <==> OccursAt(line[t..], EggMarker, k - t))
  {
    forall k | t <= k
      ensures OccursAt(line, EggMarker, k) <==> OccursAt(line[t..], EggMarker, k - t)
    {
      if k + |EggMarker| <= |line| {
        assert line[t..][k - t..k - t + |EggMarker|] == line[k..k + |EggMarker|];
      }
    }
  }

  /** Two occurrences of the marker never overlap. */
  lemma NoOverlap(line: string, j: nat, m: nat)
    requires OccursAt(line, EggMarker, j) && j < m < j + |EggMarker|
    ensures !OccursAt(line, EggMarker, m)
  {
    assert line[m] == line[j..j + |EggMarker|][m - j] != '#';
  }

  /** No match of the flag pattern starts anywhere in `s`. */
  predicate NoFlag(s: string)
  {
    forall k :: 0 <= k < |s| ==> FlagMatch(s[k..]) == 0
  }

  /** Without a match, `re.sub` leaves the text alone. */
  lemma {:induction false} DropNoFlag(s: string)
    requires NoFlag(s)
    ensures DropFlags(s) == s
    decreases |s|
  {
    if |s| > 0 {
      assert FlagMatch(s[0..]) == 0;
      assert s[0..] == s;
      assert NoFlag(s[1..]) by {
        forall k | 0 <= k < |s[1..]| ensures FlagMatch(s[1..][k..]) == 0 {
          assert s[1..][k..] == s[k + 1..];
        }
      }
      DropNoFlag(s[1..]);
    }
  }

  /** A line `indent -F gap rest` is an option line for `F` only, and not a
      comment. */
  lemma FlagLine(indent: string, f: char, gap: string, rest: string)
    requires f == 'e' || f == 'f'
    requires PyStr.AllIn(indent, PyStr.Whitespace) && |gap| > 0 && PyStr.AllIn(gap, PyStr.Whitespace)
    ensures HasFlag(indent + ['-', f] + gap + rest, f)
    ensures !Ignored(indent + ['-', f] + gap + rest)
    ensures forall g :: g != f ==> !HasFlag(indent + ['-', f] + gap + rest, g)
  {
    var line := indent + ['-', f] + gap + rest;
    LeadOf(indent, ['-', f] + gap + rest);
    assert line == indent + (['-', f] + gap + rest);
    var w := |indent|;
    assert line[w] == '-' && line[w + 1] == f && line[w + 2] == gap[0];
  }

  /** Dropping the flags of `indent -F gap rest` leaves `rest`. */
  lemma FlagDropped(indent: string, f: char, gap: string, rest: string)
    requires f == 'e' || f == 'f'
    requires PyStr.AllIn(indent, PyStr.Whitespace) && |gap| > 0 && PyStr.AllIn(gap, PyStr.Whitespace)
    requires NoFlag(rest) && (|rest| > 0 ==> rest[0] !in PyStr.Whitespace)
    ensures DropFlags(indent + ['-', f] + gap + rest) == rest
  {
    var line := indent + ['-', f] + gap + rest;
    FlagMatchOf(indent, f, gap, rest);
    assert line[|indent| + 2 + |gap|..] == rest;
    DropNoFlag(rest);
  }

  /** The leading match in `indent -F gap rest` is `indent -F gap`. */
  lemma FlagMatchOf(indent: string, f: char, gap: string, rest: string)
    requires f == 'e' || f == 'f'
    requires PyStr.AllIn(indent, PyStr.Whitespace) && |gap| > 0 && PyStr.AllIn(gap, PyStr.Whitespace)
    requires |rest| > 0 ==> rest[0] !in PyStr.Whitespace
    ensures FlagMatch(indent + ['-', f] + gap + rest) == |indent| + 2 + |gap|
  {
    var line := indent + ['-', f] + gap + rest;
    var w := |indent|;
    LeadOf(indent, ['-', f] + gap + rest);
    assert line == indent + (['-', f] + gap + rest);
    assert line[w] == '-' && line[w + 1] == f && line[w + 2] == gap[0];
    assert line[w + 2..] == gap + rest;
    LeadOf(gap, rest);
  }

  /** The leading whitespace of `a + b` is `a` when `b` starts otherwise. */
  lemma {:induction false} LeadOf(a: string, b: string)
    requires PyStr.AllIn(a, PyStr.Whitespace) && (|b| > 0 ==> b[0] !in PyStr.Whitespace)
    ensures PyStr.LeadLen(a + b, PyStr.Whitespace) == |a|
    decreases |a|
  {
    if |a| > 0 {
      assert (a + b)[1..] == a[1..] + b;
      LeadOf(a[1..], b);
    } else {
      assert a + b == b;
    }
  }
}

=== FILE: simulated_led.dfy ===
/** The simulated LED controller (`SimulatedLEDController`, in the current
    copy and in the older LEDControl copy, which lacks `set_status`,
    `set_current` and `soft_current`): per channel an on/off status and a
    current, kept in two Python lists indexed by channel. */
module SimulatedLed {
  import opened Wrappers
  import PyList

  /** The class constants `channel1` .. `channel4`. */
  const Channel1: int := 0
  const Channel2: int := 1
  const Channel3: int := 2
  const Channel4: int := 3

  /** The current every channel starts with. */
  const InitialCurrent: int := 20

  /** `internal_status` and `internal_current`. */
  datatype Leds = Leds(status: seq<int>, current: seq<int>)

  predicate Valid(l: Leds)
  {
    |l.status| == |l.current|
    && forall c :: 0 <= c < |l.status| ==> l.status[c] == 0 || l.status[c] == 1
  }

  /** The constructor: `range(0, n_channels)` channels, all off at current 20. */
  function Init(n: int): (l: Leds)
    ensures Valid(l) && |l.status| == (if n > 0 then n else 0)
    ensures forall c :: 0 <= c < |l.status| ==> l.status[c] == 0 && l.current[c] == InitialCurrent
  {
    var k := if n > 0 then n else 0;
    Leds(seq(k, _ => 0), seq(k, _ => InitialCurrent))
  }

  /** `status`; `None` is the `IndexError` of a bad channel. */
  function Status(l: Leds, channel: int): Option<int>
  {
    PyList.Get(l.status, channel)
  }

  /** `current`, also bound as `soft_current` in the current copy. */
  function Current(l: Leds, channel: int): Option<int>
  {
    PyList.Get(l.current, channel)
  }

  /** `soft_status`: the status, without any device traffic. */
  function SoftStatus(l: Leds, channel: int): (r: Option<int>)
    ensures r == Status(l, channel)
  {
    Status(l, channel)
  }

  /** `turn_on`: the status becomes 1, and the current changes only when one
      is given (`current != None`, so a current of 0 is set too). */
  function TurnOn(l: Leds, channel: int, current: Option<int>): (r: Option<Leds>)
    requires Valid(l)
    ensures r.Some? <==> PyList.Resolve(|l.status|, channel).Some?
    ensures r.Some? ==> Valid(r.value) && Status(r.value, channel) == Some(1)
    ensures r.Some? ==> Current(r.value, channel) == (if current.Some? then current else Current(l, channel))
    ensures r.Some? ==> Unchanged(l, r.value, channel)
  {
    match PyList.Set(l.status, channel, 1)
    case None => None
    case Some(s) =>
      if current.None? then Some(Leds(s, l.current))
      else Some(Leds(s, PyList.Set(l.current, channel, current.value).value))
  }

  /** `turn_off`: the status becomes 0; the current is kept. */
  function TurnOff(l: Leds, channel: int): (r: Option<Leds>)
    requires Valid(l)
    ensures r.Some? <==> PyList.Resolve(|l.status|, channel).Some?
    ensures r.Some? ==> Valid(r.value) && Status(r.value, channel) == Some(0)
    ensures r.Some? ==> r.value.current == l.current
    ensures r.Some? ==> Unchanged(l, r.value, channel)
  {
    match PyList.Set(l.status, channel, 0)
    case None => None
    case Some(s) => Some(Leds(s, l.current))
  }

  /** `set_status` (current copy only): turn on for a true value, off for a
      false one. Python truthiness is taken as already decided. */
  function SetStatus(l: Leds, channel: int, on: bool): (r: Option<Leds>)
    requires Valid(l)
    ensures on ==> r == TurnOn(l, channel, None)
    ensures !on ==> r == TurnOff(l, channel)
    ensures r.Some? ==> Status(r.value, channel) == Some(if on then 1 else 0)
    ensures r.Some? ==> Current(r.value, channel) == Current(l, channel)
  {
    if on then TurnOn(l, channel, None) else TurnOff(l, channel)
  }

  /** `set_current` (current copy only): the status is kept. */
  function SetCurrent(l: Leds, channel: int, current: int): (r: Option<Leds>)
    requires Valid(l)
    ensures r.Some? <==> PyList.Resolve(|l.status|, channel).Some?
    ensures r.Some? ==> Valid(r.value) && Current(r.value, channel) == Some(current)
    ensures r.Some? ==> r.value.status == l.status
    ensures r.Some? ==> Unchanged(l, r.value, channel)
  {
    match PyList.Set(l.current, channel, current)
    case None => None
    case Some(c) => Some(Leds(l.status, c))
  }

  /** Channels other than `channel` keep their status and current. */
  predicate Unchanged(l: Leds, r: Leds, channel: int)
    requires Valid(l)
  {
    |r.status| == |l.status| && |r.current| == |l.current|
    && forall c :: 0 <= c < |l.status| && Some(c) != PyList.Resolve(|l.status|, channel) ==>
      r.status[c] == l.status[c] && r.current[c] == l.current[c]
  }

  /** The calls a client makes on the controller. */
  datatype Op = On(channel: int, current: Option<int>) | Off(channel: int)
              | SetOn(channel: int, on: bool) | SetAmps(channel: int, amps: int)

  /** The controller after the calls; a call on a bad channel raises and
      ends the run with `None`. */
  function Run(l: Leds, ops: seq<Op>): Option<Leds>
    requires Valid(l)
    decreases |ops|
  {
    if |ops| == 0 then Some(l)
    else
      var next := match ops[0]
        case On(c, a) => TurnOn(l, c, a)
        case Off(c) => TurnOff(l, c)
        case SetOn(c, on) => SetStatus(l, c, on)
        case SetAmps(c, a) => SetCurrent(l, c, a);
      if next.None? then None else Run(next.value, ops[1..])
  }

  /** The calls a client makes on channel `channel` only. */
  predicate OnlyChannel(ops: seq<Op>, channel: int)
  {
    forall k :: 0 <= k < |ops| ==> ops[k].channel == channel
  }

  /** The last status the calls give, or `None` if they set none. */
  function LastStatus(ops: seq<Op>): Option<int>
  {
    if |ops| == 0 then None
    else
      var later := LastStatus(ops[1..]);
      if later.Some? then later
      else match ops[0]
        case On(_, _) => Some(1)
        case Off(_) => Some(0)
        case SetOn(_, on) => Some(if on then 1 else 0)
        case SetAmps(_, _) => None
  }

  /** Every run keeps the controller well formed and its channel count, and
      the status of a channel is the one its last on/off call set; other
      channels keep theirs. */
  lemma {:induction false} RunStatus(l: Leds, ops: seq<Op>, channel: int)
    requires Valid(l) && OnlyChannel(ops, channel)
    requires PyList.Resolve(|l.status|, channel).Some?
    ensures Run(l, ops).Some?
    ensures Valid(Run(l, ops).value) && |Run(l, ops).value.status| == |l.status|
    ensures Status(Run(l, ops).value, channel)
      == (if LastStatus(ops).Some? then LastStatus(ops) else Status(l, channel))
    ensures Unchanged(l, Run(l, ops).value, channel)
    decreases |ops|
  {
    if |ops| > 0 {
      var next := match ops[0]
        case On(c, a) => TurnOn(l, c, a)
        case Off(c) => TurnOff(l, c)
        case SetOn(c, on) => SetStatus(l, c, on)
        case SetAmps(c, a) => SetCurrent(l, c, a);
      assert ops[0].channel == channel;
      assert next.Some?;
      assert OnlyChannel(ops[1..], channel) by {
        forall k | 0 <= k < |ops[1..]| ensures ops[1..][k].channel == channel {
          assert ops[1..][k] == ops[k + 1];
        }
      }
      RunStatus(next.value, ops[1..], channel);
    }
  }
}

=== FILE: stage.dfy ===
/** The simulated three-axis stage (`SimulatedStageController`): a list of
    three positions that moves answer instantly. Positions are Python floats,
    modelled as exact reals; the console messages and the quarter-second
    pauses after each move are not modelled. An axis is a Python list index,
    so -1 names the last axis and an index outside [-3, 3) raises
    `IndexError`. */
module Stage {
  import opened Wrappers
  import PyList

  /** The class constants `x_axis`, `y_axis`, `r_axis`. */
  const XAxis: int := 0
  const YAxis: int := 1
  const RAxis: int := 2

  type Positions = s: seq<real> | |s| == 3 witness [0.0, 0.0, 0.0]

  /** The stage right after construction (random placement is switched off
      in the source). */
  const Initial: Positions := [0.0, 0.0, 0.0]

  /** `current_position`. */
  function CurrentPosition(p: Positions, axis: int): (r: Option<real>)
    ensures r.Some? <==> -3 <= axis < 3
    ensures axis == XAxis ==> r == Some(p[0])
    ensures axis == YAxis ==> r == Some(p[1])
    ensures axis == RAxis ==> r == Some(p[2])
  {
    PyList.Get(p, axis)
  }

  /** Set one axis; `None` is the `IndexError`. */
  function Place(p: Positions, axis: int, v: real): (r: Option<Positions>)
    ensures r.Some? <==> -3 <= axis < 3
    ensures r.Some? ==> CurrentPosition(r.value, axis) == Some(v)
    ensures r.Some? ==> forall k :: 0 <= k < 3 && k != PyList.Resolve(3, axis).value ==> r.value[k] == p[k]
  {
    match PyList.Set(p, axis, v)
    case None => None
    case Some(q) => Some(q)
  }

  /** `home`: the axis goes back to 0, the others stay. */
  function Home(p: Positions, axis: int): (r: Option<Positions>)
    ensures r.Some? <==> -3 <= axis < 3
    ensures r.Some? ==> CurrentPosition(r.value, axis) == Some(0.0)
    ensures r.Some? ==> forall k :: 0 <= k < 3 && k != PyList.Resolve(3, axis).value ==> r.value[k] == p[k]
  {
    Place(p, axis, 0.0)
  }

  /** `move_absolute`. */
  function MoveAbsolute(p: Positions, axis: int, pos: real): (r: Option<Positions>)
    ensures r.Some? <==> -3 <= axis < 3
    ensures r.Some? ==> CurrentPosition(r.value, axis) == Some(pos)
    ensures r.Some? ==> forall k :: 0 <= k < 3 && k != PyList.Resolve(3, axis).value ==> r.value[k] == p[k]
  {
    Place(p, axis, pos)
  }

  /** `move_relative`. */
  function MoveRelative(p: Positions, axis: int, delta: real): (r: Option<Positions>)
    ensures r.Some? <==> -3 <= axis < 3
    ensures r.Some? ==> CurrentPosition(r.value, axis) == Some(CurrentPosition(p, axis).value + delta)
    ensures r.Some? ==> forall k :: 0 <= k < 3 && k != PyList.Resolve(3, axis).value ==> r.value[k] == p[k]
  {
    match PyList.Get(p, axis)
    case None => None
    case Some(v) => Place(p, axis, v + delta)
  }

  /** Where a composite move stops: the positions reached, and whether an
      `IndexError` (a bad axis, or fewer positions than axes) cut it short. */
  datatype Moved = Moved(positions: Positions, failed: bool)

  /** `move_composite_absolute` / `move_composite_relative` from the `a`-th
      axis on: each axis is moved in turn, and an error leaves the moves
      already made in place. */
  function Composite(p: Positions, axes: seq<int>, values: seq<real>, relative: bool, a: nat): Moved
    requires a <= |axes|
    decreases |axes| - a
  {
    if a == |axes| then Moved(p, false)
    else if a >= |values| then Moved(p, true)
    else
      var step := if relative then MoveRelative(p, axes[a], values[a]) else MoveAbsolute(p, axes[a], values[a]);
      match step
      case None => Moved(p, true)
      case Some(q) => Composite(q, axes, values, relative, a + 1)
  }

  /** Every axis is valid and every axis has a position. */
  predicate WellFormedMove(axes: seq<int>, values: seq<real>)
  {
    |values| >= |axes| && forall a :: 0 <= a < |axes| ==> -3 <= axes[a] < 3
  }

  /** The list position axis `axes[a]` moves. */
  function Slot(axes: seq<int>, a: nat): nat
    requires a < |axes| && -3 <= axes[a] < 3
  {
    PyList.Resolve(3, axes[a]).value
  }

  /** The total of the deltas aimed at position `k`, from the `a`-th on. */
  function DeltaSum(axes: seq<int>, values: seq<real>, k: nat, a: nat): real
    requires a <= |axes| && WellFormedMove(axes, values)
    decreases |axes| - a
  {
    if a == |axes| then 0.0
    else (if Slot(axes, a) == k then values[a] else 0.0) + DeltaSum(axes, values, k, a + 1)
  }

  /** A composite relative move adds to each axis the total of the deltas
      aimed at it, whatever the order of the axes. */
  lemma {:induction false} CompositeRelativeSums(p: Positions, axes: seq<int>, values: seq<real>, a: nat)
    requires a <= |axes| && WellFormedMove(axes, values)
    ensures !Composite(p, axes, values, true, a).failed
    ensures forall k :: 0 <= k < 3 ==>
      Composite(p, axes, values, true, a).positions[k] == p[k] + DeltaSum(axes, values, k, a)
    decreases |axes| - a
  {
    if a < |axes| {
      var q := MoveRelative(p, axes[a], values[a]).value;
      CompositeRelativeSums(q, axes, values, a + 1);
      forall k | 0 <= k < 3
        ensures Composite(p, axes, values, true, a).positions[k] == p[k] + DeltaSum(axes, values, k, a)
      {
        if k == Slot(axes, a) {
          assert q[k] == p[k] + values[a];
        } else {
          assert q[k] == p[k];
        }
      }
    }
  }

  /** The position last aimed at `k` from the `a`-th axis on, if any. */
  function LastTarget(axes: seq<int>, values: seq<real>, k: nat, a: nat): Option<real>
    requires a <= |axes| && WellFormedMove(axes, values)
    decreases |axes| - a
  {
    if a == |axes| then None
    else
      var later := LastTarget(axes, values, k, a + 1);
      if later.Some? then later
      else if Slot(axes, a) == k then Some(values[a])
      else None
  }

  /** A composite absolute move leaves each axis at the last position aimed
      at it, and axes not named where they were. */
  lemma {:induction false} CompositeAbsoluteLastWins(p: Positions, axes: seq<int>, values: seq<real>, a: nat)
    requires a <= |axes| && WellFormedMove(axes, values)
    ensures !Composite(p, axes, values, false, a).failed
    ensures forall k :: 0 <= k < 3 ==>
      Composite(p, axes, values, false, a).positions[k]
        == (match LastTarget(axes, values, k, a) case Some(v) => v case None => p[k])
    decreases |axes| - a
  {
    if a < |axes| {
      var q := MoveAbsolute(p, axes[a], values[a]).value;
      CompositeAbsoluteLastWins(q, axes, values, a + 1);
      forall k | 0 <= k < 3
        ensures Composite(p, axes, values, false, a).positions[k]
          == (match LastTarget(axes, values, k, a) case Some(v) => v case None => p[k])
      {
        if k == Slot(axes, a) {
          assert q[k] == values[a];
        } else {
          assert q[k] == p[k];
        }
      }
    }
  }

  /** Axis `b` of a composite move is invalid or has no position. */
  predicate BadAxis(axes: seq<int>, values: seq<real>, b: nat)
    requires b < |axes|
  {
    b >= |values| || !(-3 <= axes[b] < 3)
  }

  /** A composite move fails exactly when, from the `a`-th axis on, some axis
      is invalid or has no position. */
  lemma {:induction false} CompositeFails(p: Positions, axes: seq<int>, values: seq<real>, relative: bool, a: nat)
    requires a <= |axes|
    ensures Composite(p, axes, values, relative, a).failed
      <==> exists b :: a <= b < |axes| && BadAxis(axes, values, b)
    decreases |axes| - a
  {
    if a < |axes| {
      if BadAxis(axes, values, a) {
        assert a <= a < |axes| && BadAxis(axes, values, a);
      } else {
        var step := if relative then MoveRelative(p, axes[a], values[a]) else MoveAbsolute(p, axes[a], values[a]);
        assert step.Some?;
        assert Composite(p, axes, values, relative, a) == Composite(step.value, axes, values, relative, a + 1);
        CompositeFails(step.value, axes, values, relative, a + 1);
        if exists b :: a <= b < |axes| && BadAxis(axes, values, b) {
          var b :| a <= b < |axes| && BadAxis(axes, values, b);
          assert a + 1 <= b;
        }
      }
    }
  }
}

=== FILE: starburst.dfy ===
/** The control logic of `SubpixelStarburstEyeFeatureFinder`
    (coxlab_eyetracker/image_processing/SubpixelStarburstEyeFeatureFinder.py):
    the scan of each ray for its boundary, the exclusion filter on the
    boundary points, the choice of fitting method with its fallbacks for
    few points, the RANSAC choice of the best fit, and the random split of
    point indices.

    Samples and coordinates are integers; an out-of-image sample is `NaN`.
    The normalised threshold (a mean plus a multiple of a standard
    deviation) is an input, and so are the fits' numeric outcomes. */
module Starburst {
  import opened Wrappers
  import Frugal

  // ------------------------------------------------------------------ ray scan

  /** One sample of the image along a ray. */
  datatype Sample = Num(x: int) | NaN

  /** `val > threshold`; every comparison with `NaN` is false. */
  predicate Above(s: Sample, t: int)
  {
    s.Num? && s.x > t
  }

  /** `vals_slope[r, v]`: a first column of 2, then the difference with the
      previous sample, 0 where either is `NaN`. */
  function Slope(ray: seq<Sample>, v: nat): (d: int)
    requires v < |ray|
    ensures v == 0 ==> d == 2
    ensures v > 0 && (ray[v].NaN? || ray[v - 1].NaN?) ==> d == 0
    ensures v > 0 && ray[v].Num? && ray[v - 1].Num? ==> d == ray[v].x - ray[v - 1].x
  {
    if v == 0 then 2
    else if ray[v].NaN? || ray[v - 1].NaN? then 0
    else ray[v].x - ray[v - 1].x
  }

  /** Some sample from `start` to `v` is above the threshold. */
  predicate Crossed(ray: seq<Sample>, start: nat, v: nat, t: int)
  {
    exists u :: start <= u <= v && u < |ray| && Above(ray[u], t)
  }

  /** The scan stops at sample `v`: the threshold was crossed by then and
      the slope there is not positive. */
  predicate Stops(ray: seq<Sample>, start: nat, v: nat, t: int)
    requires v < |ray|
  {
    Crossed(ray, start, v, t) && Slope(ray, v) <= 0
  }

  /** The inner loop from sample `v` on, `crossed` telling whether the
      threshold was crossed before `v`; the result is the index of the
      boundary sample, the one before the stop. The `isnan(v)` test of the
      code is on the loop index, which is never `NaN`, so it never ends the
      scan. */
  function Scan(ray: seq<Sample>, v: nat, crossed: bool, t: int): Option<int>
    decreases |ray| - v
  {
    if v >= |ray| then None
    else
      var c := crossed || Above(ray[v], t);
      if c && Slope(ray, v) <= 0 then Some(v - 1) else Scan(ray, v + 1, c, t)
  }

  /** The scan of one ray from `cutoff_index`: the boundary is the sample
      just before the first stop, and there is none when the scan never
      stops. */
  function ScanRay(ray: seq<Sample>, start: nat, t: int): (b: Option<int>)
    ensures b.Some? ==> 0 <= b.value && start <= b.value + 1 < |ray| && Stops(ray, start, b.value + 1, t)
    ensures b.Some? ==> forall v :: start <= v <= b.value ==> !Stops(ray, start, v, t)
    ensures b.None? ==> forall v :: start <= v < |ray| ==> !Stops(ray, start, v, t)
  {
    ScanSpec(ray, start, start, false, t);
    Scan(ray, start, false, t)
  }

  /** The recursive scan finds the first stop at or after `v`, given that
      none came before. */
  lemma {:induction false} ScanSpec(ray: seq<Sample>, start: nat, v: nat, crossed: bool, t: int)
    requires start <= v
    requires crossed <==> (v > start && Crossed(ray, start, v - 1, t))
    requires forall u :: start <= u < v && u < |ray| ==> !Stops(ray, start, u, t)
    ensures var b := Scan(ray, v, crossed, t);
      (b.Some? ==> (0 <= b.value && v <= b.value + 1 < |ray| && Stops(ray, start, b.value + 1, t)
        && forall u :: start <= u <= b.value ==> !Stops(ray, start, u, t)))
      && (b.None? ==> forall u :: start <= u < |ray| ==> !Stops(ray, start, u, t))
    decreases |ray| - v
  {
    if v < |ray| {
      var c := crossed || Above(ray[v], t);
      assert c <==> Crossed(ray, start, v, t) by {
        if Crossed(ray, start, v, t) && !Above(ray[v], t) {
          var u :| start <= u <= v && u < |ray| && Above(ray[u], t);
          assert u < v && Crossed(ray, start, v - 1, t);
        }
      }
      if !(c && Slope(ray, v) <= 0) {
        ScanSpec(ray, start, v + 1, c, t);
      }
    }
  }

  /** The scan as evidently intended: a `NaN` sample is the end of the ray
      and ends the scan without a boundary. */
  function ScanFixed(ray: seq<Sample>, v: nat, crossed: bool, t: int): Option<int>
    decreases |ray| - v
  {
    if v >= |ray| || ray[v].NaN? then None
    else
      var c := crossed || Above(ray[v], t);
      if c && Slope(ray, v) <= 0 then Some(v - 1) else ScanFixed(ray, v + 1, c, t)
  }

  /** No sample from `start` to `v` is `NaN`. */
  predicate InImage(ray: seq<Sample>, start: nat, v: nat)
  {
    forall u :: start <= u <= v && u < |ray| ==> ray[u].Num?
  }

  /** The corrected scan of one ray: the first stop before the ray leaves
      the image. */
  function ScanRayFixed(ray: seq<Sample>, start: nat, t: int): (b: Option<int>)
    ensures b.Some? ==> (0 <= b.value && start <= b.value + 1 < |ray|
      && InImage(ray, start, b.value + 1) && Stops(ray, start, b.value + 1, t))
    ensures b.Some? ==> forall v :: start <= v <= b.value ==> !Stops(ray, start, v, t)
    ensures b.None? ==> forall v :: start <= v < |ray| && InImage(ray, start, v) ==> !Stops(ray, start, v, t)
  {
    ScanFixedSpec(ray, start, start, false, t);
    ScanFixed(ray, start, false, t)
  }

  lemma {:induction false} ScanFixedSpec(ray: seq<Sample>, start: nat, v: nat, crossed: bool, t: int)
    requires start <= v && (v > start ==> InImage(ray, start, v - 1))
    requires crossed <==> (v > start && Crossed(ray, start, v - 1, t))
    requires forall u :: start <= u < v && u < |ray| ==> !Stops(ray, start, u, t)
    ensures var b := ScanFixed(ray, v, crossed, t);
      (b.Some? ==> (0 <= b.value && v <= b.value + 1 < |ray| && InImage(ray, start, b.value + 1)
        && Stops(ray, start, b.value + 1, t)
        && forall u :: start <= u <= b.value ==> !Stops(ray, start, u, t)))
      && (b.None? ==> forall u :: start <= u < |ray| && InImage(ray, start, u) ==> !Stops(ray, start, u, t))
    decreases |ray| - v
  {
    if v < |ray| && ray[v].Num? {
      var c := crossed || Above(ray[v], t);
      assert c <==> Crossed(ray, start, v, t) by {
        if Crossed(ray, start, v, t) && !Above(ray[v], t) {
          var u :| start <= u <= v && u < |ray| && Above(ray[u], t);
          assert u < v && Crossed(ray, start, v - 1, t);
        }
      }
      assert InImage(ray, start, v) by {
        forall u | start <= u <= v && u < |ray| ensures ray[u].Num? {
          if u < v {
            assert InImage(ray, start, v - 1);
          }
        }
      }
      if !(c && Slope(ray, v) <= 0) {
        ScanFixedSpec(ray, start, v + 1, c, t);
      }
    } else if v < |ray| {
      forall u | start <= u < |ray| && InImage(ray, start, u) ensures !Stops(ray, start, u, t) {
      }
    }
  }

  /** Where the scans differ: a ray that crosses the threshold and is still
      rising when it leaves the image gets a boundary at its last in-image
      sample from the code, and none from the corrected scan. */
  lemma EdgeCounterexample()
    ensures ScanRay([Num(1), Num(5), NaN], 0, 3) == Some(1)
    ensures ScanRayFixed([Num(1), Num(5), NaN], 0, 3) == None
  {
    var ray := [Num(1), Num(5), NaN];
    assert Slope(ray, 1) == 4 && Slope(ray, 2) == 0;
    assert Scan(ray, 2, true, 3) == Some(1);
    assert Scan(ray, 0, false, 3) == Scan(ray, 1, false, 3) == Scan(ray, 2, true, 3);
    assert ScanFixed(ray, 0, false, 3) == ScanFixed(ray, 1, false, 3) == ScanFixed(ray, 2, true, 3) == None;
  }

  /** On a ray that stays inside the image both scans agree. */
  lemma ScansAgreeInImage(ray: seq<Sample>, start: nat, t: int)
    requires forall u :: 0 <= u < |ray| ==> ray[u].Num?
    ensures ScanRayFixed(ray, start, t) == ScanRay(ray, start, t)
  {
    ScansAgree(ray, start, false, t);
  }

  lemma {:induction false} ScansAgree(ray: seq<Sample>, v: nat, crossed: bool, t: int)
    requires forall u :: 0 <= u < |ray| ==> ray[u].Num?
    ensures ScanFixed(ray, v, crossed, t) == Scan(ray, v, crossed, t)
    decreases |ray| - v
  {
    if v < |ray| {
      ScansAgree(ray, v + 1, crossed || Above(ray[v], t), t);
    }
  }

  // ------------------------------------------------------------------ boundary points

  /** An image position. */
  datatype Point = Point(x: int, y: int)

  /** A ray: the image position of each sample and the value there. */
  datatype RaySample = RaySample(at: Point, val: Sample)

  function Values(ray: seq<RaySample>): (vs: seq<Sample>)
    ensures |vs| == |ray| && forall i :: 0 <= i < |ray| ==> vs[i] == ray[i].val
  {
    seq(|ray|, i requires 0 <= i < |ray| => ray[i].val)
  }

  /** The boundary point of one ray, if its scan finds one. */
  function RayBoundary(ray: seq<RaySample>, start: nat, t: int): (p: seq<Point>)
    ensures |p| <= 1
    ensures |p| == 1 <==> ScanRay(Values(ray), start, t).Some?
    ensures |p| == 1 ==> p[0] == ray[ScanRay(Values(ray), start, t).value].at
  {
    match ScanRay(Values(ray), start, t)
    case Some(b) => [ray[b].at]
    case None => []
  }

  /** The boundary points of the rays, in ray order. */
  function Boundaries(rays: seq<seq<RaySample>>, start: nat, t: int): (ps: seq<Point>)
    ensures |ps| <= |rays|
  {
    if |rays| == 0 then [] else RayBoundary(rays[0], start, t) + Boundaries(rays[1..], start, t)
  }

  /** Each ray contributes its own boundary point, at most one, in order. */
  lemma {:induction false} BoundariesAppend(a: seq<seq<RaySample>>, b: seq<seq<RaySample>>, start: nat, t: int)
    ensures Boundaries(a + b, start, t) == Boundaries(a, start, t) + Boundaries(b, start, t)
    decreases |a|
  {
    if |a| > 0 {
      assert (a + b)[0] == a[0];
      assert (a + b)[1..] == a[1..] + b;
      assert Boundaries(a + b, start, t) == RayBoundary(a[0], start, t) + Boundaries(a[1..] + b, start, t);
      BoundariesAppend(a[1..], b, start, t);
    } else {
      assert a + b == b;
    }
  }

  /** `linalg.norm(center - p) > radius`, or no center. */
  predicate Far(p: Point, center: Option<Point>, radius: int)
  {
    center.None? || radius < 0
    || (p.x - center.value.x) * (p.x - center.value.x) + (p.y - center.value.y) * (p.y - center.value.y) > radius * radius
  }

  /** The exclusion filter: the points outside the circle, in order. */
  function Exclude(ps: seq<Point>, center: Option<Point>, radius: int): (r: seq<Point>)
    ensures |r| <= |ps|
    ensures forall p :: p in r <==> p in ps && Far(p, center, radius)
  {
    if |ps| == 0 then []
    else
      var rest := Exclude(ps[1..], center, radius);
      assert forall p :: p in ps <==> p == ps[0] || p in ps[1..];
      if Far(ps[0], center, radius) then [ps[0]] + rest else rest
  }

  /** Filtering again removes nothing more. */
  lemma {:induction false} ExcludeIdempotent(ps: seq<Point>, center: Option<Point>, radius: int)
    ensures Exclude(Exclude(ps, center, radius), center, radius) == Exclude(ps, center, radius)
    decreases |ps|
  {
    if |ps| > 0 {
      ExcludeIdempotent(ps[1..], center, radius);
      var rest := Exclude(ps[1..], center, radius);
      if Far(ps[0], center, radius) {
        assert ([ps[0]] + rest)[1..] == rest;
      }
    }
  }

  /** `_find_ray_boundaries`: the boundary points, filtered by the
      exclusion circle when the keyword arguments give one. */
  function FindRayBoundaries(rays: seq<seq<RaySample>>, start: nat, t: int, exclusion: Option<(Option<Point>, int)>): (r: seq<Point>)
    ensures exclusion.None? ==> r == Boundaries(rays, start, t)
    ensures exclusion.Some? ==> forall p :: p in r <==>
      p in Boundaries(rays, start, t) && Far(p, exclusion.value.0, exclusion.value.1)
    ensures |r| <= |rays|
  {
    var ps := Boundaries(rays, start, t);
    match exclusion
    case None => ps
    case Some((center, radius)) => Exclude(ps, center, radius)
  }

  // ------------------------------------------------------------------ fits

  /** The fitting methods. */
  datatype Method = MeanCloud | CircleLstsq | EllipseLstsq | CircleRansac

  /** A fit's outcome: the failure value `((-1, -1), 0, inf)`, or a fit by
      one of the methods. */
  datatype Fit = NoFit | Fitted(how: Method)

  /** `len(None)` in the RANSAC fit. */
  datatype Failure = TypeError

  /** The points handed to a fit, `None` included. */
  function Count(points: Option<seq<Point>>): nat
  {
    if points.None? then 0 else |points.value|
  }

  /** `_fit_mean_to_points`: fails only without points. */
  function FitMean(points: Option<seq<Point>>): (f: Fit)
    ensures f.NoFit? <==> Count(points) == 0
    ensures f.Fitted? ==> f.how == MeanCloud
  {
    if Count(points) == 0 then NoFit else Fitted(MeanCloud)
  }

  /** `_fit_circle_to_points_lstsq`: up to three points fall back to the
      mean fit. */
  function FitCircle(points: Option<seq<Point>>): (f: Fit)
    ensures f.NoFit? <==> Count(points) == 0
    ensures 1 <= Count(points) <= 3 ==> f == FitMean(points)
    ensures Count(points) > 3 ==> f == Fitted(CircleLstsq)
  {
    if Count(points) == 0 then NoFit
    else if Count(points) <= 3 then FitMean(points)
    else Fitted(CircleLstsq)
  }

  /** `_fit_ellipse_to_points`: fewer than five points fall back to the mean
      fit; a conic with `a * c <= 0` is a parabola or hyperbola and fails.
      `conic` is positive when the least-squares system could be solved and
      the conic found is an ellipse; a singular system (`LinAlgError`) fails
      too and is given as a non-positive `conic`. */
  function FitEllipse(points: Option<seq<Point>>, conic: int): (f: Fit)
    ensures f.NoFit? <==> Count(points) == 0 || (Count(points) >= 5 && conic <= 0)
    ensures 1 <= Count(points) < 5 ==> f == FitMean(points)
    ensures f.Fitted? && Count(points) >= 5 ==> f.how == EllipseLstsq
  {
    if Count(points) == 0 then NoFit
    else if Count(points) < 5 then FitMean(points)
    else if conic > 0 then Fitted(EllipseLstsq)
    else NoFit
  }

  /** `min_consensus` and `max_iter` of the RANSAC fit. */
  const MinConsensus: nat := 8
  const MaxIter: nat := 20

  /** `_fit_circle_to_points_lstsq_ransac`: fewer than `min_consensus`
      points fall back to the plain circle fit. */
  function FitRansac(points: Option<seq<Point>>): (r: Result<Fit, Failure>)
    ensures r.Err? <==> points.None?
    ensures points.Some? && |points.value| < MinConsensus ==> r == Ok(FitCircle(points))
    ensures points.Some? && |points.value| >= MinConsensus ==> r == Ok(Fitted(CircleRansac))
  {
    if points.None? then Err(TypeError)
    else if |points.value| < MinConsensus then Ok(FitCircle(points))
    else Ok(Fitted(CircleRansac))
  }

  /** The fallback chains: with no points every fit fails; one to three
      points always give the mean fit; four give the circle fit for both
      circle fits but the mean fit for the ellipse; from five to seven the
      RANSAC fit is the circle fit. */
  lemma Fallbacks(ps: seq<Point>, conic: int)
    ensures |ps| == 0 ==> (FitMean(Some(ps)) == FitCircle(Some(ps)) == FitEllipse(Some(ps), conic) == NoFit
      && FitRansac(Some(ps)) == Ok(NoFit))
    ensures 1 <= |ps| <= 3 ==> (FitCircle(Some(ps)) == FitEllipse(Some(ps), conic) == Fitted(MeanCloud)
      && FitRansac(Some(ps)) == Ok(Fitted(MeanCloud)))
    ensures |ps| == 4 ==> FitCircle(Some(ps)) == Fitted(CircleLstsq) && FitEllipse(Some(ps), conic) == Fitted(MeanCloud)
    ensures 4 <= |ps| < MinConsensus ==> FitRansac(Some(ps)) == Ok(Fitted(CircleLstsq))
  {
  }

  /** `fitting_algorithm`: the names the finder knows; any other name
      selects the mean fit. */
  function FitterFor(name: string): (m: Method)
    ensures name == "circle_least_squares" <==> m == CircleLstsq
    ensures name == "circle_least_squares_ransac" <==> m == CircleRansac
    ensures name == "ellipse_least_squares" <==> m == EllipseLstsq
  {
    if name == "circle_least_squares" then CircleLstsq
    else if name == "circle_least_squares_ransac" then CircleRansac
    else if name == "ellipse_least_squares" then EllipseLstsq
    else MeanCloud
  }

  // ------------------------------------------------------------------ RANSAC choice

  /** `a < b` on fit errors, `inf` included. */
  predicate Less(a: Frugal.Level, b: Frugal.Level)
  {
    a.Finite? && (b.Inf? || a.x < b.x)
  }

  /** One RANSAC iteration's outcome: how many inliers the sampled circle
      gathered, and the error of the circle refitted to them. */
  datatype Candidate = Candidate(inliers: nat, err: Frugal.Level)

  /** `len(maybe_inliers) > good_fit_consensus`, which is `round(n / 2)`
      with Python 2's integer division. */
  predicate Qualifies(n: nat, c: Candidate)
  {
    c.inliers > n / 2
  }

  /** The RANSAC loop's choice: starting from the fit of all `n` points, a
      qualifying candidate replaces the best fit when its error is strictly
      smaller. The result is the first fit of least error. */
  method RansacBest(n: nat, initial: Frugal.Level, cands: seq<Candidate>) returns (best: Frugal.Level, chosen: Option<nat>)
    ensures chosen.None? ==> best == initial
    ensures chosen.Some? ==> (chosen.value < |cands| && Qualifies(n, cands[chosen.value])
      && best == cands[chosen.value].err && Less(best, initial))
    ensures !Less(initial, best)
    ensures forall i :: 0 <= i < |cands| && Qualifies(n, cands[i]) ==> !Less(cands[i].err, best)
    ensures chosen.Some? ==> forall i :: 0 <= i < chosen.value && Qualifies(n, cands[i]) ==> Less(best, cands[i].err)
  {
    best, chosen := initial, None;
    var i := 0;
    while i < |cands|
      invariant 0 <= i <= |cands|
      invariant chosen.None? ==> best == initial
      invariant chosen.Some? ==> (chosen.value < i && Qualifies(n, cands[chosen.value])
        && best == cands[chosen.value].err && Less(best, initial))
      invariant !Less(initial, best)
      invariant forall j :: 0 <= j < i && Qualifies(n, cands[j]) ==> !Less(cands[j].err, best)
      invariant chosen.Some? ==> forall j :: 0 <= j < chosen.value && Qualifies(n, cands[j]) ==> Less(best, cands[j].err)
    {
      if Qualifies(n, cands[i]) && Less(cands[i].err, best) {
        best, chosen := cands[i].err, Some(i);
      }
      i := i + 1;
    }
  }

  // ------------------------------------------------------------------ random split

  /** `argsort(random.rand(n))`: some ordering of `0 .. n-1`. */
  predicate IsPermutation(perm: seq<int>, n: nat)
  {
    |perm| == n
    && (forall i :: 0 <= i < n ==> 0 <= perm[i] < n)
    && (forall i, j :: 0 <= i < j < n ==> perm[i] != perm[j])
  }

  /** Python's `s[lo:]` and `s[:hi]` for non-negative bounds. */
  function Prefix(s: seq<int>, hi: nat): (r: seq<int>)
    ensures |r| == (if hi <= |s| then hi else |s|) && r == s[..|r|]
  {
    if hi <= |s| then s[..hi] else s
  }

  function Suffix(s: seq<int>, lo: nat): (r: seq<int>)
    ensures |r| == (if lo <= |s| then |s| - lo else 0) && r == s[|s| - |r|..]
  {
    if lo <= |s| then s[lo..] else []
  }

  /** `_random_split` as written: `indices[0:k]` and `indices[k + 1:]`,
      which leave out `indices[k]`. */
  function RandomSplitAsWritten(perm: seq<int>, k: nat): (r: (seq<int>, seq<int>))
    ensures r.0 == Prefix(perm, k) && r.1 == Suffix(perm, k + 1)
  {
    (Prefix(perm, k), Suffix(perm, k + 1))
  }

  /** The split the RANSAC loop needs: `k` sampled indices and all the
      others. */
  function RandomSplit(perm: seq<int>, k: nat): (r: (seq<int>, seq<int>))
    requires k <= |perm|
    ensures |r.0| == k && |r.1| == |perm| - k
    ensures r.0 + r.1 == perm
  {
    (perm[..k], perm[k..])
  }

  /** Whenever fewer than all indices are sampled, the written split drops
      one index, which is then neither sampled nor checked as an inlier. */
  lemma SplitDropsIndex(perm: seq<int>, n: nat, k: nat)
    requires IsPermutation(perm, n) && k < n
    ensures var r := RandomSplitAsWritten(perm, k);
      |r.0| + |r.1| == n - 1 && perm[k] !in r.0 && perm[k] !in r.1
  {
  }

  /** The corrected split puts every index of the ordering on exactly one
      side. */
  lemma SplitPartitions(perm: seq<int>, n: nat, k: nat, x: int)
    requires IsPermutation(perm, n) && k <= n && x in perm
    ensures var r := RandomSplit(perm, k);
      (x in r.0 || x in r.1) && !(x in r.0 && x in r.1)
  {
    var i :| 0 <= i < |perm| && perm[i] == x;
    SplitSide(perm, n, k, i);
  }

  /** Position `i` of the ordering lands on its own side of the split and
      its index appears nowhere on the other. */
  lemma SplitSide(perm: seq<int>, n: nat, k: nat, i: nat)
    requires IsPermutation(perm, n) && k <= n && i < n
    ensures var r := RandomSplit(perm, k);
      (i < k ==> perm[i] in r.0 && perm[i] !in r.1) && (i >= k ==> perm[i] in r.1 && perm[i] !in r.0)
  {
    var r := RandomSplit(perm, k);
    if i < k {
      assert r.0[i] == perm[i];
      forall j | 0 <= j < |r.1| ensures r.1[j] != perm[i] {
        assert r.1[j] == perm[k + j];
      }
    } else {
      assert r.1[i - k] == perm[i];
      forall j | 0 <= j < |r.0| ensures r.0[j] != perm[i] {
        assert r.0[j] == perm[j];
      }
    }
  }
}

=== FILE: stream_capture.dfy ===
/** `StreamCapture` of the Java threading sample (JThread3.java): five frames
    are queued, then the loop waits for frame `i`, counts it, requeues it
    and moves `i` on cyclically, until `Max` frames are counted or the driver
    reports an error or a cancelled frame; the driver queue is then cleared.
    The driver is a parameter: the answers of the `k`-th wait, the status of
    the frame it returns and the answer of the `k`-th requeue. */
module StreamCapture {

  /** `FramesCount`. */
  const FramesCount: nat := 5

  /** `Pv.tError`, reduced to what the loop tests. */
  datatype Err = Success | Cancelled | Failed(code: nat)

  /** The answers of the driver to the `k`-th wait / requeue. */
  datatype Driver = Driver(wait: nat -> Err, status: nat -> Err, requeue: nat -> Err)

  /** The driver calls the loop makes, in order. */
  datatype Call = Queue(frame: nat) | Wait(frame: nat) | Clear

  /** How the capture loop ends, from `count` frames onwards: the calls, the
      final count and the final error. */
  datatype Ending = Ending(calls: seq<Call>, count: nat, error: Err)

  /** The loop as a recursive definition, from `count` counted frames and
      with frame `count % FramesCount` next to wait for. */
  function Loop(max: int, d: Driver, count: nat): (e: Ending)
    ensures e.count >= count
    decreases max - count
  {
    if count >= max then Ending([], count, Success)
    else
      var i := count % FramesCount;
      var w := d.wait(count);
      if w != Success then Ending([Wait(i)], count, w)
      else if d.status(count) == Cancelled then Ending([Wait(i)], count, Cancelled)
      else if count + 1 < max then
        var q := d.requeue(count);
        if q != Success then Ending([Wait(i), Queue(i)], count + 1, q)
        else
          var rest := Loop(max, d, count + 1);
          Ending([Wait(i), Queue(i)] + rest.calls, rest.count, rest.error)
      else Ending([Wait(i)], count + 1, Success)
  }

  /** The calls queueing frames `from` to 4, in order. */
  function QueueFrames(from: nat): (cs: seq<Call>)
    requires from <= FramesCount
    ensures |cs| == FramesCount - from
    ensures forall j :: 0 <= j < |cs| ==> cs[j] == Queue(from + j)
    decreases FramesCount - from
  {
    if from == FramesCount then [] else [Queue(from)] + QueueFrames(from + 1)
  }

  /** `StreamCapture`. `lengthOk` is whether the frame size could be read;
      the result is the method's boolean answer, the frames counted, the last
      error and the driver calls made. */
  method Capture(lengthOk: bool, max: int, d: Driver)
    returns (ok: bool, count: nat, error: Err, calls: seq<Call>)
    ensures !lengthOk ==> !ok && calls == [] && count == 0
    ensures lengthOk ==> ok && calls == QueueFrames(0) + Loop(max, d, 0).calls + [Clear]
    ensures lengthOk ==> count == Loop(max, d, 0).count && error == Loop(max, d, 0).error
  {
    if !lengthOk {
      return false, 0, Success, [];
    }
    // the answers of the initial queueing are not looked at
    var head := QueueInitial();
    var waits;
    count, error, waits := WaitLoop(max, d);
    calls := head + waits + [Clear];
    ok := true;
  }

  /** The initial queueing of the five frames. */
  method QueueInitial() returns (calls: seq<Call>)
    ensures calls == QueueFrames(0)
  {
    calls := [];
    var k := 0;
    while k < FramesCount
      invariant 0 <= k <= FramesCount
      invariant calls + QueueFrames(k) == QueueFrames(0)
    {
      calls := calls + [Queue(k)];
      k := k + 1;
    }
    assert QueueFrames(FramesCount) == [];
  }

  /** The capture loop: wait, count, requeue, until `max` frames or an
      error. */
  method WaitLoop(max: int, d: Driver) returns (count: nat, error: Err, calls: seq<Call>)
    ensures calls == Loop(max, d, 0).calls
    ensures count == Loop(max, d, 0).count && error == Loop(max, d, 0).error
  {
    count, error, calls := 0, Success, [];
    var i := 0;
    ghost var rest := Loop(max, d, 0);
    while error == Success && count < max
      invariant count < max ==> i == count % FramesCount
      invariant Rest(calls, rest, Loop(max, d, 0))
      invariant error == Success ==> rest == Loop(max, d, count)
      invariant error != Success || count >= max ==> rest == Ending([], count, error)
      decreases max - count, if error == Success then 1 else 0
    {
      rest := LoopStep(max, d, count, calls);
      NextFrame(count, i);
      error := d.wait(count);
      calls := calls + [Wait(i)];
      if error == Success && d.status(count) == Cancelled {
        error := Cancelled;
      } else if error == Success {
        count := count + 1;
        if count < max {
          error := d.requeue(count - 1);
          calls := calls + [Queue(i)];
          i := if i + 1 == FramesCount then 0 else i + 1;
        }
      }
    }
  }

  /** `calls` followed by what the loop still does from `rest` on make up
      the whole loop. */
  predicate Rest(calls: seq<Call>, rest: Ending, whole: Ending)
  {
    calls + rest.calls == whole.calls && rest.count == whole.count && rest.error == whole.error
  }

  /** One pass of the loop from `count`: what is left of the loop after
      its calls are made. */
  lemma LoopStep(max: int, d: Driver, count: nat, calls: seq<Call>) returns (rest: Ending)
    requires count < max
    ensures var i := count % FramesCount;
      var w := d.wait(count);
      var cancelled := w == Success && d.status(count) == Cancelled;
      var ran := w == Success && !cancelled && count + 1 < max;
      var made := if ran then [Wait(i), Queue(i)] else [Wait(i)];
      var after := if w == Success && !cancelled then count + 1 else count;
      var err := if w != Success then w else if cancelled then Cancelled else if ran then d.requeue(count) else Success;
      Rest(calls + made, rest, Ending(calls + Loop(max, d, count).calls, Loop(max, d, count).count, Loop(max, d, count).error))
      && (err == Success ==> rest == Loop(max, d, after))
      && (err != Success || after >= max ==> rest == Ending([], after, err))
  {
    var i := count % FramesCount;
    var w := d.wait(count);
    if w == Success && d.status(count) != Cancelled && count + 1 < max && d.requeue(count) == Success {
      rest := Loop(max, d, count + 1);
      assert calls + ([Wait(i), Queue(i)] + rest.calls) == calls + [Wait(i), Queue(i)] + rest.calls;
    } else {
      rest := Ending([], Loop(max, d, count).count, Loop(max, d, count).error);
    }
  }

  /** The cyclic frame index steps with the count. */
  lemma NextFrame(count: nat, i: nat)
    requires i == count % FramesCount
    ensures (count + 1) % FramesCount == if i + 1 == FramesCount then 0 else i + 1
  {
  }

  /** The calls alternate a wait and a requeue, the `n`-th pair on frame
      `(count + n) % FramesCount`. */
  predicate Cycles(cs: seq<Call>, count: nat)
  {
    forall j :: 0 <= j < |cs| ==> cs[j] == (if j % 2 == 0 then Wait((count + j / 2) % FramesCount)
                                            else Queue((count + j / 2) % FramesCount))
  }

  /** The loop alternates a wait and a requeue of the same frame, and the
      `n`-th pair works on frame `(count + n) % FramesCount`: the frame index
      cycles through 0..4. */
  lemma {:induction false} LoopCycles(max: int, d: Driver, count: nat)
    ensures Cycles(Loop(max, d, count).calls, count)
    decreases max - count
  {
    if count < max && d.wait(count) == Success && d.status(count) != Cancelled
      && count + 1 < max && d.requeue(count) == Success {
      LoopCycles(max, d, count + 1);
      var rest := Loop(max, d, count + 1).calls;
      var cs := Loop(max, d, count).calls;
      assert cs == [Wait(count % FramesCount), Queue(count % FramesCount)] + rest;
      forall j | 2 <= j < |cs|
        ensures cs[j] == (if j % 2 == 0 then Wait((count + j / 2) % FramesCount)
                          else Queue((count + j / 2) % FramesCount))
      {
        var m := j - 2;
        assert cs[j] == rest[m];
        assert rest[m] == (if m % 2 == 0 then Wait((count + 1 + m / 2) % FramesCount)
                           else Queue((count + 1 + m / 2) % FramesCount));
        assert m / 2 + 1 == j / 2 && m % 2 == j % 2;
      }
    }
  }

  /** The count never exceeds `Max`; the loop ends without error exactly
      when `Max` frames were counted. */
  lemma {:induction false} LoopCount(max: int, d: Driver, count: nat)
    requires count <= max
    ensures Loop(max, d, count).count <= max
    ensures Loop(max, d, count).error == Success <==> Loop(max, d, count).count == max
    decreases max - count
  {
    if count < max && d.wait(count) == Success && d.status(count) != Cancelled
      && count + 1 < max && d.requeue(count) == Success {
      LoopCount(max, d, count + 1);
    }
  }

  /** A cancelled frame ends the loop with `eCancelled` without counting it. */
  lemma CancelledStops(max: int, d: Driver, count: nat)
    requires count < max && d.wait(count) == Success && d.status(count) == Cancelled
    ensures Loop(max, d, count) == Ending([Wait(count % FramesCount)], count, Cancelled)
  {
  }

  /** After the loop the queue is cleared, whatever ended it. */
  lemma ClearedAtEnd(max: int, d: Driver)
    ensures var cs := QueueFrames(0) + Loop(max, d, 0).calls + [Clear];
      cs[|cs| - 1] == Clear && forall j :: 0 <= j < |cs| - 1 ==> cs[j] != Clear
  {
    LoopCycles(max, d, 0);
  }
}

=== FILE: wrappers.dfy ===
/** Option and Result datatypes shared by every module of the model.
    They stand for the source's `NULL`/`None` returns, error codes and
    Python exceptions. */
module Wrappers {

  datatype Option<+T> = None | Some(value: T)

  datatype Result<+T, +E> = Ok(value: T) | Err(error: E) {
    predicate IsFailure() { Err? }

    function PropagateFailure<U>(): Result<U, E>
      requires Err?
    {
      Err(error)
    }

    function Extract(): T
      requires Ok?
    {
      value
    }
  }

  /** Sequence helpers used by several modules. */
  function Count<T(==)>(s: seq<T>, x: T): nat
  {
    if |s| == 0 then 0 else (if s[0] == x then 1 else 0) + Count(s[1..], x)
  }

  lemma {:induction false} CountAppend<T>(a: seq<T>, b: seq<T>, x: T)
    ensures Count(a + b, x) == Count(a, x) + Count(b, x)
  {
    if |a| == 0 {
      assert a + b == b;
    } else {
      assert (a + b)[1..] == a[1..] + b;
      CountAppend(a[1..], b, x);
    }
  }
}

=== FILE: xml_brute.dfy ===
/** The second sample that downloads the camera's GenICam XML description.
    It reads camera registers one quadlet at a time: the 512-byte URL at
    register 0x200, then the file in pieces of at most 128 quadlets, each
    register value stored in network (big-endian) byte order. A register
    read is a function from address to the value read, or None when the read
    fails. */
module XmlBrute {
  import opened Wrappers
  import opened Arith
  import opened CStrings

  type Byte = b: int | 0 <= b < 256

  /** A 32-bit register value. */
  type Word = w: int | 0 <= w < 0x1_0000_0000

  // ---------------------------------------------------------------- quadlets

  /** `(value + 3) & ~3` in 32-bit unsigned arithmetic: the multiple of four
      a value rounds up to, 0 when the sum wraps. */
  function RoundUpQuad(value: nat): (r: nat)
    requires value < U32
    ensures r < U32 && r % 4 == 0
    ensures value <= U32 - 4 ==> value <= r < value + 4
    ensures value > U32 - 4 ==> r == 0
  {
    var sum := ToU32(value + 3);
    sum - sum % 4
  }

  /** `BruteQuadlets`: increment a 32-bit unsigned value until it is a
      multiple of four. */
  method BruteQuadlets(value: nat) returns (r: nat)
    requires value < U32
    ensures r == RoundUpQuad(value)
  {
    r := value;
    while r % 4 != 0
      invariant QuadLoop(value, r)
      decreases if r % 4 == 0 then 0 else 4 - r % 4
    {
      QuadStep(value, r);
      r := if r + 1 == U32 then 0 else r + 1;  // `aValue++` wraps at 2^32
    }
    QuadDone(value, r);
  }

  /** The values the increment loop passes through: from the start up to
      the next multiple of four, which past the last one is 0. */
  predicate QuadLoop(value: nat, r: nat)
    requires value < U32
  {
    r < U32
    && (value <= U32 - 4 ==> value <= r <= RoundUpQuad(value))
    && (value > U32 - 4 ==> r == 0 || value <= r)
  }

  lemma QuadStep(value: nat, r: nat)
    requires value < U32 && QuadLoop(value, r) && r % 4 != 0
    ensures var next := if r + 1 == U32 then 0 else r + 1;
      QuadLoop(value, next) && (next % 4 == 0 || 4 - next % 4 < 4 - r % 4)
  {
  }

  lemma QuadDone(value: nat, r: nat)
    requires value < U32 && QuadLoop(value, r) && r % 4 == 0
    ensures r == RoundUpQuad(value)
  {
  }

  /** A multiple of four is left as it is. */
  lemma RoundUpQuadIdempotent(value: nat)
    requires value < U32
    ensures RoundUpQuad(RoundUpQuad(value)) == RoundUpQuad(value)
  {
  }

  // ---------------------------------------------------------------- registers

  /** The four bytes of a register value in network byte order (`htonl`). */
  function WordBytes(w: Word): (bs: seq<Byte>)
    ensures |bs| == 4
  {
    [w / 0x100_0000, (w / 0x1_0000) % 256, (w / 256) % 256, w % 256]
  }

  /** The register value four bytes in network order stand for. */
  function WordOf(b0: Byte, b1: Byte, b2: Byte, b3: Byte): Word
  {
    ((b0 * 256 + b1) * 256 + b2) * 256 + b3
  }

  /** Storing in network order loses nothing. */
  lemma WordBytesRoundTrip(w: Word)
    ensures var bs := WordBytes(w); WordOf(bs[0], bs[1], bs[2], bs[3]) == w
  {
    var q1, r0 := w / 256, w % 256;
    var q2, r1 := q1 / 256, q1 % 256;
    var q3, r2 := q2 / 256, q2 % 256;
    assert w == q1 * 256 + r0 && q1 == q2 * 256 + r1 && q2 == q3 * 256 + r2;
    QuotRem(w, q2, r1 * 256 + r0, 0x1_0000);
    QuotRem(w, q3, (r2 * 256 + r1) * 256 + r0, 0x100_0000);
    assert WordBytes(w) == [q3, r2, r1, r0];
  }

  /** The bytes of register values stored one after another. */
  function WordsBytes(ws: seq<Word>): (bs: seq<Byte>)
    ensures |bs| == 4 * |ws|
  {
    if |ws| == 0 then [] else WordsBytes(ws[..|ws| - 1]) + WordBytes(ws[|ws| - 1])
  }

  lemma {:induction false} WordsBytesAppend(a: seq<Word>, b: seq<Word>)
    ensures WordsBytes(a + b) == WordsBytes(a) + WordsBytes(b)
    decreases |b|
  {
    if |b| > 0 {
      var b' := b[..|b| - 1];
      assert (a + b)[..|a + b| - 1] == a + b';
      WordsBytesAppend(a, b');
    } else {
      assert a + b == a;
    }
  }

  /** Each register value sits at four times its index. */
  lemma {:induction false} WordsBytesAt(ws: seq<Word>, i: nat)
    requires i < |ws|
    ensures WordsBytes(ws)[4 * i..4 * i + 4] == WordBytes(ws[i])
    decreases |ws|
  {
    var init := ws[..|ws| - 1];
    if i < |ws| - 1 {
      WordsBytesAt(init, i);
      assert WordsBytes(ws)[..4 * |init|] == WordsBytes(init);
    }
  }

  /** `CameraMemRead`: up to `quad` registers read one after another from
      `from` on, the address a 64-bit unsigned sum; reading stops at the
      first register that cannot be read. The values read, in order. */
  method CameraMemRead(read: nat -> Option<Word>, from: nat, quad: nat) returns (words: seq<Word>)
    requires from < U64
    ensures |words| <= quad
    ensures forall i :: 0 <= i < |words| ==> read(ToU64(from + 4 * i)) == Some(words[i])
    ensures |words| < quad ==> read(ToU64(from + 4 * |words|)).None?
  {
    words := [];
    var address := from;
    while |words| < quad
      invariant |words| <= quad
      invariant address == ToU64(from + 4 * |words|)
      invariant forall i :: 0 <= i < |words| ==> read(ToU64(from + 4 * i)) == Some(words[i])
    {
      var value := read(address);
      if value.None? {
        return;
      }
      ToU64Add(from + 4 * |words|, 4);
      words := words + [value.value];
      address := ToU64(address + 4);
    }
  }

  // ---------------------------------------------------------------- URL scan

  /** Length of the leading run of characters that are not white space. */
  function WordRun(s: string): (n: nat)
    ensures n <= |s|
    ensures forall i :: 0 <= i < n ==> !IsSpace(s[i])
    ensures n < |s| ==> IsSpace(s[n])
  {
    if |s| == 0 || IsSpace(s[0]) then 0 else 1 + WordRun(s[1..])
  }

  function Min(a: nat, b: nat): nat
  {
    if a <= b then a else b
  }

  /** The fields `sscanf` stored; None for a field left unassigned because
      the scan stopped before it. */
  datatype Scanned = Scanned(name: Option<string>, reg: Option<Word>, len: Option<Word>)

  /** A `%x` conversion into an `unsigned int`: white space, an optional
      sign, an optional 0x prefix and at least one hex digit; the value and
      the text after it. */
  function ScanHex(s: string): Option<(Word, string)>
  {
    var (neg, v) := HexStart(s);
    var n := DigitRun(v, 16);
    if n == 0 then None
    else
      var m: int := DigitsValue(v[..n], 16);
      Some((ToU32(if neg then -m else m), v[n..]))
  }

  /** Whether a minus sign was read, and the text where the digits of a
      `%x` conversion start. */
  function HexStart(s: string): (r: (bool, string))
    ensures |r.1| <= |s|
  {
    var t := SkipSpace(s);
    var neg := |t| > 0 && t[0] == '-';
    var u := if |t| > 0 && (t[0] == '-' || t[0] == '+') then t[1..] else t;
    var v := if |u| >= 3 && u[0] == '0' && (u[1] == 'x' || u[1] == 'X') && IsDigit(u[2], 16)
             then u[2..] else u;
    (neg, v)
  }

  /** Text that starts with a digit and no 0x prefix is converted from its
      first character. */
  lemma HexStartPlain(s: string)
    requires |s| > 0 && IsDigit(s[0], 16) && (|s| >= 2 ==> s[1] != 'x' && s[1] != 'X')
    ensures HexStart(s) == (false, s)
  {
    assert !IsSpace(s[0]);
    assert SkipSpace(s) == s;
  }

  /** What the format after the file name, `;%x;%x`, stores. */
  function ScanFields(name: string, after: string): (r: Scanned)
    ensures r.name == Some(name)
  {
    if |after| == 0 || after[0] != ';' then Scanned(Some(name), None, None)
    else match ScanHex(after[1..])
      case None => Scanned(Some(name), None, None)
      case Some((reg, rest)) =>
        if |rest| == 0 || rest[0] != ';' then Scanned(Some(name), Some(reg), None)
        else match ScanHex(rest[1..])
          case None => Scanned(Some(name), Some(reg), None)
          case Some((len, _)) => Scanned(Some(name), Some(reg), Some(len))
  }

  const Prefix: string := "Local:"

  /** Widest file name the format accepts. */
  const NameWidth: nat := 24

  /** `sscanf(buffer, "Local:%24s;%x;%x", name, &reg, &len)` as written: `%24s`
      skips white space and takes up to 24 characters that are not white
      space, semicolons included. */
  function ScanAsWritten(buffer: string): (r: Scanned)
    ensures r.name.None? ==> r.reg.None? && r.len.None?
  {
    var t := UntilNul(buffer);
    if |t| < |Prefix| || t[..|Prefix|] != Prefix then Scanned(None, None, None)
    else
      var rest := SkipSpace(t[|Prefix|..]);
      var n := Min(NameWidth, WordRun(rest));
      if n == 0 then Scanned(None, None, None)
      else ScanFields(rest[..n], rest[n..])
  }

  /** The scan the sample evidently means, `"Local:%24[^;];%x;%x"`: the name
      is the run of up to 24 characters before the first semicolon. */
  function ScanUrl(buffer: string): (r: Scanned)
    ensures r.name.Some? ==> 0 < |r.name.value| <= NameWidth && ';' !in r.name.value
    ensures r.name.None? ==> r.reg.None? && r.len.None?
  {
    var t := UntilNul(buffer);
    if |t| < |Prefix| || t[..|Prefix|] != Prefix then Scanned(None, None, None)
    else
      var rest := t[|Prefix|..];
      var n := Min(NameWidth, RunLength(rest, ';'));
      if n == 0 then Scanned(None, None, None)
      else ScanFields(rest[..n], rest[n..])
  }

  /** The URL text the camera holds for a file. */
  function UrlText(name: string, reg: Word, len: Word): string
  {
    Prefix + (name + Fields(reg, len))
  }

  /** The text after the file name: `;<hex register>;<hex length>`. */
  function Fields(reg: Word, len: Word): string
  {
    ";" + (Format(reg, 16) + (";" + Format(len, 16)))
  }

  /** The text after the prefix of a URL read from a NUL-padded buffer. */
  lemma UrlBody(name: string, reg: Word, len: Word, padding: string)
    requires '\0' !in name
    requires |padding| == 0 || padding[0] == '\0'
    ensures var t := UntilNul(UrlText(name, reg, len) + padding);
      |t| >= |Prefix| && t[..|Prefix|] == Prefix
      && t[|Prefix|..] == name + Fields(reg, len)
  {
    var text := UrlText(name, reg, len);
    HexTextFree(reg);
    HexTextFree(len);
    assert '\0' !in text;
    UntilNulOf(text, padding);
  }

  /** `;%x;%x` reads back both numbers of a URL. */
  lemma ScanFieldsOf(name: string, reg: Word, len: Word)
    ensures ScanFields(name, Fields(reg, len))
      == Scanned(Some(name), Some(reg), Some(len))
  {
    var a := Format(reg, 16);
    var l := Format(len, 16);
    assert Fields(reg, len)[1..] == a + (";" + l);
    ScanHexOf(reg, ";" + l);
    assert (";" + l)[1..] == l && l + "" == l;
    ScanHexOf(len, "");
  }

  /** With `%24s` the name swallows the rest of a URL free of white space
      whose name and numbers fit in 24 characters, so the register and the
      length are never assigned; "Local:a.xml;200;10" is one such URL. */
  lemma ScanAsWrittenDropsFields(name: string, reg: Word, len: Word, padding: string)
    requires '\0' !in name && forall i :: 0 <= i < |name| ==> !IsSpace(name[i])
    requires |padding| == 0 || padding[0] == '\0'
    requires |name| + |Fields(reg, len)| <= NameWidth
    ensures ScanAsWritten(UrlText(name, reg, len) + padding)
      == Scanned(Some(name + Fields(reg, len)), None, None)
  {
    var rest := name + Fields(reg, len);
    UrlBody(name, reg, len, padding);
    FieldsWord(reg, len);
    ConcatNoSpace(name, Fields(reg, len));
    NoSpaceRun(rest);
    assert rest[..|rest|] == rest;
    SkipSpaceNone(rest);
  }

  /** Hex text holds no white space. */
  lemma HexTextWord(n: nat)
    ensures var f := Format(n, 16); forall i :: 0 <= i < |f| ==> !IsSpace(f[i])
  {
    var f := Format(n, 16);
    forall i | 0 <= i < |f|
      ensures !IsSpace(f[i])
    {
      assert IsDigit(f[i], 16);
    }
  }

  /** Text free of white space. */
  predicate NoSpace(s: string)
  {
    forall i :: 0 <= i < |s| ==> !IsSpace(s[i])
  }

  lemma ConcatNoSpace(a: string, b: string)
    requires NoSpace(a) && NoSpace(b)
    ensures NoSpace(a + b)
  {
    forall i | 0 <= i < |a + b| ensures !IsSpace((a + b)[i]) {
      if i >= |a| {
        assert (a + b)[i] == b[i - |a|];
      }
    }
  }

  /** The fields after the name hold no white space. */
  lemma FieldsWord(reg: Word, len: Word)
    ensures NoSpace(Fields(reg, len))
  {
    var a, l := Format(reg, 16), Format(len, 16);
    HexTextWord(reg);
    HexTextWord(len);
    ConcatNoSpace(";", l);
    ConcatNoSpace(a, ";" + l);
    ConcatNoSpace(";", a + (";" + l));
  }

  lemma SkipSpaceNone(s: string)
    requires |s| > 0 && !IsSpace(s[0])
    ensures SkipSpace(s) == s
  {
  }

  lemma {:induction false} NoSpaceRun(s: string)
    requires forall i :: 0 <= i < |s| ==> !IsSpace(s[i])
    ensures WordRun(s) == |s|
  {
    if |s| > 0 {
      NoSpaceRun(s[1..]);
    }
  }

  /** The intended scan reads back every URL written for a name of 1 to 24
      characters free of ';' and NUL, whatever NUL padding follows. */
  lemma ScanUrlText(name: string, reg: Word, len: Word, padding: string)
    requires 0 < |name| <= NameWidth && ';' !in name && '\0' !in name
    requires |padding| == 0 || padding[0] == '\0'
    ensures ScanUrl(UrlText(name, reg, len) + padding) == Scanned(Some(name), Some(reg), Some(len))
  {
    var tail := Fields(reg, len);
    var rest := name + tail;
    UrlBody(name, reg, len, padding);
    RunLengthOf(name, tail, ';');
    assert rest[..|name|] == name && rest[|name|..] == tail;
    ScanFieldsOf(name, reg, len);
  }

  /** Hex text is free of the separators. */
  lemma HexTextFree(n: nat)
    ensures var f := Format(n, 16); ';' !in f && '\0' !in f
  {
    var f := Format(n, 16);
    forall i | 0 <= i < |f|
      ensures f[i] != ';' && f[i] != '\0'
    {
      assert IsDigit(f[i], 16);
    }
  }

  /** `%x` reads back a 32-bit value written in hexadecimal. */
  lemma ScanHexOf(n: Word, rest: string)
    requires |rest| == 0 || rest[0] == ';'
    ensures ScanHex(Format(n, 16) + rest) == Some((n, rest))
  {
    var f := Format(n, 16);
    var s := f + rest;
    assert s[0] == f[0];
    if |f| >= 2 {
      assert s[1] == f[1];
      assert IsDigit(f[1], 16);
    }
    HexStartPlain(s);
    DigitRunOf(f, rest, 16);
    assert s[..|f|] == f && s[|f|..] == rest;
    FormatValue(n, 16);
  }

  // ---------------------------------------------------------------- download

  /** Quadlets read per piece. */
  const PieceQuads: nat := 128

  /** Whether the registers from `reg` on hold `words`. */
  predicate ReadBack(read: nat -> Option<Word>, reg: nat, words: seq<Word>)
  {
    forall i :: 0 <= i < |words| ==> read(reg + 4 * i) == Some(words[i])
  }

  /** The file data the sample means to fetch: `len` bytes of the registers
      from `reg` on, read in pieces of at most 128 quadlets. It departs from
      the loop as written in four ways: each piece asks for no more quadlets
      than the bytes still missing need (the source asks for 128 first);
      only the missing bytes of the last piece are written (the source
      writes `got * 4`); the count goes down by the bytes written (the
      source subtracts `got`); and the next piece starts after the last
      register read (the source moves on by a whole step even after a
      short read). The registers read, the bytes written, and whether
      every byte was fetched. */
  method FetchFile(read: nat -> Option<Word>, reg: Word, len: Word)
    returns (words: seq<Word>, written: seq<Byte>, complete: bool)
    ensures |written| <= len && |written| <= 4 * |words|
    ensures complete <==> |written| == len
    ensures written == WordsBytes(words)[..|written|]
    ensures reg + len + 3 < U32 ==> ReadBack(read, reg, words)
    ensures !complete ==> 4 * |words| == |written|
    ensures reg + len + 3 < U32 && !complete ==> read(reg + 4 * |words|).None?
  {
    words := [];
    written := [];
    var at: nat := reg;
    var remaining: nat := len;
    while remaining > 0
      invariant FetchLoop(read, reg, len, words, written, remaining, at)
      decreases remaining
    {
      var quads := Min(PieceQuads, CeilDiv(remaining, 4));
      var got := CameraMemRead(read, at, quads);
      if |got| == 0 {
        complete := false;
        GapAt(read, reg, len, |words|, at);
        return;
      }
      var n := Min(remaining, 4 * |got|);
      FetchAdvance(read, reg, len, words, written, remaining, at, got);
      words := words + got;
      written := written + WordsBytes(got)[..n];
      remaining := remaining - n;
      at := ToU32(at + 4 * |got|);
    }
    complete := true;
  }

  /** The state of the fetch loop: its counts, the next address, and the
      registers read so far. */
  predicate FetchLoop(read: nat -> Option<Word>, reg: Word, len: Word, words: seq<Word>, written: seq<Byte>, remaining: nat, at: nat)
  {
    Progress(len, words, written, remaining)
    && at == ToU32(reg + 4 * |words|)
    && (reg + len + 3 < U32 ==> ReadBack(read, reg, words))
  }

  /** One piece read keeps the state of the fetch loop. */
  lemma FetchAdvance(read: nat -> Option<Word>, reg: Word, len: Word, words: seq<Word>, written: seq<Byte>, remaining: nat, at: nat, got: seq<Word>)
    requires FetchLoop(read, reg, len, words, written, remaining, at) && remaining > 0
    requires 0 < |got| <= Min(PieceQuads, CeilDiv(remaining, 4))
    requires forall i :: 0 <= i < |got| ==> read(ToU64(at + 4 * i)) == Some(got[i])
    ensures var n := Min(remaining, 4 * |got|);
      FetchLoop(read, reg, len, words + got, written + WordsBytes(got)[..n], remaining - n, ToU32(at + 4 * |got|))
  {
    ProgressStep(len, words, written, remaining, got);
    FetchStep(read, reg, len, words, got, at);
  }

  /** A read that fails at `at` fails at the register after the ones read
      so far. */
  lemma GapAt(read: nat -> Option<Word>, reg: Word, len: Word, n: nat, at: nat)
    requires at == ToU32(reg + 4 * n) && 4 * n < len && read(ToU64(at)).None?
    ensures reg + len + 3 < U32 ==> read(reg + 4 * n).None?
  {
  }

  /** The counts of the fetch loop: the bytes written and still to write
      add up to the length, and the bytes written are the bytes of the
      registers read, whole registers while bytes are still missing. */
  predicate Progress(len: Word, words: seq<Word>, written: seq<Byte>, remaining: nat)
  {
    |written| + remaining == len
    && |written| <= 4 * |words| < |written| + 4
    && (remaining > 0 ==> 4 * |words| == |written|)
    && written == WordsBytes(words)[..|written|]
  }

  /** One piece read moves the counts on. */
  lemma ProgressStep(len: Word, words: seq<Word>, written: seq<Byte>, remaining: nat, got: seq<Word>)
    requires Progress(len, words, written, remaining) && remaining > 0
    requires 0 < |got| <= Min(PieceQuads, CeilDiv(remaining, 4))
    ensures var n := Min(remaining, 4 * |got|);
      Progress(len, words + got, written + WordsBytes(got)[..n], remaining - n)
    ensures 4 * |words + got| < len + 4
  {
    var n := Min(remaining, 4 * |got|);
    var words2 := words + got;
    var written2 := written + WordsBytes(got)[..n];
    PieceBound(remaining, |got|);
    assert |written2| == |written| + n && |words2| == |words| + |got|;
    BytesStep(words, got, written, n);
  }

  /** A piece asks for no more quadlets than the bytes still missing need. */
  lemma PieceBound(remaining: nat, got: nat)
    requires got <= Min(PieceQuads, CeilDiv(remaining, 4))
    ensures 4 * got < remaining + 4
  {
  }

  /** The registers of one more piece, read from where the last one ended,
      continue the registers read so far. */
  lemma FetchStep(read: nat -> Option<Word>, reg: Word, len: Word, words: seq<Word>, got: seq<Word>, at: nat)
    requires at == ToU32(reg + 4 * |words|)
    requires forall i :: 0 <= i < |got| ==> read(ToU64(at + 4 * i)) == Some(got[i])
    requires reg + len + 3 < U32 ==> ReadBack(read, reg, words)
    requires 4 * |words| + 4 * |got| < len + 4
    ensures ToU32(at + 4 * |got|) == ToU32(reg + 4 * |words + got|)
    ensures reg + len + 3 < U32 ==> ReadBack(read, reg, words + got)
  {
    ToU32Add(reg + 4 * |words|, 4 * |got|);
    if reg + len + 3 < U32 {
      var all := words + got;
      forall i | 0 <= i < |all|
        ensures read(reg + 4 * i) == Some(all[i])
      {
        if i >= |words| {
          var j := i - |words|;
          assert all[i] == got[j];
          assert at + 4 * j == reg + 4 * i;
        }
      }
    }
  }

  /** The bytes written for one more piece continue the bytes of the
      registers read. */
  lemma BytesStep(words: seq<Word>, got: seq<Word>, written: seq<Byte>, n: nat)
    requires 4 * |words| == |written| && written == WordsBytes(words)[..|written|]
    requires n <= 4 * |got|
    ensures written + WordsBytes(got)[..n] == WordsBytes(words + got)[..|written| + n]
  {
    WordsBytesAppend(words, got);
    assert WordsBytes(words) == written;
  }

  /** Byte `k` of `bs` is byte `k % 4`, in network order, of the register
      `k / 4` places after `reg`. */
  predicate BytesAt(read: nat -> Option<Word>, reg: nat, bs: seq<Byte>)
  {
    forall k :: 0 <= k < |bs| ==>
      read(reg + 4 * (k / 4)).Some? && bs[k] == WordBytes(read(reg + 4 * (k / 4)).value)[k % 4]
  }

  /** The bytes of registers read back are the registers' bytes. */
  lemma ReadBackBytes(read: nat -> Option<Word>, reg: nat, words: seq<Word>, written: seq<Byte>)
    requires ReadBack(read, reg, words)
    requires |written| <= 4 * |words| && written == WordsBytes(words)[..|written|]
    ensures BytesAt(read, reg, written)
  {
    forall k | 0 <= k < |written|
      ensures read(reg + 4 * (k / 4)).Some?
      ensures written[k] == WordBytes(read(reg + 4 * (k / 4)).value)[k % 4]
    {
      ByteOfWords(words, k);
      assert written[k] == WordsBytes(words)[k];
    }
  }

  /** Byte `k` of stored register values is byte `k % 4` of value `k / 4`. */
  lemma ByteOfWords(words: seq<Word>, k: nat)
    requires k < 4 * |words|
    ensures k / 4 < |words| && WordsBytes(words)[k] == WordBytes(words[k / 4])[k % 4]
  {
    var i, j := k / 4, k % 4;
    assert k == 4 * i + j;
    WordsBytesAt(words, i);
    assert WordsBytes(words)[k] == WordsBytes(words)[4 * i..4 * i + 4][j];
  }

  /** Register of the URL, and the quadlets read there. */
  const UrlRegister: nat := 0x200
  const UrlQuads: nat := 128

  /** Whether every quadlet of the URL can be read. */
  predicate HeaderReadable(read: nat -> Option<Word>)
  {
    forall i :: 0 <= i < UrlQuads ==> read(Quadlet(UrlRegister, i)).Some?
  }

  /** Address of the register `i` places after `base`. */
  function Quadlet(base: nat, i: nat): nat
  {
    base + 4 * i
  }

  /** The quadlets of the URL. */
  function Header(read: nat -> Option<Word>): (ws: seq<Word>)
    requires HeaderReadable(read)
    ensures |ws| == UrlQuads && ReadBack(read, UrlRegister, ws)
  {
    seq(UrlQuads, i requires 0 <= i < UrlQuads => read(Quadlet(UrlRegister, i)).value)
  }

  /** A byte buffer seen as `char` text. */
  function Chars(bs: seq<Byte>): (s: string)
    ensures |s| == |bs| && forall i :: 0 <= i < |bs| ==> s[i] as int == bs[i]
  {
    seq(|bs|, i requires 0 <= i < |bs| => bs[i] as char)
  }

  /** The file the URL names: its name, register and length, when the scan
      stores both numbers and neither is 0. */
  function Request(read: nat -> Option<Word>): (r: Option<(string, Word, Word)>)
    requires HeaderReadable(read)
    ensures r.Some? ==> r.value.1 != 0 && r.value.2 != 0
  {
    var sc := ScanUrl(Chars(WordsBytes(Header(read))));
    if sc.name.Some? && sc.reg.Some? && sc.len.Some? && sc.reg.value != 0 && sc.len.value != 0
    then Some((sc.name.value, sc.reg.value, sc.len.value))
    else None
  }

  /** A camera whose URL quadlets spell a URL for a non-zero register and
      length requests that file. */
  lemma RequestOfUrl(read: nat -> Option<Word>, name: string, reg: Word, len: Word, padding: string)
    requires HeaderReadable(read)
    requires Chars(WordsBytes(Header(read))) == UrlText(name, reg, len) + padding
    requires 0 < |name| <= NameWidth && ';' !in name && '\0' !in name
    requires |padding| == 0 || padding[0] == '\0'
    requires reg != 0 && len != 0
    ensures Request(read) == Some((name, reg, len))
  {
    ScanUrlText(name, reg, len, padding);
  }

  /** What a download of `len` bytes from register `reg` brings: at most
      `len` bytes, all of them exactly when complete; when the file does not
      wrap the 32-bit register space, the registers' bytes in order, cut
      short only at a register that cannot be read. */
  predicate FileFetched(read: nat -> Option<Word>, reg: Word, len: Word, contents: seq<Byte>, complete: bool)
  {
    |contents| <= len
    && (complete <==> |contents| == len)
    && (reg + len + 3 < U32 ==> BytesAt(read, reg, contents))
    && (reg + len + 3 < U32 && !complete ==> read(reg + |contents|).None?)
  }

  /** What `FetchFile` promises about the registers read, in terms of the
      bytes written. */
  lemma Fetched(read: nat -> Option<Word>, reg: Word, len: Word, words: seq<Word>, written: seq<Byte>, complete: bool)
    requires |written| <= len && |written| <= 4 * |words|
    requires complete <==> |written| == len
    requires written == WordsBytes(words)[..|written|]
    requires !complete ==> 4 * |words| == |written|
    requires reg + len + 3 < U32 ==> ReadBack(read, reg, words)
    requires reg + len + 3 < U32 && !complete ==> read(reg + 4 * |words|).None?
    ensures FileFetched(read, reg, len, written, complete)
  {
    if reg + len + 3 < U32 {
      ReadBackBytes(read, reg, words, written);
    }
  }

  datatype Outcome =
    | HeaderUnreadable                // some quadlet of the URL could not be read
    | NoFile                          // the register or the length is missing or 0
    | CouldNotCreate(name: string)    // `fopen` failed
    | Downloaded(name: string, contents: seq<Byte>, complete: bool)

  /** `CameraGetFile` with the intended scan `ScanUrl` (the name up to the
      first ';', not `%24s`) and the corrected loop of `FetchFile`: read
      the URL, and when it names a file with a register and a length, fetch
      the file into it. Whether a file can be created is a parameter. */
  method CameraGetFile(read: nat -> Option<Word>, canCreate: string -> bool) returns (r: Outcome)
    ensures r == HeaderUnreadable <==> !HeaderReadable(read)
    ensures HeaderReadable(read) ==> (r == NoFile <==> Request(read).None?)
    ensures r.CouldNotCreate? ==>
      HeaderReadable(read) && Request(read).Some? && r.name == Request(read).value.0 && !canCreate(r.name)
    ensures r.Downloaded? ==>
      HeaderReadable(read) && Request(read).Some? && r.name == Request(read).value.0 && canCreate(r.name)
      && FileFetched(read, Request(read).value.1, Request(read).value.2, r.contents, r.complete)
  {
    var header := CameraMemRead(read, UrlRegister, UrlQuads);
    if |header| != UrlQuads {
      assert ToU64(UrlRegister + 4 * |header|) == UrlRegister + 4 * |header|;
      assert !read(Quadlet(UrlRegister, |header|)).Some?;
      return HeaderUnreadable;
    }
    forall i | 0 <= i < UrlQuads
      ensures read(Quadlet(UrlRegister, i)) == Some(header[i])
    {
      assert ToU64(UrlRegister + 4 * i) == UrlRegister + 4 * i;
    }
    assert HeaderReadable(read);
    assert header == Header(read);
    var request := Request(read);
    if request.None? {
      return NoFile;
    }
    var (name, reg, len) := request.value;
    if !canCreate(name) {
      return CouldNotCreate(name);
    }
    var words, written, complete := FetchFile(read, reg, len);
    Fetched(read, reg, len, words, written, complete);
    r := Downloaded(name, written, complete);
  }

  // ---------------------------------------------------------------- as written

  /** The loop state of `CameraGetFile`: the register read next, the count
      still to fetch and the piece size in bytes, all `unsigned int`. */
  datatype LoopState = LoopState(reg: nat, len: nat, step: nat)

  /** One pass of the download loop as written, after a read of `got`
      quadlets succeeded: `got * 4` bytes are written, the register moves on
      by a whole step, and `len -= got` subtracts quadlets from a count of
      bytes. The new state and the number of bytes written. */
  function StepAsWritten(s: LoopState, got: nat): (r: (LoopState, nat))
    requires s.reg < U32 && s.len < U32 && s.step < U32
    ensures r.1 == 4 * got
    ensures r.0.len == ToU32(s.len - got)
  {
    var reg := ToU32(s.reg + s.step);
    var len := ToU32(s.len - got);
    var step := if len != 0 && len < s.step then RoundUpQuad(len) else s.step;
    (LoopState(reg, len, step), 4 * got)
  }

  /** A 4-byte file: the first read fetches 128 quadlets, 512 bytes are
      written, and the count wraps to 2^32 - 124 instead of reaching 0. */
  lemma LenCountsQuadlets(reg: Word)
    ensures var r := StepAsWritten(LoopState(reg, 4, 512), 128);
      r.1 == 512 && r.0.len == U32 - 124
  {
  }

  /** The pass of the loop as written with only the count corrected to
      `len -= got * 4`: the piece size and the advance are unchanged. */
  function StepCountingBytes(s: LoopState, got: nat): (r: (LoopState, nat))
    requires s.reg < U32 && s.len < U32 && s.step < U32
    ensures r.1 == 4 * got
    ensures r.0.len == ToU32(s.len - 4 * got)
    ensures r.0.reg == ToU32(s.reg + s.step)
  {
    var reg := ToU32(s.reg + s.step);
    var len := ToU32(s.len - 4 * got);
    var step := if len != 0 && len < s.step then RoundUpQuad(len) else s.step;
    (LoopState(reg, len, step), 4 * got)
  }

  /** Counting bytes alone does not mend a file shorter than a piece: the
      first read still fetches 128 quadlets, 512 bytes are written for a
      4-byte file and the count still wraps. `FetchFile` therefore also
      sizes each piece by the bytes still missing. */
  lemma ByteCountAloneWraps(reg: Word)
    ensures var r := StepCountingBytes(LoopState(reg, 4, 512), 128);
      r.1 == 512 && r.0.len == U32 - 508
  {
  }
}

=== FILE: xml_url.dfy ===
/** Download of the camera's GenICam XML description. The camera holds, at
    memory address 0x200, a 512-byte URL of the form
    `Local:<file name>;<hex address>;<hex length>`; the file is read from
    camera memory in pieces of at most 512 bytes into a buffer whose size is
    the length rounded up to whole quadlets, and the first `length` bytes are
    saved. Camera memory is a function from address to byte, whether a
    read of a piece succeeds is a predicate on its address and size, and
    how large a buffer the process can allocate and whether the file can be
    opened and written are parameters. */
module XmlUrl {
  import opened Wrappers
  import opened CStrings
  import opened Arith

  type Byte = b: int | 0 <= b < 256

  /** Address of the URL in camera memory, and the size read there. */
  const UrlAddress: nat := 0x200
  const UrlSize: nat := 512

  /** Largest piece read from camera memory at once. */
  const ChunkSize: nat := 512

  /** Length of the "Local:" prefix the file name is taken after. */
  const PrefixLength: nat := 6

  datatype UrlError =
    | MissingField    // strtok found no further token
    | ZeroField       // the address or the length reads as 0
    | NameOutOfRange  // the first field is shorter than the prefix: `substr` throws
                      // std::out_of_range, which the handler for `bool` does not catch

  datatype Location = Location(fileName: string, address: nat, length: nat)

  /** An `unsigned long` set from `strtol(field, NULL, 16)`. */
  function HexField(field: string): (v: nat)
    ensures v < U64
  {
    ToU64(StrtolHex(field))
  }

  /** The URL parsed as the sample parses it: the first three `;`-separated
      tokens of the text before the first NUL. */
  function ParseUrl(url: string): (r: Result<Location, UrlError>)
    ensures var ts := Tokens(UntilNul(url), ';');
      r.Ok? <==> |ts| >= 3 && |ts[0]| >= PrefixLength && HexField(ts[1]) != 0 && HexField(ts[2]) != 0
    ensures r.Ok? ==> r.value.address != 0 && r.value.length != 0
    ensures r == Err(NameOutOfRange) <==>
      (var ts := Tokens(UntilNul(url), ';'); |ts| >= 1 && |ts[0]| < PrefixLength)
  {
    var ts := Tokens(UntilNul(url), ';');
    if |ts| < 1 then Err(MissingField)
    else if |ts[0]| < PrefixLength then Err(NameOutOfRange)
    else if |ts| < 2 then Err(MissingField)
    else if HexField(ts[1]) == 0 then Err(ZeroField)
    else if |ts| < 3 then Err(MissingField)
    else if HexField(ts[2]) == 0 then Err(ZeroField)
    else Ok(Location(ts[0][PrefixLength..], HexField(ts[1]), HexField(ts[2])))
  }

  /** The URL the camera would hold for a location, padded with NULs. */
  function UrlText(prefix: string, loc: Location): string
  {
    prefix + loc.fileName + ";" + Format(loc.address, 16) + ";" + Format(loc.length, 16)
  }

  /** A URL written with a six-character prefix, a file name free of ';' and
      NUL, and a non-zero address and length in hexadecimal parses back into
      the same location, whatever NUL padding follows it. */
  lemma ParseUrlText(prefix: string, loc: Location, padding: string)
    requires |prefix| == PrefixLength && ';' !in prefix && '\0' !in prefix
    requires ';' !in loc.fileName && '\0' !in loc.fileName
    requires 0 < loc.address <= LongMax && 0 < loc.length <= LongMax
    requires |padding| == 0 || padding[0] == '\0'
    ensures ParseUrl(UrlText(prefix, loc) + padding) == Ok(loc)
  {
    var a := Format(loc.address, 16);
    var l := Format(loc.length, 16);
    var first := prefix + loc.fileName;
    HexText(loc.address);
    HexText(loc.length);
    var text := UrlText(prefix, loc);
    UrlTokens(first, a, l, text, padding);
    ParseFields(text + padding, first, a, l);
    assert first[PrefixLength..] == loc.fileName;
  }

  /** A URL whose tokens are three fields, the first long enough and the
      others non-zero, parses into those fields. */
  lemma ParseFields(url: string, first: string, a: string, l: string)
    requires Tokens(UntilNul(url), ';') == [first, a, l]
    requires |first| >= PrefixLength && HexField(a) != 0 && HexField(l) != 0
    ensures ParseUrl(url) == Ok(Location(first[PrefixLength..], HexField(a), HexField(l)))
  {
  }

  /** The tokens of a URL text are its three fields. */
  lemma UrlTokens(first: string, a: string, l: string, text: string, padding: string)
    requires text == first + ";" + a + ";" + l
    requires |first| > 0 && |a| > 0 && |l| > 0
    requires ';' !in first && ';' !in a && ';' !in l
    requires '\0' !in first && '\0' !in a && '\0' !in l
    requires |padding| == 0 || padding[0] == '\0'
    ensures Tokens(UntilNul(text + padding), ';') == [first, a, l]
  {
    UrlTextIsJoin(first, a, l, text);
    UntilNulOf(text, padding);
    var vs := [first, a, l];
    forall i | 0 <= i < |vs|
      ensures |vs[i]| > 0 && ';' !in vs[i]
    {
    }
    JoinTokens(vs, ';');
  }

  lemma UrlTextIsJoin(first: string, a: string, l: string, text: string)
    requires text == first + ";" + a + ";" + l
    requires '\0' !in first && '\0' !in a && '\0' !in l
    ensures text == Join([first, a, l], ';')
    ensures '\0' !in text
  {
    assert [first, a, l][1..] == [a, l];
    assert [a, l][1..] == [l];
    assert Join([a, l], ';') == a + [';'] + l;
  }

  /** Hex text of a value that fits a long: digits only, read back by strtol. */
  lemma HexText(n: nat)
    requires n <= LongMax
    ensures var f := Format(n, 16); |f| > 0 && ';' !in f && '\0' !in f
    ensures StrtolHex(Format(n, 16)) == n && HexField(Format(n, 16)) == n
  {
    var f := Format(n, 16);
    ParseFormat(n, 16, "");
    assert f + "" == f;
    forall i | 0 <= i < |f|
      ensures f[i] != ';' && f[i] != '\0'
    {
      HexDigitIsNotSeparator(f[i]);
    }
  }

  lemma HexDigitIsNotSeparator(c: char)
    requires IsDigit(c, 16)
    ensures c != ';' && c != '\0'
  {
  }

  // ---------------------------------------------------------------- buffer size

  /** `(length + 3) & ~3` in 64-bit unsigned arithmetic. */
  function RoundUp4(length: nat): (size: nat)
    requires length < U64
    ensures size % 4 == 0 && size < U64
    ensures length + 3 < U64 ==> length <= size < length + 4
    ensures length + 3 >= U64 ==> size == 0
  {
    var sum := ToU64(length + 3);
    sum - sum % 4
  }

  /** `std::vector<char>::max_size()` with a 64-bit `ptrdiff_t`: the
      largest size `resize` accepts before it throws `std::length_error`. */
  const VectorMaxSize: nat := 0x7FFF_FFFF_FFFF_FFFF

  /** `resize(size)` returns: the size is within `max_size()` and within the
      `capacity` the process can allocate (above it, `std::bad_alloc`). */
  predicate Fits(size: nat, capacity: nat)
  {
    size <= VectorMaxSize && size <= capacity
  }

  /** Lengths from 2^63 - 3 up to 2^64 - 4 round to 2^63 or more, which no
      vector holds. */
  lemma HugeLengthsDoNotFit(length: nat, capacity: nat)
    requires VectorMaxSize - 2 <= length && length + 3 < U64
    ensures !Fits(RoundUp4(length), capacity)
  {
  }

  /** A length field `-8`: `strtol` reads -8, which the `unsigned long`
      holds as 2^64 - 8. */
  lemma MinusEightField()
    ensures HexField("-8") == U64 - 8
  {
    var minus := "-8";
    assert SkipSpace(minus) == minus && minus[1..] == "8";
    assert DigitRun("8", 16) == 1 && "8"[..1] == "8";
    assert DigitsValue("8", 16) == 8;
    assert ParseSigned(minus, 16) == -8;
  }

  /** A length field `FFFFFFFFFFFFFFFF`: `strtol` saturates to `LONG_MAX`. */
  lemma AllFsField()
    ensures HexField("FFFFFFFFFFFFFFFF") == VectorMaxSize
  {
    assert "FFFFFFFFFFFFFFFF" == seq(16, _ => 'F');
    SixteenFs(seq(16, _ => 'F'));
  }

  /** Sixteen digits `F` read as 2^64 - 1. */
  lemma SixteenFs(fs: string)
    requires fs == seq(16, _ => 'F')
    ensures ParseSigned(fs, 16) == U64 - 1
  {
    ParseUnsignedText(fs, 16);
    assert DigitRun(fs, 16) == 16 && fs[..16] == fs;
    AllFsValue(16);
    Pow16Sixteen();
  }

  lemma Pow16Sixteen()
    ensures Pow16(16) == U64
  {
    Pow16Add(1, 1);
    Pow16Add(2, 2);
    Pow16Add(4, 4);
    Pow16Add(8, 8);
  }

  function Pow16(n: nat): nat
  {
    if n == 0 then 1 else 16 * Pow16(n - 1)
  }

  lemma {:induction false} Pow16Add(a: nat, b: nat)
    ensures Pow16(a + b) == Pow16(a) * Pow16(b)
  {
    if a > 0 {
      Pow16Add(a - 1, b);
    }
  }

  /** `n` digits `F` are worth 16^n - 1. */
  lemma {:induction false} AllFsValue(n: nat)
    ensures DigitsValue(seq(n, _ => 'F'), 16) + 1 == Pow16(n)
  {
    if n > 0 {
      var f := seq(n, _ => 'F');
      assert f[..n - 1] == seq(n - 1, _ => 'F');
      assert Digit(f[n - 1], 16).value == 15;
      AllFsValue(n - 1);
    }
  }

  /** Rounding up is idempotent. */
  lemma RoundUp4Idempotent(length: nat)
    requires length + 3 < U64
    ensures RoundUp4(RoundUp4(length)) == RoundUp4(length)
  {
  }

  // ---------------------------------------------------------------- pieces

  /** The pieces read for a buffer of `size` bytes from `offset` on: one
      every 512 bytes, each 512 bytes long except a shorter last one. */
  function Chunks(size: nat, offset: nat): (cs: seq<(nat, nat)>)
    ensures |cs| > 0 ==> cs[0].0 == offset
    ensures forall i :: 0 <= i < |cs| ==> 0 < cs[i].1 <= ChunkSize && cs[i].0 + cs[i].1 <= size
    ensures forall i :: 0 <= i < |cs| - 1 ==> cs[i].1 == ChunkSize
    decreases size - offset
  {
    if offset >= size then []
    else
      var n := if ChunkSize > size - offset then size - offset else ChunkSize;
      [(offset, n)] + Chunks(size, offset + ChunkSize)
  }

  /** The sizes of the pieces add up to the part of the buffer they cover. */
  lemma {:induction false} ChunksTotal(size: nat, offset: nat)
    requires offset <= size
    ensures Total(Chunks(size, offset)) == size - offset
    decreases size - offset
  {
    if offset < size && offset + ChunkSize <= size {
      ChunksTotal(size, offset + ChunkSize);
    }
  }

  /** Each piece starts where the previous one ends. */
  lemma {:induction false} ChunksConsecutive(size: nat, offset: nat)
    ensures Consecutive(Chunks(size, offset))
    decreases size - offset
  {
    var cs := Chunks(size, offset);
    if offset < size {
      var rest := Chunks(size, offset + ChunkSize);
      ChunksConsecutive(size, offset + ChunkSize);
      assert cs == [cs[0]] + rest;
      forall i | 0 <= i < |cs| - 1
        ensures cs[i].0 + cs[i].1 == cs[i + 1].0
      {
        if i > 0 {
          assert cs[i] == rest[i - 1] && cs[i + 1] == rest[i];
          assert Consecutive(rest);
          assert rest[i - 1].0 + rest[i - 1].1 == rest[i].0;
        } else {
          assert cs[1] == rest[0] && rest[0].0 == offset + ChunkSize;
          assert cs[0] == (offset, ChunkSize);
        }
      }
    }
  }

  predicate Consecutive(cs: seq<(nat, nat)>)
  {
    forall i :: 0 <= i < |cs| - 1 ==> cs[i].0 + cs[i].1 == cs[i + 1].0
  }

  /** The last piece ends at the end of the buffer. */
  lemma {:induction false} ChunksEndAt(size: nat, offset: nat)
    ensures var cs := Chunks(size, offset);
      if |cs| == 0 then offset >= size else Last(cs).0 + Last(cs).1 == size
    decreases size - offset
  {
    var cs := Chunks(size, offset);
    if offset < size {
      var rest := Chunks(size, offset + ChunkSize);
      ChunksEndAt(size, offset + ChunkSize);
      assert cs == [cs[0]] + rest;
      if |rest| > 0 {
        assert Last(cs) == Last(rest);
      }
    }
  }

  function Total(cs: seq<(nat, nat)>): nat
  {
    if |cs| == 0 then 0 else cs[0].1 + Total(cs[1..])
  }

  function Last<T>(s: seq<T>): T
    requires |s| > 0
  {
    s[|s| - 1]
  }

  // ---------------------------------------------------------------- download

  datatype Outcome =
    | UrlUnreadable
    | BadUrl(error: UrlError)
    | PieceUnreadable(offset: nat)
    | OpenFailed(fileName: string)   // `fopen` failed; the sample still passes the null file to `fclose`
    | ResizeThrows    // `resize` threw outside the `try`: nothing catches it and the program ends
    | BufferOverread  // the rounded size wrapped to 0 and `fwrite` reads past the buffer
    | WriteFailed(fileName: string)  // `fwrite` wrote fewer than `length` bytes
    | Saved(fileName: string, contents: seq<Byte>)

  /** The disk the file is saved to: whether `fopen` can create a file of
      that name, and whether `fwrite` then writes every byte. */
  datatype Disk = Disk(opens: string -> bool, writesAll: string -> bool)

  /** Whether the read of piece `c` of a buffer loaded from `address`
      succeeds; the camera address is the 64-bit sum. */
  predicate PieceOk(readOk: (nat, nat) -> bool, address: nat, c: (nat, nat))
  {
    readOk(ToU64(address + c.0), c.1)
  }

  predicate AllPiecesOk(readOk: (nat, nat) -> bool, address: nat, cs: seq<(nat, nat)>)
  {
    forall i :: 0 <= i < |cs| ==> PieceOk(readOk, address, cs[i])
  }

  /** The bytes piece `c` brings into the buffer. */
  function Piece(mem: nat -> Byte, address: nat, c: (nat, nat)): (p: seq<Byte>)
    ensures |p| == c.1
  {
    var at := ToU64(address + c.0);
    seq(c.1, k requires 0 <= k < c.1 => mem(at + k))
  }

  /** The buffer after the pieces `cs` were read in order. */
  function Fill(mem: nat -> Byte, address: nat, cs: seq<(nat, nat)>): seq<Byte>
  {
    if |cs| == 0 then [] else Fill(mem, address, cs[..|cs| - 1]) + Piece(mem, address, cs[|cs| - 1])
  }

  /** Reading one more piece extends the buffer and the pieces read. */
  lemma PrefixGrows(mem: nat -> Byte, readOk: (nat, nat) -> bool, address: nat, cs: seq<(nat, nat)>, i: nat)
    requires i < |cs| && AllPiecesOk(readOk, address, cs[..i]) && PieceOk(readOk, address, cs[i])
    ensures AllPiecesOk(readOk, address, cs[..i + 1])
    ensures Fill(mem, address, cs[..i + 1]) == Fill(mem, address, cs[..i]) + Piece(mem, address, cs[i])
  {
    assert cs[..i + 1][..i] == cs[..i];
  }

  /** Piece `i` is the first whose read fails. */
  predicate FirstFailure(readOk: (nat, nat) -> bool, address: nat, cs: seq<(nat, nat)>, i: nat)
  {
    i < |cs| && !PieceOk(readOk, address, cs[i]) && AllPiecesOk(readOk, address, cs[..i])
  }

  /** Only one piece is the first to fail. */
  lemma FirstFailureUnique(readOk: (nat, nat) -> bool, address: nat, cs: seq<(nat, nat)>, i: nat, j: nat)
    requires FirstFailure(readOk, address, cs, i) && FirstFailure(readOk, address, cs, j)
    ensures i == j
  {
  }

  /** `r` reports the piece that is the first to fail, by its offset. */
  predicate ReportsFirstFailure(r: Outcome, readOk: (nat, nat) -> bool, address: nat, cs: seq<(nat, nat)>)
  {
    r.PieceUnreadable? && exists i :: 0 <= i < |cs| && FirstFailure(readOk, address, cs, i) && r.offset == cs[i].0
  }

  /** The buffer of `size` bytes read piece by piece from `address`, stopping
      at the first piece whose read fails and giving its index. */
  method ReadPieces(mem: nat -> Byte, readOk: (nat, nat) -> bool, address: nat, size: nat)
    returns (buf: seq<Byte>, failed: Option<nat>)
    ensures failed.None? <==> AllPiecesOk(readOk, address, Chunks(size, 0))
    ensures failed.Some? ==> FirstFailure(readOk, address, Chunks(size, 0), failed.value)
    ensures failed.None? ==> buf == Fill(mem, address, Chunks(size, 0)) && |buf| == size
  {
    var cs := Chunks(size, 0);
    buf := [];
    var i := 0;
    while i < |cs|
      invariant 0 <= i <= |cs|
      invariant buf == Fill(mem, address, cs[..i])
      invariant AllPiecesOk(readOk, address, cs[..i])
    {
      if !PieceOk(readOk, address, cs[i]) {
        assert !AllPiecesOk(readOk, address, cs);
        return buf, Some(i);
      }
      PrefixGrows(mem, readOk, address, cs, i);
      buf := buf + Piece(mem, address, cs[i]);
      i := i + 1;
    }
    assert cs[..i] == cs;
    FillSize(mem, address, size);
    failed := None;
  }

  /** Camera memory from `address` on, `n` bytes. */
  function MemFrom(mem: nat -> Byte, address: nat, n: nat): (m: seq<Byte>)
    ensures |m| == n && forall k :: 0 <= k < n ==> m[k] == mem(address + k)
  {
    seq(n, k requires 0 <= k < n => mem(address + k))
  }

  /** Each piece starts where the previous one ends, the first at 0. */
  lemma ChunkStart(size: nat, i: nat)
    requires i < |Chunks(size, 0)|
    ensures var cs := Chunks(size, 0);
      cs[i].0 == if i == 0 then 0 else cs[i - 1].0 + cs[i - 1].1
  {
    ChunksConsecutive(size, 0);
  }

  /** The last piece ends at the end of the buffer. */
  lemma ChunksEnd(size: nat)
    ensures var cs := Chunks(size, 0);
      if |cs| == 0 then size == 0 else cs[|cs| - 1].0 + cs[|cs| - 1].1 == size
  {
    ChunksEndAt(size, 0);
  }

  /** The pieces fill the whole buffer. */
  lemma FillSize(mem: nat -> Byte, address: nat, size: nat)
    ensures |Fill(mem, address, Chunks(size, 0))| == size
  {
    var cs := Chunks(size, 0);
    ChunksEnd(size);
    if |cs| > 0 {
      FillSizePrefix(mem, address, size, |cs|);
      assert cs[..|cs|] == cs;
    }
  }

  lemma {:induction false} FillSizePrefix(mem: nat -> Byte, address: nat, size: nat, i: nat)
    requires 0 < i <= |Chunks(size, 0)|
    ensures var cs := Chunks(size, 0);
      |Fill(mem, address, cs[..i])| == cs[i - 1].0 + cs[i - 1].1
  {
    var cs := Chunks(size, 0);
    ChunkStart(size, i - 1);
    assert cs[..i][..i - 1] == cs[..i - 1];
    if i > 1 {
      FillSizePrefix(mem, address, size, i - 1);
    }
  }

  /** The bytes saved to the file for a location whose rounded-up size does
      not wrap: the first `length` bytes of the filled buffer. */
  function SavedBytes(mem: nat -> Byte, loc: Location): (b: seq<Byte>)
    requires loc.length + 3 < U64
    ensures |b| == loc.length
  {
    var size := RoundUp4(loc.length);
    FillSize(mem, loc.address, size);
    Fill(mem, loc.address, Chunks(size, 0))[..loc.length]
  }

  /** Saved bytes are camera memory from the file's address on, when the
      buffer stays inside the 64-bit address space. */
  lemma SavedBytesAreMemory(mem: nat -> Byte, loc: Location)
    requires loc.address + loc.length + 3 < U64
    ensures SavedBytes(mem, loc) == MemFrom(mem, loc.address, loc.length)
  {
    var size := RoundUp4(loc.length);
    FillIsMemory(mem, loc.address, size);
  }

  /** When the buffer does not run past the end of the 64-bit address space,
      the pieces read in order give camera memory from `address` on. */
  lemma FillIsMemory(mem: nat -> Byte, address: nat, size: nat)
    requires address + size <= U64
    ensures Fill(mem, address, Chunks(size, 0)) == MemFrom(mem, address, size)
  {
    var cs := Chunks(size, 0);
    ChunksEnd(size);
    ChunksConsecutive(size, 0);
    if |cs| > 0 {
      FillPrefix(mem, address, size, cs, |cs|);
      assert cs[..|cs|] == cs;
    }
  }

  /** Pieces laid end to end from offset 0, none empty, all inside the
      buffer. */
  predicate Laid(cs: seq<(nat, nat)>, size: nat)
  {
    Consecutive(cs)
    && (|cs| > 0 ==> cs[0].0 == 0)
    && forall j :: 0 <= j < |cs| ==> 0 < cs[j].1 && cs[j].0 + cs[j].1 <= size
  }

  lemma {:induction false} FillPrefix(mem: nat -> Byte, address: nat, size: nat, cs: seq<(nat, nat)>, i: nat)
    requires address + size <= U64 && Laid(cs, size)
    requires 0 < i <= |cs|
    ensures Fill(mem, address, cs[..i]) == MemFrom(mem, address, cs[i - 1].0 + cs[i - 1].1)
    decreases i
  {
    var pre := cs[..i];
    assert |pre| == i && pre[..i - 1] == cs[..i - 1] && pre[i - 1] == cs[i - 1];
    var before := Fill(mem, address, cs[..i - 1]);
    var start := if i == 1 then 0 else cs[i - 2].0 + cs[i - 2].1;
    if i > 1 {
      FillPrefix(mem, address, size, cs, i - 1);
    }
    AppendPiece(mem, address, before, start, cs[i - 1], size);
  }

  /** One more piece, starting where the buffer read so far ends, extends
      the memory the buffer holds. */
  lemma AppendPiece(mem: nat -> Byte, address: nat, before: seq<Byte>, start: nat, c: (nat, nat), size: nat)
    requires address + size <= U64 && 0 < c.1 && c.0 + c.1 <= size && c.0 == start
    requires before == MemFrom(mem, address, start)
    ensures before + Piece(mem, address, c) == MemFrom(mem, address, c.0 + c.1)
  {
    var p := Piece(mem, address, c);
    assert ToU64(address + c.0) == address + c.0;
    var end := c.0 + c.1;
    forall k | 0 <= k < end
      ensures (before + p)[k] == mem(address + k)
    {
      if k >= start {
        assert (before + p)[k] == p[k - start];
      }
    }
  }

  /** `DownloadXmlFile`: read the URL, parse it, size the buffer to the
      rounded-up length, read the file's pieces into it, and save the first
      `length` bytes. */
  method DownloadXmlFile(url: Option<string>, mem: nat -> Byte, readOk: (nat, nat) -> bool, capacity: nat, disk: Disk)
    returns (r: Outcome)
    ensures url.None? ==> r == UrlUnreadable
    ensures url.Some? && ParseUrl(url.value).Err? ==> r == BadUrl(ParseUrl(url.value).error)
    ensures url.Some? && ParseUrl(url.value).Ok? ==>
      (r == ResizeThrows <==> !Fits(RoundUp4(ParseUrl(url.value).value.length), capacity))
    ensures url.Some? && ParseUrl(url.value).Ok? ==>
      (var loc := ParseUrl(url.value).value;
       var cs := Chunks(RoundUp4(loc.length), 0);
       Fits(RoundUp4(loc.length), capacity) && !AllPiecesOk(readOk, loc.address, cs) ==>
         ReportsFirstFailure(r, readOk, loc.address, cs))
    ensures r.Saved? ==>
      (url.Some? && ParseUrl(url.value).Ok? &&
       var loc := ParseUrl(url.value).value;
       r.fileName == loc.fileName && |r.contents| == loc.length
       && loc.length + 3 < U64 && Fits(RoundUp4(loc.length), capacity)
       && r.contents == SavedBytes(mem, loc))
    ensures url.Some? && ParseUrl(url.value).Ok? ==>
      (var loc := ParseUrl(url.value).value;
       var cs := Chunks(RoundUp4(loc.length), 0);
       Fits(RoundUp4(loc.length), capacity) && AllPiecesOk(readOk, loc.address, cs) ==>
         if !disk.opens(loc.fileName) then r == OpenFailed(loc.fileName)
         else if loc.length + 3 >= U64 then r == BufferOverread
         else if !disk.writesAll(loc.fileName) then r == WriteFailed(loc.fileName)
         else r.Saved?)
  {
    if url.None? {
      return UrlUnreadable;
    }
    var parsed := ParseUrl(url.value);
    if parsed.Err? {
      return BadUrl(parsed.error);
    }
    var loc := parsed.value;
    var size := RoundUp4(loc.length);
    if !Fits(size, capacity) {
      // `resize` throws before the `try` block, so nothing catches it.
      return ResizeThrows;
    }
    var buf, failed := ReadPieces(mem, readOk, loc.address, size);
    if failed.Some? {
      return PieceUnreadable(Chunks(size, 0)[failed.value].0);
    }
    if !disk.opens(loc.fileName) {
      return OpenFailed(loc.fileName);
    }
    if loc.length > size {
      // A length of 2^64 - 3 or more wraps the rounded size to 0.
      return BufferOverread;
    }
    if !disk.writesAll(loc.fileName) {
      return WriteFailed(loc.fileName);
    }
    r := Saved(loc.fileName, buf[..loc.length]);
  }
}
